=== FILE: README.md ===
# WeChat file-tools mini-program, modelled in Dafny

The mini-program converts documents, pictures, audio and video. Its pages
collect a user's choices. Its cloud functions download the file, hand it
to a library (pdfkit, pdf-lib, pdf-parse, docx, ffmpeg) and upload the
result. This project models the deterministic logic that sits between
those layers, and proves what that logic promises:

- **Markdown to PDF** (`cloudfunctions/markdownToPdf/index.js` and the
  older `index-v1.1.js`). Modules `MarkdownTokens`, `PdfCanvas`,
  `InlineMarkup`, `TableLayout`, `MarkdownRender` and `MarkdownRenderV11`.
  - pdfkit is a record holding the page number, the y cursor and the log of
    drawing operations.
  - The height of flowing text is an oracle that returns a non-negative
    number.
  - The model covers headings, paragraphs with inline images, lists, code
    blocks, quotes, rules and tables.
  - Tables paginate row by row. The current renderer repeats the header
    after a break and the v1.1 renderer does not.
  - Image sources are classified, and images are fitted into a 495.28 x 400
    box.
  - Inline markup is stripped by a chain of six deletions.
- **PDF page selection.** Modules `PdfSplit`, `SplitPage` and `PageSelect`.
  - The split function's single, average, odd/even and range modes, with
    file names and labels.
  - The range editor of the split page, which keeps its ranges disjoint
    and sorted.
  - The strict page-list parser of the PDF-to-image page and the lenient
    one of the PDF-to-PPT page.
  - The quality to label and DPI maps of both pages.
- **List editing** on the PDF-merge and image-to-PDF pages (`ListOrder`):
  drag-and-drop, move up and down, delete, append and the start guards.
- **Watermarks** (`Watermark`): parameter defaults, hex colours, the tiling
  grid and single placement.
- **PDF to Word** (`PdfToWord`): paragraph splitting, the heading
  heuristic and page-break placement. The output is an abstract list of
  paragraphs.
- **Pictures** (`ImageConvert`, `ImageCompress`, `FormatUtils`): format
  normalisation, target sizes, batch results and progress, and the file
  size, duration and MIME helpers.
- **ID photos** (`IdPhotoConfig`, `IdPhoto`): the specification table, the
  millimetre to pixel rule, the centred crop and the background fill.
- **Audio and video cloud functions** (`AudioCompress`, `VideoConvert`,
  `MediaNames`): format, bitrate, preset, codec and file-name choices.
- **Option tables** (`MediaFormats`, `CompressConfig`): these are checked
  against the code that consumes their values.

`JsText` models the JavaScript string and number built-ins the code
relies on: `trim`, `split`, `join`, `toLowerCase`, `parseInt`,
`parseFloat`, `Number`, `String` and `Math.round`. `Wrappers` holds
`Option` and `Result`.

## Model

| member | source | states |
|---|---|---|
| MarkdownTokens.HeadingSize | cloudfunctions/markdownToPdf/index.js:222-231 | depth 1 is 24 points, depths 2 to 6 go down by two points a level to 12, and any other depth falls back to 12 |
| MarkdownTokens.HeadingSizeDecreasing | cloudfunctions/markdownToPdf/index.js:222-231 | a deeper heading is strictly smaller, and no heading is smaller than body text at 12 points |
| MarkdownTokens.BulletNumber | cloudfunctions/markdownToPdf/index.js:430 | the prefix of an ordered item reads back as its position counted from one; a bullet carries no number |
| PdfCanvas.AddPage | cloudfunctions/markdownToPdf/index.js:629-633 | a new page draws nothing and advances the page by one |
| PdfCanvas.MoveDown | cloudfunctions/markdownToPdf/index.js:239 | moving down draws nothing, stays on the page and never moves the cursor up |
| PdfCanvas.Write | cloudfunctions/markdownToPdf/index.js:233-239 | writing text appends exactly that text at the cursor, in the current style, and the cursor moves down by the height it takes |
| PdfCanvas.Draw | cloudfunctions/markdownToPdf/index.js:457-458 | a drawing appends exactly its operation and does not move the cursor |
| PdfCanvas.PlaceImage | cloudfunctions/markdownToPdf/index.js:351-354 | an image placed at the cursor's own y is logged there, and the cursor moves below it by the image's height, as pdfkit does for content in the flow |
| PdfCanvas.CheckAndAddPage | cloudfunctions/markdownToPdf/index.js:629-633 | a new page exactly when the cursor is past 700, so the cursor ends at or above 700, and nothing is drawn |
| InlineMarkup.LazyGroup | cloudfunctions/markdownToPdf/index.js:618-623 | the lazy group `(.+?)` before a closing delimiter: the shortest group that works, on one line, and none when no length works |
| InlineMarkup.DelimitedAt | cloudfunctions/markdownToPdf/index.js:618-622 | a match at the start is the opening delimiter, the shortest one-line group and the closing delimiter; no match means no such group |
| InlineMarkup.ReplaceDelimited | cloudfunctions/markdownToPdf/index.js:618-622 | a global replacement only removes characters, and leaves text without the opening character alone |
| InlineMarkup.LinkAt | cloudfunctions/markdownToPdf/index.js:623 | a link `[text](url)` at the start with the shortest text that lets the rest match, or none when no text length matches |
| InlineMarkup.ReplaceLinks | cloudfunctions/markdownToPdf/index.js:623 | replacing links by their text only removes characters, and leaves text without `[` alone |
| InlineMarkup.StripRemovesOnly | cloudfunctions/markdownToPdf/index.js:614-624 | stripping formatting only deletes characters, so the result is a subsequence and never longer |
| InlineMarkup.StripPlainText | cloudfunctions/markdownToPdf/index.js:614-624 | text with no `*`, `_`, backquote or `[` comes back unchanged |
| InlineMarkup.BoldExample | cloudfunctions/markdownToPdf/index.js:618 | `**b**` strips to `b` |
| InlineMarkup.LinkExample | cloudfunctions/markdownToPdf/index.js:623 | `[t](u)` strips to `t` |
| MarkdownRender.ClassifySource | cloudfunctions/markdownToPdf/index.js:398-418 | web addresses are fetched as they are; `data:image/` URIs have a payload exactly when they have a comma, namely the second comma-separated piece; anything else is unsupported |
| MarkdownRender.BufferSources | cloudfunctions/markdownToPdf/index.js:396-423 | only web addresses reach the network; other non-data sources give `null`; a data URI gives a buffer exactly when it has a comma |
| MarkdownRender.FitImage | cloudfunctions/markdownToPdf/index.js:319-335 | the image fits the content width and 400 points, never grows, keeps its aspect ratio, and is left alone when it already fits |
| MarkdownRender.RenderImage | cloudfunctions/markdownToPdf/index.js:297-389 | no buffer gives only the failure placeholder; an undrawable image gives text only; a drawable one is drawn once, centred, on a new page exactly when it would cross 700, ending above it, with its caption centred under it when it has one |
| MarkdownRender.DrawImage | cloudfunctions/markdownToPdf/index.js:338-367 | the fitted image is placed as `ImagePlaced` says, at its fitted size, followed by its caption when it has one; because pdfkit already moves y below the image and the renderer adds the height again, the caption (or the next block) starts two image heights below the image's top, plus the move-down |
| MarkdownRender.ParagraphOrder | cloudfunctions/markdownToPdf/index.js:251-281 | what the paragraph loop shows is exactly its pieces: pending text is flushed before each image, the image follows, and text after the last image comes last |
| MarkdownRender.ActionsAtImage | cloudfunctions/markdownToPdf/index.js:251-268 | at an image the pending text is shown first, then the image, then whatever the rest shows |
| MarkdownRender.RenderParagraph | cloudfunctions/markdownToPdf/index.js:283-291 | a paragraph without inline tokens is one line of stripped text in size 12 |
| MarkdownRender.WriteItems | cloudfunctions/markdownToPdf/index.js:429-438 | each item becomes one indented size-12 line, in order, with its bullet or number before the stripped text |
| MarkdownRender.RenderList | cloudfunctions/markdownToPdf/index.js:428-441 | the list is its items' lines numbered from 1, in order, and nothing else |
| MarkdownRender.CodeBoxHeight | cloudfunctions/markdownToPdf/index.js:447-450 | the background box is 12 points per line, one more line than line breaks, plus 10 points of padding above and below |
| MarkdownRender.RenderCode | cloudfunctions/markdownToPdf/index.js:446-467 | a code block is the background box 5 points above the cursor and then the code in Courier 10; the face is Helvetica again afterwards, still at 10 |
| MarkdownRender.RenderBlockquote | cloudfunctions/markdownToPdf/index.js:472-483 | a quote is one indented size-12 line of stripped text after two spaces |
| MarkdownRender.RenderRule | cloudfunctions/markdownToPdf/index.js:488-493 | a rule draws one line at the cursor and nothing else |
| MarkdownRender.RenderHeading | cloudfunctions/markdownToPdf/index.js:221-240 | a heading is its raw text in bold at the size for its depth; afterwards the face is Helvetica at that size |
| MarkdownRender.RenderTable | cloudfunctions/markdownToPdf/index.js:498-551 | a malformed table leaves only the failure line; otherwise the table is drawn as `TableDrawn` says with the header repeated after each break, and it starts on a new page exactly when it does not fit below the cursor |
| MarkdownRender.RenderToken | cloudfunctions/markdownToPdf/index.js:180-216 | after any block the cursor is at or above the break threshold |
| MarkdownRender.RenderDocument | cloudfunctions/markdownToPdf/index.js:163-175 | the blocks are drawn in order, only ever adding drawing, and a non-empty document ends with the cursor above the threshold |
| MarkdownRender.RenderDocumentAppend | cloudfunctions/markdownToPdf/index.js:172-174 | rendering a document in two parts is rendering the second from where the first left off |
| MarkdownRender.BlockOrder | cloudfunctions/markdownToPdf/index.js:172-174 | each block's drawing follows the drawing of the blocks before it |
| MarkdownRenderV11.RenderImageSync | cloudfunctions/markdownToPdf/index-v1.1.js:258-277 | an image is only a size-10 placeholder line; nothing is fetched or drawn |
| MarkdownRenderV11.WriteRun | cloudfunctions/markdownToPdf/index-v1.1.js:229-241 | a text token shows its stripped text, an image its placeholder line, and any other token nothing; all of it as text |
| MarkdownRenderV11.WriteRuns | cloudfunctions/markdownToPdf/index-v1.1.js:229-241 | the inline tokens' texts are written in order and nothing but text is drawn |
| MarkdownRenderV11.OtherRunsDropped | cloudfunctions/markdownToPdf/index-v1.1.js:229-241 | dropping tokens that are neither text nor images beforehand changes nothing drawn |
| MarkdownRenderV11.RenderParagraphV11 | cloudfunctions/markdownToPdf/index-v1.1.js:225-253 | with inline tokens, their texts then one empty line ending the continued text; without, the stripped paragraph text as in the current renderer |
| MarkdownRenderV11.RenderTableV11 | cloudfunctions/markdownToPdf/index-v1.1.js:352-401 | the older table: cells read only their own text, a malformed table leaves the failure line, and a row that does not fit starts the next page itself, with no header above it |
| MarkdownRenderV11.SameBlocks | cloudfunctions/markdownToPdf/index-v1.1.js:160-196 | every block other than tables and paragraphs with inline tokens is drawn alike by both renderers |
| MarkdownRenderV11.SameTableData | cloudfunctions/markdownToPdf/index-v1.1.js:406-420 | when every cell has text of its own, both renderers read the same table |
| MarkdownRenderV11.RenderTokenV11 | cloudfunctions/markdownToPdf/index-v1.1.js:160-196 | after any block of the older renderer the cursor is at or above the threshold |
| MarkdownRenderV11.SameDocuments | cloudfunctions/markdownToPdf/index-v1.1.js:143-155 | a document of blocks both renderers treat alike is drawn alike |
| TableLayout.ParseCells | cloudfunctions/markdownToPdf/index.js:556-570 | a row parses exactly when every cell is present, giving each cell's stripped text in order |
| TableLayout.ParseRows | cloudfunctions/markdownToPdf/index.js:556-570 | the rows parse exactly when every row does, keeping their shape and each cell's stripped text |
| TableLayout.ParseTableWith | cloudfunctions/markdownToPdf/index.js:556-570 | a table parses exactly when it is well formed, keeping the number of header cells, rows and cells per row |
| TableLayout.ParsersAgree | cloudfunctions/markdownToPdf/index-v1.1.js:406-420 | the two parsers agree on tables whose cells all have text of their own |
| TableLayout.RowOps | cloudfunctions/markdownToPdf/index.js:575-609 | one cell per column, in order, all on one page and at one top |
| TableLayout.DrawCells | cloudfunctions/markdownToPdf/index.js:585-605 | the cells are drawn in column order on the current page, and the cursor ends inside the row |
| TableLayout.DrawRow | cloudfunctions/markdownToPdf/index.js:575-609 | a row appends its cells and moves the cursor down by at least the row height and at most two |
| TableLayout.RowBreak | cloudfunctions/markdownToPdf/index.js:525-531 | a row that would cross the threshold starts a new page, with the header drawn again at its top when repeating; afterwards the row fits |
| TableLayout.LayRows | cloudfunctions/markdownToPdf/index.js:524-535 | laying the rows keeps the layout invariant and adds the data cells of exactly those rows, in order |
| TableLayout.LayTable | cloudfunctions/markdownToPdf/index.js:512-535 | the header first, every data cell once and in order, no row below the threshold, every new page starting as the break rule says; a new page first exactly when the table does not fit |
| TableLayout.DataCellsAppend | cloudfunctions/markdownToPdf/index.js:524-535 | the data cells of two drawings put together are those of each, in order |
| TableLayout.DataRowEntries | cloudfunctions/markdownToPdf/index.js:533 | a drawn data row holds exactly that row's cells, numbered by row and column |
| TableLayout.BreakKeepsInv | cloudfunctions/markdownToPdf/index.js:525-531 | a page break, with or without the header again, keeps the layout invariant |
| TableLayout.NoDataInBreak | cloudfunctions/markdownToPdf/index.js:525-531 | a page break adds no data cells |
| PdfSplit.SingleRanges | cloudfunctions/pdfSplit/index.js:98-102 | 'single' gives one range per page, the k-th holding page k+1 alone |
| PdfSplit.SinglePartition | cloudfunctions/pdfSplit/index.js:98-102 | the single-page ranges partition pages 1..total: in order, disjoint, every page in one of them |
| PdfSplit.AveragePartition | cloudfunctions/pdfSplit/index.js:104-115 | for a positive count the 'average' ranges partition the document into at most that many pieces of at most ceil(total / count) pages, and there are none only for an empty document |
| PdfSplit.AverageTenInSix | cloudfunctions/pdfSplit/index.js:106-115 | ten pages asked for in six parts come out as five parts of two pages (the loop skips the sixth) |
| PdfSplit.ParityPages | cloudfunctions/pdfSplit/index.js:119-128 | the pages of the chosen parity, inside the document and two apart: ceil(total / 2) from page 1 for 'odd', floor(total / 2) from page 2 for 'even', none for any other value |
| PdfSplit.MergeExpand | cloudfunctions/pdfSplit/index.js:130-145 | the runs the merge loop builds list exactly the pages it was given, in order: nothing lost, added or reordered |
| PdfSplit.MergeSingletons | cloudfunctions/pdfSplit/index.js:130-145 | pages no two of which are consecutive become one single-page range each |
| PdfSplit.OddEvenCounts | cloudfunctions/pdfSplit/index.js:117-145 | 'oddeven' yields one single-page range per page of the parity, ceil(total / 2) for 'odd', floor(total / 2) for 'even', none otherwise |
| PdfSplit.PlanRanges | cloudfunctions/pdfSplit/index.js:91-146 | 'range' passes the caller's ranges through; 'single' and 'average' partition the document; 'oddeven' covers exactly the parity pages; a non-positive count or unknown mode gives nothing |
| PdfSplit.CopyIndices | cloudfunctions/pdfSplit/index.js:163-166 | the zero-based indices copied for a range are start-1 up to end-1, as many as the range has pages, none for a reversed range |
| PdfSplit.CopyIndicesArePages | cloudfunctions/pdfSplit/index.js:162-166 | the copied indices are the range's page numbers each lowered by one |
| PdfSplit.SingleNameReadsBack | cloudfunctions/pdfSplit/index.js:214-217 | a single-page file name starts with `page_` and the number after it reads back as the page |
| PdfSplit.RangeNameReadsBack | cloudfunctions/pdfSplit/index.js:214-219 | a several-page file name starts with `pages_`, and both page numbers, around the dash, read back |
| PdfSplit.Output | cloudfunctions/pdfSplit/index.js:179-190 | a result's name and label come from its range, its page count is the number of pages copied, and a range reversed by more than one gets a negative count and no pages |
| PdfSplit.Outputs | cloudfunctions/pdfSplit/index.js:151-193 | one result per range, in range order |
| PdfSplit.Main | cloudfunctions/pdfSplit/index.js:10-33 | an unknown action is refused; a document that cannot be loaded fails with the library's message; otherwise the page count, or, for a split, the error `copyPages` throws exactly when a planned range names a page outside the document and the results of the planned ranges exactly when none does |
| PdfSplit.PlannedInDocument | cloudfunctions/pdfSplit/index.js:94-145 | the single, average and odd/even planners only make ranges inside the document, so only 'range' mode can fail after loading |
| PdfSplit.RangePastTheEnd | cloudfunctions/pdfSplit/index.js:157-168 | pages 1 to 10 of a five-page document make the copy throw, so the split fails instead of producing a ten-page file |
| PdfSplit.UnknownActionIgnoresDocument | cloudfunctions/pdfSplit/index.js:20-25 | an unknown action gives the same refusal whatever the document |
| SplitPage.ClampPage | miniprogram/pages/tools/pdf-split/index.js:170-186 | the page read is at least 1 and at most the page count; unreadable or zero input is page 1; an in-range reading is kept |
| SplitPage.SortByStart | miniprogram/pages/tools/pdf-split/index.js:219 | the result is ordered by first page and is a permutation of the input (same length, same multiset) |
| SplitPage.InsertSorted | miniprogram/pages/tools/pdf-split/index.js:219 | one insertion step keeps a list ordered by first page ordered |
| SplitPage.InsertAbove | miniprogram/pages/tools/pdf-split/index.js:219 | inserting an entry whose first page is above a bound into a list above it keeps every first page above it |
| SplitPage.SortSorted | miniprogram/pages/tools/pdf-split/index.js:219 | sorting a list already ordered by first page leaves it as it is |
| SplitPage.ValidDisjoint | miniprogram/pages/tools/pdf-split/index.js:201-209 | in a valid list any earlier range ends before any later one starts |
| SplitPage.AddRange | miniprogram/pages/tools/pdf-split/index.js:190-231 | reversed pages and overlapping ranges are refused with their messages and change nothing; otherwise exactly the new entry joins the list, and no other field changes |
| SplitPage.AddRangeKeepsValid | miniprogram/pages/tools/pdf-split/index.js:201-223 | for page inputs inside the document, adding keeps the ranges inside it, disjoint and sorted by start |
| SplitPage.DeleteRange | miniprogram/pages/tools/pdf-split/index.js:235-239 | no entry with the id is left; every other entry stays; nothing new appears; a list without the id is returned unchanged |
| SplitPage.KeptMembers | miniprogram/pages/tools/pdf-split/index.js:237 | the filter keeps exactly the entries without the id and adds none |
| SplitPage.KeptNone | miniprogram/pages/tools/pdf-split/index.js:237 | filtering a list that has no entry with the id returns it unchanged |
| SplitPage.DeleteOne | miniprogram/pages/tools/pdf-split/index.js:235-239 | when exactly one entry carries the id, the result is the list with that index removed and the others in their order |
| SplitPage.KeptOne | miniprogram/pages/tools/pdf-split/index.js:237 | the filter with one matching entry removes exactly that index |
| SplitPage.DeleteKeepsValid | miniprogram/pages/tools/pdf-split/index.js:235-239 | deleting keeps a valid list valid |
| SplitPage.KeptValid | miniprogram/pages/tools/pdf-split/index.js:237 | the filtered entries of a valid list, in their order, form a valid list |
| SplitPage.ChangeMode | miniprogram/pages/tools/pdf-split/index.js:160-165 | a mode change sets the mode, empties the ranges and changes nothing else |
| SplitPage.ClearRanges | miniprogram/pages/tools/pdf-split/index.js:250-266 | an empty list or a declined dialog changes nothing; a confirmation empties the list and only the list |
| SplitPage.StartSplit | miniprogram/pages/tools/pdf-split/index.js:289-325 | the three refusals in order with their messages, and a refusal exactly when one of them applies; after them a declined dialog does nothing; only a confirmed one sends a request, which carries the mode and only that mode's parameter: the ranges as listed, a count in 2..pageCount, or the parity |
| SplitPage.RequestsArePlanned | miniprogram/pages/tools/pdf-split/index.js:352-375 | what the page sends is planned by the cloud function into pieces that cover the document once ('average') or are disjoint, ordered and inside it ('range'), so the split never fails in the page copy |
| PageSelect.Ascending | miniprogram/pages/tools/pdf-to-image/index.js:223 | the pages of a range that some span holds, strictly ascending, and every such page present |
| PageSelect.AllPages | miniprogram/pages/tools/pdf-to-image/index.js:250-251 | 'all' lists pages 1..pageCount in order, none for a non-positive count |
| PageSelect.Check | miniprogram/pages/tools/pdf-to-image/index.js:203-218 | a token passes only when its numbers lie within 1..pageCount in order; a range failing gets the range message, a single page the page message |
| PageSelect.Collect | miniprogram/pages/tools/pdf-to-image/index.js:196-231 | the tokens' outcomes succeed together exactly when every one does, keeping each span in order; the first error is the one reported |
| PageSelect.StrictPages | miniprogram/pages/tools/pdf-to-image/index.js:198-223 | when every token passes, the pages are strictly ascending, inside the document, some when there is a token, and exactly the pages some token names |
| PageSelect.StrictSpansNamed | miniprogram/pages/tools/pdf-to-image/index.js:203-220 | the spans of the passing tokens hold exactly the pages the tokens name, and at least one |
| PageSelect.ParseCustomPages | miniprogram/pages/tools/pdf-to-image/index.js:188-232 | blank input is `null`; otherwise the outcome of the comma-separated trimmed tokens, never an empty list |
| PageSelect.ImageStartConvert | miniprogram/pages/tools/pdf-to-image/index.js:237-261 | no file is refused; 'all' converts every page; custom pages convert only when they parse to some pages, otherwise the valid-page message |
| PageSelect.Steps | miniprogram/pages/pdf-to-ppt/index.js:192-196 | the loop values from a up to b that lie inside 1..pageCount |
| PageSelect.Values | miniprogram/pages/pdf-to-ppt/index.js:189-203 | what one token adds lies inside 1..pageCount; a token that is not a number or an inverted range adds nothing |
| PageSelect.LenientValues | miniprogram/pages/pdf-to-ppt/index.js:185-204 | the set holds exactly the values some token adds, all inside the document |
| PageSelect.SortDistinct | miniprogram/pages/pdf-to-ppt/index.js:206 | the result ascends strictly and holds exactly the values of the input |
| PageSelect.PptPagesAsWritten | miniprogram/pages/pdf-to-ppt/index.js:185-206 | the page list as written: ascending, inside 1..pageCount, exactly the values the tokens add, whole or not |
| PageSelect.PptDecimalPage | miniprogram/pages/pdf-to-ppt/index.js:199-201 | the input "2.5" for a three-page document yields the page list [2.5] |
| PageSelect.PptPages | miniprogram/pages/pdf-to-ppt/index.js:185-206 | the corrected list: strictly ascending whole pages inside the document, exactly those some whole-number token names |
| PageSelect.TokenWhole | miniprogram/pages/pdf-to-ppt/index.js:189-203 | for a token of whole numbers, a value is added exactly when it is a whole page of its span inside the document |
| PageSelect.PptPagesAgree | miniprogram/pages/pdf-to-ppt/index.js:185-206 | when every token reads whole numbers, the list as written and the corrected list are the same |
| PageSelect.PptStartConvert | miniprogram/pages/pdf-to-ppt/index.js:176-215 | as written: a running conversion ignores the tap; 'all' converts every page; custom pages are the lenient reading's values (ascending, within the document, possibly fractional) and convert only when some remain, otherwise the valid-page message |
| PageSelect.PptStartWhole | miniprogram/pages/pdf-to-ppt/index.js:185-215 | when every token reads whole numbers, the page sends exactly the corrected whole-page list and refuses exactly when it is empty |
| PageSelect.PptStartDecimal | miniprogram/pages/pdf-to-ppt/index.js:199-201 | the custom text "2.5" on a three-page document is not refused: the page asks for page 2.5 |
| PageSelect.ImageQualityLabel | miniprogram/pages/tools/pdf-to-image/index.js:171-182 | the quality label is defined exactly for settings 1..3 |
| PageSelect.ImageDpi | miniprogram/pages/tools/pdf-to-image/index.js:288-290 | the resolution is defined exactly for settings 1..3 |
| PageSelect.ImageDpiIncreasing | miniprogram/pages/tools/pdf-to-image/index.js:289 | a higher setting never renders at fewer dots per inch |
| PageSelect.PptQuality | miniprogram/pages/pdf-to-ppt/index.js:153-171 | setting 1 is low at 72 dpi, 3 high at 300, and every other value medium at 150 |
| PageSelect.QualityMapsAgree | miniprogram/pages/pdf-to-ppt/index.js:153-171 | on settings 1..3 the PPT page's label and resolution equal the image page's |
| ListOrder.Remove | miniprogram/pages/tools/pdf-merge/index.js:230 | removing entry i closes the gap: entries before it stay, later ones move up by one, and only that entry leaves the multiset |
| ListOrder.InsertAt | miniprogram/pages/tools/pdf-merge/index.js:231 | the new entry lands at i, earlier entries stay, later ones move down by one |
| ListOrder.SwapCards | miniprogram/pages/tools/pdf-merge/index.js:228-233 | the moved entry ends at the target index, the list is a permutation, and removing it from both lists gives the same list: the others keep their order |
| ListOrder.Exchange | miniprogram/pages/image-to-pdf/image-to-pdf.js:81-83 | two entries trade places and every other entry stays |
| ListOrder.AddImages | miniprogram/pages/image-to-pdf/image-to-pdf.js:26 | the existing images come first, unchanged, then the chosen ones |
| ListOrder.DeleteConfirmed | miniprogram/pages/image-to-pdf/image-to-pdf.js:49-70 | a declined dialog changes nothing; a confirmed one removes exactly the entry at the index and the rest keep their order; the merge page's deletePDF deletes the same way |
| ListOrder.ImageMoveUp | miniprogram/pages/image-to-pdf/image-to-pdf.js:76-88 | the first entry cannot move; any other trades places with the one above and nothing else moves |
| ListOrder.ImageMoveDown | miniprogram/pages/image-to-pdf/image-to-pdf.js:93-105 | the last entry cannot move; any other trades places with the one below and nothing else moves |
| ListOrder.MoveUpThenDown | miniprogram/pages/image-to-pdf/image-to-pdf.js:76-105 | moving an entry up and then down again restores the list |
| ListOrder.GeneratePdf | miniprogram/pages/image-to-pdf/image-to-pdf.js:110-134 | an empty list is refused with its message; otherwise the images go to the generator in list order |
| ListOrder.KeepPdfs | miniprogram/pages/tools/pdf-merge/index.js:43-64 | only picked files named `.pdf` in any case and of at most 50 MB are kept, and all of those are |
| ListOrder.KeepPdfsAppend | miniprogram/pages/tools/pdf-merge/index.js:43-64 | filtering two batches one after the other keeps what filtering them together keeps, in the same order |
| ListOrder.KeepPdfsAll | miniprogram/pages/tools/pdf-merge/index.js:43-64 | a list of acceptable files is kept whole |
| ListOrder.ChoosePdf | miniprogram/pages/tools/pdf-merge/index.js:66-80 | the listed files stay first and the kept ones follow; the message says when none was kept |
| ListOrder.ClearAll | miniprogram/pages/tools/pdf-merge/index.js:129-151 | an empty list or a declined dialog changes nothing; a confirmation empties the list and forgets the merged file |
| ListOrder.MergeMoveUp | miniprogram/pages/tools/pdf-merge/index.js:239-244 | the first card stays; any other is moved one place up |
| ListOrder.MergeMoveDown | miniprogram/pages/tools/pdf-merge/index.js:249-254 | the last card stays; any other is moved one place down |
| ListOrder.SwapNeighbours | miniprogram/pages/tools/pdf-merge/index.js:228-254 | moving a card to a neighbouring place is exchanging the two, so both pages reorder alike |
| ListOrder.StartMerge | miniprogram/pages/tools/pdf-merge/index.js:259-318 | fewer than two files are refused with the message before any dialog; a declined confirmation does nothing; only a confirmed merge uploads every file, in list order, and the merge gets the ids in that order |
| ListOrder.UploadProgress | miniprogram/pages/tools/pdf-merge/index.js:296-298 | the progress before upload i of n is the nearest whole number to i / n * 50, halves rounded up; it lies in 0..50 and starts at 0 |
| ListOrder.UploadProgressMonotone | miniprogram/pages/tools/pdf-merge/index.js:296-298 | the upload progress never goes backwards |
| Watermark.WithDefaults | cloudfunctions/pdfWatermark/index.js:11-19 | each setting the request leaves out takes its default (size 60, opacity 0.3, colour `#999999`, 45 degrees, tiled), and each one it gives is kept |
| Watermark.DropFirstHash | cloudfunctions/pdfWatermark/index.js:208 | a colour without `#` is kept, and a leading `#` is the one removed |
| Watermark.ParseHexPairInt | cloudfunctions/pdfWatermark/index.js:211-213 | base-16 parsing of two hexadecimal digits gives their value |
| Watermark.ChannelsOfSeven | cloudfunctions/pdfWatermark/index.js:206-216 | a seven-character colour starting with `#` is read as three pairs, characters 1-2, 3-4 and 5-6 |
| Watermark.ParseHexByte | cloudfunctions/pdfWatermark/index.js:211-213 | printing a value in 0..255 as two lower-case digits and parsing it back gives the value |
| Watermark.DefaultColor | cloudfunctions/pdfWatermark/index.js:16 | the default colour gives each channel 153/255 |
| Watermark.Positions | cloudfunctions/pdfWatermark/index.js:124-125 | a stepping loop visits ceil((end - start) / step) values, start + k * step, all in [start, end) |
| Watermark.Grid | cloudfunctions/pdfWatermark/index.js:124-135 | one stamp per pair of positions, each carrying the settings and the text |
| Watermark.Tiles | cloudfunctions/pdfWatermark/index.js:110-136 | tiling stamps ceil((width + 4f) / 4f) times ceil((height + 4f) / 3f) copies, all within 2f of the page on every side, f being the font size, each the text with the given size, colour, opacity and rotation |
| Watermark.Place | cloudfunctions/pdfWatermark/index.js:141-191 | a named side keeps a 50-point margin to the text's box (0.6 f per UTF-16 unit of the text wide, f high), the box is centred between the other two sides, and an unknown position is the centre |
| Watermark.Single | cloudfunctions/pdfWatermark/index.js:141-202 | a single watermark is exactly one stamp, at the place its position names, in the settings' size, colour, opacity and rotation |
| Watermark.PageStamps | cloudfunctions/pdfWatermark/index.js:55-76 | every stamp on a page carries the text, the size, the parsed colour, the opacity and the rotation; `tile` gives the tile count, with every stamp within 2f of the page; any other position gives one stamp at the place that position names |
| Watermark.StampPages | cloudfunctions/pdfWatermark/index.js:48-77 | every page is stamped, in page order, as its own size asks |
| Watermark.ErrorMessage | cloudfunctions/pdfWatermark/index.js:98-104 | the reported error is the thrown message, or "添加水印失败" when it is empty; never empty |
| Watermark.FirstThrow | cloudfunctions/pdfWatermark/index.js:48-77 | the drawing loop stops at the first `drawText` that throws: no throw exactly when every stamp is drawn, and otherwise the thrown message is that of a stamp all of whose predecessors were drawn |
| Watermark.AllDrawn | cloudfunctions/pdfWatermark/index.js:48-77 | when the page-by-page drawing throws nowhere, every stamp of every page was drawn |
| Watermark.Stamped | cloudfunctions/pdfWatermark/index.js:37-97 | a loaded document has every page stamped in order; the first stamp the library cannot draw fails the call with its message, and only when all are drawn does the save and upload decide between its failure message and the file id, page count and size |
| Watermark.Main | cloudfunctions/pdfWatermark/index.js:10-105 | a missing file or text is refused before any fetch; a document that cannot be read fails with the library's message or the default one; for a readable one, a stamp `drawText` cannot draw fails the call, and otherwise a failed save or upload fails with its message or the default, while a stored one reports its file id, the page count and the size; a success drew every stamp |
| PdfToWord.NewlineRun | cloudfunctions/pdfToWord/index.js:116 | the run of newlines at the front is maximal |
| PdfToWord.SplitParagraphs | cloudfunctions/pdfToWord/index.js:116 | the pieces and the runs between them rebuild the text, every run has two newlines or more and is maximal, and no piece holds a blank line |
| PdfToWord.NoBlankLineIsOneParagraph | cloudfunctions/pdfToWord/index.js:116 | a text with no blank line is one paragraph |
| PdfToWord.KeepNonBlank | cloudfunctions/pdfToWord/index.js:191 | only lines with something other than white space are kept, and all of those are |
| PdfToWord.KeepNonBlankAppend | cloudfunctions/pdfToWord/index.js:191 | filtering two lists one after the other is filtering each, so lines keep their order and their repetitions |
| PdfToWord.KeepNonBlankOne | cloudfunctions/pdfToWord/index.js:191 | a single line is kept exactly when it is not blank |
| JsText.SplitJoin | cloudfunctions/pdfToWord/index.js:191 | splitting pieces joined by a separator that none of them holds gives the pieces back |
| PdfToWord.BodyLinesOfLines | cloudfunctions/pdfToWord/index.js:191 | the body lines of text made of lines are those lines that are not blank, in order and with repetitions |
| PdfToWord.BodyLines | cloudfunctions/pdfToWord/index.js:189-203 | every body line kept is content: non-blank and on one line |
| PdfToWord.BodyBlock | cloudfunctions/pdfToWord/index.js:189-220 | one body paragraph per line, in order, then a page break exactly when one is due |
| PdfToWord.ParagraphBlock | cloudfunctions/pdfToWord/index.js:166-220 | an empty paragraph adds nothing; a heading is one paragraph, plus the page break when due; otherwise the body paragraphs of the non-blank lines in order, then the break when due; the block ends in a page break exactly when the paragraph is not empty and a break is due, and holds no other |
| PdfToWord.ContentFrom | cloudfunctions/pdfToWord/index.js:166-221 | the content is headings, non-blank lines and page breaks only, and page breaks appear only when asked for and the page count is positive |
| PdfToWord.ChunkAt | cloudfunctions/pdfToWord/index.js:166-167 | each chunk is paired with whether a page break is due after it: when breaks are on, it is not the first, the page count is positive and its index is a multiple of ceil(chunks / pages) |
| PdfToWord.BlocksAppend | cloudfunctions/pdfToWord/index.js:166-221 | the loop's output for two runs of chunks is the output for the first followed by the output for the second |
| PdfToWord.ChunkBlock | cloudfunctions/pdfToWord/index.js:166-221 | the content is what precedes chunk i, then chunk i's own block, then what follows; that block ends in a page break exactly when the trimmed chunk is not empty and a break is due after chunk i (breaks on, i > 0, a positive page count, i a multiple of ceil(chunks / pages)) |
| PdfToWord.BlockWithoutBreak | cloudfunctions/pdfToWord/index.js:206-220 | taking the page break out of a block leaves the block of the same paragraph with no break due |
| PdfToWord.ContentWithoutBreaks | cloudfunctions/pdfToWord/index.js:166-221 | the page breaks are only added: with them taken out, the content is the one built with breaks turned off |
| PdfToWord.BlocksNoBreak | cloudfunctions/pdfToWord/index.js:166-221 | when no chunk is flagged for a break, the blocks hold no page break |
| PdfToWord.BlocksWithoutBreaks | cloudfunctions/pdfToWord/index.js:166-221 | taking the page breaks out of the blocks gives the blocks of the same chunks with every flag cleared |
| PdfToWord.OnePageHasNoBreaks | cloudfunctions/pdfToWord/index.js:207 | a one-page PDF gets no page break at all |
| PdfToWord.BreakAfterEveryParagraph | cloudfunctions/pdfToWord/index.js:207 | with at least as many pages as paragraphs, every paragraph after the first is followed by a page break |
| PdfToWord.DocTitle | cloudfunctions/pdfToWord/index.js:242 | the title drops exactly a final `.pdf` in any case, and is the name itself otherwise |
| PdfToWord.DocxName | cloudfunctions/pdfToWord/index.js:73 | a name ending in `.pdf` in any case becomes its title with `.docx`; any other name is kept |
| PdfToWord.DocxNameOfTitle | cloudfunctions/pdfToWord/index.js:73 | `a.PDF` and `a.pdf` both give the title `a` and the name `a.docx` |
| PdfToWord.Document | cloudfunctions/pdfToWord/index.js:112-246 | the document starts with the title, the conversion time and the page count, followed by the content of the text's chunks; that part holds content only, and no page break when breaks are turned off |
| PdfToWord.DocumentContent | cloudfunctions/pdfToWord/index.js:116-221 | after the header come the blocks of the text's chunks in order, and without their page breaks they are the document built with breaks off |
| PdfToWord.OneParagraphDocument | cloudfunctions/pdfToWord/index.js:116-221 | a text with no blank line yields the block of the whole trimmed text and no page break |
| PdfToWord.FailureMessage | cloudfunctions/pdfToWord/index.js:99 | a failure is reported with its own message when it has one, and the default message otherwise |
| PdfToWord.Main | cloudfunctions/pdfToWord/index.js:18-103 | a library failure is reported with its message or the default; a PDF without text is refused; otherwise the document is built and stored under a time-stamped path, and a failed packing or upload is reported the same way, while a stored one reports its file id, the renamed file, its path, its size, the page count and the text length in UTF-16 units |
| JsText.Utf16Length | cloudfunctions/pdfWatermark/index.js:145 | a string's `.length` counts UTF-16 units: between the number of characters and twice it, zero only for the empty text, and equal to the number of characters when none lies beyond U+FFFF |
| JsText.Utf16LengthAppend | cloudfunctions/pdfToWord/index.js:172 | the length of a concatenation is the sum of the lengths |
| JsText.AstralLength | cloudfunctions/pdfWatermark/index.js:145 | a single character beyond U+FFFF, such as an emoji, has length 2 |
| ImageConvert.NormalizeFormat | miniprogram/utils/imageFormatConverter.js:105-113 | jpg and jpeg (in any case) become jpg, png and webp stay, and every other name falls back to jpg, so the export type is always one of the three |
| ImageConvert.NormalizeFormatIdempotent | miniprogram/utils/imageFormatConverter.js:105-113 | normalising twice, or normalising a lower-cased name, gives the same export type as normalising once |
| ImageConvert.FitAsWritten | miniprogram/utils/imageFormatConverter.js:118-140 | as written, for every input: the width is the width bound's alone (the bound if exceeded, else the original), whatever the height bound; the height is the width clamp's height cut down to the height bound |
| ImageConvert.AsWrittenAgainstIntended | miniprogram/utils/imageFormatConverter.js:127-134 | the as-written and the intended fit always agree on the height, agree entirely exactly when the height bound does not bite, and when it bites the as-written width is the larger |
| ImageConvert.HeightBites | miniprogram/utils/imageFormatConverter.js:131-134 | when the height bound bites, the intended width is the width clamp's width scaled by maxHeight over the clamped height, which is smaller |
| ImageConvert.AsWrittenHeightClampKeepsWidth | miniprogram/utils/imageFormatConverter.js:131-134 | as written, a height-only clamp leaves the width untouched, because the new width is computed from the already clamped height |
| ImageConvert.AsWrittenLosesRatio | miniprogram/utils/imageFormatConverter.js:118-140 | a 1000 x 2000 picture limited to 1000 high comes out 1000 x 1000: the aspect ratio is lost |
| ImageConvert.Fit | miniprogram/utils/imageFormatConverter.js:118-140 | the corrected clamp: never enlarges, keeps within every given bound, keeps the exact aspect ratio, and leaves a picture already within its bounds unchanged |
| ImageConvert.FitKeepsRatio | miniprogram/utils/imageFormatConverter.js:131-134 | with the correction the 1000 x 2000 picture limited to 1000 high becomes 500 x 1000 |
| ImageConvert.CalculateTargetSizeAsWritten | miniprogram/utils/imageFormatConverter.js:118-140 | with no bound the size comes back unrounded; otherwise the width is the rounded width-bound width whatever the height bound, the height is within half a pixel of the as-written clamped height, and each side stays within its bound and is a whole number of pixels |
| ImageConvert.TargetSizeAgainstIntended | miniprogram/utils/imageFormatConverter.js:118-140 | the as-written and the corrected target sizes have the same height, and are equal whenever the height bound does not bite |
| ImageConvert.CalculateTargetSize | miniprogram/utils/imageFormatConverter.js:118-140 | the rounded target size stays within each bound and never exceeds a whole-pixel original; it is a whole number of pixels per side, within half a pixel of a size with the original's exact aspect ratio |
| ImageConvert.RoundWithin | miniprogram/utils/imageFormatConverter.js:136-139 | Math.round of a clamped side stays within its bound and within a whole-pixel original, and moves it by at most half a pixel |
| ImageConvert.ConvertFormat | miniprogram/utils/imageFormatConverter.js:13-100 | an undescribable image fails without a message, an unloadable one with the load message, a failed export with the conversion message; a success reports the exported file, the as-written target size, the requested format and 0 for each size that could not be read |
| ImageConvert.ProgressAfter | miniprogram/utils/imageFormatConverter.js:195-201 | the report after image i counts i + 1 of the total; its percentage is the nearest whole number to (i + 1) / total * 100, halves rounded up, between 0 and 100 and 100 at the last image |
| ImageConvert.PercentBounds | miniprogram/utils/imageFormatConverter.js:199 | (i + 1) / total * 100 lies in (0, 100], is exactly 100 at the end, and so does its rounding |
| ImageConvert.ReportsFrom | miniprogram/utils/imageFormatConverter.js:189-209 | progress is reported once after each successful image and after nothing else, in increasing order |
| ImageConvert.BatchConvert | miniprogram/utils/imageFormatConverter.js:185-212 | one outcome per path in order, failures recorded in place, and as many reports as successes, each naming a successful image |
| ImageCompress.TargetSize | miniprogram/utils/imageCompressor.js:24-36 | without a resize choice and both bounds the size is kept; with them the picture is scaled down (never up) to fit both bounds |
| ImageCompress.ScaledDown | miniprogram/utils/imageCompressor.js:34-35 | Math.floor of a scaled side is the whole number at most one pixel below it |
| ImageCompress.TargetSizeIsLargestFit | miniprogram/utils/imageCompressor.js:28-36 | a resized picture is scaled by the largest factor that neither enlarges it nor crosses either bound, the same factor for both sides, and each side is that scaled side rounded down |
| ImageCompress.ScaleIsLargest | miniprogram/utils/imageCompressor.js:29-33 | the minimum of the two bound ratios and 1 is admissible, and every admissible factor is at most it |
| ImageCompress.BelowRatio | miniprogram/utils/imageCompressor.js:29-33 | a factor that keeps a side within its bound is at most the bound's ratio to the side |
| ImageCompress.WithinRatio | miniprogram/utils/imageCompressor.js:29-33 | a factor at most the bound's ratio keeps the side within the bound |
| ImageCompress.OutputFormat | miniprogram/utils/imageCompressor.js:38-50 | auto gives jpg whatever the path ends in; an explicit format is used as it is |
| ImageCompress.CompressionRatio | miniprogram/utils/imageCompressor.js:83-87 | the percentage saved: 0 for an empty original or an unchanged size, 100 for an empty result, within 0..100 when the file did not grow, and the compressed size is the original times the share kept |
| ImageCompress.Share | miniprogram/utils/imageCompressor.js:86 | the compressed share of the original multiplies back to the compressed size and lies in [0, 1] when the file did not grow |
| ImageCompress.Compress | miniprogram/utils/imageCompressor.js:10-110 | an undescribed, unloadable or unexported image fails with the default message; a failed measurement fails with its own message (or the default when it has none); when both measurements succeed the result is the success with both dimensions, the target size, both sizes and their ratio |
| ImageCompress.ProgressBefore | miniprogram/utils/imageCompressor.js:125-132 | the report before image i counts i + 1 of the total; its percentage is the largest whole number not above (i + 1) / total * 100, in 0..100 and 100 at the last image |
| ImageCompress.FloorAgainstRound | miniprogram/utils/imageCompressor.js:128 | for the same image, the converter's rounded report is the compressor's floored one or one more |
| ImageCompress.ProgressMonotone | miniprogram/utils/imageCompressor.js:122-132 | later reports never show a smaller percentage |
| ImageCompress.BatchCompress | miniprogram/utils/imageCompressor.js:118-143 | one outcome per path in order, and one report before every image, failed or not, the last at 100 |
| ImageCompress.FormatFileSize | miniprogram/utils/imageCompressor.js:198-206 | a missing size shows --, zero shows 0 B, and any other size shows the same display as the shared helper |
| FormatUtils.FileExtension | miniprogram/utils/formatUtils.js:17-19 | the lower-cased text after the last dot, or the whole name lower-cased when it has no dot; it never contains a dot |
| FormatUtils.FileExtensionOf | miniprogram/utils/formatUtils.js:17-19 | a name built as stem, dot, extension reads back that extension lower-cased, whatever dots the stem holds |
| FormatUtils.KindOf | miniprogram/utils/formatUtils.js:5-43 | a path is an image, a video or audio exactly when its extension is in that list, and none of these otherwise |
| FormatUtils.ListsDisjoint | miniprogram/utils/formatUtils.js:5-12 | no extension is in two of the three lists, so the three tests never both hold |
| FormatUtils.UnitIndex | miniprogram/utils/formatUtils.js:52 | the unit index is the largest power of 1024 not above the size |
| FormatUtils.UnitIndexUnique | miniprogram/utils/formatUtils.js:52 | any index whose power range contains the size is that index |
| FormatUtils.FormatFileSize | miniprogram/utils/formatUtils.js:48-54 | zero shows 0 B; any other size shows an amount in [1, 1024) that times 1024 to the unit index gives back the size, with that unit's name; the converter's own formatFileSize delegates to it |
| FormatUtils.Amount | miniprogram/utils/formatUtils.js:53 | the amount shown lies in [1, 1024) and scales back to the size |
| FormatUtils.UnitNamed | miniprogram/utils/formatUtils.js:51-53 | sizes below 1024^4 get one of B, KB, MB, GB; larger ones read undefined, as sizes[i] does past the list |
| FormatUtils.Clock | miniprogram/utils/formatUtils.js:60-61 | for a non-negative duration the fields are whole minutes and the remaining whole seconds (below 60), with JavaScript's truncating remainder |
| FormatUtils.FormatDuration | miniprogram/utils/formatUtils.js:59-63 | below 100 minutes the display is five characters with the colon in the middle |
| FormatUtils.FormatDurationReadsBack | miniprogram/utils/formatUtils.js:59-63 | below 100 minutes the two fields parse back to the whole minutes and the remaining whole seconds |
| FormatUtils.FieldWidth | miniprogram/utils/formatUtils.js:62 | padStart(2, '0') makes any number below 100 exactly two characters |
| FormatUtils.FieldReadsBack | miniprogram/utils/formatUtils.js:62 | a padded field parses back to its number |
| FormatUtils.MimeType | miniprogram/utils/formatUtils.js:68-78 | the type listed for the lower-cased format, and image/jpeg for any format not listed |
| FormatUtils.MimeOfImageFormat | miniprogram/utils/formatUtils.js:68-78 | every image extension the helper recognises has its own image/ type, and case does not matter |
| MediaFormats.ImageFormatsAreNormal | miniprogram/config/mediaFormats.js:6-25 | each offered image format is its caption in lower case, has no dot, and passes the converter's normaliser unchanged from either spelling |
| MediaFormats.ImageFormatsAreImages | miniprogram/config/mediaFormats.js:6-25 | a file named with any offered image format is classified as an image by the shared helper |
| MediaFormats.VideoFormatsAreVideos | miniprogram/config/mediaFormats.js:86-105 | a file named with any offered video format is classified as a video |
| MediaFormats.AudioFormatsAreAudio | miniprogram/config/mediaFormats.js:108-127 | a file named with any offered audio format is classified as audio |
| MediaFormats.QualityPresetsDescend | miniprogram/config/mediaFormats.js:28-49 | the quality presets lie in (0, 1] and strictly decrease from best to smallest |
| MediaFormats.ResizeOptionsBehave | miniprogram/config/mediaFormats.js:52-83 | the original choice (null bounds) keeps every picture's size in the compressor and in the converter as written, and every other choice is a landscape box that makes the compressor resize |
| CompressConfig.DefaultsAreFirstChoices | miniprogram/pages/tools/audio-compress/config.js:3-31 | exactly one quality preset is recommended, it is the default quality, and the default bitrate and format are the first choices of their lists |
| CompressConfig.DefaultsAgreeDownstream | miniprogram/pages/tools/image-compress/config.js:28-32 | the page defaults equal the defaults of the audio cloud function and of the image compressor they are sent to |
| CompressConfig.PresetsReachBitrates | miniprogram/pages/tools/audio-compress/config.js:4-9 | with no explicit bitrate, the four presets give 256k, 192k, 128k and 128k in the cloud function |
| CompressConfig.BitrateOptionsPassThrough | miniprogram/pages/tools/audio-compress/config.js:11-17 | an explicit bitrate choice reaches ffmpeg unchanged and the original choice leaves the bitrate to the quality preset |
| CompressConfig.AudioFormatsHonoured | miniprogram/pages/tools/audio-compress/config.js:19-24 | every explicit audio format is written as chosen whatever the input's name, and auto keeps a supported input format |
| CompressConfig.ImageFormatsHonoured | miniprogram/pages/tools/image-compress/config.js:21-25 | every explicit image format is kept by the compressor, and auto gives JPEG painted on white |
| CompressConfig.SizeOptionsBehave | miniprogram/pages/tools/image-compress/config.js:13-18 | the original size choice keeps a picture's size, and every other choice resizes it to fit inside its box |
| IdPhotoConfig.PixelsAt | miniprogram/pages/tools/id-photo-resize/config.js:1-8 | the millimetre to pixel rule rounds mm / 25.4 x dpi to within half a pixel, halves upward |
| IdPhotoConfig.SpecsFollowTheRule | miniprogram/pages/tools/id-photo-resize/config.js:9-121 | every specification but the US visa stores the pixel size its millimetres give at 300 DPI |
| IdPhotoConfig.VisaIsTwoInches | miniprogram/pages/tools/id-photo-resize/config.js:100-109 | the US visa's 600 pixels are two inches at 300 DPI, not the 602 its stated 51 mm would give |
| IdPhotoConfig.SpecsWellFormed | miniprogram/pages/tools/id-photo-resize/config.js:9-121 | specification ids are distinct and only the last entry is the custom size |
| IdPhotoConfig.BackgroundsWellFormed | miniprogram/pages/tools/id-photo-resize/config.js:126-162 | only the keep-background choice has no colour, and each colour is a seven-character hex code stored identically in both fields |
| IdPhotoConfig.OptionsWellFormed | miniprogram/pages/tools/id-photo-resize/config.js:167-207 | the default resolution is the 300 DPI the pixel column assumes, all resolutions are positive, and the qualities lie in (0, 1] and decrease |
| IdPhoto.CustomInput | miniprogram/pages/tools/id-photo-resize/index.js:161-175 | a custom dimension is the number the text starts with, unless there is none or it is 0, in which case it is the default 35 or 45 |
| IdPhoto.SpecSize | miniprogram/pages/tools/id-photo-resize/index.js:190-211 | a custom size is its millimetres converted at the chosen resolution; a standard size is its table pixels at 300 DPI, doubled at 600 and halved at 150 |
| IdPhoto.ScaledPixels | miniprogram/pages/tools/id-photo-resize/index.js:202-204 | scaling table pixels by dpi / 300 gives them unchanged at 300, doubled at 600 and halved (when even) at 150 |
| IdPhoto.CustomDefaultsMatchTable | miniprogram/pages/tools/id-photo-resize/index.js:196-199 | the page's starting custom size of 35 x 45 mm comes out at the custom entry's table pixels |
| IdPhoto.StandardMatchesCustom | miniprogram/pages/tools/id-photo-resize/index.js:196-205 | at 300 DPI every standard entry but the US visa comes out the same whether taken from the table or converted from its millimetres |
| IdPhoto.CenterCrop | miniprogram/pages/tools/id-photo-resize/index.js:267-285 | the crop lies inside the image, has the output's aspect ratio, is centred, and spans the image's full width or full height |
| IdPhoto.CropIsLargest | miniprogram/pages/tools/id-photo-resize/index.js:267-285 | no rectangle of the output's shape that fits inside the image is larger than the crop |
| IdPhoto.Fill | miniprogram/pages/tools/id-photo-resize/index.js:249-257 | the canvas is filled with the chosen colour, or white when the background is kept, so the JPEG has no transparent part |
| IdPhoto.FillOfTable | miniprogram/pages/tools/id-photo-resize/index.js:249-257 | each table background fills with its hex colour, and keeping the background fills like choosing white |
| IdPhoto.Process | miniprogram/pages/tools/id-photo-resize/index.js:216-325 | nothing happens without a photo; with a photo that loads and a positive size, the run finishes exactly when the export and the size reading succeed, with a JPEG of the computed size, the chosen quality, the chosen fill and the centred crop; every failure shows the one failure toast |
| IdPhoto.PageFileSize | miniprogram/pages/tools/id-photo-resize/index.js:436-444 | under 1024 bytes the size is whole bytes; below 1 MiB it is kilobytes in [1, 1024); beyond that megabytes of at least 1, each exactly the byte count divided by its unit |
| IdPhoto.PageFileSizeAgrees | miniprogram/pages/tools/id-photo-resize/index.js:436-444 | between 1 KiB and 1 GiB the page's display gives the same text as the shared formatFileSize helper |
| AudioCompress.DefaultRequest | cloudfunctions/audioCompress/index.js:20-26 | an absent field takes its default: no name, quality 0.8, no bitrate, format auto |
| AudioCompress.QualityPreset | cloudfunctions/audioCompress/index.js:108-112 | a quality of at least 0.9 is high, below 0.65 is compress, and anything in between is standard |
| AudioCompress.PresetBitrate | cloudfunctions/audioCompress/index.js:13-17 | exactly the three preset names have a bitrate: 256k for high, 192k for standard and 128k for compress |
| AudioCompress.PresetBitrateMonotone | cloudfunctions/audioCompress/index.js:13-17 | a higher quality never gets a lower preset bitrate, and every quality gets a positive one |
| AudioCompress.OutputBitrate | cloudfunctions/audioCompress/index.js:40-41 | a given bitrate is used as it is; otherwise the preset bitrate: 256k from quality 0.9, 192k from 0.65 and 128k below, so the final 192k fallback is never reached |
| AudioCompress.SafeFormat | cloudfunctions/audioCompress/index.js:35-38 | the output format is always mp3, aac or wav: the input's extension for auto, the request lower-cased otherwise, and mp3 for anything unsupported |
| AudioCompress.Codec | cloudfunctions/audioCompress/index.js:93-99 | exactly the three supported formats get a codec: libmp3lame, aac and pcm_s16le |
| AudioCompress.Plan | cloudfunctions/audioCompress/index.js:28-59 | a request without a file ID gets the missing-file error; otherwise the input keeps its name (or gets `input_<time>.mp3`), the format is the one chosen from the request and that name, the codec is the format's, and the output keeps the input's stem, ends in the format and is uploaded under audio-files/output/ with that extension |
| AudioCompress.AutoKeepsWav | cloudfunctions/audioCompress/index.js:35-46 | an `auto` request for a.wav is compressed to a.wav with the PCM codec |
| AudioCompress.Main | cloudfunctions/audioCompress/index.js:19-84 | with a file ID, a successful run always gives the success with the uploaded ID, size, output name (with a supported extension) and bitrate of the planned job; a failing run gives its message, or 压缩失败 when it has none |
| VideoConvert.DefaultRequest | cloudfunctions/videoFormatConvert/index.js:27-33 | an absent field takes its default: no name, mp4, the standard preset and the original resolution |
| VideoConvert.Container | cloudfunctions/videoFormatConvert/index.js:42-43 | the container is the lower-cased request when it is mp4, mov or avi, and mp4 otherwise |
| VideoConvert.ContainerIgnoresCase | cloudfunctions/videoFormatConvert/index.js:42-43 | upper- and lower-case spellings of a format choose the same container |
| VideoConvert.VideoBitrate | cloudfunctions/videoFormatConvert/index.js:13-17 | a known preset gets its bitrate from the table, and any other preset the standard 1800k |
| VideoConvert.FrameSize | cloudfunctions/videoFormatConvert/index.js:19-24 | exactly 1080p, 720p and 480p set a frame size, each its table size; original and unknown keys leave the size alone |
| VideoConvert.Codecs | cloudfunctions/videoFormatConvert/index.js:102-106 | AVI gets MPEG-4 with MP3 audio, and every other container H.264 with AAC |
| VideoConvert.Plan | cloudfunctions/videoFormatConvert/index.js:35-64 | a request without a file ID gets the missing-file error; otherwise the job's output keeps the input's stem, ends in the container, has the preset's bitrate, 128k audio, the resolution's size and the container's codecs, and is uploaded under video-files/output/ |
| VideoConvert.Main | cloudfunctions/videoFormatConvert/index.js:26-88 | with a file ID, a successful run always gives the success with the uploaded ID, size and output name (with a supported extension) of the planned job; a failing run gives its message, or 转换失败 when it has none |
| MediaNames.RawExtensionUnique | cloudfunctions/audioCompress/index.js:114-117 | when a name ends in a dot and letters or digits, that run is the one the pattern captures |
| MediaNames.GetExtension | cloudfunctions/audioCompress/index.js:114-117 | the extension is empty exactly when the name does not end in a dot and letters or digits, and is otherwise the lower-cased ending |
| MediaNames.StripExtension | cloudfunctions/audioCompress/index.js:44 | removing the extension leaves a name that, with the dot and the extension put back, is the original |
| MediaNames.ReplaceExtensionReadsBack | cloudfunctions/videoFormatConvert/index.js:45 | the renamed output reads back exactly the new extension |
| MediaNames.StripReplaced | cloudfunctions/videoFormatConvert/index.js:45 | renaming keeps the stem of the input name |
| MediaNames.DefaultInputName | cloudfunctions/audioCompress/index.js:35 | a named input keeps its name; an unnamed one gets a name whose extension is the function's default |
| MediaNames.Basename | cloudfunctions/videoFormatConvert/index.js:64 | the last path segment has no slash and ends the path, and a name without a slash is its own basename |
| MediaNames.BasenameKeepsExtension | cloudfunctions/audioCompress/index.js:59 | the last segment of a renamed file still ends in the new extension |
| MediaNames.PrefixKeepsExtension | cloudfunctions/audioCompress/index.js:59 | prefixing the upload directory and time stamp does not change a name's extension |
| MediaFormats.FormatsMatchCloudFunctions | miniprogram/config/mediaFormats.js:86-127 | the offered video formats are exactly the containers the conversion function writes without falling back, and the offered audio formats exactly the formats the compression function writes, each with its codec |
| CompressConfig.QualityPresetsDescend | miniprogram/pages/tools/audio-compress/config.js:4-9 | the quality presets, the same four on the audio and the image page, lie in (0, 1] and strictly decrease |
| VideoConvert.FallbackName | cloudfunctions/videoFormatConvert/index.js:42-45 | a format that is not a supported container becomes mp4, and the output is the input's stem with .mp4 |
| VideoConvert.OtherPagesGetMp4 | miniprogram/pages/tools/video-to-gif/index.js:100-108 | the gif request of the video-to-GIF page and the mp3 request of the video-to-audio page are both answered with an MP4 video named after the input, not a GIF or an audio file |
| MediaNames.RenameName | cloudfunctions/videoFormatConvert/index.js:45 | renaming stem, dot, extension gives the same stem with the new extension |

## Left out

- Downloads, uploads, temporary files, `unlink` and the cloud SDK are not modelled. Each cloud function's transfer-and-transcode step is a function parameter that returns the result or the thrown message.
- The libraries pdfkit, marked, pdf-lib, pdf-parse, docx, axios and ffmpeg are not modelled. Text height, image decoding, fetching, page sizes and extracted text are oracles or inputs.
- `Date.now()` and `Math.random()` are parameters. Temporary path names built from them are left out.
- WeChat dialogs, toasts, loading masks and timers are not modelled. They become returned messages, and a confirmation dialog becomes a `confirmed` flag.
- `setData` page state is a record. Re-rendering the page is not modelled.
- PdfCanvas.Write: pdfkit wraps long text into lines and, once a further line would pass the bottom margin (841.89 - 50 points on A4), carries the rest of the text onto a new page itself. The model keeps a written text on the page it started on, so a long paragraph, list item or code block near the foot of a page ends on a later page and at a smaller y in the program than in the model, and every later block's page and y differ from that point on. Line wrapping is the library's business and is not modelled.
- Watermark.Main: whether pdf-lib can draw a stamp is the parameter `draw`, not a model of the font. The program embeds no font, so `drawText` uses Helvetica with the WinAnsi encoding and throws on any character outside it, which includes every CJK watermark text. It also throws on a colour channel that is `NaN`, as a three-digit colour such as `#abc` gives, and on an opacity outside 0..1.
- pdfkit's horizontal cursor is not modelled. Its `image()` call, placed at the cursor's own y, moves y below the image as the library does; the renderer then adds the image height once more.
- String `.length` is modelled in UTF-16 units where the code uses it on text (the watermark width, the heading test and the reported text length). Slicing and indexing count characters instead; they only occur on colours, file names and page lists, where a character beyond U+FFFF does not occur in a well-formed value.
- JavaScript numbers are modelled as exact reals. IEEE-754 rounding of a quotient or a product can make a `Math.floor` or a `Math.round` one lower than the exact value gives.
- ImageCompress.ProgressBefore: `Math.floor(29 / 100 * 100)` is 28 in JavaScript, because 29 / 100 * 100 evaluates to 28.999999999999996; the model gives 29.
- ImageCompress.ScaledDown: `Math.floor(49 * (1 / 49))` is 0 in JavaScript; the model gives 1.
- ImageCompress.TargetSizeIsLargestFit: the same rounding as ImageCompress.ScaledDown can give a side one pixel smaller than the model.
- ImageConvert.ProgressAfter: a quotient that lands just below a half rounds down in JavaScript where the exact value rounds up.
- ListOrder.UploadProgress: the same rounding as ImageConvert.ProgressAfter.
- `toLowerCase` is modelled for ASCII letters only. Non-ASCII characters are kept as they are.
- `Number` and `parseFloat` are modelled for decimal literals only. Exponents, hexadecimal, `Infinity` and `NaN` spellings are not modelled.
- `formatFileSize`, `toFixed(2)` and the other displays are modelled as the number and the unit before the text is formatted. FormatUtils.FormatFileSize and IdPhoto.PageFileSize take non-negative whole byte counts, so negative or fractional sizes are left out.
- Object-literal lookups (`resolutionMap`, `qualityBitrateMap`) are modelled for ordinary keys. Keys inherited from `Object.prototype`, such as `constructor`, are not modelled.
- InlineMarkup.ReplaceDelimited: its contract states that the output is a subsequence of the input and that text without the delimiter is unchanged. It does not give a closed form of the lazy regular-expression match.
- InlineMarkup.ReplaceLinks: its contract states the same subsequence and identity properties, not the full result.
- Watermark.Main: requires a positive font size when the position is `tile`. The source's tiling loops do not terminate for a step of 0 or less.
- Watermark.PageStamps: same tiling requirement as Watermark.Main.
- Watermark.StampPages: same tiling requirement as Watermark.Main.
- Watermark.Tiles: same tiling requirement as Watermark.Main.
- IdPhoto.Process: an output size that is not positive is modelled as a failure. The canvas's behaviour for such a size is not specified.
- IdPhoto.Process: requires positive image dimensions, as the system's image info reports them. The same holds for IdPhoto.CenterCrop, ImageConvert.ConvertFormat and ImageCompress.Compress.
- PdfSplit.Main: a failed save or upload of one output file is not modelled, and the uploaded file ids are left out. The copy failure's message is the wording of current Node.js versions.
- PdfSplit.PlanRanges: a `splitCount` that is not a whole number is not modelled.
- MediaNames.Basename: `path.basename` drops a trailing '/'. The model gives the empty text after it instead. The names involved never end in '/'.
- The cloud functions excelToPdf, wordToPdf, txtToPdf, pdfToImage and pdfToPpt are not part of this model. They only pass files to external programs.
- The pages' upload and preview handlers are not part of this model. The same holds for the other tool pages that only forward choices.

## Findings

| source | as written | input that shows it | evidently intended | confidence | as-written member | corrected member |
|---|---|---|---|---|---|---|
| miniprogram/utils/imageFormatConverter.js:131-134 | the height clamp overwrites the height first, then scales the width by maxHeight / targetHeight, which is now 1, so the width is unchanged | a 1000 x 2000 picture with maxHeight 1000 and no width bound comes out 1000 x 1000 | the width scaled by the same factor, keeping the ratio (500 x 1000), as the doc comment says | high, not executed | ImageConvert.FitAsWritten, which ImageConvert.ConvertFormat runs, shown by ImageConvert.AsWrittenLosesRatio and characterised by ImageConvert.AsWrittenAgainstIntended | ImageConvert.Fit, whose contract keeps the ratio, with ImageConvert.FitKeepsRatio for this input |
| miniprogram/pages/pdf-to-ppt/index.js:199-201 | single tokens are read with `Number` and kept when they lie within the document, so fractions are accepted | the text "2.5" for a three-page document gives the page list [2.5] | only whole page numbers are selected | medium, not executed | PageSelect.PptPagesAsWritten, which PageSelect.PptStartConvert runs, shown by PageSelect.PptDecimalPage and PageSelect.PptStartDecimal | PageSelect.PptPages, whose contract keeps only whole pages, with PageSelect.PptPagesAgree for whole-number input |

=== FILE: audio_compress.dfy ===
/** The `audioCompress` cloud function: how the request's quality, bitrate
    and format become one ffmpeg job, and the response. Downloading,
    transcoding and uploading are one step passed in as a function. */
module AudioCompress {
  import opened Wrappers
  import opened JsText
  import opened MediaNames

  /** The request; an absent `fileID` is the empty string (falsy), and the
      other fields hold their defaults when absent. */
  datatype Request = Request(fileID: string, fileName: string, quality: real, bitrate: string, format: string)

  function DefaultRequest(fileID: string): (q: Request)
    ensures q.fileID == fileID && q.quality == 0.8 && q.fileName == "" && q.bitrate == "" && q.format == "auto"
  {
    Request(fileID, "", 0.8, "", "auto")
  }

  /** The formats ffmpeg is asked to write. */
  const Supported: seq<string> := ["mp3", "aac", "wav"]

  /** `getQualityPreset`: thresholds 0.9 and 0.65. */
  function QualityPreset(quality: real): (p: string)
    ensures p in {"high", "standard", "compress"}
    ensures p == "high" <==> quality >= 0.9
    ensures p == "compress" <==> quality < 0.65
  {
    if quality >= 0.9 then "high"
    else if quality >= 0.65 then "standard"
    else "compress"
  }

  /** `qualityBitrateMap`. */
  function PresetBitrate(preset: string): (r: Option<string>)
    ensures preset in {"high", "standard", "compress"} <==> r.Some?
    ensures preset == "high" ==> r == Some("256k")
    ensures preset == "standard" ==> r == Some("192k")
    ensures preset == "compress" ==> r == Some("128k")
  {
    if preset == "high" then Some("256k")
    else if preset == "standard" then Some("192k")
    else if preset == "compress" then Some("128k")
    else None
  }

  /** The bitrate in kbit/s that a bitrate string names, for the three
      preset values. */
  function Kbps(b: string): nat {
    if b == "256k" then 256 else if b == "192k" then 192 else if b == "128k" then 128 else 0
  }

  /** A higher quality never gets a lower preset bitrate. */
  lemma PresetBitrateMonotone(q1: real, q2: real)
    requires q1 <= q2
    ensures Kbps(PresetBitrate(QualityPreset(q1)).value) <= Kbps(PresetBitrate(QualityPreset(q2)).value)
    ensures Kbps(PresetBitrate(QualityPreset(q1)).value) > 0
  {
  }

  /** The output bitrate: the caller's, if given, else the preset's. The
      last fallback of the source, `'192k'`, is never reached, because
      every preset has an entry. */
  function OutputBitrate(bitrate: string, quality: real): (r: string)
    ensures bitrate != "" ==> r == bitrate
    ensures bitrate == "" ==> r in {"256k", "192k", "128k"} && Kbps(r) > 0
    ensures bitrate == "" && quality >= 0.9 ==> r == "256k"
    ensures bitrate == "" && 0.65 <= quality < 0.9 ==> r == "192k"
    ensures bitrate == "" && quality < 0.65 ==> r == "128k"
  {
    if bitrate != "" then bitrate
    else match PresetBitrate(QualityPreset(quality))
      case Some(b) => b
      case None => "192k"
  }

  /** The output format: the input's own extension for `auto`, otherwise
      the requested one lower-cased; anything unsupported becomes mp3. */
  function SafeFormat(format: string, inputName: string): (r: string)
    ensures r in Supported
    ensures format == "auto" && GetExtension(inputName) in Supported ==> r == GetExtension(inputName)
    ensures format != "auto" && ToLower(format) in Supported ==> r == ToLower(format)
    ensures (if format == "auto" then GetExtension(inputName) else ToLower(format)) !in Supported ==> r == "mp3"
  {
    var inputExt := if GetExtension(inputName) != "" then GetExtension(inputName) else "mp3";
    var target := if format == "auto" then inputExt else ToLower(format);
    if target in Supported then target else "mp3"
  }

  /** The audio codec `transcodeAudio` selects; none for any other format. */
  function Codec(format: string): (r: Option<string>)
    ensures r.Some? <==> format in Supported
    ensures format == "mp3" ==> r == Some("libmp3lame")
    ensures format == "aac" ==> r == Some("aac")
    ensures format == "wav" ==> r == Some("pcm_s16le")
  {
    if format == "mp3" then Some("libmp3lame")
    else if format == "aac" then Some("aac")
    else if format == "wav" then Some("pcm_s16le")
    else None
  }

  /** Everything the function decides before it touches a file. */
  datatype Job = Job(inputName: string, outputName: string, format: string, bitrate: string,
                     codec: Option<string>, cloudPath: string)

  /** The job for a request, or the missing-file error. `started` and
      `uploaded` are the two readings of `Date.now()`. */
  function Plan(q: Request, started: nat, uploaded: nat): (r: Result<Job>)
    ensures q.fileID == "" <==> r == Failure("缺少文件ID")
    ensures r.Success? ==>
              var j := r.value;
              && j.inputName == DefaultInputName(q.fileName, started, "mp3")
              && j.format == SafeFormat(q.format, j.inputName)
              && j.format in Supported
              && j.codec == Codec(j.format) && j.codec.Some?
              && j.outputName == ReplaceExtension(j.inputName, j.format)
              && j.bitrate == OutputBitrate(q.bitrate, q.quality)
              && GetExtension(j.outputName) == j.format
              && StripExtension(j.outputName) == StripExtension(j.inputName)
              && j.cloudPath == "audio-files/output/" + NatToString(uploaded) + "_" + Basename(j.outputName)
              && GetExtension(j.cloudPath) == j.format
  {
    if q.fileID == "" then Failure("缺少文件ID")
    else
      var inputName := DefaultInputName(q.fileName, started, "mp3");
      var format := SafeFormat(q.format, inputName);
      var outputName := ReplaceExtension(inputName, format);
      var cloudPath := "audio-files/output/" + NatToString(uploaded) + "_" + Basename(outputName);
      SupportedAreExtensions(format);
      ReplaceExtensionReadsBack(inputName, format);
      StripReplaced(inputName, format);
      BasenameKeepsExtension(inputName, format);
      PrefixKeepsExtension("audio-files/output/" + NatToString(uploaded) + "_", Basename(outputName));
      Success(Job(inputName, outputName, format, OutputBitrate(q.bitrate, q.quality), Codec(format), cloudPath))
  }

  /** An `auto` request keeps a supported extension of the file: a WAV
      file is compressed to WAV with the PCM codec. */
  lemma AutoKeepsWav(started: nat, uploaded: nat)
    ensures var j := Plan(Request("f", "a.wav", 0.8, "", "auto"), started, uploaded).value;
            j.format == "wav" && j.codec == Some("pcm_s16le") && j.outputName == "a.wav"
  {
    assert "a.wav" == "a" + "." + "wav";
    ExtensionOfName("a", "wav");
    RenameName("a", "wav", "wav");
  }

  lemma SupportedAreExtensions(format: string)
    requires format in Supported
    ensures format != [] && IsLowerAlnum(format)
  {
  }

  /** The response: the uploaded file, or the error. */
  datatype Response =
    | Compressed(outputFileID: string, outputFileName: string, outputSize: nat, bitrate: string, message: string)
    | Error(error: string)

  /** `main`. `run` downloads, transcodes and uploads a job and gives the
      new file's ID and size, or the thrown error's message. */
  function Main(q: Request, started: nat, uploaded: nat, run: Job -> Result<(string, nat)>): (r: Response)
    ensures q.fileID == "" ==> r == Error("缺少文件ID")
    ensures r.Compressed? ==>
              && Plan(q, started, uploaded).Success?
              && var j := Plan(q, started, uploaded).value;
              && run(j) == Success((r.outputFileID, r.outputSize))
              && r.outputFileName == j.outputName && r.bitrate == j.bitrate
              && GetExtension(r.outputFileName) in Supported
              && r.message == "音频压缩成功"
    ensures q.fileID != "" ==>
              var j := Plan(q, started, uploaded).value;
              && (run(j).Success? ==> r == Compressed(run(j).value.0, j.outputName, run(j).value.1, j.bitrate, "音频压缩成功"))
              && (run(j).Failure? ==> r == Error(if run(j).error == "" then "压缩失败" else run(j).error))
  {
    match Plan(q, started, uploaded)
    case Failure(e) => Error(e)
    case Success(j) =>
      match run(j)
      case Failure(e) => Error(if e == "" then "压缩失败" else e)
      case Success(out) => Compressed(out.0, j.outputName, out.1, j.bitrate, "音频压缩成功")
  }
}

=== FILE: compress_config.dfy ===
/** The option tables of the audio and image compression pages
    (`audio-compress/config.js`, `image-compress/config.js`), and how they
    fit the cloud function and the compressor that receive their values. */
module CompressConfig {
  import opened JsText
  import opened MediaNames
  import AudioCompress
  import ImageCompress

  datatype Preset = Preset(caption: string, value: real, recommended: bool)

  /** Both pages offer the same four quality presets. */
  const QualityPresets: seq<Preset> := [
    Preset("高清", 0.95, false), Preset("标准", 0.80, true),
    Preset("省空间", 0.60, false), Preset("极限", 0.40, false)
  ]

  datatype Defaults = Defaults(quality: real, resize: string, format: string)

  const AudioDefaults: Defaults := Defaults(0.80, "original", "auto")
  const ImageDefaults: Defaults := Defaults(0.80, "original", "auto")

  /** A bitrate choice; `original` leaves the bitrate to the preset. */
  datatype BitrateOption = BitrateOption(value: string, bitrate: string)

  const AudioBitrateOptions: seq<BitrateOption> := [
    BitrateOption("original", ""), BitrateOption("320k", "320k"), BitrateOption("192k", "192k"),
    BitrateOption("128k", "128k"), BitrateOption("96k", "96k")
  ]

  const AudioFormatOptions: seq<string> := ["auto", "mp3", "aac", "wav"]

  /** An image size choice; a bound of 0 stands for an absent one. */
  datatype SizeOption = SizeOption(value: string, maxWidth: nat, maxHeight: nat)

  const ImageSizeOptions: seq<SizeOption> := [
    SizeOption("original", 0, 0), SizeOption("fhd", 1920, 1080),
    SizeOption("hd", 1280, 720), SizeOption("sd", 854, 480)
  ]

  const ImageFormatOptions: seq<string> := ["auto", "jpg", "png"]

  /** Exactly one preset is recommended, and it is the default quality of
      both pages; the default size and format are the first choices. */
  lemma DefaultsAreFirstChoices()
    ensures forall k | 0 <= k < |QualityPresets| :: QualityPresets[k].recommended <==> k == 1
    ensures AudioDefaults.quality == ImageDefaults.quality == QualityPresets[1].value
    ensures AudioDefaults.resize == AudioBitrateOptions[0].value && AudioDefaults.format == AudioFormatOptions[0]
    ensures ImageDefaults.resize == ImageSizeOptions[0].value && ImageDefaults.format == ImageFormatOptions[0]
  {
  }

  /** The presets run from best to smallest, all within (0, 1]. */
  lemma QualityPresetsDescend()
    ensures forall k | 0 <= k < |QualityPresets| :: 0.0 < QualityPresets[k].value <= 1.0
    ensures forall i, j | 0 <= i < j < |QualityPresets| :: QualityPresets[i].value > QualityPresets[j].value
  {
  }

  /** The page defaults are also the defaults of the code that receives
      them: the cloud function's quality and format, and the compressor's
      options. */
  lemma DefaultsAgreeDownstream()
    ensures AudioCompress.DefaultRequest("").quality == AudioDefaults.quality
    ensures AudioCompress.DefaultRequest("").format == AudioDefaults.format
    ensures ImageCompress.DefaultOptions.quality == ImageDefaults.quality
    ensures ImageCompress.DefaultOptions.resize == ImageDefaults.resize
    ensures ImageCompress.DefaultOptions.format == ImageDefaults.format
  {
  }

  /** Without an explicit bitrate the four presets map to the cloud
      function's high, standard, compress and compress bitrates: the
      default 0.80 is `standard`, 192k. */
  lemma PresetsReachBitrates()
    ensures AudioCompress.OutputBitrate("", QualityPresets[0].value) == "256k"
    ensures AudioCompress.OutputBitrate("", QualityPresets[1].value) == "192k"
    ensures AudioCompress.OutputBitrate("", QualityPresets[2].value) == "128k"
    ensures AudioCompress.OutputBitrate("", QualityPresets[3].value) == "128k"
  {
  }

  /** An explicit bitrate choice is passed through as it is, and the
      `original` choice sends none, so the preset decides. */
  lemma BitrateOptionsPassThrough(k: nat, quality: real)
    requires k < |AudioBitrateOptions|
    ensures k > 0 ==> AudioBitrateOptions[k].bitrate == AudioBitrateOptions[k].value
    ensures k > 0 ==> AudioCompress.OutputBitrate(AudioBitrateOptions[k].bitrate, quality) == AudioBitrateOptions[k].value
    ensures k == 0 ==> AudioCompress.OutputBitrate(AudioBitrateOptions[k].bitrate, quality)
                       == AudioCompress.PresetBitrate(AudioCompress.QualityPreset(quality)).value
  {
  }

  /** Every explicit format the audio page offers is written as chosen,
      whatever the input is called; `auto` keeps a supported input format. */
  lemma AudioFormatsHonoured(k: nat, inputName: string)
    requires k < |AudioFormatOptions|
    ensures k > 0 ==> AudioCompress.SafeFormat(AudioFormatOptions[k], inputName) == AudioFormatOptions[k]
    ensures k == 0 && GetExtension(inputName) in AudioCompress.Supported ==>
              AudioCompress.SafeFormat(AudioFormatOptions[k], inputName) == GetExtension(inputName)
  {
    if k > 0 {
      var f := AudioFormatOptions[k];
      assert ToLower(f) == f;
    }
  }

  /** Every explicit image format is kept by the compressor, and `auto`
      gives JPEG, painted on white. */
  lemma ImageFormatsHonoured(k: nat, path: string)
    requires k < |ImageFormatOptions|
    ensures k > 0 ==> ImageCompress.OutputFormat(path, ImageFormatOptions[k]) == ImageFormatOptions[k]
    ensures k == 0 ==> ImageCompress.OutputFormat(path, ImageFormatOptions[k]) == "jpg"
                       && ImageCompress.PaintsWhite(ImageCompress.OutputFormat(path, ImageFormatOptions[k]))
  {
  }

  /** The compressor's options for a page choice. */
  function CompressOptions(d: Defaults, size: SizeOption): ImageCompress.Options {
    ImageCompress.Options(d.quality, size.value, d.format, size.maxWidth, size.maxHeight)
  }

  /** The first size choice keeps a picture's size; every other one
      resizes it into its box. */
  lemma SizeOptionsBehave(k: nat, width: nat, height: nat)
    requires k < |ImageSizeOptions| && width > 0 && height > 0
    ensures var o := CompressOptions(ImageDefaults, ImageSizeOptions[k]);
            && (k == 0 ==> ImageCompress.TargetSize(width, height, o) == (width, height))
            && (k > 0 ==> ImageCompress.Resizes(o))
            && (k > 0 ==> ImageCompress.TargetSize(width, height, o).0 <= ImageSizeOptions[k].maxWidth)
            && (k > 0 ==> ImageCompress.TargetSize(width, height, o).1 <= ImageSizeOptions[k].maxHeight)
  {
  }
}

=== FILE: format_utils.dfy ===
/** The media helpers of the mini-program (`utils/formatUtils.js`): the
    extension of a path, the three extension lists, the size and duration
    displays and the MIME type of an image format. */
module FormatUtils {
  import opened Wrappers
  import opened JsText

  // ---------------------------------------------------------------------
  // Extensions

  const ImageFormats: seq<string> := ["jpg", "jpeg", "png", "webp", "gif", "bmp"]
  const VideoFormats: seq<string> := ["mp4", "avi", "mov", "flv", "wmv", "mkv"]
  const AudioFormats: seq<string> := ["mp3", "aac", "wav", "ogg", "m4a", "flac"]

  /** `filePath.split('.').pop().toLowerCase()`: the text after the last
      dot, or the whole path when there is no dot, in lower case. */
  function FileExtension(path: string): (r: string)
    ensures '.' !in r && |r| <= |path|
    ensures '.' !in path ==> r == ToLower(path)
    ensures '.' in path ==> r == ToLower(path[|path| - |r|..]) && path[|path| - |r| - 1] == '.'
  {
    ToLower(LastPart(path, '.'))
  }

  /** A name and an extension without dots give that extension back, in
      lower case, whatever the name holds. */
  lemma FileExtensionOf(name: string, ext: string)
    requires '.' !in ext
    ensures FileExtension(name + "." + ext) == ToLower(ext)
  {
    LastPartAfter(name, '.', ext);
  }

  predicate IsImage(path: string) { FileExtension(path) in ImageFormats }
  predicate IsVideo(path: string) { FileExtension(path) in VideoFormats }
  predicate IsAudio(path: string) { FileExtension(path) in AudioFormats }

  datatype MediaKind = Image | Video | Audio | Other

  /** The kind of a path. The three lists share no extension, so at most one
      of the three checks holds and the kind is well defined. */
  function KindOf(path: string): (k: MediaKind)
    ensures k == Image <==> IsImage(path)
    ensures k == Video <==> IsVideo(path)
    ensures k == Audio <==> IsAudio(path)
    ensures k == Other <==> !IsImage(path) && !IsVideo(path) && !IsAudio(path)
  {
    var e := FileExtension(path);
    ListsDisjoint(e);
    if e in ImageFormats then Image
    else if e in VideoFormats then Video
    else if e in AudioFormats then Audio
    else Other
  }

  lemma ListsDisjoint(e: string)
    ensures !(e in ImageFormats && e in VideoFormats)
    ensures !(e in ImageFormats && e in AudioFormats)
    ensures !(e in VideoFormats && e in AudioFormats)
  {
  }

  // ---------------------------------------------------------------------
  // formatFileSize

  function Pow1024(i: nat): (p: nat)
    ensures p >= 1
  {
    if i == 0 then 1 else 1024 * Pow1024(i - 1)
  }

  /** `Math.floor(Math.log(bytes) / Math.log(1024))`, taken exactly: the
      largest `i` with `1024^i <= bytes`. */
  function UnitIndex(bytes: nat): (i: nat)
    requires bytes >= 1
    ensures Pow1024(i) <= bytes < Pow1024(i + 1)
  {
    if bytes < 1024 then 0
    else
      var j := UnitIndex(bytes / 1024);
      assert 1024 * Pow1024(j) <= bytes by {
        assert Pow1024(j) * 1024 <= (bytes / 1024) * 1024;
      }
      assert bytes < 1024 * Pow1024(j + 1) by {
        assert bytes / 1024 + 1 <= Pow1024(j + 1);
        assert bytes < (bytes / 1024 + 1) * 1024;
      }
      1 + j
  }

  /** The unit index is the only one whose power of 1024 brackets the size. */
  lemma UnitIndexUnique(bytes: nat, i: nat)
    requires bytes >= 1 && Pow1024(i) <= bytes < Pow1024(i + 1)
    ensures UnitIndex(bytes) == i
  {
    var j := UnitIndex(bytes);
    if j < i {
      PowMonotone(j + 1, i);
    } else if i < j {
      PowMonotone(i + 1, j);
    }
  }

  lemma {:induction false} PowMonotone(a: nat, b: nat)
    requires a <= b
    ensures Pow1024(a) <= Pow1024(b)
    decreases b
  {
    if a < b {
      PowMonotone(a, b - 1);
    }
  }

  const Units: seq<string> := ["B", "KB", "MB", "GB"]

  /** `sizes[i]` concatenated into the text: past `GB` the entry is
      missing and prints as `undefined`. */
  function UnitName(i: nat): string {
    if i < |Units| then Units[i] else "undefined"
  }

  /** A size display: either fixed text, or `amount.toFixed(2) + ' ' + unit`. */
  datatype SizeText = Exact(text: string) | Fixed2(amount: real, unit: string)

  /** `amount` units of `1024^i` bytes make `bytes`. */
  predicate Scaled(amount: real, i: nat, bytes: nat) {
    amount * Pow1024(i) as real == bytes as real
  }

  /** `formatFileSize`: `0 B` for nothing, otherwise the size in the largest
      unit not above it, as a number from 1 up to (not including) 1024. */
  function FormatFileSize(bytes: nat): (r: SizeText)
    ensures bytes == 0 ==> r == Exact("0 B")
    ensures bytes > 0 ==> && r.Fixed2?
                          && 1.0 <= r.amount < 1024.0
                          && Scaled(r.amount, UnitIndex(bytes), bytes)
                          && r.unit == UnitName(UnitIndex(bytes))
  {
    if bytes == 0 then Exact("0 B")
    else Fixed2(Amount(bytes), UnitName(UnitIndex(bytes)))
  }

  /** The size in its unit, `bytes / 1024^i`. */
  function Amount(bytes: nat): (a: real)
    requires bytes > 0
    ensures 1.0 <= a < 1024.0 && Scaled(a, UnitIndex(bytes), bytes)
  {
    var i := UnitIndex(bytes);
    var p := Pow1024(i) as real;
    assert Pow1024(i + 1) == 1024 * Pow1024(i);
    DivBounds(bytes as real, p);
    DivScaled(bytes, i);
    bytes as real / p
  }

  lemma DivScaled(bytes: nat, i: nat)
    ensures Scaled(bytes as real / Pow1024(i) as real, i, bytes)
  {
    var p := Pow1024(i) as real;
    var a := bytes as real / p;
    assert a * p == bytes as real;
  }

  lemma DivBounds(b: real, p: real)
    requires p >= 1.0 && p <= b < 1024.0 * p
    ensures 1.0 <= b / p < 1024.0 && (b / p) * p == b
  {
    var q := b / p;
    assert b == q * p;
    if q < 1.0 {
    } else if q >= 1024.0 {
    }
  }

  /** Sizes below 1 TiB get one of the four named units; larger ones get
      none. */
  lemma UnitNamed(bytes: nat)
    requires bytes > 0
    ensures bytes < Pow1024(4) ==> FormatFileSize(bytes).unit in Units
    ensures bytes >= Pow1024(4) ==> FormatFileSize(bytes).unit == "undefined"
  {
    var i := UnitIndex(bytes);
    if bytes < Pow1024(4) && i >= 4 {
      PowMonotone(4, i);
    }
    if bytes >= Pow1024(4) && i < 4 {
      PowMonotone(i + 1, 4);
    }
  }

  // ---------------------------------------------------------------------
  // formatDuration

  /** JavaScript's `%` on numbers: the remainder takes the sign of the
      dividend (the quotient is truncated, not floored). */
  function JsRem(a: real, b: real): real
    requires b > 0.0
  {
    var q := a / b;
    var t := if q >= 0.0 then q.Floor else -((-q).Floor);
    a - b * t as real
  }

  /** The minutes and seconds fields: `Math.floor(s / 60)` and
      `Math.floor(s % 60)`. For a non-negative duration they are the whole
      minutes and the remaining whole seconds. */
  function Clock(seconds: real): (r: (int, int))
    ensures seconds >= 0.0 ==> r.0 >= 0 && 0 <= r.1 < 60 && r.0 * 60 + r.1 == Floor(seconds)
  {
    var mins := Floor(seconds / 60.0);
    var secs := Floor(JsRem(seconds, 60.0));
    ClockOf(seconds);
    (mins, secs)
  }

  lemma ClockOf(seconds: real)
    ensures seconds >= 0.0 ==>
      var m := Floor(seconds / 60.0);
      m >= 0 && m * 60 + Floor(JsRem(seconds, 60.0)) == Floor(seconds)
      && 0 <= Floor(JsRem(seconds, 60.0)) < 60
  {
    if seconds >= 0.0 {
      var n := Floor(seconds);
      var m := n / 60;
      assert (m * 60) as real <= seconds < (m * 60 + 60) as real;
      assert Floor(seconds / 60.0) == m by {
        assert m as real <= seconds / 60.0 < (m + 1) as real;
      }
      var rem := JsRem(seconds, 60.0);
      assert rem == seconds - (m * 60) as real;
      assert Floor(rem) == n - m * 60 by {
        assert (n - m * 60) as real <= rem < (n - m * 60 + 1) as real;
      }
    }
  }

  /** `formatDuration`: `mm:ss`, each field padded to two digits. */
  function FormatDuration(seconds: real): (r: string)
    ensures 0.0 <= seconds < 6000.0 ==> |r| == 5 && r[2] == ':'
  {
    var c := Clock(seconds);
    FieldWidth(c.0);
    FieldWidth(c.1);
    Pad2(IntToString(c.0)) + ":" + Pad2(IntToString(c.1))
  }

  /** Reading a duration display back: for less than 100 minutes, the two
      fields parse to the whole minutes and the remaining whole seconds. */
  lemma FormatDurationReadsBack(seconds: real)
    requires 0.0 <= seconds < 6000.0
    ensures var r := FormatDuration(seconds);
            && ParseInt(r[..2]) == Some(Floor(seconds) / 60)
            && ParseInt(r[3..]) == Some(Floor(seconds) % 60)
  {
    var c := Clock(seconds);
    DivMod60(Floor(seconds), c.0, c.1);
    FieldReadsBack(c.0);
    FieldReadsBack(c.1);
    FieldWidth(c.0);
    FieldWidth(c.1);
    Fields(Pad2(IntToString(c.0)), Pad2(IntToString(c.1)));
  }

  lemma Fields(a: string, b: string)
    requires |a| == 2
    ensures (a + ":" + b)[..2] == a && (a + ":" + b)[3..] == b
  {
  }

  lemma DivMod60(f: int, m: int, sec: int)
    requires f == m * 60 + sec && 0 <= sec < 60
    ensures f / 60 == m && f % 60 == sec
  {
  }

  /** A field below 100 is two characters wide once padded. */
  lemma FieldWidth(n: int)
    ensures 0 <= n < 100 ==> |Pad2(IntToString(n))| == 2
  {
    if 10 <= n < 100 {
      assert NatToString(n) == NatToString(n / 10) + [DigitChar(n % 10)];
    }
  }

  /** A field below 100, padded to two digits, reads back as itself. */
  lemma FieldReadsBack(n: int)
    requires 0 <= n < 100
    ensures ParseInt(Pad2(IntToString(n))) == Some(n)
  {
    if n < 10 {
      var p := Pad2(IntToString(n));
      assert p == ['0', DigitChar(n)];
      assert forall i | 0 <= i < 2 :: IsDigit(p[i]);
      ParseUnsignedOfDigits(p);
      assert DigitsValue(p, 10) == n by {
        assert DigitValue(p[1]) == n;
        assert p[..1] == "0" && "0"[..0] == [];
      }
      ParseIntOfDigits(p, false, n);
    } else {
      FieldWidth(n);
      ParseIntOfIntToString(n);
    }
  }

  // ---------------------------------------------------------------------
  // getMimeType

  const MimeTypes: map<string, string> :=
    map["jpg" := "image/jpeg", "jpeg" := "image/jpeg", "png" := "image/png",
        "webp" := "image/webp", "gif" := "image/gif", "bmp" := "image/bmp"]

  /** `getMimeType`: a case-insensitive lookup; anything unknown is sent as
      JPEG. */
  function MimeType(format: string): (r: string)
    ensures ToLower(format) in MimeTypes ==> r == MimeTypes[ToLower(format)]
    ensures ToLower(format) !in MimeTypes ==> r == "image/jpeg"
  {
    var f := ToLower(format);
    if f in MimeTypes then MimeTypes[f] else "image/jpeg"
  }

  /** Every image extension has its own MIME type, except that `jpg` shares
      JPEG's, and the lookup ignores letter case. */
  lemma MimeOfImageFormat(format: string)
    ensures ToLower(format) in ImageFormats ==>
              MimeType(format) == "image/" + (if ToLower(format) == "jpg" then "jpeg" else ToLower(format))
    ensures MimeType(ToLower(format)) == MimeType(format)
  {
    ToLowerIdempotent(format);
  }
}

=== FILE: id_photo.dfy ===
/** The ID-photo page (`id-photo-resize/index.js`): the custom-size inputs,
    the output size for a specification and resolution, the centred crop,
    the background fill, one processing run, and the page's own file-size
    display. The canvas and the file system are passed in. */
module IdPhoto {
  import opened Wrappers
  import opened JsText
  import FormatUtils
  import opened IdPhotoConfig

  /** `parseFloat(text) || fallback`: a number that is not 0, or the
      fallback when the text does not start with one or reads as 0. */
  function CustomInput(text: string, fallback: real): (r: real)
    ensures ParseFloat(text).None? || ParseFloat(text) == Some(0.0) ==> r == fallback
    ensures ParseFloat(text).Some? && ParseFloat(text) != Some(0.0) ==> Some(r) == ParseFloat(text) && r != 0.0
  {
    match ParseFloat(text)
    case Some(v) => if v != 0.0 then v else fallback
    case None => fallback
  }

  /** The page's starting custom size, in millimetres. */
  const DefaultCustomWidth: real := 35.0
  const DefaultCustomHeight: real := 45.0

  /** `updateCurrentSpec`: the pixel size of the output. A custom size is
      converted from millimetres at the chosen resolution; a standard one
      scales the table's 300-DPI pixels. */
  function SpecSize(spec: Spec, dpi: nat, customWidth: real, customHeight: real): (r: (int, int))
    ensures spec.isCustom ==> r == (PixelsAt(customWidth, dpi), PixelsAt(customHeight, dpi))
    ensures !spec.isCustom ==>
              && spec.widthPX as real * (dpi as real / 300.0) - 0.5 < r.0 as real <= spec.widthPX as real * (dpi as real / 300.0) + 0.5
              && spec.heightPX as real * (dpi as real / 300.0) - 0.5 < r.1 as real <= spec.heightPX as real * (dpi as real / 300.0) + 0.5
    ensures !spec.isCustom && dpi == 300 ==> r == (spec.widthPX, spec.heightPX)
    ensures !spec.isCustom && dpi == 600 ==> r == (2 * spec.widthPX, 2 * spec.heightPX)
    ensures !spec.isCustom && dpi == 150 && spec.widthPX % 2 == 0 ==> r.0 == spec.widthPX / 2
  {
    if spec.isCustom then (PixelsAt(customWidth, dpi), PixelsAt(customHeight, dpi))
    else
      var scale := dpi as real / 300.0;
      ScaledPixels(spec.widthPX, dpi);
      ScaledPixels(spec.heightPX, dpi);
      (Round(spec.widthPX as real * scale), Round(spec.heightPX as real * scale))
  }

  /** Table pixels at the three offered resolutions: unchanged, doubled,
      and halved when even. */
  lemma ScaledPixels(px: nat, dpi: nat)
    ensures var n := Round(px as real * (dpi as real / 300.0));
            && (dpi == 300 ==> n == px)
            && (dpi == 600 ==> n == 2 * px)
            && (dpi == 150 && px % 2 == 0 ==> n == px / 2)
  {
    var x := px as real * (dpi as real / 300.0);
    if dpi == 300 {
      assert x == px as real;
    } else if dpi == 600 {
      assert x == (2 * px) as real;
    } else if dpi == 150 && px % 2 == 0 {
      assert x == (px / 2) as real;
    }
  }

  /** With the page's starting custom size, the custom entry comes out at
      the pixel size its table row gives. */
  lemma CustomDefaultsMatchTable()
    ensures Specs[10].isCustom
    ensures SpecSize(Specs[10], 300, DefaultCustomWidth, DefaultCustomHeight) == (Specs[10].widthPX, Specs[10].heightPX)
  {
    assert PixelsAt(35.0, 300) == 413;
    assert PixelsAt(45.0, 300) == 531;
  }

  /** At the default resolution every standard entry except the US visa
      comes out at the size its millimetres give, so the table and the
      custom conversion agree. */
  lemma StandardMatchesCustom(k: nat)
    requires k < |Specs| && !Specs[k].isCustom && Specs[k].id != "visa_usa"
    ensures SpecSize(Specs[k], 300, 0.0, 0.0)
            == SpecSize(Specs[10], 300, Specs[k].widthMM as real, Specs[k].heightMM as real)
  {
    SpecsFollowTheRule();
  }

  datatype Rect = Rect(x: real, y: real, width: real, height: real)

  /** The source rectangle of the centred crop: the largest rectangle of
      the target's shape that fits the image, centred on it. */
  function CenterCrop(imageWidth: real, imageHeight: real, targetWidth: real, targetHeight: real): (c: Rect)
    requires imageWidth > 0.0 && imageHeight > 0.0 && targetWidth > 0.0 && targetHeight > 0.0
    ensures 0.0 <= c.x && 0.0 <= c.y && 0.0 < c.width && 0.0 < c.height
    ensures c.x + c.width <= imageWidth && c.y + c.height <= imageHeight
    ensures c.width * targetHeight == c.height * targetWidth
    ensures c.x == imageWidth - (c.x + c.width) && c.y == imageHeight - (c.y + c.height)
    ensures c.width == imageWidth || c.height == imageHeight
  {
    var imageRatio := imageWidth / imageHeight;
    var targetRatio := targetWidth / targetHeight;
    if imageRatio > targetRatio then
      var w := imageHeight * targetRatio;
      WiderImage(imageWidth, imageHeight, targetWidth, targetHeight);
      Rect((imageWidth - w) / 2.0, 0.0, w, imageHeight)
    else
      var h := imageWidth / targetRatio;
      TallerImage(imageWidth, imageHeight, targetWidth, targetHeight);
      Rect(0.0, (imageHeight - h) / 2.0, imageWidth, h)
  }

  /** The image is wider than the target: keep its full height. */
  lemma WiderImage(iw: real, ih: real, tw: real, th: real)
    requires iw > 0.0 && ih > 0.0 && tw > 0.0 && th > 0.0 && iw / ih > tw / th
    ensures var w := ih * (tw / th); 0.0 < w <= iw && w * th == ih * tw
  {
    var a := iw / ih;
    var t := tw / th;
    assert a * ih == iw;
    assert t * th == tw;
    assert ih * t < ih * a;
    assert ih * t > 0.0;
  }

  /** The image is at most as wide as the target: keep its full width. */
  lemma TallerImage(iw: real, ih: real, tw: real, th: real)
    requires iw > 0.0 && ih > 0.0 && tw > 0.0 && th > 0.0 && iw / ih <= tw / th
    ensures var h := iw / (tw / th); 0.0 < h <= ih && iw * th == h * tw
  {
    var a := iw / ih;
    var t := tw / th;
    var h := iw / t;
    assert a * ih == iw;
    assert t * th == tw;
    assert h * t == iw;
    assert iw <= ih * t by {
      assert ih * a <= ih * t;
    }
    if h > ih {
    }
    assert h * tw == h * (t * th) == (h * t) * th;
  }

  /** No rectangle of the target's shape that fits in the image is larger
      than the crop. */
  lemma CropIsLargest(iw: real, ih: real, tw: real, th: real, w: real, h: real)
    requires iw > 0.0 && ih > 0.0 && tw > 0.0 && th > 0.0
    requires 0.0 < w <= iw && 0.0 < h <= ih && w * th == h * tw
    ensures w <= CenterCrop(iw, ih, tw, th).width && h <= CenterCrop(iw, ih, tw, th).height
  {
    var c := CenterCrop(iw, ih, tw, th);
    if c.height == ih {
      ScaleUp(h, ih, w, c.width, tw, th);
    } else {
      assert c.width == iw;
      ScaleUp(w, iw, h, c.height, th, tw);
    }
  }

  /** Two rectangles of one shape: the one with the smaller side has the
      smaller other side. */
  lemma ScaleUp(a: real, b: real, x: real, y: real, p: real, q: real)
    requires p > 0.0 && q > 0.0 && a <= b && x * q == a * p && y * q == b * p
    ensures x <= y
  {
    assert a * p <= b * p;
    if x > y {
    }
  }

  /** The fill painted before the photo: the chosen colour, and white for
      "keep the background", so that the JPEG has no transparent area. */
  function Fill(b: Background): (r: string)
    ensures b.color.Some? ==> r == b.color.value
    ensures b.color.None? ==> r == "#FFFFFF"
  {
    match b.color
    case Some(c) => c
    case None => "#FFFFFF"
  }

  /** Every background of the table fills with its hex colour, and the
      first with white. */
  lemma FillOfTable(k: nat)
    requires k < |Backgrounds|
    ensures Fill(Backgrounds[k]) == Backgrounds[k].hex.GetOr("#FFFFFF")
    ensures k == 0 ==> Fill(Backgrounds[k]) == Fill(Backgrounds[1])
  {
    BackgroundsWellFormed();
  }

  /** What is drawn and exported. */
  datatype Export = Export(width: int, height: int, fill: string, source: Rect, quality: real, fileType: string)

  datatype Outcome = Processed(path: string, size: nat, drawn: Export) | Failed(toast: string)

  /** `processImage`: nothing without a photo; otherwise the photo is
      cropped to the output's shape, drawn over the fill and exported as
      JPEG, and any failure is reported by the same toast. An output size
      that is not positive is taken as a failure of the canvas. */
  function Process(photo: Option<string>, imageSize: (real, real), spec: Spec, background: Background,
                   dpi: nat, quality: real, customWidth: real, customHeight: real, loads: bool,
                   exporter: Export -> Option<string>, stat: string -> Option<nat>): (r: Option<Outcome>)
    requires imageSize.0 > 0.0 && imageSize.1 > 0.0
    ensures photo.None? <==> r.None?
    ensures photo.Some? && !loads ==> r == Some(Failed("处理失败"))
    ensures r.Some? && r.value.Failed? ==> r.value.toast == "处理失败"
    ensures r.Some? && r.value.Processed? ==>
              var e := r.value.drawn;
              var size := SpecSize(spec, dpi, customWidth, customHeight);
              && e.width == size.0 > 0 && e.height == size.1 > 0
              && e.fill == Fill(background) && e.fileType == "jpg" && e.quality == quality
              && e.source == CenterCrop(imageSize.0, imageSize.1, size.0 as real, size.1 as real)
              && exporter(e) == Some(r.value.path) && stat(r.value.path) == Some(r.value.size)
    ensures photo.Some? && loads ==>
              var size := SpecSize(spec, dpi, customWidth, customHeight);
              && (size.0 <= 0 || size.1 <= 0 ==> r == Some(Failed("处理失败")))
              && (size.0 > 0 && size.1 > 0 ==>
                    var e := Export(size.0, size.1, Fill(background),
                                    CenterCrop(imageSize.0, imageSize.1, size.0 as real, size.1 as real), quality, "jpg");
                    (exporter(e).Some? && stat(exporter(e).value).Some?) <==> r.value.Processed?)
  {
    if photo.None? then None
    else
      var size := SpecSize(spec, dpi, customWidth, customHeight);
      if !loads || size.0 <= 0 || size.1 <= 0 then Some(Failed("处理失败"))
      else
        var source := CenterCrop(imageSize.0, imageSize.1, size.0 as real, size.1 as real);
        var e := Export(size.0, size.1, Fill(background), source, quality, "jpg");
        match exporter(e)
        case None => Some(Failed("处理失败"))
        case Some(path) =>
          match stat(path)
          case None => Some(Failed("处理失败"))
          case Some(n) => Some(Processed(path, n, e))
  }

  /** The page's own size display: whole bytes below 1 KiB, otherwise
      kilobytes below 1 MiB and megabytes above, each before `toFixed(2)`. */
  datatype PageSize = Bytes(count: nat) | Kilobytes(amount: real) | Megabytes(amount: real)

  function PageFileSize(bytes: nat): (r: PageSize)
    ensures bytes < 1024 <==> r == Bytes(bytes)
    ensures 1024 <= bytes < 1048576 <==> r.Kilobytes?
    ensures r.Kilobytes? ==> 1.0 <= r.amount < 1024.0 && r.amount * 1024.0 == bytes as real
    ensures r.Megabytes? ==> 1.0 <= r.amount && r.amount * 1048576.0 == bytes as real
  {
    if bytes < 1024 then Bytes(bytes)
    else if bytes < 1048576 then
      FormatUtils.DivBounds(bytes as real, 1024.0);
      Kilobytes(bytes as real / 1024.0)
    else
      var q := bytes as real / 1048576.0;
      assert q * 1048576.0 == bytes as real;
      assert q >= 1.0;
      Megabytes(q)
  }

  /** Between 1 KiB and 1 GiB the page shows the same number and unit as
      the shared helper; below it the page prints whole bytes, and from
      1 GiB on it keeps counting in megabytes. */
  lemma PageFileSizeAgrees(bytes: nat)
    requires 1024 <= bytes < 1073741824
    ensures var r := PageFileSize(bytes);
            FormatUtils.FormatFileSize(bytes)
            == FormatUtils.Fixed2(r.amount, if r.Kilobytes? then "KB" else "MB")
  {
    var p1 := FormatUtils.Pow1024(1);
    var p2 := FormatUtils.Pow1024(2);
    var p3 := FormatUtils.Pow1024(3);
    assert p1 == 1024;
    assert p2 == 1048576;
    assert p3 == 1073741824;
    var i := if bytes < 1048576 then 1 else 2;
    FormatUtils.UnitIndexUnique(bytes, i);
    var f := FormatUtils.FormatFileSize(bytes);
    var r := PageFileSize(bytes);
    if i == 1 {
      assert f.amount * 1024.0 == r.amount * 1024.0;
    } else {
      assert f.amount * 1048576.0 == r.amount * 1048576.0;
    }
  }
}

=== FILE: id_photo_config.dfy ===
/** The tables of the ID-photo tool (`id-photo-resize/config.js`): the
    photo specifications in millimetres and in pixels at 300 DPI, the
    background colours, the output resolutions and the export qualities. */
module IdPhotoConfig {
  import opened Wrappers
  import opened JsText

  datatype Spec = Spec(id: string, widthMM: nat, heightMM: nat, widthPX: nat, heightPX: nat, isCustom: bool)

  const Specs: seq<Spec> := [
    Spec("one_inch", 25, 35, 295, 413, false),
    Spec("small_one_inch", 22, 32, 260, 378, false),
    Spec("two_inch", 35, 45, 413, 531, false),
    Spec("two_inch_small", 35, 49, 413, 579, false),
    Spec("id_card", 26, 32, 307, 378, false),
    Spec("passport_china", 33, 48, 390, 567, false),
    Spec("passport_intl", 35, 45, 413, 531, false),
    Spec("driver_license", 22, 32, 260, 378, false),
    Spec("social_security", 26, 32, 307, 378, false),
    Spec("visa_usa", 51, 51, 600, 600, false),
    Spec("custom", 35, 45, 413, 531, true)
  ]

  /** The conversion the table's header documents: millimetres over
      25.4 times the resolution, rounded half up as `Math.round` does. */
  function PixelsAt(mm: real, dpi: nat): (px: int)
    ensures mm / 25.4 * dpi as real - 0.5 < px as real <= mm / 25.4 * dpi as real + 0.5
  {
    Round(mm / 25.4 * dpi as real)
  }

  /** Every entry but the US visa has the pixel size its millimetres give
      at 300 DPI. */
  lemma SpecsFollowTheRule()
    ensures forall k | 0 <= k < |Specs| && Specs[k].id != "visa_usa" ::
              && Specs[k].widthPX == PixelsAt(Specs[k].widthMM as real, 300)
              && Specs[k].heightPX == PixelsAt(Specs[k].heightMM as real, 300)
  {
    assert PixelsAt(25.0, 300) == 295;
    assert PixelsAt(35.0, 300) == 413;
    assert PixelsAt(22.0, 300) == 260;
    assert PixelsAt(32.0, 300) == 378;
    assert PixelsAt(45.0, 300) == 531;
    assert PixelsAt(49.0, 300) == 579;
    assert PixelsAt(26.0, 300) == 307;
    assert PixelsAt(33.0, 300) == 390;
    assert PixelsAt(48.0, 300) == 567;
  }

  /** The US visa entry is the exception: its 600 pixels are two inches
      at 300 DPI, while its stated 51 mm would give 602. */
  lemma VisaIsTwoInches()
    ensures Specs[9].id == "visa_usa" && Specs[9].widthPX == Specs[9].heightPX == 600
    ensures PixelsAt(50.8, 300) == 600 && PixelsAt(Specs[9].widthMM as real, 300) == 602
  {
  }

  /** Entries are told apart by id, and exactly one, the last, is the
      custom size. */
  lemma SpecsWellFormed()
    ensures forall i, j | 0 <= i < j < |Specs| :: Specs[i].id != Specs[j].id
    ensures Specs[|Specs| - 1].isCustom && Specs[|Specs| - 1].id == "custom"
    ensures forall k | 0 <= k < |Specs| - 1 :: !Specs[k].isCustom
  {
  }

  datatype Background = Background(id: string, color: Option<string>, hex: Option<string>)

  const Backgrounds: seq<Background> := [
    Background("none", None, None),
    Background("white", Some("#FFFFFF"), Some("#FFFFFF")),
    Background("red", Some("#E74C3C"), Some("#E74C3C")),
    Background("blue", Some("#3498DB"), Some("#3498DB")),
    Background("light_blue", Some("#5DADE2"), Some("#5DADE2"))
  ]

  /** Only the first choice, "keep the background", has no colour, and
      every colour is stored twice, identically. */
  lemma BackgroundsWellFormed()
    ensures forall k | 0 <= k < |Backgrounds| :: Backgrounds[k].color == Backgrounds[k].hex
    ensures forall k | 0 <= k < |Backgrounds| :: Backgrounds[k].color.None? <==> k == 0
    ensures forall k | 0 <= k < |Backgrounds| && k > 0 :: |Backgrounds[k].color.value| == 7 && Backgrounds[k].color.value[0] == '#'
  {
  }

  datatype DpiOption = DpiOption(id: string, value: nat)

  const DpiOptions: seq<DpiOption> := [DpiOption("standard", 300), DpiOption("high", 600), DpiOption("web", 150)]

  datatype QualityOption = QualityOption(id: string, value: real)

  const QualityOptions: seq<QualityOption> := [QualityOption("high", 1.0), QualityOption("medium", 0.9), QualityOption("low", 0.8)]

  /** The default choice (index 0) is 300 DPI, the resolution the pixel
      column is written for; the qualities descend within (0, 1]. */
  lemma OptionsWellFormed()
    ensures DpiOptions[0].value == 300 && forall k | 0 <= k < |DpiOptions| :: DpiOptions[k].value > 0
    ensures forall k | 0 <= k < |QualityOptions| :: 0.0 < QualityOptions[k].value <= 1.0
    ensures forall i, j | 0 <= i < j < |QualityOptions| :: QualityOptions[i].value > QualityOptions[j].value
  {
  }
}

=== FILE: image_compress.dfy ===
/** The image compressor of the mini-program (`utils/imageCompressor.js`):
    the size and format of the compressed picture, the compression ratio,
    one compression that never fails outright, a batch with its progress
    reports, and the size display. The canvas and the file system are not
    modelled; what they report is passed in. */
module ImageCompress {
  import opened Wrappers
  import opened JsText
  import FormatUtils
  import ImageConvert

  /** The options of `compressImage`; a bound of 0 stands for `null`. */
  datatype Options = Options(quality: real, resize: string, format: string, maxWidth: nat, maxHeight: nat)

  /** The options a caller that passes none gets. */
  const DefaultOptions: Options := Options(0.8, "original", "auto", 0, 0)

  /** Whether the picture is resized: a size choice other than `original`
      and both bounds given. */
  predicate Resizes(o: Options) {
    o.resize != "original" && o.maxWidth > 0 && o.maxHeight > 0
  }

  function Min3(a: real, b: real, c: real): (m: real)
    ensures m <= a && m <= b && m <= c && (m == a || m == b || m == c)
  {
    if a <= b && a <= c then a else if b <= c then b else c
  }

  /** The scale factor: the smaller bound ratio, capped at 1 so that the
      picture is never enlarged. */
  function Scale(width: nat, height: nat, o: Options): real
    requires width > 0 && height > 0
  {
    Min3(o.maxWidth as real / width as real, o.maxHeight as real / height as real, 1.0)
  }

  /** The compressed size: the picture scaled by the smallest of the two
      bound ratios and 1, each side rounded down. It is never enlarged and
      always fits the bounds. */
  function TargetSize(width: nat, height: nat, o: Options): (r: (int, int))
    requires width > 0 && height > 0
    ensures !Resizes(o) ==> r == (width, height)
    ensures Resizes(o) ==> 0 <= r.0 <= width && 0 <= r.1 <= height && r.0 <= o.maxWidth && r.1 <= o.maxHeight
  {
    if !Resizes(o) then (width, height)
    else
      var scale := Scale(width, height, o);
      ScaledSide(width, scale, o.maxWidth);
      ScaledSide(height, scale, o.maxHeight);
      (ScaledDown(width, scale), ScaledDown(height, scale))
  }

  /** `Math.floor(side * scale)` */
  function ScaledDown(side: nat, scale: real): (n: int)
    ensures n as real <= side as real * scale < n as real + 1.0
  {
    Floor(side as real * scale)
  }

  lemma ScaledSide(side: nat, scale: real, bound: nat)
    requires side > 0 && 0.0 <= scale <= 1.0 && scale <= bound as real / side as real
    ensures 0 <= Floor(side as real * scale) <= side && Floor(side as real * scale) <= bound
  {
    var s := side as real;
    var q := bound as real / s;
    assert s * q == bound as real;
    MulLeft(s, scale, 1.0);
    MulLeft(s, scale, q);
    assert s * scale <= bound as real;
    FloorWithin(s * scale, side);
    FloorWithin(s * scale, bound);
  }

  lemma MulLeft(a: real, b: real, c: real)
    requires a >= 0.0 && 0.0 <= b <= c
    ensures 0.0 <= a * b <= a * c
  {
    assert a * c - a * b == a * (c - b);
  }

  lemma FloorWithin(x: real, n: nat)
    requires 0.0 <= x <= n as real
    ensures 0 <= Floor(x) <= n
  {
  }

  /** A factor the picture may be scaled by: it does not enlarge the
      picture and keeps both sides within their bounds. */
  predicate Admissible(t: real, width: nat, height: nat, o: Options) {
    0.0 < t <= 1.0 && width as real * t <= o.maxWidth as real && height as real * t <= o.maxHeight as real
  }

  /** A resized picture is scaled by the largest admissible factor, both
      sides by the same one, and each side is the scaled side rounded
      down, so it is less than a pixel short of it. */
  lemma TargetSizeIsLargestFit(width: nat, height: nat, o: Options)
    requires width > 0 && height > 0 && Resizes(o)
    ensures var s := Scale(width, height, o);
            var r := TargetSize(width, height, o);
            && Admissible(s, width, height, o)
            && (forall t | Admissible(t, width, height, o) :: t <= s)
            && r == (ScaledDown(width, s), ScaledDown(height, s))
            && r.0 as real <= width as real * s < r.0 as real + 1.0
            && r.1 as real <= height as real * s < r.1 as real + 1.0
  {
    ScaleIsLargest(width, height, o);
  }

  /** The scale factor is the largest admissible one. */
  lemma ScaleIsLargest(width: nat, height: nat, o: Options)
    requires width > 0 && height > 0 && Resizes(o)
    ensures Admissible(Scale(width, height, o), width, height, o)
    ensures forall t | Admissible(t, width, height, o) :: t <= Scale(width, height, o)
  {
    var s := Scale(width, height, o);
    WithinRatio(s, width, o.maxWidth);
    WithinRatio(s, height, o.maxHeight);
    forall t | Admissible(t, width, height, o) ensures t <= s {
      BelowRatio(t, width, o.maxWidth);
      BelowRatio(t, height, o.maxHeight);
    }
  }

  /** A factor no larger than the bound's ratio to a side keeps the side
      within the bound. */
  lemma WithinRatio(t: real, side: nat, bound: nat)
    requires side > 0 && 0.0 <= t <= bound as real / side as real
    ensures side as real * t <= bound as real
  {
    var q := bound as real / side as real;
    assert side as real * q == bound as real;
    MulLeft(side as real, t, q);
  }

  /** A factor that keeps a side within its bound is at most the bound's
      ratio to the side. */
  lemma BelowRatio(t: real, side: nat, bound: nat)
    requires side > 0 && side as real * t <= bound as real
    ensures t <= bound as real / side as real
  {
    var q := bound as real / side as real;
    assert side as real * q == bound as real;
    if t > q {
      assert side as real * t > side as real * q;
    }
  }

  /** The output format: `auto` always becomes `jpg`, whatever the path
      ends in; an explicit format is used as it is. */
  function OutputFormat(path: string, format: string): (r: string)
    ensures format == "auto" ==> r == "jpg"
    ensures format != "auto" ==> r == format
  {
    if format == "auto" then
      var p := ToLower(path);
      if EndsWith(p, ".png") then "jpg"
      else if EndsWith(p, ".jpg") || EndsWith(p, ".jpeg") then "jpg"
      else "jpg"
    else format
  }

  /** The canvas is painted white before drawing exactly when the output
      is JPEG, which has no transparency. */
  predicate PaintsWhite(outputFormat: string) {
    outputFormat == "jpg"
  }

  /** `compressionRatio` before `toFixed(1)`: the share of the original
      size saved, in percent, and 0 for an empty original. */
  function CompressionRatio(original: nat, compressed: nat): (r: real)
    ensures original == 0 ==> r == 0.0
    ensures original > 0 && compressed <= original ==> 0.0 <= r <= 100.0
    ensures original > 0 && compressed == original ==> r == 0.0
    ensures original > 0 && compressed == 0 ==> r == 100.0
    ensures original > 0 ==> compressed as real == original as real * (1.0 - r / 100.0)
  {
    if original > 0 then
      var q := compressed as real / original as real;
      Share(compressed, original);
      (1.0 - q) * 100.0
    else 0.0
  }

  /** The compressed share of the original size. */
  lemma Share(compressed: nat, original: nat)
    requires original > 0
    ensures var q := compressed as real / original as real;
            && q * original as real == compressed as real
            && 0.0 <= q
            && (compressed <= original ==> q <= 1.0)
            && (compressed == original ==> q == 1.0)
            && (compressed == 0 ==> q == 0.0)
  {
    var q := compressed as real / original as real;
    assert q * original as real == compressed as real;
    if compressed <= original && q > 1.0 {
      MulLeft(original as real, 1.0, q);
    }
  }

  /** What is handed to `canvasToTempFilePath`. */
  datatype Export = Export(width: int, height: int, whiteBackground: bool, quality: real, fileType: string)

  datatype Outcome =
    | Compressed(originalPath: string, compressedPath: string, originalSize: nat, compressedSize: nat,
                 ratio: real, original: (int, int), compressed: (int, int))
    | Failed(originalPath: string, error: string)

  /** `error.message || '压缩失败'`: the system's failure objects and the
      image's error event carry no message. */
  function Message(e: Option<string>): string {
    match e
    case Some(m) => if m == "" then "压缩失败" else m
    case None => "压缩失败"
  }

  /** `compressImage`: every failure becomes a failed outcome for the same
      path, so the promise never rejects. The picture is described, loaded,
      exported at the target size, and then both files are measured. */
  function Compress(path: string, o: Options, info: Option<(nat, nat)>, loads: bool,
                    exporter: Export -> Option<string>, stat: string -> Result<nat>): (r: Outcome)
    requires info.Some? ==> info.value.0 > 0 && info.value.1 > 0
    ensures r.originalPath == path
    ensures info.None? || !loads ==> r == Failed(path, "压缩失败")
    ensures r.Compressed? ==>
              && info.Some? && loads
              && r.original == info.value
              && r.compressed == TargetSize(info.value.0, info.value.1, o)
              && r.ratio == CompressionRatio(r.originalSize, r.compressedSize)
              && stat(path) == Success(r.originalSize)
              && stat(r.compressedPath) == Success(r.compressedSize)
    ensures info.Some? && loads ==>
              var size := TargetSize(info.value.0, info.value.1, o);
              var fmt := OutputFormat(path, o.format);
              var e := Export(size.0, size.1, PaintsWhite(fmt), o.quality, fmt);
              && (exporter(e).None? ==> r == Failed(path, "压缩失败"))
              && (exporter(e).Some? ==>
                    var out := exporter(e).value;
                    && (stat(path).Failure? ==> r == Failed(path, Message(Some(stat(path).error))))
                    && (stat(path).Success? && stat(out).Failure? ==> r == Failed(path, Message(Some(stat(out).error))))
                    && (stat(path).Success? && stat(out).Success? ==>
                          r == Compressed(path, out, stat(path).value, stat(out).value,
                                          CompressionRatio(stat(path).value, stat(out).value), info.value, size)))
  {
    match info
    case None => Failed(path, "压缩失败")
    case Some(dims) =>
      if !loads then Failed(path, "压缩失败")
      else
        var size := TargetSize(dims.0, dims.1, o);
        var fmt := OutputFormat(path, o.format);
        match exporter(Export(size.0, size.1, PaintsWhite(fmt), o.quality, fmt))
        case None => Failed(path, "压缩失败")
        case Some(out) =>
          match stat(path)
          case Failure(e) => Failed(path, Message(Some(e)))
          case Success(before) =>
            match stat(out)
            case Failure(e) => Failed(path, Message(Some(e)))
            case Success(after) =>
              Compressed(path, out, before, after, CompressionRatio(before, after), dims, size)
  }

  /** The report before image `i` of `total`:
      `Math.floor((i + 1) / total * 100)`. */
  function ProgressBefore(i: nat, total: nat): (p: ImageConvert.Progress)
    requires i < total
    ensures p.current == i + 1 && p.total == total && 0 <= p.percent <= 100
    ensures i == total - 1 ==> p.percent == 100
    ensures var x := (i + 1) as real / total as real * 100.0;
            p.percent as real <= x < p.percent as real + 1.0
  {
    var x := (i + 1) as real / total as real * 100.0;
    ImageConvert.PercentBounds(i + 1, total);
    ImageConvert.Progress(i + 1, total, Floor(x))
  }

  /** The compressor floors where the converter rounds: for the same image
      the converter's report is the compressor's or one more. */
  lemma FloorAgainstRound(i: nat, total: nat)
    requires i < total
    ensures var before := ProgressBefore(i, total).percent;
            before <= ImageConvert.ProgressAfter(i, total).percent <= before + 1
  {
    var x := (i + 1) as real / total as real * 100.0;
    assert x.Floor as real <= x < x.Floor as real + 1.0;
    assert Round(x) == (x + 0.5).Floor;
  }

  /** Reports never go backwards. */
  lemma ProgressMonotone(i: nat, j: nat, total: nat)
    requires i <= j < total
    ensures ProgressBefore(i, total).percent <= ProgressBefore(j, total).percent
  {
    var a := (i + 1) as real / total as real;
    var b := (j + 1) as real / total as real;
    assert a * total as real == (i + 1) as real;
    assert b * total as real == (j + 1) as real;
    if a > b {
    }
    assert a * 100.0 <= b * 100.0;
  }

  /** `batchCompressImages`: one outcome per path, in order, and a report
      before every image, failed or not. */
  function BatchCompress(paths: seq<string>, compress: string -> Outcome): (r: (seq<Outcome>, seq<ImageConvert.Progress>))
    ensures |r.0| == |paths| && forall k | 0 <= k < |paths| :: r.0[k] == compress(paths[k])
    ensures |r.1| == |paths| && forall k | 0 <= k < |paths| :: r.1[k] == ProgressBefore(k, |paths|)
    ensures |paths| > 0 ==> r.1[|paths| - 1].percent == 100
  {
    (seq(|paths|, k requires 0 <= k < |paths| => compress(paths[k])),
     seq(|paths|, k requires 0 <= k < |paths| => ProgressBefore(k, |paths|)))
  }

  /** `formatFileSize` of the compressor: `--` for a missing size, and
      otherwise the same display as the shared helper. */
  function FormatFileSize(bytes: Option<nat>): (r: FormatUtils.SizeText)
    ensures bytes.None? ==> r == FormatUtils.Exact("--")
    ensures bytes == Some(0) ==> r == FormatUtils.Exact("0 B")
    ensures bytes.Some? && bytes.value > 0 ==> r.Fixed2? && 1.0 <= r.amount < 1024.0
    ensures bytes.Some? ==> r == FormatUtils.FormatFileSize(bytes.value)
  {
    match bytes
    case None => FormatUtils.Exact("--")
    case Some(b) => if b == 0 then FormatUtils.Exact("0 B") else FormatUtils.FormatFileSize(b)
  }
}

=== FILE: image_convert.dfy ===
/** The image-format converter of the mini-program
    (`utils/imageFormatConverter.js`): the output format, the target size
    (as written and as evidently intended), one conversion, and a batch with
    its progress reports. The picture itself, the canvas and the file system
    are not modelled; what they report is passed in. */
module ImageConvert {
  import opened Wrappers
  import opened JsText

  // ---------------------------------------------------------------------
  // normalizeFormat

  const FormatMap: map<string, string> := map["jpg" := "jpg", "jpeg" := "jpg", "png" := "png", "webp" := "webp"]

  /** `normalizeFormat`: a case-insensitive lookup; anything unknown is
      exported as JPEG. */
  function NormalizeFormat(format: string): (r: string)
    ensures r == "jpg" || r == "png" || r == "webp"
    ensures ToLower(format) == "jpg" || ToLower(format) == "jpeg" ==> r == "jpg"
    ensures ToLower(format) == "png" ==> r == "png"
    ensures ToLower(format) == "webp" ==> r == "webp"
    ensures ToLower(format) !in FormatMap ==> r == "jpg"
  {
    var f := ToLower(format);
    if f in FormatMap then FormatMap[f] else "jpg"
  }

  /** Normalising twice is normalising once, and letter case never matters. */
  lemma NormalizeFormatIdempotent(format: string)
    ensures NormalizeFormat(NormalizeFormat(format)) == NormalizeFormat(format)
    ensures NormalizeFormat(ToLower(format)) == NormalizeFormat(format)
  {
    ToLowerIdempotent(format);
    var r := NormalizeFormat(format);
    assert ToLower(r) == r;
  }

  // ---------------------------------------------------------------------
  // calculateTargetSize

  /** Width and height of a picture, in pixels. */
  datatype Size = Size(width: real, height: real)

  /** The size before rounding, as the code computes it. A bound of 0
      stands for `null` or `0`: both are falsy and mean no bound. When
      the width is clamped the height follows it; when the height is
      clamped, the height is overwritten first and the width is then
      scaled by `maxHeight / targetHeight`, which is now 1. So the width
      is the width clamp's alone, whatever the height bound, and the
      height is the width clamp's height cut down to the height bound. */
  function FitAsWritten(width: real, height: real, maxWidth: nat, maxHeight: nat): (r: Size)
    ensures r.width == WidthClamped(width, maxWidth)
    ensures var th := HeightClamped(width, height, maxWidth);
            r.height == if maxHeight > 0 && th > maxHeight as real then maxHeight as real else th
    ensures maxWidth > 0 ==> r.width <= maxWidth as real
    ensures maxHeight > 0 ==> r.height <= maxHeight as real
  {
    var clampW := maxWidth > 0 && width > maxWidth as real;
    var tw := if clampW then maxWidth as real else width;
    var th := if clampW then height * maxWidth as real / width else height;
    if maxHeight > 0 && th > maxHeight as real then
      var th2 := maxHeight as real;
      Size(tw * maxHeight as real / th2, th2)
    else Size(tw, th)
  }

  /** The width the width bound alone leaves. */
  function WidthClamped(width: real, maxWidth: nat): real {
    if maxWidth > 0 && width > maxWidth as real then maxWidth as real else width
  }

  /** The height the width bound alone leaves: scaled with the width. */
  function HeightClamped(width: real, height: real, maxWidth: nat): real {
    if maxWidth > 0 && width > maxWidth as real then height * maxWidth as real / width else height
  }

  /** The as-written and the intended fit agree on the height always, and
      on the width exactly when the height bound does not bite; when it
      does, the as-written width is too large. */
  lemma AsWrittenAgainstIntended(width: real, height: real, maxWidth: nat, maxHeight: nat)
    requires width > 0.0 && height > 0.0
    ensures var a := FitAsWritten(width, height, maxWidth, maxHeight);
            var f := Fit(width, height, maxWidth, maxHeight);
            var bites := maxHeight > 0 && HeightClamped(width, height, maxWidth) > maxHeight as real;
            && a.height == f.height
            && (!bites <==> a == f)
            && (bites ==> f.width < a.width)
  {
    var clampW := maxWidth > 0 && width > maxWidth as real;
    var tw := if clampW then maxWidth as real else width;
    var th := if clampW then height * maxWidth as real / width else height;
    FitWidth(width, height, maxWidth, clampW, tw, th);
    if maxHeight > 0 && th > maxHeight as real {
      HeightBites(width, height, maxWidth, maxHeight, tw, th);
    } else {
      assert Fit(width, height, maxWidth, maxHeight) == Size(tw, th);
    }
  }

  /** When the height bound bites, the intended width is scaled down with
      the height, and the as-written one is not. */
  lemma HeightBites(width: real, height: real, maxWidth: nat, maxHeight: nat, tw: real, th: real)
    requires width > 0.0 && height > 0.0 && maxHeight > 0
    requires tw == WidthClamped(width, maxWidth) && th == HeightClamped(width, height, maxWidth)
    requires 0.0 < tw <= width && 0.0 < th <= height && tw * height == th * width
    requires th > maxHeight as real
    ensures Fit(width, height, maxWidth, maxHeight) == Size(tw * maxHeight as real / th, maxHeight as real)
    ensures tw * maxHeight as real / th < tw
  {
    FitHeight(width, height, tw, th, maxHeight as real, tw * maxHeight as real / th);
  }

  /** Clamping the height never changes the width: a picture twice as high
      as wide, bounded only in height, comes out square. */
  lemma AsWrittenHeightClampKeepsWidth(width: real, height: real, maxHeight: nat)
    requires maxHeight > 0 && height > maxHeight as real
    ensures FitAsWritten(width, height, 0, maxHeight) == Size(width, maxHeight as real)
  {
  }

  lemma AsWrittenLosesRatio()
    ensures FitAsWritten(1000.0, 2000.0, 0, 1000) == Size(1000.0, 1000.0)
    ensures CalculateTargetSizeAsWritten(1000.0, 2000.0, 0, 1000) == Size(1000.0, 1000.0)
  {
    AsWrittenHeightClampKeepsWidth(1000.0, 2000.0, 1000);
  }

  /** The size before rounding, as the comment "keep the aspect ratio"
      intends: the height clamp scales the width by the same factor. */
  function Fit(width: real, height: real, maxWidth: nat, maxHeight: nat): (r: Size)
    requires width > 0.0 && height > 0.0
    ensures 0.0 < r.width <= width && 0.0 < r.height <= height
    ensures maxWidth > 0 ==> r.width <= maxWidth as real
    ensures maxHeight > 0 ==> r.height <= maxHeight as real
    ensures r.width * height == r.height * width
    ensures (maxWidth == 0 || width <= maxWidth as real) && (maxHeight == 0 || height <= maxHeight as real)
            ==> r == Size(width, height)
  {
    var clampW := maxWidth > 0 && width > maxWidth as real;
    var tw := if clampW then maxWidth as real else width;
    var th := if clampW then height * maxWidth as real / width else height;
    FitWidth(width, height, maxWidth, clampW, tw, th);
    if maxHeight > 0 && th > maxHeight as real then
      var w2 := tw * maxHeight as real / th;
      FitHeight(width, height, tw, th, maxHeight as real, w2);
      Size(w2, maxHeight as real)
    else Size(tw, th)
  }

  lemma FitWidth(width: real, height: real, maxWidth: nat, clampW: bool, tw: real, th: real)
    requires width > 0.0 && height > 0.0
    requires clampW == (maxWidth > 0 && width > maxWidth as real)
    requires tw == (if clampW then maxWidth as real else width)
    requires th == (if clampW then height * maxWidth as real / width else height)
    ensures 0.0 < tw <= width && 0.0 < th <= height && tw * height == th * width
    ensures maxWidth > 0 ==> tw <= maxWidth as real
  {
    if clampW {
      var k := maxWidth as real / width;
      FractionBelowOne(maxWidth as real, width);
      assert th == height * k;
      assert tw == width * k;
      assert height * k < height * 1.0;
    }
  }

  lemma FitHeight(width: real, height: real, tw: real, th: real, mh: real, w2: real)
    requires 0.0 < tw <= width && 0.0 < th <= height && tw * height == th * width
    requires 0.0 < mh < th && w2 == tw * mh / th
    ensures 0.0 < w2 < tw && w2 * height == mh * width
  {
    var k := mh / th;
    FractionBelowOne(mh, th);
    assert w2 == tw * k;
    assert tw * k < tw * 1.0;
    assert w2 * height == mh * width by {
      assert w2 * height == (tw * height) * mh / th;
      assert (th * width) * mh / th == mh * width;
    }
  }

  lemma FractionBelowOne(a: real, b: real)
    requires 0.0 < a < b
    ensures 0.0 < a / b < 1.0
  {
    var k := a / b;
    assert k * b == a;
    if k >= 1.0 {
    }
  }

  /** The evidently intended result for the picture above: half as wide as
      high, as before. */
  lemma FitKeepsRatio()
    ensures Fit(1000.0, 2000.0, 0, 1000) == Size(500.0, 1000.0)
  {
  }

  /** `calculateTargetSize` as written: with no bound the size is returned
      as it is, unrounded; otherwise the clamped size is rounded, and the
      width is that of the width bound alone. */
  function CalculateTargetSizeAsWritten(width: real, height: real, maxWidth: nat, maxHeight: nat): (r: Size)
    ensures maxWidth == 0 && maxHeight == 0 ==> r == Size(width, height)
    ensures maxWidth > 0 || maxHeight > 0 ==>
              && r.width == Round(WidthClamped(width, maxWidth)) as real
              && r.height - 0.5 <= FitAsWritten(width, height, maxWidth, maxHeight).height < r.height + 0.5
    ensures maxWidth > 0 ==> r.width <= maxWidth as real
    ensures maxHeight > 0 ==> r.height <= maxHeight as real
    ensures maxWidth > 0 || maxHeight > 0 ==> Whole(r.width) && Whole(r.height)
  {
    if maxWidth == 0 && maxHeight == 0 then Size(width, height)
    else
      var f := FitAsWritten(width, height, maxWidth, maxHeight);
      RoundAtMost(f.width, maxWidth as real);
      RoundAtMost(f.height, maxHeight as real);
      RoundIsWhole(f.width);
      RoundIsWhole(f.height);
      Size(Round(f.width) as real, Round(f.height) as real)
  }

  /** For a picture of positive size, the converter as written and as
      intended export the same height, and the same width whenever the
      height bound does not bite. */
  lemma TargetSizeAgainstIntended(width: real, height: real, maxWidth: nat, maxHeight: nat)
    requires width > 0.0 && height > 0.0
    ensures var a := CalculateTargetSizeAsWritten(width, height, maxWidth, maxHeight);
            var c := CalculateTargetSize(width, height, maxWidth, maxHeight);
            && a.height == c.height
            && (maxHeight == 0 || HeightClamped(width, height, maxWidth) <= maxHeight as real ==> a == c)
  {
    AsWrittenAgainstIntended(width, height, maxWidth, maxHeight);
  }

  /** A picture size reported by the system is a whole number of pixels. */
  predicate Whole(x: real) {
    x == x.Floor as real
  }

  lemma RoundIsWhole(x: real)
    ensures Whole(Round(x) as real)
  {
    assert (Round(x) as real).Floor == Round(x);
  }

  /** `calculateTargetSize` with the height clamp corrected: the picture
      is never enlarged, keeps within both bounds after rounding, and keeps
      its aspect ratio up to rounding. */
  function CalculateTargetSize(width: real, height: real, maxWidth: nat, maxHeight: nat): (r: Size)
    requires width > 0.0 && height > 0.0
    ensures maxWidth == 0 && maxHeight == 0 ==> r == Size(width, height)
    ensures maxWidth > 0 ==> r.width <= maxWidth as real
    ensures maxHeight > 0 ==> r.height <= maxHeight as real
    ensures Whole(width) ==> r.width <= width
    ensures Whole(height) ==> r.height <= height
    ensures maxWidth > 0 || maxHeight > 0 ==> Whole(r.width) && Whole(r.height)
    ensures (maxWidth > 0 || maxHeight > 0) ==>
              var f := Fit(width, height, maxWidth, maxHeight);
              f.width * height == f.height * width
              && f.width - 0.5 < r.width <= f.width + 0.5 && f.height - 0.5 < r.height <= f.height + 0.5
  {
    if maxWidth == 0 && maxHeight == 0 then Size(width, height)
    else
      var f := Fit(width, height, maxWidth, maxHeight);
      RoundWithin(f.width, maxWidth, width);
      RoundWithin(f.height, maxHeight, height);
      RoundIsWhole(f.width);
      RoundIsWhole(f.height);
      var r := Size(Round(f.width) as real, Round(f.height) as real);
      assert f.width - 0.5 < r.width <= f.width + 0.5 && f.height - 0.5 < r.height <= f.height + 0.5;
      r
  }

  /** A clamped side stays within its bound and, for a whole-pixel side,
      within the original after rounding. */
  lemma RoundWithin(x: real, bound: nat, original: real)
    requires x <= original && (bound > 0 ==> x <= bound as real)
    ensures bound > 0 ==> Round(x) as real <= bound as real
    ensures Whole(original) ==> Round(x) as real <= original
    ensures x - 0.5 < Round(x) as real <= x + 0.5
  {
    RoundAtMost(x, bound as real);
    RoundAtMost(x, original);
  }

  /** Rounding never lifts a value above a whole number it did not exceed. */
  lemma RoundAtMost(x: real, m: real)
    ensures x <= m && Whole(m) ==> Round(x) as real <= m
  {
    if x <= m && Whole(m) {
      var n := m.Floor;
      assert (Round(x) as real) < (n + 1) as real;
      assert Round(x) <= n;
    }
  }

  // ---------------------------------------------------------------------
  // convertFormat

  /** What `getImageInfo` reports; the size of the file is missing when
      its `stat` failed. */
  datatype ImageInfo = ImageInfo(width: real, height: real, originalSize: Option<nat>)

  /** `quality` is `None` when the caller left it out. */
  datatype ConvertOptions = ConvertOptions(quality: Option<real>, maxWidth: nat, maxHeight: nat)

  /** What is handed to `canvasToTempFilePath`. */
  datatype Export = Export(width: real, height: real, fileType: string, quality: real)

  datatype Outcome =
    | Converted(filePath: string, originalSize: nat, convertedSize: nat, width: real, height: real, format: string)
      /** `error` is `None` when the error had no message (`undefined`). */
    | Failed(error: Option<string>, originalPath: string)

  /** `convertFormat`, as a batch entry sees it: an image the system cannot
      describe fails without a message (the system's failure object has
      none); an image that does not load or cannot be exported fails with
      the matching message; otherwise the exported file is described, with
      0 for a size that could not be read. */
  function ConvertFormat(path: string, targetFormat: string, opts: ConvertOptions,
                         info: Option<ImageInfo>, loads: bool,
                         exporter: Export -> Option<string>, stat: string -> Option<nat>): (r: Outcome)
    requires info.Some? ==> info.value.width > 0.0 && info.value.height > 0.0
    ensures info.None? ==> r == Failed(None, path)
    ensures info.Some? && !loads ==> r == Failed(Some("图片加载失败"), path)
    ensures info.Some? && loads ==>
              var size := CalculateTargetSizeAsWritten(info.value.width, info.value.height, opts.maxWidth, opts.maxHeight);
              var e := Export(size.width, size.height, NormalizeFormat(targetFormat), opts.quality.GetOr(0.92));
              && (exporter(e).None? ==> r == Failed(Some("图片转换失败"), path))
              && (exporter(e).Some? ==>
                    && r.Converted? && r.filePath == exporter(e).value
                    && r.width == size.width && r.height == size.height
                    && r.format == targetFormat
                    && r.originalSize == info.value.originalSize.GetOr(0)
                    && r.convertedSize == stat(exporter(e).value).GetOr(0))
  {
    match info
    case None => Failed(None, path)
    case Some(i) =>
      if !loads then Failed(Some("图片加载失败"), path)
      else
        var size := CalculateTargetSizeAsWritten(i.width, i.height, opts.maxWidth, opts.maxHeight);
        var e := Export(size.width, size.height, NormalizeFormat(targetFormat), opts.quality.GetOr(0.92));
        match exporter(e)
        case None => Failed(Some("图片转换失败"), path)
        case Some(out) => Converted(out, i.originalSize.GetOr(0), stat(out).GetOr(0), size.width, size.height, targetFormat)
  }

  // ---------------------------------------------------------------------
  // batchConvert

  datatype Progress = Progress(current: nat, total: nat, percent: int)

  /** The report after image `i` of `total` succeeded:
      `Math.round((i + 1) / total * 100)`. */
  function ProgressAfter(i: nat, total: nat): (p: Progress)
    requires i < total
    ensures p.current == i + 1 && p.total == total && 0 <= p.percent <= 100
    ensures i == total - 1 ==> p.percent == 100
    ensures var x := (i + 1) as real / total as real * 100.0;
            x - 0.5 < p.percent as real <= x + 0.5
  {
    var x := (i + 1) as real / total as real * 100.0;
    PercentBounds(i + 1, total);
    Progress(i + 1, total, Round(x))
  }

  lemma PercentBounds(k: nat, total: nat)
    requires 0 < k <= total
    ensures var x := k as real / total as real * 100.0;
            0.0 < x <= 100.0 && (k == total ==> x == 100.0)
            && 0 <= Round(x) <= 100 && (k == total ==> Round(x) == 100)
  {
    var q := k as real / total as real;
    assert q * total as real == k as real;
    if q > 1.0 {
    }
    if k == total {
      assert q == 1.0;
    }
    var x := q * 100.0;
    assert Round(x) as real <= x + 0.5;
  }

  /** How many of the outcomes from `i` on are successes. */
  function Successes(outcomes: seq<Outcome>, i: nat): nat
    requires i <= |outcomes|
    decreases |outcomes| - i
  {
    if i == |outcomes| then 0 else (if outcomes[i].Converted? then 1 else 0) + Successes(outcomes, i + 1)
  }

  /** The reports for the images from `i` on: one after each success, in
      order, and nothing else. */
  function ReportsFrom(outcomes: seq<Outcome>, i: nat): (r: seq<Progress>)
    requires i <= |outcomes|
    ensures |r| == Successes(outcomes, i)
    ensures forall j | 0 <= j < |r| :: i < r[j].current <= |outcomes|
                                       && outcomes[r[j].current - 1].Converted?
                                       && r[j] == ProgressAfter(r[j].current - 1, |outcomes|)
    ensures forall j | 0 <= j < |r| - 1 :: r[j].current < r[j + 1].current
    decreases |outcomes| - i
  {
    if i == |outcomes| then []
    else
      var rest := ReportsFrom(outcomes, i + 1);
      if outcomes[i].Converted? then
        var r := [ProgressAfter(i, |outcomes|)] + rest;
        ReportsCons(outcomes, i, rest, r);
        r
      else rest
  }

  /** A report for a success at `i` put ahead of the later reports keeps
      them in step with the outcomes and ascending. */
  lemma ReportsCons(outcomes: seq<Outcome>, i: nat, rest: seq<Progress>, r: seq<Progress>)
    requires i < |outcomes| && outcomes[i].Converted?
    requires forall j | 0 <= j < |rest| :: i + 1 < rest[j].current <= |outcomes|
                                          && outcomes[rest[j].current - 1].Converted?
                                          && rest[j] == ProgressAfter(rest[j].current - 1, |outcomes|)
    requires forall j | 0 <= j < |rest| - 1 :: rest[j].current < rest[j + 1].current
    requires r == [ProgressAfter(i, |outcomes|)] + rest
    ensures forall j | 0 <= j < |r| :: i < r[j].current <= |outcomes|
                                       && outcomes[r[j].current - 1].Converted?
                                       && r[j] == ProgressAfter(r[j].current - 1, |outcomes|)
    ensures forall j | 0 <= j < |r| - 1 :: r[j].current < r[j + 1].current
  {
    forall j | 1 <= j < |r|
      ensures r[j] == rest[j - 1]
    {
    }
  }

  /** `batchConvert`: one outcome per path, in order, a failure recorded
      in place, and a progress report after every success and after
      nothing else. */
  function BatchConvert(paths: seq<string>, convert: string -> Outcome): (r: (seq<Outcome>, seq<Progress>))
    ensures |r.0| == |paths| && forall k | 0 <= k < |paths| :: r.0[k] == convert(paths[k])
    ensures |r.1| == Successes(r.0, 0)
    ensures forall j | 0 <= j < |r.1| :: 0 < r.1[j].current <= |paths| && r.1[j].total == |paths|
                                         && convert(paths[r.1[j].current - 1]).Converted?
                                         && 0 <= r.1[j].percent <= 100
    ensures forall j | 0 <= j < |r.1| - 1 :: r.1[j].current < r.1[j + 1].current
  {
    var outcomes := seq(|paths|, k requires 0 <= k < |paths| => convert(paths[k]));
    (outcomes, ReportsFrom(outcomes, 0))
  }
}

=== FILE: inline_strip.dfy ===
/** The inline-markup stripper of the Markdown renderer: six global
    regular-expression replacements applied one after another, each of the
    shape `OPEN(.+?)CLOSE` replaced by its group. `.` never matches a line
    terminator and `.+?` is lazy, so a group is the shortest non-empty run
    of non-terminators that is followed by the closing delimiter. */
module InlineMarkup {
  import opened Wrappers
  import opened JsText

  // ---------------------------------------------------------------------
  // Subsequences

  /** `a` can be obtained from `b` by deleting characters. */
  predicate IsSubseq(a: string, b: string)
    decreases |b|
  {
    a == [] || (b != [] && ((a[0] == b[0] && IsSubseq(a[1..], b[1..])) || IsSubseq(a, b[1..])))
  }

  lemma {:induction false} SubseqRefl(a: string)
    ensures IsSubseq(a, a)
  {
    if a != [] {
      SubseqRefl(a[1..]);
    }
  }

  /** Deleting a whole prefix. */
  lemma {:induction false} SubseqSkip(a: string, skipped: string, b: string)
    requires IsSubseq(a, b)
    ensures IsSubseq(a, skipped + b)
    decreases |skipped|
  {
    if skipped != [] && a != [] {
      SubseqSkip(a, skipped[1..], b);
      assert (skipped + b)[1..] == skipped[1..] + b;
      assert IsSubseq(a, (skipped + b)[1..]);
    } else if skipped == [] {
      assert skipped + b == b;
    }
  }

  lemma {:induction false} SubseqConcat(a: string, b: string, c: string, d: string)
    requires IsSubseq(a, b) && IsSubseq(c, d)
    ensures IsSubseq(a + c, b + d)
    decreases |b|
  {
    if a == [] {
      SubseqSkip(c, b, d);
      assert a + c == c;
    } else if a[0] == b[0] && IsSubseq(a[1..], b[1..]) {
      SubseqConcat(a[1..], b[1..], c, d);
      assert (a + c)[1..] == a[1..] + c;
      assert (b + d)[1..] == b[1..] + d;
    } else {
      SubseqConcat(a, b[1..], c, d);
      assert (b + d)[1..] == b[1..] + d;
    }
  }

  lemma {:induction false} SubseqTrans(a: string, b: string, c: string)
    requires IsSubseq(a, b) && IsSubseq(b, c)
    ensures IsSubseq(a, c)
    decreases |c|
  {
    if a != [] {
      if IsSubseq(b, c[1..]) {
        SubseqTrans(a, b, c[1..]);
      } else if a[0] == b[0] && IsSubseq(a[1..], b[1..]) {
        SubseqTrans(a[1..], b[1..], c[1..]);
      } else {
        SubseqTrans(a, b[1..], c[1..]);
      }
    }
  }

  lemma {:induction false} SubseqLength(a: string, b: string)
    requires IsSubseq(a, b)
    ensures |a| <= |b|
    decreases |b|
  {
    if a != [] {
      if a[0] == b[0] && IsSubseq(a[1..], b[1..]) {
        SubseqLength(a[1..], b[1..]);
      } else {
        SubseqLength(a, b[1..]);
      }
    }
  }

  /** Keeping the group `s[p..q]` of a match that ends at `e`, followed by
      a subsequence of what comes after the match. */
  lemma KeepGroup(s: string, p: nat, q: nat, e: nat, after: string)
    requires p <= q <= e <= |s| && IsSubseq(after, s[e..])
    ensures IsSubseq(s[p..q] + after, s)
  {
    SubseqMiddle(s[..p], s[p..q], s[q..e]);
    SubseqConcat(s[p..q], s[..p] + s[p..q] + s[q..e], after, s[e..]);
    assert s == s[..p] + s[p..q] + s[q..e] + s[e..];
  }

  /** Keeping the first character, followed by a subsequence of the rest. */
  lemma KeepFirst(s: string, after: string)
    requires s != [] && IsSubseq(after, s[1..])
    ensures IsSubseq([s[0]] + after, s)
  {
    assert ([s[0]] + after)[1..] == after;
  }

  /** Keeping only the middle of a three-part text. */
  lemma SubseqMiddle(x: string, g: string, y: string)
    ensures IsSubseq(g, x + g + y)
  {
    SubseqRefl(g);
    SubseqConcat(g, g, [], y);
    assert g + [] == g;
    SubseqSkip(g, x, g + y);
    assert x + (g + y) == x + g + y;
  }

  // ---------------------------------------------------------------------
  // One lazy group

  predicate NoTerminator(t: string) {
    forall i | 0 <= i < |t| :: !IsLineTerminator(t[i])
  }

  /** `t[..n]` can be the group `(.+?)` when `close` follows it. */
  predicate GroupEndsAt(t: string, close: string, n: nat) {
    1 <= n <= |t| && NoTerminator(t[..n]) && StartsWith(t[n..], close)
  }

  /** The length of the lazy group `(.+?)` at the start of `t` followed by
      `close`, searching lengths from `k` upwards. */
  function LazyGroupFrom(t: string, close: string, k: nat): (r: Option<nat>)
    requires 1 <= k <= |t| + 1 && NoTerminator(t[..k - 1])
    ensures r.Some? ==> k <= r.value && GroupEndsAt(t, close, r.value)
    ensures forall m | k <= m && (r.None? || m < r.value) :: !GroupEndsAt(t, close, m)
    decreases |t| - k
  {
    if k > |t| then None
    else if IsLineTerminator(t[k - 1]) then
      assert forall m | m >= k :: m > |t| || t[..m][k - 1] == t[k - 1];
      None
    else
      assert t[..k] == t[..k - 1] + [t[k - 1]];
      if StartsWith(t[k..], close) then Some(k)
      else LazyGroupFrom(t, close, k + 1)
  }

  /** The lazy group of `.+?CLOSE`: the shortest possible one, if any. */
  function LazyGroup(t: string, close: string): (r: Option<nat>)
    ensures r.Some? ==> GroupEndsAt(t, close, r.value)
    ensures r.Some? ==> forall m: nat | m < r.value :: !GroupEndsAt(t, close, m)
    ensures r.None? ==> forall m :: !GroupEndsAt(t, close, m)
  {
    LazyGroupFrom(t, close, 1)
  }

  // ---------------------------------------------------------------------
  // `text.replace(/OPEN(.+?)CLOSE/g, '$1')`

  /** A match of `open (.+?) close` at the start of `s`, as the end of its
      group and the end of the whole match. */
  function DelimitedAt(s: string, open: string, close: string): (r: Option<(nat, nat)>)
    requires |open| >= 1
    ensures r.Some? ==> StartsWith(s, open) && |open| < r.value.0 <= r.value.1 <= |s|
    ensures r.Some? ==> GroupEndsAt(s[|open|..], close, r.value.0 - |open|) && r.value.1 == r.value.0 + |close|
    ensures r.Some? ==> forall m: nat | m < r.value.0 - |open| :: !GroupEndsAt(s[|open|..], close, m)
    ensures r.None? ==> !StartsWith(s, open) || forall m :: !GroupEndsAt(s[|open|..], close, m)
  {
    if StartsWith(s, open) && LazyGroup(s[|open|..], close).Some? then
      var n := LazyGroup(s[|open|..], close).value;
      Some((|open| + n, |open| + n + |close|))
    else None
  }

  /** Global replacement of every leftmost `open (.+?) close` match by its
      group: removes only characters, and leaves a text without the first
      character of `open` untouched. */
  function ReplaceDelimited(s: string, open: string, close: string): (r: string)
    requires |open| >= 1
    ensures IsSubseq(r, s)
    ensures open[0] !in s ==> r == s
    decreases |s|
  {
    if s == [] then []
    else
      match DelimitedAt(s, open, close)
      case Some((q, e)) =>
        var rest := ReplaceDelimited(s[e..], open, close);
        KeepGroup(s, |open|, q, e, rest);
        s[|open|..q] + rest
      case None =>
        var rest := ReplaceDelimited(s[1..], open, close);
        KeepFirst(s, rest);
        assert open[0] !in s ==> open[0] !in s[1..];
        [s[0]] + rest
  }

  // ---------------------------------------------------------------------
  // `text.replace(/\[(.+?)\]\(.+?\)/g, '$1')`

  /** A link `[t](u)` at the start of `s` whose text has length `n1` and
      whose whole match has length `len`. */
  predicate LinkMatch(s: string, n1: nat, len: nat) {
    && |s| >= 1 && s[0] == '['
    && GroupEndsAt(s[1..], "](", n1)
    && var u := s[1 + n1 + 2..];
       LazyGroup(u, ")").Some? && len == 1 + n1 + 2 + LazyGroup(u, ")").value + 1
  }

  /** Backtracking over the link text: the shortest text length from `k`
      upwards for which the rest of the pattern matches. */
  function LinkFrom(s: string, k: nat): (r: Option<(nat, nat)>)
    requires |s| >= 1 && s[0] == '[' && 1 <= k <= |s| && NoTerminator(s[1..][..k - 1])
    ensures r.Some? ==> k <= r.value.0 && LinkMatch(s, r.value.0, r.value.1)
    ensures r.Some? ==> r.value.1 <= |s|
    ensures forall m, len | k <= m && (r.None? || m < r.value.0) :: !LinkMatch(s, m, len)
    decreases |s| - k
  {
    var t := s[1..];
    if k > |t| then None
    else if IsLineTerminator(t[k - 1]) then
      TerminatorStopsLink(s, k);
      None
    else
      assert t[..k] == t[..k - 1] + [t[k - 1]];
      if StartsWith(t[k..], "](") && LazyGroup(s[1 + k + 2..], ")").Some? then
        Some((k, 1 + k + 2 + LazyGroup(s[1 + k + 2..], ")").value + 1))
      else
        NoLinkAt(s, k);
        LinkFrom(s, k + 1)
  }

  /** A line break inside the link text rules out every longer text. */
  lemma TerminatorStopsLink(s: string, k: nat)
    requires |s| >= 1 && 1 <= k < |s| && IsLineTerminator(s[1..][k - 1])
    ensures forall m, len | k <= m :: !LinkMatch(s, m, len)
  {
    var t := s[1..];
    assert forall m | k <= m <= |t| :: t[..m][k - 1] == t[k - 1];
  }

  /** Where the rest of the pattern fails to match, there is no link with
      text of that length. */
  lemma NoLinkAt(s: string, k: nat)
    requires |s| >= 1 && 1 <= k < |s|
    requires !(StartsWith(s[1..][k..], "](") && LazyGroup(s[1 + k + 2..], ")").Some?)
    ensures forall len :: !LinkMatch(s, k, len)
  {
  }

  function LinkAt(s: string): (r: Option<(nat, nat)>)
    ensures r.Some? ==> LinkMatch(s, r.value.0, r.value.1) && r.value.1 <= |s|
    ensures r.None? ==> forall m, len :: !LinkMatch(s, m, len)
  {
    if |s| >= 1 && s[0] == '[' then LinkFrom(s, 1) else None
  }

  /** Every link is replaced by its text; only characters are removed. */
  function ReplaceLinks(s: string): (r: string)
    ensures IsSubseq(r, s)
    ensures '[' !in s ==> r == s
    decreases |s|
  {
    if s == [] then []
    else if LinkAt(s).Some? then
      var (n1, len) := LinkAt(s).value;
      var g := s[1..1 + n1];
      var rest := s[len..];
      KeepGroup(s, 1, 1 + n1, len, ReplaceLinks(rest));
      g + ReplaceLinks(rest)
    else
      KeepFirst(s, ReplaceLinks(s[1..]));
      [s[0]] + ReplaceLinks(s[1..])
  }

  // ---------------------------------------------------------------------
  // stripInlineFormatting

  /** `stripInlineFormatting(text)`; an absent text is represented by "". */
  function StripInlineFormatting(text: string): string {
    if text == [] then []
    else
      var bold := ReplaceDelimited(text, "**", "**");
      var italic := ReplaceDelimited(bold, "*", "*");
      var bold2 := ReplaceDelimited(italic, "__", "__");
      var italic2 := ReplaceDelimited(bold2, "_", "_");
      var code := ReplaceDelimited(italic2, "`", "`");
      ReplaceLinks(code)
  }

  /** Stripping only deletes characters, so it never lengthens the text. */
  lemma StripRemovesOnly(text: string)
    ensures IsSubseq(StripInlineFormatting(text), text)
    ensures |StripInlineFormatting(text)| <= |text|
  {
    if text != [] {
      var bold := ReplaceDelimited(text, "**", "**");
      var italic := ReplaceDelimited(bold, "*", "*");
      var bold2 := ReplaceDelimited(italic, "__", "__");
      var italic2 := ReplaceDelimited(bold2, "_", "_");
      var code := ReplaceDelimited(italic2, "`", "`");
      var r := ReplaceLinks(code);
      SubseqTrans(italic, bold, text);
      SubseqTrans(bold2, italic, text);
      SubseqTrans(italic2, bold2, text);
      SubseqTrans(code, italic2, text);
      SubseqTrans(r, code, text);
      SubseqLength(r, text);
    }
  }

  /** Text with no `*`, `_`, backquote or `[` comes back unchanged. */
  lemma StripPlainText(text: string)
    requires '*' !in text && '_' !in text && '`' !in text && '[' !in text
    ensures StripInlineFormatting(text) == text
  {
  }

  /** Subsequences of a text avoid every character the text avoids. */
  lemma SubseqAvoids(a: string, b: string, c: char)
    requires IsSubseq(a, b) && c !in b
    ensures c !in a
    decreases |b|
  {
    if a != [] {
      if a[0] == b[0] && IsSubseq(a[1..], b[1..]) {
        SubseqAvoids(a[1..], b[1..], c);
      } else {
        SubseqAvoids(a, b[1..], c);
      }
    }
  }

  /** The bold rule on a small example. */
  lemma BoldExample()
    ensures ReplaceDelimited("**b**", "**", "**") == "b"
  {
    var s := "**b**";
    assert s[2..] == "b**" && "b**"[..0] == [] && "b**"[..1] == "b" && "b**"[1..] == "**";
    assert LazyGroupFrom("b**", "**", 1) == Some(1);
    assert DelimitedAt(s, "**", "**") == Some((3, 5));
    assert s[2..3] == "b" && s[5..] == [];
  }

  /** The link rule on a small example. */
  lemma LinkExample()
    ensures ReplaceLinks("[t](u)") == "t"
  {
    var s := "[t](u)";
    assert s[1..] == "t](u)" && "t](u)"[..0] == [] && "t](u)"[..1] == "t" && "t](u)"[1..] == "](u)";
    assert s[4..] == "u)" && "u)"[..0] == [] && "u)"[..1] == "u" && "u)"[1..] == ")";
    assert LazyGroupFrom("u)", ")", 1) == Some(1);
    assert LinkFrom(s, 1) == Some((1, 6));
    assert s[1..2] == "t" && s[6..] == [];
  }
}

=== FILE: js_text.dfy ===
/** The JavaScript string and number primitives the program leans on:
    `trim`, `toLowerCase`, `split`/`join`, `startsWith`/`endsWith`,
    number-to-string, `parseInt`, `parseFloat`, `Number` and the
    `Math.floor`/`Math.ceil`/`Math.round` family, over unbounded numbers. */
module JsText {
  import opened Wrappers

  // ---------------------------------------------------------------------
  // Characters

  /** The characters a regular-expression `.` refuses to match. */
  predicate IsLineTerminator(c: char) {
    c == '\n' || c == '\r' || c == '\U{2028}' || c == '\U{2029}'
  }

  /** White space as `trim`, `parseInt`, `parseFloat` and `Number` skip it. */
  predicate IsWhite(c: char) {
    || IsLineTerminator(c)
    || c == ' ' || c == '\t' || c == '\U{000B}' || c == '\U{000C}'
    || c == '\U{00A0}' || c == '\U{1680}' || ('\U{2000}' <= c <= '\U{200A}')
    || c == '\U{202F}' || c == '\U{205F}' || c == '\U{3000}' || c == '\U{FEFF}'
  }

  predicate IsDigit(c: char) {
    '0' <= c <= '9'
  }

  predicate IsAsciiLetter(c: char) {
    ('a' <= c <= 'z') || ('A' <= c <= 'Z')
  }

  /** A character of the class `[a-zA-Z0-9]`. */
  predicate IsAlnum(c: char) {
    IsAsciiLetter(c) || IsDigit(c)
  }

  predicate IsBlank(s: string) {
    forall i | 0 <= i < |s| :: IsWhite(s[i])
  }

  // ---------------------------------------------------------------------
  // trim

  /** `trimStart`: the longest suffix that does not begin with white space. */
  function TrimStart(s: string): (r: string)
    ensures |r| <= |s| && r == s[|s| - |r|..]
    ensures r == [] || !IsWhite(r[0])
  {
    if |s| > 0 && IsWhite(s[0]) then TrimStart(s[1..]) else s
  }

  /** `trimEnd`: the longest prefix that does not end in white space. */
  function TrimEnd(s: string): (r: string)
    ensures |r| <= |s| && r == s[..|r|]
    ensures r == [] || !IsWhite(r[|r| - 1])
  {
    if |s| > 0 && IsWhite(s[|s| - 1]) then TrimEnd(s[..|s| - 1]) else s
  }

  function Trim(s: string): string {
    TrimEnd(TrimStart(s))
  }

  /** `s.trim()` is empty exactly when `s` is all white space. */
  lemma TrimEmptyIffBlank(s: string)
    ensures Trim(s) == [] <==> IsBlank(s)
  {
    TrimStartEmptyIffBlank(s);
    var t := TrimStart(s);
    if t != [] {
      assert TrimEnd(t) != [] by {
        TrimEndKeepsFirst(t);
      }
    }
  }

  lemma {:induction false} TrimStartEmptyIffBlank(s: string)
    ensures TrimStart(s) == [] <==> IsBlank(s)
  {
    if |s| > 0 && IsWhite(s[0]) {
      TrimStartEmptyIffBlank(s[1..]);
      BlankAfterWhite(s);
    } else if |s| > 0 {
      assert !IsBlank(s);
    }
  }

  lemma BlankAfterWhite(s: string)
    requires |s| > 0 && IsWhite(s[0])
    ensures IsBlank(s) <==> IsBlank(s[1..])
  {
    if IsBlank(s[1..]) {
      forall i | 0 <= i < |s| ensures IsWhite(s[i]) {
        if i > 0 {
          assert s[i] == s[1..][i - 1];
        }
      }
    }
  }

  /** Trimming the end of a text that starts with a non-space keeps that start. */
  lemma {:induction false} TrimEndKeepsFirst(t: string)
    requires t != [] && !IsWhite(t[0])
    ensures TrimEnd(t) != []
  {
    if |t| > 1 && IsWhite(t[|t| - 1]) {
      TrimEndKeepsFirst(t[..|t| - 1]);
    }
  }

  // ---------------------------------------------------------------------
  // toLowerCase (ASCII letters only)

  function LowerChar(c: char): char {
    if 'A' <= c <= 'Z' then (c as int + 32) as char else c
  }

  function ToLower(s: string): (r: string)
    ensures |r| == |s|
    ensures forall i | 0 <= i < |s| :: r[i] == LowerChar(s[i])
  {
    seq(|s|, i requires 0 <= i < |s| => LowerChar(s[i]))
  }

  /** Lower-casing twice is lower-casing once. */
  lemma ToLowerIdempotent(s: string)
    ensures ToLower(ToLower(s)) == ToLower(s)
  {
  }

  // ---------------------------------------------------------------------
  // startsWith / endsWith / split / join

  predicate StartsWith(s: string, p: string) {
    |p| <= |s| && s[..|p|] == p
  }

  predicate EndsWith(s: string, p: string) {
    |p| <= |s| && s[|s| - |p|..] == p
  }

  /** The index of the first occurrence of `c` (`indexOf`). */
  function IndexOf(s: string, c: char): (i: nat)
    requires c in s
    ensures i < |s| && s[i] == c && c !in s[..i]
  {
    if s[0] == c then 0 else 1 + IndexOf(s[1..], c)
  }

  /** `parts.join(sep)` */
  function Join(parts: seq<string>, sep: char): string {
    if |parts| == 0 then ""
    else if |parts| == 1 then parts[0]
    else parts[0] + [sep] + Join(parts[1..], sep)
  }

  /** `s.split(sep)` for a one-character separator: never empty, no piece
      holds the separator, and joining the pieces back gives `s`. */
  function Split(s: string, sep: char): (parts: seq<string>)
    ensures |parts| >= 1
    ensures forall i | 0 <= i < |parts| :: sep !in parts[i]
    ensures Join(parts, sep) == s
    decreases |s|
  {
    if sep !in s then [s]
    else
      var i := IndexOf(s, sep);
      var rest := Split(s[i + 1..], sep);
      assert s == s[..i] + [sep] + s[i + 1..];
      [s[..i]] + rest
  }

  /** Pieces joined by a separator none of them holds split back into
      the same pieces. */
  lemma {:induction false} SplitJoin(parts: seq<string>, sep: char)
    requires |parts| >= 1 && forall k | 0 <= k < |parts| :: sep !in parts[k]
    ensures Split(Join(parts, sep), sep) == parts
    decreases |parts|
  {
    if |parts| > 1 {
      var rest := Join(parts[1..], sep);
      assert Join(parts, sep) == parts[0] + [sep] + rest;
      SplitAtFirst(parts[0], sep, rest);
      SplitJoin(parts[1..], sep);
      assert parts == [parts[0]] + parts[1..];
    }
  }

  /** Splitting at a first separator: the piece before it, then the
      pieces of the rest. */
  lemma SplitAtFirst(a: string, sep: char, b: string)
    requires sep !in a
    ensures Split(a + [sep] + b, sep) == [a] + Split(b, sep)
  {
    var s := a + [sep] + b;
    assert s[|a|] == sep;
    var i := IndexOf(s, sep);
    assert s[..|a|] == a;
    assert s[..i] == a && s[i + 1..] == b;
  }

  /** `parts.join('')` */
  function Concat(parts: seq<string>): (r: string)
    ensures |parts| == 1 ==> r == parts[0]
  {
    if parts == [] then "" else parts[0] + Concat(parts[1..])
  }

  lemma {:induction false} ConcatAppend(a: seq<string>, b: seq<string>)
    ensures Concat(a + b) == Concat(a) + Concat(b)
  {
    if a != [] {
      ConcatAppend(a[1..], b);
      assert (a + b)[1..] == a[1..] + b;
    } else {
      assert a + b == b;
    }
  }

  /** The number of occurrences of `c` in `s`. */
  function Count(s: string, c: char): nat {
    if s == [] then 0 else (if s[0] == c then 1 else 0) + Count(s[1..], c)
  }

  lemma {:induction false} CountAppend(a: string, b: string, c: char)
    ensures Count(a + b, c) == Count(a, c) + Count(b, c)
  {
    if a != [] {
      CountAppend(a[1..], b, c);
      assert (a + b)[1..] == a[1..] + b;
    } else {
      assert a + b == b;
    }
  }

  lemma {:induction false} CountAbsent(s: string, c: char)
    requires c !in s
    ensures Count(s, c) == 0
  {
    if s != [] {
      CountAbsent(s[1..], c);
    }
  }

  /** Splitting on a character yields one more piece than there are
      occurrences of it. */
  lemma {:induction false} SplitCount(s: string, sep: char)
    ensures |Split(s, sep)| == Count(s, sep) + 1
    decreases |s|
  {
    if sep !in s {
      CountAbsent(s, sep);
    } else {
      var i := IndexOf(s, sep);
      SplitCount(s[i + 1..], sep);
      assert s == s[..i] + ([sep] + s[i + 1..]);
      CountAppend(s[..i], [sep] + s[i + 1..], sep);
      CountAppend([sep], s[i + 1..], sep);
      CountAbsent(s[..i], sep);
    }
  }

  /** A separator inside `s` yields at least two pieces. */
  lemma SplitAtLeastTwo(s: string, sep: char)
    requires sep in s
    ensures |Split(s, sep)| >= 2
  {
  }

  /** The number of characters after the last `sep`, or `|s|` when there
      is none. */
  function PartLength(s: string, sep: char): (n: nat)
    ensures n <= |s|
    ensures forall i | |s| - n <= i < |s| :: s[i] != sep
    ensures n < |s| ==> s[|s| - n - 1] == sep
  {
    if s == [] || s[|s| - 1] == sep then 0 else PartLength(s[..|s| - 1], sep) + 1
  }

  /** The text after the last `sep`, or all of `s` when there is none:
      `s.split(sep).pop()`. */
  function LastPart(s: string, sep: char): (r: string)
    ensures sep !in r && |r| <= |s| && r == s[|s| - |r|..]
    ensures sep in s ==> |r| < |s| && s[|s| - |r| - 1] == sep
    ensures sep !in s ==> r == s
  {
    var n := PartLength(s, sep);
    var r := s[|s| - n..];
    assert forall j | 0 <= j < |r| :: r[j] == s[|s| - n + j];
    assert n == |s| ==> r == s;
    r
  }

  /** One more character that is not the separator extends the last part. */
  lemma LastPartSnoc(s: string, sep: char, c: char)
    requires c != sep
    ensures LastPart(s + [c], sep) == LastPart(s, sep) + [c]
  {
    var q := s + [c];
    assert q[..|q| - 1] == s && q[|q| - 1] == c;
    var n := PartLength(s, sep);
    assert PartLength(q, sep) == n + 1;
    assert q[|q| - (n + 1)..] == s[|s| - n..] + [c];
  }

  /** Text without the separator appended to a string extends its last
      part by exactly that text. */
  lemma {:induction false} LastPartAppend(a: string, sep: char, t: string)
    requires sep !in t
    ensures LastPart(a + t, sep) == LastPart(a, sep) + t
    decreases |t|
  {
    if t == [] {
      assert a + t == a;
    } else {
      var u, c := t[..|t| - 1], t[|t| - 1];
      SplitLast(a, t);
      LastPartSnoc(a + u, sep, c);
      LastPartAppend(a, sep, u);
      SplitLast(LastPart(a, sep), t);
    }
  }

  /** Appending a non-empty `t` is appending all of it but its last
      element, then that element. */
  lemma SplitLast<T>(a: seq<T>, t: seq<T>)
    requires t != []
    ensures a + t == (a + t[..|t| - 1]) + [t[|t| - 1]]
    ensures t[|t| - 1] in t
  {
    assert t == t[..|t| - 1] + [t[|t| - 1]];
  }

  /** Whatever comes before, the last part of `a + sep + b` is `b` when `b`
      has no separator. */
  lemma LastPartAfter(a: string, sep: char, b: string)
    requires sep !in b
    ensures LastPart(a + [sep] + b, sep) == b
  {
    var s := a + [sep] + b;
    assert s[|a|] == sep;
    assert s[|s| - |b|..] == b;
  }

  // ---------------------------------------------------------------------
  // Numbers to text

  function DigitChar(d: nat): char
    requires d < 10
  {
    ('0' as int + d) as char
  }

  /** `String(n)` for a non-negative integer. */
  function NatToString(n: nat): (r: string)
    ensures |r| >= 1 && forall i | 0 <= i < |r| :: IsDigit(r[i])
    ensures n > 0 ==> r[0] != '0'
  {
    if n < 10 then [DigitChar(n)] else NatToString(n / 10) + [DigitChar(n % 10)]
  }

  /** `String(n)` for any integer. */
  function IntToString(n: int): string {
    if n < 0 then "-" + NatToString(-n) else NatToString(n)
  }

  /** `padStart(2, '0')` */
  function Pad2(s: string): (r: string)
    ensures |r| == if |s| >= 2 then |s| else 2
  {
    if |s| >= 2 then s else if |s| == 1 then "0" + s else "00"
  }

  // ---------------------------------------------------------------------
  // Text to numbers

  /** The value of a digit in bases up to 16; 99 for anything else. */
  function DigitValue(c: char): nat {
    if IsDigit(c) then c as int - '0' as int
    else if 'a' <= c <= 'f' then c as int - 'a' as int + 10
    else if 'A' <= c <= 'F' then c as int - 'A' as int + 10
    else 99
  }

  /** The length of the longest prefix of digits of base `radix`. */
  function DigitRun(s: string, radix: nat): (n: nat)
    ensures n <= |s|
    ensures forall i | 0 <= i < n :: DigitValue(s[i]) < radix
    ensures n < |s| ==> DigitValue(s[n]) >= radix
  {
    if |s| > 0 && DigitValue(s[0]) < radix then 1 + DigitRun(s[1..], radix) else 0
  }

  /** The positional value of a run of digits. */
  function DigitsValue(ds: string, radix: nat): nat
    requires forall i | 0 <= i < |ds| :: DigitValue(ds[i]) < radix
  {
    if |ds| == 0 then 0
    else DigitsValue(ds[..|ds| - 1], radix) * radix + DigitValue(ds[|ds| - 1])
  }

  /** `parseInt(s)` (radix 10) and `parseInt(s, 16)` (radix 16): skip
      leading white space, take an optional sign, drop a `0x`/`0X` prefix
      (which switches to base 16), then read the longest run of digits;
      `None` is `NaN`. */
  function ParseIntRadix(s: string, radix: nat): Option<int>
    requires radix == 10 || radix == 16
  {
    var t := TrimStart(s);
    match ParseUnsigned(Unsigned(t), radix)
    case None => None
    case Some(magnitude) => Some(if IsNegative(t) then -(magnitude as int) else magnitude)
  }

  predicate IsNegative(t: string) {
    |t| > 0 && t[0] == '-'
  }

  /** The text after an optional leading sign. */
  function Unsigned(t: string): string {
    if |t| > 0 && (t[0] == '-' || t[0] == '+') then t[1..] else t
  }

  /** The unsigned part of `parseInt`: an optional `0x` prefix, then digits. */
  function ParseUnsigned(u: string, radix: nat): Option<nat>
    requires radix == 10 || radix == 16
  {
    var hexPrefix := |u| >= 2 && u[0] == '0' && (u[1] == 'x' || u[1] == 'X');
    var v := if hexPrefix then u[2..] else u;
    var r := if hexPrefix then 16 else radix;
    var n := DigitRun(v, r);
    if n == 0 then None else Some(DigitsValue(v[..n], r))
  }

  /** `parseInt(s)` */
  function ParseInt(s: string): Option<int> {
    ParseIntRadix(s, 10)
  }

  lemma {:induction false} DigitsValueOfNatToString(n: nat)
    ensures forall i | 0 <= i < |NatToString(n)| :: DigitValue(NatToString(n)[i]) < 10
    ensures DigitsValue(NatToString(n), 10) == n
  {
    var r := NatToString(n);
    if n >= 10 {
      DigitsValueOfNatToString(n / 10);
      assert r[..|r| - 1] == NatToString(n / 10);
    }
  }

  /** Reading back a printed integer gives the integer: `parseInt(String(n)) == n`. */
  lemma {:induction false} ParseIntOfIntToString(n: int)
    ensures ParseInt(IntToString(n)) == Some(n)
  {
    var m: nat := if n < 0 then -n else n;
    ParseUnsignedOfNatToString(m);
    ParseIntOfDigits(NatToString(m), n < 0, m);
  }

  lemma ParseUnsignedOfNatToString(m: nat)
    ensures ParseUnsigned(NatToString(m), 10) == Some(m)
  {
    DigitsValueOfNatToString(m);
    ParseUnsignedOfDigits(NatToString(m));
  }

  /** `parseInt` of an optionally negated run of decimal digits. */
  lemma ParseIntOfDigits(digits: string, negative: bool, v: nat)
    requires |digits| >= 1 && IsDigit(digits[0]) && ParseUnsigned(digits, 10) == Some(v)
    ensures ParseInt(if negative then ['-'] + digits else digits) == Some(if negative then -(v as int) else v)
  {
    SignedDigits(digits, negative);
    ParseIntFromParts(if negative then ['-'] + digits else digits, digits, v, negative);
  }

  lemma ParseIntFromParts(s: string, digits: string, v: nat, negative: bool)
    requires TrimStart(s) == s && Unsigned(s) == digits && IsNegative(s) == negative
    requires ParseUnsigned(digits, 10) == Some(v)
    ensures ParseInt(s) == Some(if negative then -(v as int) else v)
  {
    ParseIntUnfold(s);
  }

  lemma {:induction false} SignedDigits(digits: string, negative: bool)
    requires |digits| >= 1 && IsDigit(digits[0])
    ensures var s := if negative then ['-'] + digits else digits;
            TrimStart(s) == s && Unsigned(s) == digits && IsNegative(s) == negative
  {
    if negative {
      var s := ['-'] + digits;
      assert s[0] == '-';
      NoLeadingWhite(s);
      assert s[1..] == digits;
    } else {
      assert digits[0] != '-' && digits[0] != '+';
      NoLeadingWhite(digits);
    }
  }

  /** `parseInt` of a printed natural number followed by text that cannot
      continue a number reads back the number. */
  lemma {:induction false} ParseIntOfNatThen(n: nat, rest: string)
    requires rest == [] || !IsAlnum(rest[0])
    ensures ParseInt(NatToString(n) + rest) == Some(n)
  {
    var digits := NatToString(n);
    var s := digits + rest;
    DigitsValueOfNatToString(n);
    assert s[0] == digits[0];
    NoLeadingWhite(s);
    assert Unsigned(s) == s;
    assert !(|s| >= 2 && s[0] == '0' && (s[1] == 'x' || s[1] == 'X')) by {
      if |s| >= 2 && s[0] == '0' && |digits| == 1 {
        assert s[1] == rest[0];
      }
    }
    DigitRunStops(digits, rest, 10);
    assert s[..|digits|] == digits;
    ParseIntUnfold(s);
  }

  /** The longest digit run of `digits + rest` is `digits` when `rest` does
      not start with a digit. */
  lemma {:induction false} DigitRunStops(digits: string, rest: string, radix: nat)
    requires forall i | 0 <= i < |digits| :: DigitValue(digits[i]) < radix
    requires rest == [] || DigitValue(rest[0]) >= radix
    ensures DigitRun(digits + rest, radix) == |digits|
  {
    if digits != [] {
      DigitRunStops(digits[1..], rest, radix);
      assert (digits + rest)[1..] == digits[1..] + rest;
    } else {
      assert digits + rest == rest;
    }
  }

  /** `parseInt` of a text that starts with neither white space, a sign nor
      a digit is `NaN`. */
  lemma {:induction false} ParseIntOfNonNumber(s: string)
    requires |s| > 0 && !IsWhite(s[0]) && !IsDigit(s[0]) && s[0] != '-' && s[0] != '+'
    ensures ParseInt(s) == None
  {
    assert TrimStart(s) == s;
    assert Unsigned(s) == s;
    ParseIntUnfold(s);
  }

  lemma {:induction false} ParseIntUnfold(s: string)
    requires TrimStart(s) == s
    ensures ParseInt(s) == match ParseUnsigned(Unsigned(s), 10)
                           case None => None
                           case Some(m) => Some(if IsNegative(s) then -(m as int) else m)
  {
  }

  lemma {:induction false} NoLeadingWhite(s: string)
    requires |s| > 0 && (s[0] == '-' || IsDigit(s[0]))
    ensures TrimStart(s) == s
  {
    assert !IsWhite(s[0]);
  }

  lemma {:induction false} ParseUnsignedOfDigits(digits: string)
    requires |digits| >= 1 && forall i | 0 <= i < |digits| :: IsDigit(digits[i])
    ensures forall i | 0 <= i < |digits| :: DigitValue(digits[i]) < 10
    ensures ParseUnsigned(digits, 10) == Some(DigitsValue(digits, 10))
  {
    assert !(|digits| >= 2 && digits[0] == '0' && (digits[1] == 'x' || digits[1] == 'X')) by {
      if |digits| >= 2 {
        assert IsDigit(digits[1]);
      }
    }
    DigitRunAll(digits, 10);
    assert digits[..|digits|] == digits;
  }

  lemma DigitRunAll(s: string, radix: nat)
    requires forall i | 0 <= i < |s| :: DigitValue(s[i]) < radix
    ensures DigitRun(s, radix) == |s|
  {
  }

  /** The value and length of the longest prefix of `s` that is a decimal
      literal `[+-] digits [. digits]` or `[+-] . digits`. */
  function ScanDecimal(s: string): (r: Option<(real, nat)>)
    ensures r.Some? ==> 0 < r.value.1 <= |s|
  {
    var k := if |s| > 0 && (s[0] == '+' || s[0] == '-') then 1 else 0;
    var rest := s[k..];
    var intRun := DigitRun(rest, 10);
    var hasDot := intRun < |rest| && rest[intRun] == '.';
    var fracRun := if hasDot then DigitRun(rest[intRun + 1..], 10) else 0;
    if intRun + fracRun == 0 then None
    else
      var whole := LeadingValue(rest) as real;
      var frac := if hasDot then LeadingValue(rest[intRun + 1..]) as real / Pow10(fracRun) as real else 0.0;
      var magnitude := whole + frac;
      var length := k + intRun + (if hasDot then 1 + fracRun else 0);
      Some((if k == 1 && s[0] == '-' then -magnitude else magnitude, length))
  }

  /** The value of the decimal digits `s` starts with. */
  function LeadingValue(s: string): nat {
    DigitsValue(s[..DigitRun(s, 10)], 10)
  }

  function Pow10(n: nat): (p: nat)
    ensures p >= 1
  {
    if n == 0 then 1 else 10 * Pow10(n - 1)
  }

  /** `parseFloat(s)`: the longest decimal prefix after leading white space. */
  function ParseFloat(s: string): Option<real> {
    match ScanDecimal(TrimStart(s))
    case Some((v, _)) => Some(v)
    case None => None
  }

  /** `Number(s)`: white space around the text is ignored, the empty text is
      0, and otherwise the whole remaining text must be a decimal literal. */
  function ToNumber(s: string): Option<real> {
    var t := Trim(s);
    if t == [] then Some(0.0)
    else match ScanDecimal(t)
      case Some((v, n)) => if n == |t| then Some(v) else None
      case None => None
  }

  // ---------------------------------------------------------------------
  // String length

  /** `.length` of a JavaScript string: it counts UTF-16 code units, so a
      character outside the Basic Multilingual Plane counts twice. */
  function Utf16Length(s: string): (n: nat)
    ensures |s| <= n <= 2 * |s|
    ensures n == 0 <==> s == []
    ensures (forall k | 0 <= k < |s| :: s[k] as int < 0x1_0000) ==> n == |s|
  {
    if s == [] then 0 else (if s[0] as int < 0x1_0000 then 1 else 2) + Utf16Length(s[1..])
  }

  /** The length of a concatenation is the sum of the lengths. */
  lemma {:induction false} Utf16LengthAppend(a: string, b: string)
    ensures Utf16Length(a + b) == Utf16Length(a) + Utf16Length(b)
    decreases |a|
  {
    if a != [] {
      Utf16LengthAppend(a[1..], b);
      var ab := a + b;
      assert ab != [] && ab[0] == a[0] && ab[1..] == a[1..] + b;
      var head := if a[0] as int < 0x1_0000 then 1 else 2;
      assert Utf16Length(ab) == head + Utf16Length(ab[1..]);
      assert Utf16Length(a) == head + Utf16Length(a[1..]);
    } else {
      assert a + b == b;
    }
  }

  /** A single character beyond U+FFFF, such as an emoji, has length 2. */
  lemma AstralLength(c: char)
    requires c as int >= 0x1_0000
    ensures Utf16Length([c]) == 2
  {
    assert [c][1..] == [];
  }

  // ---------------------------------------------------------------------
  // Math.floor / Math.ceil / Math.round

  function Floor(r: real): int {
    r.Floor
  }

  function Ceil(r: real): (c: int)
    ensures c as real >= r && (c as real) - 1.0 < r
  {
    -((-r).Floor)
  }

  /** `Math.round`: halves round towards positive infinity. */
  function Round(r: real): (n: int)
    ensures r - 0.5 < n as real <= r + 0.5
  {
    (r + 0.5).Floor
  }

  /** `Math.ceil(a / b)` for integers, with a positive divisor. */
  function CeilDiv(a: int, b: int): (q: int)
    requires b > 0
    ensures (q - 1) * b < a <= q * b
  {
    if a % b == 0 then a / b else a / b + 1
  }
}

=== FILE: list_order.dfy ===
/** The ordered file lists of the PDF-merging page (`pages/tools/pdf-merge`)
    and the image-to-PDF page (`pages/image-to-pdf`): adding, deleting,
    moving an entry up or down, and the checks before the list is handed
    on. The order of the list is the order of the output document. Indices
    come from the rendered list, so they are always positions of it. */
module ListOrder {
  import opened Wrappers
  import opened JsText

  // ---------------------------------------------------------------------
  // Splicing

  /** `list.splice(i, 1)`: the entry at `i` goes, the rest close up. */
  function Remove<T>(s: seq<T>, i: nat): (r: seq<T>)
    requires i < |s|
    ensures |r| == |s| - 1
    ensures forall k | 0 <= k < i :: r[k] == s[k]
    ensures forall k | i <= k < |r| :: r[k] == s[k + 1]
    ensures multiset(r) + multiset{s[i]} == multiset(s)
  {
    assert s == s[..i] + [s[i]] + s[i + 1..];
    s[..i] + s[i + 1..]
  }

  /** `list.splice(i, 0, x)`: `x` goes in at `i`, the rest move along. */
  function InsertAt<T>(s: seq<T>, i: nat, x: T): (r: seq<T>)
    requires i <= |s|
    ensures |r| == |s| + 1 && r[i] == x
    ensures forall k | 0 <= k < i :: r[k] == s[k]
    ensures forall k | i < k < |r| :: r[k] == s[k - 1]
    ensures multiset(r) == multiset(s) + multiset{x}
  {
    assert s == s[..i] + s[i..];
    s[..i] + [x] + s[i..]
  }

  /** `swapCards(from, to)`: the entry at `from` is taken out and put back
      in at `to`. It ends up at `to`, the list keeps its length and its
      entries, and the other entries keep their order. */
  function SwapCards<T>(s: seq<T>, from: nat, to: nat): (r: seq<T>)
    requires from < |s| && to < |s|
    ensures |r| == |s| && r[to] == s[from]
    ensures multiset(r) == multiset(s)
    ensures Remove(r, to) == Remove(s, from)
  {
    var r := InsertAt(Remove(s, from), to, s[from]);
    assert Remove(r, to) == Remove(s, from);
    r
  }

  /** Two entries trade places and nothing else changes. */
  function Exchange<T>(s: seq<T>, i: nat, j: nat): (r: seq<T>)
    requires i < |s| && j < |s|
    ensures |r| == |s| && r[i] == s[j] && r[j] == s[i]
    ensures forall k | 0 <= k < |s| && k != i && k != j :: r[k] == s[k]
    ensures multiset(r) == multiset(s)
  {
    s[i := s[j]][j := s[i]]
  }

  // ---------------------------------------------------------------------
  // The image-to-PDF page

  /** `addImages`: the chosen paths after the existing ones. */
  function AddImages(images: seq<string>, chosen: seq<string>): (r: seq<string>)
    ensures |r| == |images| + |chosen|
    ensures r[..|images|] == images && r[|images|..] == chosen
  {
    images + chosen
  }

  /** `deleteImage` of the image-to-PDF page and `deletePDF` of the merge
      page: once the dialog is confirmed, the entry at `index` leaves the
      list and the others keep their order; a cancelled dialog changes
      nothing. */
  function DeleteConfirmed<T>(items: seq<T>, index: nat, confirmed: bool): (r: seq<T>)
    requires index < |items|
    ensures !confirmed ==> r == items
    ensures confirmed ==> |r| == |items| - 1 && multiset(r) + multiset{items[index]} == multiset(items)
    ensures confirmed ==> forall k | 0 <= k < |r| :: r[k] == items[if k < index then k else k + 1]
  {
    if confirmed then Remove(items, index) else items
  }

  /** `moveUp` of the image-to-PDF page: a swap with the entry above. */
  function ImageMoveUp(images: seq<string>, index: nat): (r: seq<string>)
    requires index < |images|
    ensures index == 0 ==> r == images
    ensures index > 0 ==> && |r| == |images| && r[index - 1] == images[index] && r[index] == images[index - 1]
                          && forall k | 0 <= k < |images| && k != index && k != index - 1 :: r[k] == images[k]
  {
    if index == 0 then images else Exchange(images, index, index - 1)
  }

  /** `moveDown` of the image-to-PDF page: a swap with the entry below. */
  function ImageMoveDown(images: seq<string>, index: nat): (r: seq<string>)
    requires index < |images|
    ensures index == |images| - 1 ==> r == images
    ensures index < |images| - 1 ==> && |r| == |images| && r[index + 1] == images[index] && r[index] == images[index + 1]
                                     && forall k | 0 <= k < |images| && k != index && k != index + 1 :: r[k] == images[k]
  {
    if index == |images| - 1 then images else Exchange(images, index, index + 1)
  }

  /** Moving an entry up and then moving it down again restores the list. */
  lemma MoveUpThenDown(images: seq<string>, index: nat)
    requires 0 < index < |images|
    ensures ImageMoveDown(ImageMoveUp(images, index), index - 1) == images
  {
    var up := ImageMoveUp(images, index);
    var back := ImageMoveDown(up, index - 1);
    assert forall k | 0 <= k < |images| :: back[k] == images[k];
  }

  /** `generatePDF`: an empty list is refused; otherwise the images go to
      the generator in list order. */
  function GeneratePdf(images: seq<string>): (r: Result<seq<string>>)
    ensures r.Failure? <==> images == []
    ensures r.Failure? ==> r.error == "请先添加图片"
    ensures r.Success? ==> r.value == images
  {
    if images == [] then Failure("请先添加图片") else Success(images)
  }

  // ---------------------------------------------------------------------
  // The PDF-merging page

  /** A file as the picker returns it. */
  datatype Picked = Picked(path: string, name: string, size: int)

  /** The largest file accepted, 50 MB. */
  const MaxPdfBytes: int := 50 * 1024 * 1024

  /** A picked file is kept when its name ends in `.pdf` in any letter
      case and it is no larger than 50 MB. */
  predicate Accepted(f: Picked) {
    EndsWith(ToLower(f.name), ".pdf") && f.size <= MaxPdfBytes
  }

  /** The kept files in selection order. */
  function KeepPdfs(files: seq<Picked>): (r: seq<Picked>)
    ensures |r| <= |files|
    ensures forall k | 0 <= k < |r| :: Accepted(r[k]) && r[k] in files
    ensures forall f | f in files && Accepted(f) :: f in r
  {
    if files == [] then []
    else (if Accepted(files[0]) then [files[0]] else []) + KeepPdfs(files[1..])
  }

  /** Choosing files in two batches keeps what choosing them at once
      would keep, in the same order. */
  lemma {:induction false} KeepPdfsAppend(a: seq<Picked>, b: seq<Picked>)
    ensures KeepPdfs(a + b) == KeepPdfs(a) + KeepPdfs(b)
    decreases |a|
  {
    if a == [] {
      assert a + b == b;
    } else {
      assert (a + b)[1..] == a[1..] + b;
      KeepPdfsAppend(a[1..], b);
    }
  }

  /** A list of acceptable files is kept whole. */
  lemma {:induction false} KeepPdfsAll(files: seq<Picked>)
    requires forall k | 0 <= k < |files| :: Accepted(files[k])
    ensures KeepPdfs(files) == files
    decreases |files|
  {
    if files != [] {
      KeepPdfsAll(files[1..]);
    }
  }

  /** `choosePDF` after the picker: the kept files are appended after the
      listed ones, and the message counts them. */
  function ChoosePdf(listed: seq<Picked>, picked: seq<Picked>): (r: (seq<Picked>, string))
    ensures |r.0| == |listed| + |KeepPdfs(picked)|
    ensures r.0[..|listed|] == listed && r.0[|listed|..] == KeepPdfs(picked)
    ensures r.1 == if KeepPdfs(picked) == [] then "未选择有效的PDF文件"
                   else "已添加 " + IntToString(|KeepPdfs(picked)|) + " 个PDF"
  {
    var kept := KeepPdfs(picked);
    (listed + kept, if kept == [] then "未选择有效的PDF文件" else "已添加 " + IntToString(|kept|) + " 个PDF")
  }

  /** `clearAll`: nothing to do on an empty list; otherwise, once
      confirmed, no files and no merged result. */
  function ClearAll(files: seq<Picked>, merged: Option<string>, confirmed: bool): (r: (seq<Picked>, Option<string>))
    ensures files == [] || !confirmed ==> r == (files, merged)
    ensures files != [] && confirmed ==> r == ([], None)
  {
    if files == [] || !confirmed then (files, merged) else ([], None)
  }

  /** `moveUp` of the merging page. */
  function MergeMoveUp(files: seq<Picked>, index: nat): (r: seq<Picked>)
    requires index < |files|
    ensures index == 0 ==> r == files
    ensures index > 0 ==> r == SwapCards(files, index, index - 1)
  {
    if index == 0 then files else SwapCards(files, index, index - 1)
  }

  /** `moveDown` of the merging page. */
  function MergeMoveDown(files: seq<Picked>, index: nat): (r: seq<Picked>)
    requires index < |files|
    ensures index == |files| - 1 ==> r == files
    ensures index < |files| - 1 ==> r == SwapCards(files, index, index + 1)
  {
    if index == |files| - 1 then files else SwapCards(files, index, index + 1)
  }

  /** Moving a card one place is exchanging it with its neighbour: both
      pages move entries the same way. */
  lemma SwapNeighbours<T>(s: seq<T>, i: nat, j: nat)
    requires i < |s| && j < |s| && (j == i + 1 || i == j + 1)
    ensures SwapCards(s, i, j) == Exchange(s, i, j)
  {
    var r := SwapCards(s, i, j);
    var e := Exchange(s, i, j);
    assert forall k | 0 <= k < |s| :: r[k] == e[k] by {
      forall k | 0 <= k < |s| ensures r[k] == e[k] {
        var m := Remove(s, i);
        assert r == InsertAt(m, j, s[i]);
      }
    }
  }

  /** How `startMerge` ends: refused with a message, declined in the
      confirmation dialog, or the merge of the uploaded ids. */
  datatype MergeStart = TooFew(message: string) | Declined | Merge(fileIDs: seq<string>)

  /** `startMerge`: fewer than two files are refused before any dialog;
      otherwise the user is asked to confirm, and only then are the files
      uploaded one by one in list order, the merge receiving the uploaded
      ids in that order. */
  function StartMerge(files: seq<Picked>, confirmed: bool, upload: string -> string): (r: MergeStart)
    ensures r.TooFew? <==> |files| < 2
    ensures r.TooFew? ==> r.message == "至少需要2个PDF文件"
    ensures r.Declined? <==> |files| >= 2 && !confirmed
    ensures r.Merge? ==> && confirmed
                         && |r.fileIDs| == |files| && forall k | 0 <= k < |files| :: r.fileIDs[k] == upload(files[k].path)
  {
    if |files| < 2 then TooFew("至少需要2个PDF文件")
    else if !confirmed then Declined
    else Merge(seq(|files|, k requires 0 <= k < |files| => upload(files[k].path)))
  }

  /** The progress shown before the upload of file `i` of `n`:
      `Math.round(i / n * 50)`, from 0 up to at most 50. */
  function UploadProgress(i: nat, n: nat): (p: int)
    requires i < n
    ensures 0 <= p <= 50
    ensures i == 0 ==> p == 0
    ensures var x := i as real / n as real * 50.0;
            x - 0.5 < p as real <= x + 0.5
  {
    Round(i as real / n as real * 50.0)
  }

  /** The upload progress never goes backwards. */
  lemma UploadProgressMonotone(i: nat, j: nat, n: nat)
    requires i <= j < n
    ensures UploadProgress(i, n) <= UploadProgress(j, n)
  {
    var a := i as real / n as real;
    var b := j as real / n as real;
    assert a * n as real == i as real;
    assert b * n as real == j as real;
    if a > b {
    }
    var x := a * 50.0;
    var y := b * 50.0;
    assert x <= y;
    assert (x + 0.5).Floor <= (y + 0.5).Floor;
  }
}

=== FILE: markdown_render.dfy ===
/** The current Markdown-to-PDF renderer (`markdownToPdf/index.js`): a walk
    over the lexer's block tokens that writes onto the abstract canvas,
    fetching and scaling images, paginating tables row by row with the
    header repeated after each break, and starting a new page after any
    block that leaves the cursor below the threshold. Fetching, decoding
    and text measurement are supplied from outside. */
module MarkdownRender {
  import opened Wrappers
  import opened JsText
  import opened InlineMarkup
  import opened PdfCanvas
  import opened MarkdownTokens
  import opened TableLayout

  const MaxImageHeight: real := 400.0
  /** The alternative text used when an image has none. */
  const DefaultAlt: string := "图片"

  // ---------------------------------------------------------------------
  // Image sources (getImageBuffer)

  type Dim = r: real | r > 0.0 witness 1.0

  /** The bytes an image source yields: a downloaded body, or the base64
      text of a `data:` URI, which the library decodes. */
  datatype Buffer = Downloaded(body: string) | Base64(data: string)

  /** What the image library makes of a buffer: nothing it can read, or
      pixel dimensions and whether re-encoding at the scaled size works. */
  datatype Decoded = Corrupt | Pixels(width: Dim, height: Dim, resizes: bool)

  /** The outside world of the renderer: an HTTP fetch that may fail, and
      the image decoder. */
  datatype Env = Env(fetch: string -> Option<string>, decode: Buffer -> Decoded)

  datatype Source = Remote(url: string) | DataUri(payload: Option<string>) | Unsupported

  /** `p` is the text between the first comma of `s` and the next comma or
      the end of `s`: `s.split(',')[1]`. */
  predicate IsSecondPiece(s: string, p: string) {
    && ',' in s && ',' !in p
    && var t := s[IndexOf(s, ',') + 1..];
       StartsWith(t, p) && (|t| == |p| || t[|p|] == ',')
  }

  /** Where an image comes from: `http://` and `https://` addresses are
      fetched, `data:image/` URIs carry their payload after the first comma
      (none when there is no comma), and anything else is unsupported. */
  function ClassifySource(href: string): (r: Source)
    ensures r.Remote? <==> StartsWith(href, "http://") || StartsWith(href, "https://")
    ensures r.Remote? ==> r.url == href
    ensures r.DataUri? <==> !StartsWith(href, "http://") && !StartsWith(href, "https://") && StartsWith(href, "data:image/")
    ensures r.DataUri? ==> (r.payload.Some? <==> ',' in href)
    ensures r.DataUri? && r.payload.Some? ==> IsSecondPiece(href, r.payload.value)
  {
    if StartsWith(href, "http://") || StartsWith(href, "https://") then Remote(href)
    else if StartsWith(href, "data:image/") then
      var parts := Split(href, ',');
      if |parts| >= 2 then
        SecondPiece(href);
        DataUri(Some(parts[1]))
      else
        assert ',' !in href by {
          if ',' in href {
            SplitAtLeastTwo(href, ',');
          }
        }
        DataUri(None)
    else Unsupported
  }

  lemma SecondPiece(s: string)
    requires |Split(s, ',')| >= 2
    ensures IsSecondPiece(s, Split(s, ',')[1])
  {
    assert ',' in s;
    var i := IndexOf(s, ',');
    var t := s[i + 1..];
    assert Split(s, ',')[1] == Split(t, ',')[0];
    if ',' in t {
      var j := IndexOf(t, ',');
      assert Split(t, ',')[0] == t[..j];
    }
  }

  /** `getImageBuffer(href)`; `None` is its `null`. */
  function GetImageBuffer(env: Env, href: string): Option<Buffer> {
    match ClassifySource(href)
    case Remote(url) =>
      (match env.fetch(url)
       case Some(body) => Some(Downloaded(body))
       case None => None)
    case DataUri(payload) =>
      (match payload
       case Some(p) => Some(Base64(p))
       case None => None)
    case Unsupported => None
  }

  /** Only web addresses reach the network, and every other source that is
      not a `data:image/` URI with a comma yields no buffer. */
  lemma BufferSources(env: Env, href: string)
    ensures GetImageBuffer(env, href).Some? && GetImageBuffer(env, href).value.Downloaded? ==>
              (StartsWith(href, "http://") || StartsWith(href, "https://")) && env.fetch(href).Some?
    ensures !StartsWith(href, "http://") && !StartsWith(href, "https://") && !StartsWith(href, "data:image/") ==>
              GetImageBuffer(env, href) == None
    ensures !StartsWith(href, "http://") && !StartsWith(href, "https://") && StartsWith(href, "data:image/") ==>
              (GetImageBuffer(env, href).Some? <==> ',' in href)
  {
  }

  // ---------------------------------------------------------------------
  // Image size

  /** Scale an image into the content width and 400 points of height: first
      to the width, then to the height. */
  function FitImage(width: Dim, height: Dim): (r: (Dim, Dim))
    ensures r.0 <= ContentWidth && r.1 <= MaxImageHeight
    ensures r.0 <= width && r.1 <= height
    ensures r.0 * height == r.1 * width
    ensures width <= ContentWidth && height <= MaxImageHeight ==> r == (width, height)
  {
    var w1: real := if width > ContentWidth then ContentWidth else width;
    var h1: real := if width > ContentWidth then height * ContentWidth / width else height;
    FitWidth(width, height, w1, h1);
    if h1 > MaxImageHeight then
      var w2: real := w1 * MaxImageHeight / h1;
      FitHeight(width, height, w1, h1, w2);
      assert w2 < w1 <= ContentWidth;
      (w2, MaxImageHeight)
    else
      assert w1 <= ContentWidth && h1 <= MaxImageHeight;
      (w1, h1)
  }

  /** The first step of `FitImage`: the width clamped, the height scaled
      with it. */
  lemma FitWidth(width: real, height: real, w1: real, h1: real)
    requires width > 0.0 && height > 0.0
    requires w1 == (if width > ContentWidth then ContentWidth else width)
    requires h1 == (if width > ContentWidth then height * ContentWidth / width else height)
    ensures w1 * height == h1 * width && 0.0 < h1 <= height
  {
    if width > ContentWidth {
      assert height * ContentWidth > 0.0;
      DivMul(height * ContentWidth, width);
      assert h1 * width == height * ContentWidth;
      assert height * ContentWidth < height * width;
      LessByFactor(h1, height, width);
    }
  }

  /** The second step: the height clamped, the width scaled with it. */
  lemma FitHeight(width: real, height: real, w1: real, h1: real, w2: real)
    requires width > 0.0 && height > 0.0 && w1 > 0.0 && h1 > MaxImageHeight
    requires w1 * height == h1 * width && w2 == w1 * MaxImageHeight / h1
    ensures 0.0 < w2 < w1 && w2 * height == MaxImageHeight * width
  {
    assert w1 * MaxImageHeight > 0.0;
    DivMul(w1 * MaxImageHeight, h1);
    assert w2 * h1 == w1 * MaxImageHeight;
    assert w1 * MaxImageHeight < w1 * h1;
    LessByFactor(w2, w1, h1);
    calc {
      (w2 * height) * h1;
      (w2 * h1) * height;
      (w1 * MaxImageHeight) * height;
      (w1 * height) * MaxImageHeight;
      (h1 * width) * MaxImageHeight;
      (MaxImageHeight * width) * h1;
    }
    CancelFactor(w2 * height, MaxImageHeight * width, h1);
  }

  lemma DivMul(x: real, y: real)
    requires y > 0.0
    ensures (x / y) * y == x
  {
  }

  lemma LessByFactor(a: real, b: real, c: real)
    requires c > 0.0 && a * c < b * c
    ensures a < b
  {
    assert (b - a) * c == b * c - a * c;
  }

  lemma CancelFactor(a: real, b: real, c: real)
    requires c > 0.0 && a * c == b * c
    ensures a == b
  {
    assert (a - b) * c == 0.0;
  }

  // ---------------------------------------------------------------------
  // renderImage

  function AltText(image: Inline): string {
    if image.text != "" then image.text else DefaultAlt
  }

  function FailurePlaceholder(image: Inline): string {
    "[图片加载失败: " + AltText(image) + "]"
  }

  function ErrorPlaceholder(image: Inline): string {
    "[图片错误: " + (if image.text != "" then image.text else "unknown") + "]"
  }

  /** A caption is written under an image whose alternative text is its
      own rather than the default. */
  predicate HasCaption(image: Inline) {
    image.text != "" && image.text != DefaultAlt
  }

  /** The image can be drawn: a buffer was obtained, decoded and resized. */
  predicate Drawable(env: Env, image: Inline) {
    && GetImageBuffer(env, image.href).Some?
    && var d := env.decode(GetImageBuffer(env, image.href).value);
       d.Pixels? && d.resizes
  }

  function NewOps(r: Canvas, c: Canvas): seq<Op>
    requires Extends(r, c)
  {
    r.ops[|c.ops|..]
  }

  /** Writing a small placeholder line and a half-line gap. */
  function Placeholder(m: Metrics, c: Canvas, text: string): (r: Canvas)
    ensures Extends(r, c) && r.page == c.page
    ensures NewOps(r, c) == [Text(c.page, c.y, c.style.(size := 10.0), Column, text)]
  {
    MoveDown(m, Write(m, SetSize(c, 10.0), Column, text), 0.5)
  }

  /** `renderImage`: a missing buffer gives only the failure placeholder; a
      drawable image is drawn once, centred, on a fresh page exactly when it
      would cross the threshold, so that it always ends above it; a caption
      follows exactly when the image has its own alternative text. */
  function RenderImage(env: Env, m: Metrics, c: Canvas, image: Inline): (r: Canvas)
    ensures Extends(r, c)
    ensures GetImageBuffer(env, image.href).None? ==>
              NewOps(r, c) == [Text(c.page, c.y, c.style.(size := 10.0), Column, FailurePlaceholder(image))]
    ensures !Drawable(env, image) ==> forall op | op in NewOps(r, c) :: op.Text?
    ensures Drawable(env, image) ==>
              && |NewOps(r, c)| == (if HasCaption(image) then 2 else 1)
              && ImagePlaced(NewOps(r, c)[0], c)
              && (HasCaption(image) ==>
                    && NewOps(r, c)[1].Text? && NewOps(r, c)[1].page == NewOps(r, c)[0].page
                    && NewOps(r, c)[1].frame == Centered && NewOps(r, c)[1].style.size == 10.0
                    && NewOps(r, c)[1].text == image.text)
  {
    match GetImageBuffer(env, image.href)
    case None => Placeholder(m, c, FailurePlaceholder(image))
    case Some(buffer) =>
      match env.decode(buffer)
      case Corrupt => Placeholder(m, c, ErrorPlaceholder(image))
      case Pixels(w, h, resizes) =>
        var (width, height) := FitImage(w, h);
        if !resizes then Unresized(m, c, image, height)
        else DrawImage(m, c, image, width, height)
  }

  /** An image the library fails to resize: the page is still changed as
      for drawing it, then the error placeholder is written. */
  function Unresized(m: Metrics, c: Canvas, image: Inline, height: real): (r: Canvas)
    ensures Extends(r, c) && |NewOps(r, c)| == 1 && NewOps(r, c)[0].Text?
  {
    var c1 := if c.y + height > BreakY then AddPage(c) else c;
    var r := Placeholder(m, c1, ErrorPlaceholder(image));
    assert NewOps(r, c) == NewOps(r, c1);
    r
  }

  /** A resized image drawn centred, on a fresh page when it would cross
      the threshold, with its caption under it when it has one. */
  function DrawImage(m: Metrics, c: Canvas, image: Inline, width: Dim, height: Dim): (r: Canvas)
    requires width <= ContentWidth && height <= MaxImageHeight
    ensures Extends(r, c)
    ensures |NewOps(r, c)| == (if HasCaption(image) then 2 else 1)
    ensures ImagePlaced(NewOps(r, c)[0], c)
    ensures NewOps(r, c)[0].width == width && NewOps(r, c)[0].height == height
    ensures HasCaption(image) ==>
              && NewOps(r, c)[1].Text? && NewOps(r, c)[1].page == NewOps(r, c)[0].page
              && NewOps(r, c)[1].frame == Centered && NewOps(r, c)[1].style.size == 10.0
              && NewOps(r, c)[1].text == image.text
              && NewOps(r, c)[1].y == NewOps(r, c)[0].y + 2.0 * height + 0.2 * m.lineHeight(c.style)
    ensures !HasCaption(image) ==> r.y == NewOps(r, c)[0].y + 2.0 * height + m.lineHeight(c.style)
  {
    var c1 := if c.y + height > BreakY then AddPage(c) else c;
    var picture := Picture(c1.page, (PageWidth - width) / 2.0, c1.y, width, height);
    assert ImagePlaced(picture, c);
    var c2 := PlaceImage(c1, picture.x, width, height);
    var c3 := c2.(y := c2.y + height);
    if HasCaption(image) then
      var c4 := Write(m, SetSize(MoveDown(m, c3, 0.2), 10.0), Centered, image.text);
      TwoNewOps(c, c4, picture, Text(c1.page, c4.ops[|c4.ops| - 1].y, c3.style.(size := 10.0), Centered, image.text));
      MoveDown(m, c4, 1.0)
    else
      assert c3.ops[|c.ops|..] == [picture];
      MoveDown(m, c3, 1.0)
  }

  /** An image op drawn from canvas `c`: centred, inside the size bounds,
      on the next page exactly when it would have crossed the threshold,
      and ending at or above the threshold either way. */
  predicate ImagePlaced(op: Op, c: Canvas) {
    && op.Picture?
    && op.x == (PageWidth - op.width) / 2.0
    && 0.0 < op.width <= ContentWidth && 0.0 < op.height <= MaxImageHeight
    && (if c.y + op.height > BreakY then op.page == c.page + 1 && op.y == TopY else op.page == c.page && op.y == c.y)
    && op.y + op.height <= BreakY
  }

  // ---------------------------------------------------------------------
  // renderParagraph

  /** A step of a paragraph with inline tokens: write pending text, move
      down, or render an image. */
  datatype Action = Flush(text: string) | Gap(lines: Height) | ShowImage(image: Inline)

  /** An inline token that is not an image adds text when it is a text
      token or has text of its own. */
  predicate Contributes(t: Inline) {
    t.kind != ImageRun && (t.kind == TextRun || t.text != "")
  }

  function PartText(t: Inline): string {
    StripInlineFormatting(if t.text != "" then t.text else t.raw)
  }

  /** The paragraph loop: collected text is flushed (followed by a small
      gap) before each image, the rest after the last token, and a final
      gap follows when anything was drawn. */
  function ParagraphActions(subs: seq<Inline>, parts: seq<string>, hasImage: bool): seq<Action>
    decreases |subs|
  {
    if subs == [] then
      (if parts != [] then [Flush(Concat(parts))] else [])
      + (if hasImage || parts != [] then [Gap(0.5)] else [])
    else if subs[0].kind == ImageRun then
      (if parts != [] then [Flush(Concat(parts)), Gap(0.3)] else [])
      + [ShowImage(subs[0])] + ParagraphActions(subs[1..], [], true)
    else if Contributes(subs[0]) then
      ParagraphActions(subs[1..], parts + [PartText(subs[0])], hasImage)
    else ParagraphActions(subs[1..], parts, hasImage)
  }

  /** The texts the tokens of a run without images add. */
  function Contributions(run: seq<Inline>): seq<string> {
    if run == [] then []
    else (if Contributes(run[0]) then [PartText(run[0])] else []) + Contributions(run[1..])
  }

  function FirstImage(subs: seq<Inline>): (i: nat)
    ensures i <= |subs|
    ensures forall k | 0 <= k < i :: subs[k].kind != ImageRun
    ensures i < |subs| ==> subs[i].kind == ImageRun
  {
    if subs == [] || subs[0].kind == ImageRun then 0 else 1 + FirstImage(subs[1..])
  }

  /** What a paragraph shows, segment by segment: the text between two
      images as one piece (with `pending` text before the first image),
      each image in its place. */
  function Pieces(subs: seq<Inline>, pending: seq<string>): seq<Action>
    decreases |subs|
  {
    var i := FirstImage(subs);
    var texts := pending + Contributions(subs[..i]);
    (if texts != [] then [Flush(Concat(texts))] else [])
    + (if i < |subs| then [ShowImage(subs[i])] + Pieces(subs[i + 1..], []) else [])
  }

  /** The actions without the gaps. */
  function Visible(actions: seq<Action>): seq<Action> {
    if actions == [] then []
    else (if actions[0].Gap? then [] else [actions[0]]) + Visible(actions[1..])
  }

  lemma {:induction false} VisibleAppend(a: seq<Action>, b: seq<Action>)
    ensures Visible(a + b) == Visible(a) + Visible(b)
  {
    if a != [] {
      VisibleAppend(a[1..], b);
      assert (a + b)[1..] == a[1..] + b;
    } else {
      assert a + b == b;
    }
  }

  lemma {:induction false} ContributionsCons(run: seq<Inline>)
    requires run != []
    ensures Contributions(run) == (if Contributes(run[0]) then [PartText(run[0])] else []) + Contributions(run[1..])
  {
  }

  /** A leading token that is not an image only adds to the pending text. */
  lemma {:induction false} ContributionsShift(subs: seq<Inline>, i: nat)
    requires i < |subs|
    ensures Contributions(subs[..i + 1]) ==
            (if Contributes(subs[0]) then [PartText(subs[0])] else []) + Contributions(subs[1..][..i])
  {
    ContributionsCons(subs[..i + 1]);
    assert subs[..i + 1][1..] == subs[1..][..i];
  }

  lemma {:induction false} PiecesShift(subs: seq<Inline>, parts: seq<string>)
    requires subs != [] && subs[0].kind != ImageRun
    ensures Pieces(subs, parts) ==
            Pieces(subs[1..], parts + (if Contributes(subs[0]) then [PartText(subs[0])] else []))
  {
    var rest := subs[1..];
    var i := FirstImage(rest);
    assert FirstImage(subs) == i + 1;
    var head := if Contributes(subs[0]) then [PartText(subs[0])] else [];
    ContributionsShift(subs, i);
    assert parts + Contributions(subs[..i + 1]) == (parts + head) + Contributions(rest[..i]);
    if i < |rest| {
      assert subs[i + 1] == rest[i];
      assert subs[i + 2..] == rest[i + 1..];
    }
  }

  lemma {:induction false} ParagraphEnd(parts: seq<string>, hasImage: bool)
    ensures Visible(ParagraphActions([], parts, hasImage)) == Pieces([], parts)
  {
    var flush := if parts != [] then [Flush(Concat(parts))] else [];
    var gap := if hasImage || parts != [] then [Gap(0.5)] else [];
    VisibleAppend(flush, gap);
    assert Visible(gap) == [];
    assert Visible(flush) == flush;
    assert Pieces([], parts) == flush by {
      assert FirstImage([]) == 0;
      assert parts + Contributions([]) == parts;
    }
  }

  lemma {:induction false} ParagraphImage(subs: seq<Inline>, parts: seq<string>, hasImage: bool)
    requires subs != [] && subs[0].kind == ImageRun
    requires Visible(ParagraphActions(subs[1..], [], true)) == Pieces(subs[1..], [])
    ensures Visible(ParagraphActions(subs, parts, hasImage)) == Pieces(subs, parts)
  {
    ActionsAtImage(subs, parts, hasImage);
    PiecesAtImage(subs, parts);
  }

  /** What is shown when an image comes next: the pending text, then the
      image, then what the rest shows. */
  lemma ActionsAtImage(subs: seq<Inline>, parts: seq<string>, hasImage: bool)
    requires subs != [] && subs[0].kind == ImageRun
    ensures Visible(ParagraphActions(subs, parts, hasImage)) ==
            (if parts != [] then [Flush(Concat(parts))] else [])
            + ([ShowImage(subs[0])] + Visible(ParagraphActions(subs[1..], [], true)))
  {
    var head := if parts != [] then [Flush(Concat(parts)), Gap(0.3)] else [];
    var flush := if parts != [] then [Flush(Concat(parts))] else [];
    var rest := ParagraphActions(subs[1..], [], true);
    ActionsOfImage(subs, parts, hasImage, head, rest);
    VisibleHead(parts, head, flush);
    VisibleAround(head, flush, ShowImage(subs[0]), rest);
  }

  lemma ActionsOfImage(subs: seq<Inline>, parts: seq<string>, hasImage: bool, head: seq<Action>, rest: seq<Action>)
    requires subs != [] && subs[0].kind == ImageRun
    requires head == if parts != [] then [Flush(Concat(parts)), Gap(0.3)] else []
    requires rest == ParagraphActions(subs[1..], [], true)
    ensures ParagraphActions(subs, parts, hasImage) == head + ([ShowImage(subs[0])] + rest)
  {
    var shown := [ShowImage(subs[0])];
    assert ParagraphActions(subs, parts, hasImage) == head + shown + rest;
    Regroup(head, shown, rest);
  }

  lemma Regroup<T>(a: seq<T>, b: seq<T>, c: seq<T>)
    ensures a + b + c == a + (b + c)
  {
  }

  /** The text flushed before an image shows; the gap after it does not. */
  lemma VisibleHead(parts: seq<string>, head: seq<Action>, flush: seq<Action>)
    requires head == if parts != [] then [Flush(Concat(parts)), Gap(0.3)] else []
    requires flush == if parts != [] then [Flush(Concat(parts))] else []
    ensures Visible(head) == flush
  {
    if parts != [] {
      assert head == [Flush(Concat(parts))] + [Gap(0.3)];
      VisibleAppend([Flush(Concat(parts))], [Gap(0.3)]);
      VisibleSingle(Flush(Concat(parts)));
      VisibleSingle(Gap(0.3));
    }
  }

  lemma VisibleAround(head: seq<Action>, flush: seq<Action>, a: Action, rest: seq<Action>)
    requires Visible(head) == flush && !a.Gap?
    ensures Visible(head + ([a] + rest)) == flush + ([a] + Visible(rest))
  {
    VisibleAppend(head, [a] + rest);
    VisibleAppend([a], rest);
    VisibleSingle(a);
  }

  lemma VisibleSingle(a: Action)
    ensures Visible([a]) == if a.Gap? then [] else [a]
  {
    assert [a][1..] == [];
  }

  lemma PiecesAtImage(subs: seq<Inline>, parts: seq<string>)
    requires subs != [] && subs[0].kind == ImageRun
    ensures Pieces(subs, parts) ==
            (if parts != [] then [Flush(Concat(parts))] else []) + ([ShowImage(subs[0])] + Pieces(subs[1..], []))
  {
    assert FirstImage(subs) == 0 && subs[..0] == [];
    assert parts + Contributions([]) == parts;
  }

  /** The paragraph loop shows exactly the pieces: text written before an
      image is the text of the tokens before it, flushed before the image
      is rendered, and text after the last image comes after it. */
  lemma {:induction false} ParagraphOrder(subs: seq<Inline>, parts: seq<string>, hasImage: bool)
    ensures Visible(ParagraphActions(subs, parts, hasImage)) == Pieces(subs, parts)
    decreases |subs|
  {
    if subs == [] {
      ParagraphEnd(parts, hasImage);
    } else if subs[0].kind == ImageRun {
      ParagraphOrder(subs[1..], [], true);
      ParagraphImage(subs, parts, hasImage);
    } else {
      var next := parts + (if Contributes(subs[0]) then [PartText(subs[0])] else []);
      assert ParagraphActions(subs, parts, hasImage) == ParagraphActions(subs[1..], next, hasImage) by {
        if !Contributes(subs[0]) {
          assert next == parts;
        }
      }
      ParagraphOrder(subs[1..], next, hasImage);
      PiecesShift(subs, parts);
    }
  }

  /** Carrying out paragraph actions on the canvas. */
  function Perform(env: Env, m: Metrics, c: Canvas, actions: seq<Action>): (r: Canvas)
    ensures Extends(r, c)
    decreases |actions|
  {
    if actions == [] then c
    else
      var c1 := match actions[0]
        case Flush(text) => Write(m, SetSize(c, 12.0), Spaced, text)
        case Gap(lines) => MoveDown(m, c, lines)
        case ShowImage(image) => RenderImage(env, m, c, image);
      var r := Perform(env, m, c1, actions[1..]);
      ExtendsTrans(r, c1, c);
      r
  }

  /** `renderParagraph` */
  function RenderParagraph(env: Env, m: Metrics, c: Canvas, text: string, subs: seq<Inline>): (r: Canvas)
    ensures Extends(r, c)
    ensures subs == [] ==> NewOps(r, c) == [Text(c.page, c.y, c.style.(size := 12.0), Spaced, StripInlineFormatting(text))]
  {
    if subs != [] then
      Perform(env, m, c, ParagraphActions(subs, [], false))
    else
      MoveDown(m, Write(m, SetSize(c, 12.0), Spaced, StripInlineFormatting(text)), 0.5)
  }

  // ---------------------------------------------------------------------
  // Lists, code, quotes, rules

  /** `ops` are the lines of `items`, numbered from `first`: one indented
      line per item, in order, each with its bullet. */
  predicate Listed(ops: seq<Op>, ordered: bool, items: seq<string>, first: nat) {
    && |ops| == |items|
    && forall k | 0 <= k < |items| :: ItemLine(ops[k], ordered, first + k, items[k])
  }

  /** `op` writes item `item` as list line number `index`. */
  predicate ItemLine(op: Op, ordered: bool, index: nat, item: string) {
    && op.Text?
    && op.text == Bullet(ordered, index) + StripInlineFormatting(item)
    && op.style.size == 12.0 && op.frame == Indented
  }

  lemma {:induction false} ListedCons(op: Op, tail: seq<Op>, ordered: bool, items: seq<string>, first: nat)
    requires items != [] && Listed(tail, ordered, items[1..], first + 1)
    requires ItemLine(op, ordered, first, items[0])
    ensures Listed([op] + tail, ordered, items, first)
  {
    var ops := [op] + tail;
    forall k | 0 <= k < |items|
      ensures ItemLine(ops[k], ordered, first + k, items[k])
    {
      if k > 0 {
        assert ops[k] == tail[k - 1] && items[k] == items[1..][k - 1];
        assert ItemLine(tail[k - 1], ordered, first + 1 + (k - 1), items[1..][k - 1]);
      }
    }
  }

  function WriteItems(m: Metrics, c: Canvas, ordered: bool, items: seq<string>, first: nat): (r: Canvas)
    ensures Extends(r, c) && r.page == c.page
    ensures Listed(NewOps(r, c), ordered, items, first)
    decreases |items|
  {
    if items == [] then c
    else
      var line := Bullet(ordered, first) + StripInlineFormatting(items[0]);
      var c1 := Write(m, SetSize(c, 12.0), Indented, line);
      var r := WriteItems(m, c1, ordered, items[1..], first + 1);
      ItemStep(c, c1, r, Text(c.page, c.y, c.style.(size := 12.0), Indented, line), ordered, items, first);
      r
  }

  /** A log that extends `a + [op]` extends `a` by `op` and then the rest. */
  lemma OneMore(a: seq<Op>, b: seq<Op>, r: seq<Op>, op: Op)
    requires b == a + [op] && |b| <= |r| && r[..|b|] == b
    ensures r[|a|..] == [op] + r[|b|..]
  {
    assert r == r[..|b|] + r[|b|..];
    assert r == a + ([op] + r[|b|..]);
  }

  /** One written item line followed by the lines of the other items. */
  lemma ItemStep(c: Canvas, c1: Canvas, r: Canvas, op: Op, ordered: bool, items: seq<string>, first: nat)
    requires items != [] && c1.ops == c.ops + [op] && c.page <= c1.page
    requires ItemLine(op, ordered, first, items[0])
    requires Extends(r, c1) && Listed(NewOps(r, c1), ordered, items[1..], first + 1)
    ensures Extends(r, c) && NewOps(r, c) == [op] + NewOps(r, c1)
    ensures Listed(NewOps(r, c), ordered, items, first)
  {
    ExtendsTrans(r, c1, c);
    var tail := NewOps(r, c1);
    OneMore(c.ops, c1.ops, r.ops, op);
    ListedCons(op, tail, ordered, items, first);
  }

  /** `renderList` */
  function RenderList(m: Metrics, c: Canvas, ordered: bool, items: seq<string>): (r: Canvas)
    ensures Extends(r, c) && r.page == c.page
    ensures Listed(NewOps(r, c), ordered, items, 0)
  {
    var c1 := WriteItems(m, c, ordered, items, 0);
    MoveDown(m, c1, 0.5)
  }

  /** The height of a code block's background box: twelve points for
      each line (one more than the line breaks) and ten of padding above
      and below. */
  function CodeBoxHeight(text: string): (h: real)
    ensures h == (12 * (Count(text, '\n') + 1) + 20) as real
  {
    SplitCount(text, '\n');
    (|Split(text, '\n')| * 12 + 10 * 2) as real
  }

  /** `renderCodeBlock`: the background box, then the code in Courier 10;
      the face returns to Helvetica while the size stays 10. */
  function RenderCode(m: Metrics, c: Canvas, text: string): (r: Canvas)
    ensures Extends(r, c) && r.page == c.page
    ensures NewOps(r, c) == [Box(c.page, c.y - 5.0, CodeBoxHeight(text)),
                             Text(c.page, c.y, Style(Courier, 10.0), Column, text)]
    ensures r.style == Style(Helvetica, 10.0)
  {
    var c1 := SetFace(SetSize(c, 10.0), Courier);
    var box := Box(c1.page, c1.y - 5.0, CodeBoxHeight(text));
    var c2 := Draw(c1, box);
    var c3 := Write(m, c2, Column, text);
    TwoNewOps(c, c3, box, Text(c2.page, c2.y, c2.style, Column, text));
    MoveDown(m, SetFace(c3, Helvetica), 1.0)
  }

  lemma TwoNewOps(c: Canvas, r: Canvas, a: Op, b: Op)
    requires r.ops == c.ops + [a] + [b]
    ensures r.ops[|c.ops|..] == [a, b]
  {
  }

  /** `renderBlockquote` */
  function RenderBlockquote(m: Metrics, c: Canvas, text: string): (r: Canvas)
    ensures Extends(r, c) && r.page == c.page
    ensures NewOps(r, c) == [Text(c.page, c.y, c.style.(size := 12.0), Indented, "  " + StripInlineFormatting(text))]
  {
    MoveDown(m, Write(m, SetSize(c, 12.0), Indented, "  " + StripInlineFormatting(text)), 0.5)
  }

  /** `renderHorizontalRule` */
  function RenderRule(m: Metrics, c: Canvas): (r: Canvas)
    ensures Extends(r, c) && r.page == c.page && NewOps(r, c) == [Rule(c.page, c.y)]
  {
    MoveDown(m, Draw(c, Rule(c.page, c.y)), 1.0)
  }

  /** `renderHeading`: the raw heading text in bold at the size for its
      depth, then the face returns to Helvetica at that size. */
  function RenderHeading(m: Metrics, c: Canvas, depth: int, text: string): (r: Canvas)
    ensures Extends(r, c) && r.page == c.page
    ensures NewOps(r, c) == [Text(c.page, c.y, Style(HelveticaBold, HeadingSize(depth)), Column, text)]
    ensures r.style == Style(Helvetica, HeadingSize(depth))
  {
    var c1 := SetFace(SetSize(c, HeadingSize(depth)), HelveticaBold);
    MoveDown(m, SetFace(Write(m, c1, Column, text), Helvetica), 0.5)
  }

  // ---------------------------------------------------------------------
  // renderTable

  /** `renderTable`: the whole table moves to a new page when it does not
      fit; each data row moves to a new page when it does not fit, and the
      header is drawn again at the top of that page; a malformed table
      leaves only a placeholder line. */
  function RenderTable(m: Metrics, c: Canvas, header: Option<seq<TableCell>>,
                       rows: Option<seq<Option<seq<TableCell>>>>): (r: Canvas)
    ensures Extends(r, c)
    ensures ParseTable(header, rows).None? ==>
              NewOps(r, c) == [Text(c.page, c.y, c.style.(size := 10.0), Column, "[表格渲染失败]")]
    ensures ParseTable(header, rows).Some? ==>
              var data := ParseTable(header, rows).value;
              && TableDrawn(NewOps(r, c), data, true)
              && (data.header != [] ==>
                    (NewOps(r, c)[0].page == c.page + 1 <==> c.y + (|data.rows| + 1) as real * RowHeight > BreakY))
  {
    match ParseTable(header, rows)
    case None =>
      MoveDown(m, Write(m, SetSize(c, 10.0), Column, "[表格渲染失败]"), 1.0)
    case Some(data) =>
      var r := LayTable(m, c, data, true);
      MoveDown(m, r, 1.0)
  }

  // ---------------------------------------------------------------------
  // renderToken / renderMarkdownToPDF

  /** One block, without the page check that follows it. */
  function RenderBlock(env: Env, m: Metrics, c: Canvas, b: Block): (r: Canvas)
    ensures Extends(r, c)
  {
    match b
    case Heading(depth, text) => RenderHeading(m, c, depth, text)
    case Paragraph(text, subs) => RenderParagraph(env, m, c, text, subs)
    case ListBlock(ordered, items) => RenderList(m, c, ordered, items)
    case Code(text) => RenderCode(m, c, text)
    case Blockquote(text) => RenderBlockquote(m, c, text)
    case Hr => RenderRule(m, c)
    case Table(header, rows) => RenderTable(m, c, header, rows)
    case Space => MoveDown(m, c, 0.5)
    case Other(text) =>
      if text != "" then MoveDown(m, Write(m, SetSize(c, 12.0), Column, text), 0.5) else c
  }

  /** `renderToken`: a block, then a new page when the cursor has passed
      the threshold. */
  function RenderToken(env: Env, m: Metrics, c: Canvas, b: Block): (r: Canvas)
    ensures Extends(r, c) && r.y <= BreakY
  {
    var c1 := RenderBlock(env, m, c, b);
    var r := CheckAndAddPage(c1);
    ExtendsTrans(r, c1, c);
    r
  }

  /** `renderMarkdownToPDF`: the blocks one after another, in order. */
  function RenderDocument(env: Env, m: Metrics, c: Canvas, blocks: seq<Block>): (r: Canvas)
    ensures Extends(r, c)
    ensures blocks != [] ==> r.y <= BreakY
    decreases |blocks|
  {
    if blocks == [] then c
    else
      var c1 := RenderToken(env, m, c, blocks[0]);
      var r := RenderDocument(env, m, c1, blocks[1..]);
      ExtendsTrans(r, c1, c);
      r
  }

  /** Rendering a document in two parts is rendering the first part and
      then the second from where the first left off. */
  lemma {:induction false} RenderDocumentAppend(env: Env, m: Metrics, c: Canvas, a: seq<Block>, b: seq<Block>)
    ensures RenderDocument(env, m, c, a + b) == RenderDocument(env, m, RenderDocument(env, m, c, a), b)
    decreases |a|
  {
    if a == [] {
      assert a + b == b;
    } else {
      var c1 := RenderToken(env, m, c, a[0]);
      calc {
        RenderDocument(env, m, c, a + b);
      == { assert (a + b)[0] == a[0] && (a + b)[1..] == a[1..] + b; }
        RenderDocument(env, m, c1, a[1..] + b);
      == { RenderDocumentAppend(env, m, c1, a[1..], b); }
        RenderDocument(env, m, RenderDocument(env, m, c1, a[1..]), b);
      }
    }
  }

  /** Each block's drawing follows the drawing of the blocks before it. */
  lemma BlockOrder(env: Env, m: Metrics, c: Canvas, a: seq<Block>, b: Block)
    ensures var before := RenderDocument(env, m, c, a);
            var after := RenderDocument(env, m, c, a + [b]);
            Extends(after, before) && after == RenderToken(env, m, before, b)
  {
    RenderDocumentAppend(env, m, c, a, [b]);
  }
}

=== FILE: markdown_render_v11.dfy ===
/** The older Markdown-to-PDF renderer (`markdownToPdf/index-v1.1.js`). It
    shares headings, lists, code, quotes, rules and the page check with the
    current renderer; it differs in three places: inline images are never
    fetched but shown as a placeholder line, a paragraph's inline tokens
    other than text and images are dropped, and a table's header is not
    drawn again after a page break inside the table. */
module MarkdownRenderV11 {
  import opened Wrappers
  import opened JsText
  import opened InlineMarkup
  import opened PdfCanvas
  import opened MarkdownTokens
  import opened TableLayout
  import opened MarkdownRender

  /** The line shown in place of an image. */
  function ImageLine(image: Inline): string {
    "[图片: " + AltText(image) + "]"
  }

  /** `renderImageSync`: a placeholder line only; nothing is fetched. */
  function RenderImageSync(m: Metrics, c: Canvas, image: Inline): (r: Canvas)
    ensures Extends(r, c) && r.page == c.page
    ensures NewOps(r, c) == [Text(c.page, c.y, c.style.(size := 10.0), Column, ImageLine(image))]
  {
    Placeholder(m, c, ImageLine(image))
  }

  /** The text an inline token shows in a paragraph, if any: a text token
      its stripped text, an image its placeholder line. */
  function Shown(t: Inline): Option<string> {
    match t.kind
    case TextRun => Some(StripInlineFormatting(t.text))
    case ImageRun => Some(ImageLine(t))
    case OtherRun(_) => None
  }

  /** The texts a run of inline tokens shows, in order. */
  function ShownTexts(subs: seq<Inline>): seq<string> {
    if subs == [] then []
    else (match Shown(subs[0]) case Some(s) => [s] case None => []) + ShownTexts(subs[1..])
  }

  /** Everything drawn is a line of text. */
  predicate AllText(ops: seq<Op>) {
    forall k | 0 <= k < |ops| :: ops[k].Text?
  }

  /** The texts of the text lines of some drawing, in order. */
  function Texts(ops: seq<Op>): seq<string> {
    if ops == [] then []
    else (if ops[0].Text? then [ops[0].text] else []) + Texts(ops[1..])
  }

  lemma {:induction false} TextsAppend(a: seq<Op>, b: seq<Op>)
    ensures Texts(a + b) == Texts(a) + Texts(b)
    ensures AllText(a) && AllText(b) ==> AllText(a + b)
    decreases |a|
  {
    if a == [] {
      assert a + b == b;
    } else {
      assert (a + b)[1..] == a[1..] + b;
      TextsAppend(a[1..], b);
    }
  }

  /** What one inline token draws: a text token continues the line in size
      12, an image becomes its placeholder line, and every other token
      draws nothing. */
  function WriteRun(m: Metrics, c: Canvas, t: Inline): (r: Canvas)
    ensures Extends(r, c) && r.page == c.page
    ensures AllText(NewOps(r, c))
    ensures Texts(NewOps(r, c)) == (match Shown(t) case Some(s) => [s] case None => [])
  {
    match t.kind
    case TextRun =>
      var r := Write(m, SetSize(c, 12.0), Continued, StripInlineFormatting(t.text));
      assert NewOps(r, c) == [Text(c.page, c.y, c.style.(size := 12.0), Continued, StripInlineFormatting(t.text))];
      r
    case ImageRun => RenderImageSync(m, c, t)
    case OtherRun(_) =>
      assert NewOps(c, c) == [];
      c
  }

  lemma NewOpsChain(c: Canvas, c1: Canvas, r: Canvas)
    requires Extends(c1, c) && Extends(r, c1)
    ensures Extends(r, c) && NewOps(r, c) == NewOps(c1, c) + NewOps(r, c1)
  {
    ExtendsTrans(r, c1, c);
    assert r.ops == r.ops[..|c1.ops|] + r.ops[|c1.ops|..];
    assert c1.ops == c1.ops[..|c.ops|] + c1.ops[|c.ops|..];
  }

  /** The loop over a paragraph's inline tokens. */
  function WriteRuns(m: Metrics, c: Canvas, subs: seq<Inline>): (r: Canvas)
    ensures Extends(r, c) && r.page == c.page
    ensures AllText(NewOps(r, c))
    ensures Texts(NewOps(r, c)) == ShownTexts(subs)
    decreases |subs|
  {
    if subs == [] then
      assert NewOps(c, c) == [];
      c
    else
      var c1 := WriteRun(m, c, subs[0]);
      var r := WriteRuns(m, c1, subs[1..]);
      NewOpsChain(c, c1, r);
      TextsAppend(NewOps(c1, c), NewOps(r, c1));
      r
  }

  /** The inline tokens that show something. */
  function ShownRuns(subs: seq<Inline>): (r: seq<Inline>)
    ensures |r| <= |subs|
    ensures forall k | 0 <= k < |r| :: r[k].kind == TextRun || r[k].kind == ImageRun
  {
    if subs == [] then []
    else (if subs[0].kind.OtherRun? then [] else [subs[0]]) + ShownRuns(subs[1..])
  }

  /** Only text and image tokens produce output: dropping every other
      token beforehand draws exactly the same. */
  lemma {:induction false} OtherRunsDropped(m: Metrics, c: Canvas, subs: seq<Inline>)
    ensures WriteRuns(m, c, subs) == WriteRuns(m, c, ShownRuns(subs))
    decreases |subs|
  {
    if subs != [] {
      var c1 := WriteRun(m, c, subs[0]);
      OtherRunsDropped(m, c1, subs[1..]);
      if subs[0].kind.OtherRun? {
        assert ShownRuns(subs) == ShownRuns(subs[1..]);
      } else {
        var s := ShownRuns(subs);
        assert s[0] == subs[0] && s[1..] == ShownRuns(subs[1..]);
      }
    }
  }

  /** `renderParagraph` of the older renderer: with inline tokens, the
      runs, an empty line ending the continued text, and a half-line gap;
      without, the stripped paragraph text as in the current renderer. */
  function RenderParagraphV11(m: Metrics, c: Canvas, text: string, subs: seq<Inline>): (r: Canvas)
    ensures Extends(r, c) && r.page == c.page
    ensures subs != [] ==>
              && 1 <= |NewOps(r, c)|
              && AllText(NewOps(r, c))
              && Texts(NewOps(r, c)) == ShownTexts(subs) + [""]
    ensures subs == [] ==> NewOps(r, c) == [Text(c.page, c.y, c.style.(size := 12.0), Spaced, StripInlineFormatting(text))]
  {
    if subs != [] then
      var c1 := WriteRuns(m, c, subs);
      var c2 := Write(m, c1, Column, "");
      var line := Text(c1.page, c1.y, c1.style, Column, "");
      assert NewOps(c2, c1) == [line];
      NewOpsChain(c, c1, c2);
      TextsAppend(NewOps(c1, c), [line]);
      assert Texts([line]) == [""] && AllText([line]);
      var r := MoveDown(m, c2, 0.5);
      assert NewOps(r, c) == NewOps(c2, c);
      r
    else
      MoveDown(m, Write(m, SetSize(c, 12.0), Spaced, StripInlineFormatting(text)), 0.5)
  }

  /** `renderTable` of the older renderer: cells read only their own text,
      and a data row that does not fit starts the next page itself, with
      no header above it. */
  function RenderTableV11(m: Metrics, c: Canvas, header: Option<seq<TableCell>>,
                          rows: Option<seq<Option<seq<TableCell>>>>): (r: Canvas)
    ensures Extends(r, c)
    ensures ParseTableTextOnly(header, rows).None? ==>
              NewOps(r, c) == [Text(c.page, c.y, c.style.(size := 10.0), Column, "[表格渲染失败]")]
    ensures ParseTableTextOnly(header, rows).Some? ==>
              var data := ParseTableTextOnly(header, rows).value;
              && TableDrawn(NewOps(r, c), data, false)
              && (data.header != [] ==>
                    (NewOps(r, c)[0].page == c.page + 1 <==> c.y + (|data.rows| + 1) as real * RowHeight > BreakY))
  {
    match ParseTableTextOnly(header, rows)
    case None =>
      MoveDown(m, Write(m, SetSize(c, 10.0), Column, "[表格渲染失败]"), 1.0)
    case Some(data) =>
      MoveDown(m, LayTable(m, c, data, false), 1.0)
  }

  /** One block of the older renderer, without the page check. */
  function RenderBlockV11(env: Env, m: Metrics, c: Canvas, b: Block): (r: Canvas)
    ensures Extends(r, c)
  {
    match b
    case Paragraph(text, subs) => RenderParagraphV11(m, c, text, subs)
    case Table(header, rows) => RenderTableV11(m, c, header, rows)
    case _ => RenderBlock(env, m, c, b)
  }

  /** Both renderers treat every block alike except paragraphs with inline
      tokens and tables; a paragraph without inline tokens is alike too. */
  lemma SameBlocks(env: Env, m: Metrics, c: Canvas, b: Block)
    requires !b.Table? && !(b.Paragraph? && b.tokens != [])
    ensures RenderBlockV11(env, m, c, b) == RenderBlock(env, m, c, b)
  {
  }

  /** Tables whose cells all have text of their own are drawn alike by
      both renderers up to the header repeated after a break. */
  lemma SameTableData(header: Option<seq<TableCell>>, rows: Option<seq<Option<seq<TableCell>>>>)
    requires WellFormed(header, rows)
    requires forall k | 0 <= k < |header.value| :: header.value[k].text != ""
    requires forall k, j | 0 <= k < |rows.value| && 0 <= j < |rows.value[k].value| :: rows.value[k].value[j].text != ""
    ensures ParseTableTextOnly(header, rows) == ParseTable(header, rows)
  {
    ParsersAgree(header, rows);
  }

  /** `renderToken` of the older renderer. */
  function RenderTokenV11(env: Env, m: Metrics, c: Canvas, b: Block): (r: Canvas)
    ensures Extends(r, c) && r.y <= BreakY
  {
    var c1 := RenderBlockV11(env, m, c, b);
    var r := CheckAndAddPage(c1);
    ExtendsTrans(r, c1, c);
    r
  }

  /** `renderMarkdownToPDF` of the older renderer. */
  function RenderDocumentV11(env: Env, m: Metrics, c: Canvas, blocks: seq<Block>): (r: Canvas)
    ensures Extends(r, c)
    ensures blocks != [] ==> r.y <= BreakY
    decreases |blocks|
  {
    if blocks == [] then c
    else
      var c1 := RenderTokenV11(env, m, c, blocks[0]);
      var r := RenderDocumentV11(env, m, c1, blocks[1..]);
      ExtendsTrans(r, c1, c);
      r
  }

  /** A document of blocks both renderers treat alike is drawn alike. */
  lemma {:induction false} SameDocuments(env: Env, m: Metrics, c: Canvas, blocks: seq<Block>)
    requires forall k | 0 <= k < |blocks| :: !blocks[k].Table? && !(blocks[k].Paragraph? && blocks[k].tokens != [])
    ensures RenderDocumentV11(env, m, c, blocks) == RenderDocument(env, m, c, blocks)
    decreases |blocks|
  {
    if blocks != [] {
      SameBlocks(env, m, c, blocks[0]);
      SameDocuments(env, m, RenderToken(env, m, c, blocks[0]), blocks[1..]);
    }
  }
}

=== FILE: markdown_tokens.dfy ===
/** The block and inline tokens the Markdown lexer hands to the renderer,
    and the pieces of rendering both renderer versions share: the heading
    size table and the list bullets. A field the lexer leaves undefined is
    represented by the empty text, which JavaScript treats alike (`||`). */
module MarkdownTokens {
  import opened Wrappers
  import opened JsText

  datatype InlineKind = TextRun | ImageRun | OtherRun(name: string)

  /** An inline token of a paragraph: its type, `text`, `raw` and `href`. */
  datatype Inline = Inline(kind: InlineKind, text: string, raw: string, href: string)

  /** A table cell: its `text` and the `text` of its first inline token,
      or a cell that is `null`, on which reading `.text` throws. */
  datatype TableCell = TableCell(text: string, firstTokenText: string) | NullCell

  datatype Block =
    | Heading(depth: int, text: string)
    | Paragraph(text: string, tokens: seq<Inline>)
    | ListBlock(ordered: bool, items: seq<string>)
    | Code(text: string)
    | Blockquote(text: string)
    | Hr
      /** `header` or `rows` is `None` where the lexer gave something that
          is not an array, on which `.map` throws. */
    | Table(header: Option<seq<TableCell>>, rows: Option<seq<Option<seq<TableCell>>>>)
    | Space
    | Other(text: string)

  /** A parsed table: the stripped header texts and row texts. */
  datatype TableData = TableData(header: seq<string>, rows: seq<seq<string>>)

  /** The font size of a heading of the given depth. */
  function HeadingSize(depth: int): (size: real)
    ensures depth == 1 ==> size == 24.0
    ensures 2 <= depth <= 6 ==> size == (24 - 2 * depth) as real
    ensures (depth < 1 || depth > 6) ==> size == 12.0
  {
    match depth
    case 1 => 24.0
    case 2 => 20.0
    case 3 => 18.0
    case 4 => 16.0
    case 5 => 14.0
    case 6 => 12.0
    case _ => 12.0
  }

  /** Deeper headings are never larger, and the six levels are distinct. */
  lemma HeadingSizeDecreasing(d1: int, d2: int)
    requires 1 <= d1 < d2 <= 6
    ensures HeadingSize(d1) > HeadingSize(d2)
    ensures 12.0 <= HeadingSize(d2)
  {
  }

  /** The prefix of list item `index`: `index + 1` and a dot for an ordered
      list, a bullet otherwise. */
  function Bullet(ordered: bool, index: nat): string {
    if ordered then NatToString(index + 1) + ". " else "• "
  }

  /** The number printed before an ordered item reads back as its position
      counted from one, and an unordered item carries no number at all. */
  lemma BulletNumber(ordered: bool, index: nat)
    ensures ordered ==> ParseInt(Bullet(ordered, index)) == Some(index as int + 1)
    ensures !ordered ==> ParseInt(Bullet(ordered, index)) == None
  {
    if ordered {
      ParseIntOfNatThen(index + 1, ". ");
    } else {
      ParseIntOfNonNumber(Bullet(ordered, index));
    }
  }
}

=== FILE: media_formats.dfy ===
/** The option tables of `config/mediaFormats.js`, and how they fit the
    helpers that consume their values: the format normaliser, the media
    kind of a file name, and the two image size calculators. */
module MediaFormats {
  import opened JsText
  import FormatUtils
  import ImageConvert
  import ImageCompress
  import VideoConvert
  import AudioCompress

  datatype FormatOption = FormatOption(value: string, caption: string)

  const ImageFormats: seq<FormatOption> := [FormatOption("jpg", "JPG"), FormatOption("png", "PNG"), FormatOption("webp", "WEBP")]
  const VideoFormats: seq<FormatOption> := [FormatOption("mp4", "MP4"), FormatOption("avi", "AVI"), FormatOption("mov", "MOV")]
  const AudioFormats: seq<FormatOption> := [FormatOption("mp3", "MP3"), FormatOption("aac", "AAC"), FormatOption("wav", "WAV")]

  datatype QualityPreset = QualityPreset(caption: string, value: real)

  const QualityPresets: seq<QualityPreset> := [
    QualityPreset("高质量", 0.95), QualityPreset("标准", 0.85),
    QualityPreset("压缩", 0.70), QualityPreset("极限压缩", 0.50)
  ]

  /** A size choice; a bound of 0 stands for `null`. */
  datatype ResizeOption = ResizeOption(value: string, maxWidth: nat, maxHeight: nat)

  const ResizeOptions: seq<ResizeOption> := [
    ResizeOption("original", 0, 0), ResizeOption("1080p", 1920, 1080), ResizeOption("720p", 1280, 720),
    ResizeOption("800x600", 800, 600), ResizeOption("640x480", 640, 480)
  ]

  /** A value is its caption in lower case, and has no dot. */
  predicate Labelled(o: FormatOption) {
    ToLower(o.caption) == o.value && '.' !in o.value
  }

  /** Every image format offered is a fixed point of the converter's
      normaliser, so a choice reaches the converter unchanged. */
  lemma ImageFormatsAreNormal(k: nat)
    requires k < |ImageFormats|
    ensures Labelled(ImageFormats[k])
    ensures ImageConvert.NormalizeFormat(ImageFormats[k].value) == ImageFormats[k].value
    ensures ImageConvert.NormalizeFormat(ImageFormats[k].caption) == ImageFormats[k].value
  {
  }

  /** A file named with any offered extension is recognised as the kind
      of media its table lists it under. */
  lemma ImageFormatsAreImages(stem: string, k: nat)
    requires k < |ImageFormats|
    ensures FormatUtils.KindOf(stem + "." + ImageFormats[k].value) == FormatUtils.Image
  {
    NamedWith(stem, ImageFormats[k].value);
    assert ImageFormats[k].value in FormatUtils.ImageFormats;
  }

  lemma VideoFormatsAreVideos(stem: string, k: nat)
    requires k < |VideoFormats|
    ensures FormatUtils.KindOf(stem + "." + VideoFormats[k].value) == FormatUtils.Video
  {
    NamedWith(stem, VideoFormats[k].value);
    assert VideoFormats[k].value in FormatUtils.VideoFormats;
  }

  lemma AudioFormatsAreAudio(stem: string, k: nat)
    requires k < |AudioFormats|
    ensures FormatUtils.KindOf(stem + "." + AudioFormats[k].value) == FormatUtils.Audio
  {
    NamedWith(stem, AudioFormats[k].value);
    assert AudioFormats[k].value in FormatUtils.AudioFormats;
  }

  lemma NamedWith(stem: string, ext: string)
    requires '.' !in ext && ToLower(ext) == ext
    ensures FormatUtils.FileExtension(stem + "." + ext) == ext
  {
    FormatUtils.FileExtensionOf(stem, ext);
  }

  /** The offered video formats are exactly the containers the conversion
      function writes without falling back, and the offered audio formats
      exactly the formats the compression function writes. */
  lemma FormatsMatchCloudFunctions()
    ensures forall k | 0 <= k < |VideoFormats| :: VideoConvert.Container(VideoFormats[k].value) == VideoFormats[k].value
    ensures (set k | 0 <= k < |VideoFormats| :: VideoFormats[k].value) == (set c | c in VideoConvert.Supported)
    ensures forall k | 0 <= k < |AudioFormats| :: AudioCompress.Codec(AudioFormats[k].value).Some?
    ensures (set k | 0 <= k < |AudioFormats| :: AudioFormats[k].value) == (set f | f in AudioCompress.Supported)
  {
    assert ToLower("mp4") == "mp4" && ToLower("avi") == "avi" && ToLower("mov") == "mov";
    assert VideoFormats[0].value == "mp4" && VideoFormats[1].value == "avi" && VideoFormats[2].value == "mov";
    assert AudioFormats[0].value == "mp3" && AudioFormats[1].value == "aac" && AudioFormats[2].value == "wav";
  }

  /** The presets run from best to smallest, all within (0, 1]. */
  lemma QualityPresetsDescend()
    ensures forall k | 0 <= k < |QualityPresets| :: 0.0 < QualityPresets[k].value <= 1.0
    ensures forall i, j | 0 <= i < j < |QualityPresets| :: QualityPresets[i].value > QualityPresets[j].value
  {
  }

  /** The compressor's options for a size choice. */
  function CompressOptions(o: ResizeOption, quality: real, format: string): ImageCompress.Options {
    ImageCompress.Options(quality, o.value, format, o.maxWidth, o.maxHeight)
  }

  /** The first choice keeps every picture at its size in both size
      calculators; every other choice makes the compressor resize, to a
      landscape box. */
  lemma ResizeOptionsBehave(k: nat, width: nat, height: nat, quality: real, format: string)
    requires k < |ResizeOptions| && width > 0 && height > 0
    ensures var o := ResizeOptions[k];
            && (k == 0 ==> ImageCompress.TargetSize(width, height, CompressOptions(o, quality, format)) == (width, height))
            && (k == 0 ==> ImageConvert.CalculateTargetSizeAsWritten(width as real, height as real, o.maxWidth, o.maxHeight)
                           == ImageConvert.Size(width as real, height as real))
            && (k > 0 ==> ImageCompress.Resizes(CompressOptions(o, quality, format)) && o.maxWidth > o.maxHeight)
  {
  }
}

=== FILE: media_names.dfy ===
/** File names in the audio and video cloud functions: the extension the
    pattern `\.([a-zA-Z0-9]+)$` captures, the name with that extension
    replaced, and the last path segment (`path.basename`). */
module MediaNames {
  import opened JsText

  /** The length of the run of ASCII letters and digits that ends `s`. */
  function AlnumTail(s: string): (n: nat)
    ensures n <= |s|
    ensures forall i | |s| - n <= i < |s| :: IsAlnum(s[i])
    ensures n < |s| ==> !IsAlnum(s[|s| - n - 1])
  {
    if s == [] || !IsAlnum(s[|s| - 1]) then 0
    else AlnumTail(s[..|s| - 1]) + 1
  }

  /** A tail of `k` letters and digits that cannot be extended is the
      whole run. */
  lemma AlnumTailIs(s: string, k: nat)
    requires k <= |s| && forall i | |s| - k <= i < |s| :: IsAlnum(s[i])
    requires k < |s| ==> !IsAlnum(s[|s| - k - 1])
    ensures AlnumTail(s) == k
  {
    var n := AlnumTail(s);
    if n < k {
    } else if n > k {
    }
  }

  /** `s` ends in a dot followed by `e`, a non-empty run of letters and
      digits: the shape the pattern matches. */
  predicate EndsInExtension(s: string, e: string) {
    && e != []
    && (forall i | 0 <= i < |e| :: IsAlnum(e[i]))
    && |e| < |s| && s[|s| - |e|..] == e && s[|s| - |e| - 1] == '.'
  }

  /** The text the pattern captures, before lower-casing; empty when the
      name does not end in a dot and letters or digits. Since a dot is
      not a letter or digit, only the last dot can begin the match. */
  function RawExtension(s: string): (r: string)
    ensures r != [] ==> EndsInExtension(s, r)
    ensures r == [] ==> forall e :: !EndsInExtension(s, e)
  {
    var n := AlnumTail(s);
    if 0 < n < |s| && s[|s| - n - 1] == '.' then s[|s| - n..]
    else
      assert forall e :: !EndsInExtension(s, e) by {
        forall e | EndsInExtension(s, e) ensures false {
        }
      }
      []
  }

  /** Any extension the name really ends in is the one captured. */
  lemma RawExtensionUnique(s: string, e: string)
    requires EndsInExtension(s, e)
    ensures RawExtension(s) == e
  {
    var r := RawExtension(s);
    assert r != [];
    assert forall i | |s| - |e| <= i < |s| :: s[i] == e[i - (|s| - |e|)];
    assert forall i | |s| - |r| <= i < |s| :: s[i] == r[i - (|s| - |r|)];
    AlnumTailIs(s, |e|);
    AlnumTailIs(s, |r|);
  }

  /** `getExtension`: the captured text lower-cased, or "". */
  function GetExtension(s: string): (r: string)
    ensures |r| == |RawExtension(s)|
    ensures r == [] <==> forall e :: !EndsInExtension(s, e)
    ensures forall e | EndsInExtension(s, e) :: r == ToLower(e)
  {
    ExtensionsAgree(s);
    ToLower(RawExtension(s))
  }

  lemma ExtensionsAgree(s: string)
    ensures forall e | EndsInExtension(s, e) :: RawExtension(s) == e
  {
    forall e | EndsInExtension(s, e) ensures RawExtension(s) == e {
      RawExtensionUnique(s, e);
    }
  }

  /** `s.replace(/\.[a-zA-Z0-9]+$/, '')`: the name without its extension. */
  function StripExtension(s: string): (r: string)
    ensures RawExtension(s) == [] ==> r == s
    ensures RawExtension(s) != [] ==> s == r + "." + RawExtension(s)
  {
    var raw := RawExtension(s);
    if raw == [] then s
    else
      var r := s[..|s| - |raw| - 1];
      assert s == r + "." + raw;
      r
  }

  /** The output name: the input name with its extension, if any,
      replaced by `ext`. */
  function ReplaceExtension(s: string, ext: string): (r: string)
    ensures r == StripExtension(s) + "." + ext
  {
    StripExtension(s) + "." + ext
  }

  predicate IsLowerAlnum(e: string) {
    forall i | 0 <= i < |e| :: IsAlnum(e[i]) && LowerChar(e[i]) == e[i]
  }

  /** Stem, dot and a run of letters and digits has the shape the
      pattern matches. */
  lemma DottedEndsInExtension(stem: string, e: string)
    requires e != [] && forall i | 0 <= i < |e| :: IsAlnum(e[i])
    ensures EndsInExtension(stem + "." + e, e)
  {
    var r := stem + "." + e;
    assert r[|r| - |e|..] == e;
    assert r[|r| - |e| - 1] == '.';
  }

  /** A name built as stem, dot, extension reads back that extension. */
  lemma ExtensionOfName(stem: string, ext: string)
    requires ext != [] && IsLowerAlnum(ext)
    ensures RawExtension(stem + "." + ext) == ext
    ensures GetExtension(stem + "." + ext) == ext
  {
    DottedEndsInExtension(stem, ext);
    RawExtensionUnique(stem + "." + ext, ext);
    assert ToLower(ext) == ext;
  }

  /** Removing the extension of a name built as stem, dot, extension gives
      the stem back. */
  lemma StripOfName(stem: string, ext: string)
    requires ext != [] && IsLowerAlnum(ext)
    ensures StripExtension(stem + "." + ext) == stem
  {
    var s := stem + "." + ext;
    ExtensionOfName(stem, ext);
    var r := StripExtension(s);
    assert s == r + "." + ext;
    assert |r| == |stem|;
    assert r == s[..|r|] == stem;
  }

  /** Renaming a name built as stem, dot, extension puts the new
      extension after the same stem. */
  lemma RenameName(stem: string, ext: string, newExt: string)
    requires ext != [] && IsLowerAlnum(ext)
    ensures ReplaceExtension(stem + "." + ext, newExt) == stem + "." + newExt
  {
    StripOfName(stem, ext);
  }

  /** The name a cloud function gives its input when the request names
      none: `input_<now>` with the function's default extension. */
  function DefaultInputName(fileName: string, now: nat, ext: string): (r: string)
    requires ext != [] && IsLowerAlnum(ext)
    ensures fileName != "" ==> r == fileName
    ensures fileName == "" ==> GetExtension(r) == ext
  {
    if fileName != "" then fileName
    else
      var stem := "input_" + NatToString(now);
      ExtensionOfName(stem, ext);
      stem + "." + ext
  }

  /** Reading the extension of a renamed file gives back the new
      extension, whatever the old name was. */
  lemma ReplaceExtensionReadsBack(s: string, ext: string)
    requires ext != [] && IsLowerAlnum(ext)
    ensures RawExtension(ReplaceExtension(s, ext)) == ext
    ensures GetExtension(ReplaceExtension(s, ext)) == ext
  {
    ExtensionOfName(StripExtension(s), ext);
  }

  /** Renaming keeps the stem. */
  lemma StripReplaced(s: string, ext: string)
    requires ext != [] && IsLowerAlnum(ext)
    ensures StripExtension(ReplaceExtension(s, ext)) == StripExtension(s)
  {
    var r := ReplaceExtension(s, ext);
    ReplaceExtensionReadsBack(s, ext);
    assert r == StripExtension(r) + "." + ext;
    assert |StripExtension(r)| == |StripExtension(s)|;
    assert StripExtension(r) == r[..|StripExtension(s)|];
  }

  /** A directory prefix does not change a name's extension. */
  lemma PrefixKeepsExtension(p: string, b: string)
    requires GetExtension(b) != []
    ensures GetExtension(p + b) == GetExtension(b)
  {
    var e := RawExtension(b);
    var stem := StripExtension(b);
    assert p + b == (p + stem) + "." + e;
    DottedEndsInExtension(p + stem, e);
    RawExtensionUnique(p + b, e);
  }

  /** `path.basename`: the text after the last '/'. */
  function Basename(s: string): (r: string)
    ensures '/' !in r && EndsWith(s, r)
    ensures '/' !in s ==> r == s
  {
    LastPart(s, '/')
  }

  /** The last segment of a renamed file still ends in the new extension. */
  lemma BasenameKeepsExtension(s: string, ext: string)
    requires ext != [] && IsLowerAlnum(ext)
    ensures GetExtension(Basename(ReplaceExtension(s, ext))) == ext
  {
    var stem := StripExtension(s);
    NoSlashInExtension(ext);
    LastPartAppend(stem, '/', "." + ext);
    assert ReplaceExtension(s, ext) == stem + ("." + ext);
    assert Basename(ReplaceExtension(s, ext)) == LastPart(stem, '/') + "." + ext;
    ExtensionOfName(LastPart(stem, '/'), ext);
  }

  lemma NoSlashInExtension(ext: string)
    requires IsLowerAlnum(ext)
    ensures '/' !in "." + ext
  {
    var tail := "." + ext;
    forall i | 0 <= i < |tail| ensures tail[i] != '/' {
      if i > 0 { assert IsAlnum(ext[i - 1]); }
    }
  }

  /** The last '/'-segment of `a + t` ends with `t` when `t` has no '/'. */
  lemma LastPartEndsWithTail(a: string, t: string)
    requires '/' !in t
    ensures var b := LastPart(a + t, '/'); |t| <= |b| && b[|b| - |t|..] == t
  {
    LastPartAppend(a, '/', t);
    var b := LastPart(a + t, '/');
    assert b == LastPart(a, '/') + t;
  }
}

=== FILE: page_select.dfy ===
/** Choosing the pages to convert on the PDF-to-image page (a strict
    parser of lists like "1,3,5-8") and on the PDF-to-PPT page (a lenient
    one), and the quality settings of both pages. */
module PageSelect {
  import opened Wrappers
  import opened JsText

  /** The inclusive page interval `lo..hi`; empty when `lo > hi`. */
  datatype Span = Span(lo: int, hi: int)

  predicate Has(s: Span, page: int) {
    s.lo <= page <= s.hi
  }

  predicate InSpans(spans: seq<Span>, page: int) {
    exists k | 0 <= k < |spans| :: Has(spans[k], page)
  }

  predicate StrictlyAscending(s: seq<int>) {
    forall k, l | 0 <= k < l < |s| :: s[k] < s[l]
  }

  /** The pages in `lo..hi` that some span holds, ascending and each once:
      what `[...new Set(pages)].sort((a, b) => a - b)` makes of the pages
      pushed for the spans. */
  function Ascending(spans: seq<Span>, lo: int, hi: int): (r: seq<int>)
    ensures StrictlyAscending(r)
    ensures forall k | 0 <= k < |r| :: lo <= r[k] <= hi && InSpans(spans, r[k])
    ensures forall page | lo <= page <= hi && InSpans(spans, page) :: page in r
    decreases hi - lo
  {
    if lo > hi then []
    else
      var rest := Ascending(spans, lo + 1, hi);
      (if InSpans(spans, lo) then [lo] else []) + rest
  }

  /** `Array.from({ length: pageCount }, (_, i) => i + 1)`. */
  function AllPages(pageCount: int): (r: seq<int>)
    ensures |r| == (if pageCount > 0 then pageCount else 0)
    ensures forall k | 0 <= k < |r| :: r[k] == k + 1
  {
    if pageCount <= 0 then [] else AllPages(pageCount - 1) + [pageCount]
  }

  // ---------------------------------------------------------------------
  // The strict parser of the PDF-to-image page

  /** What a trimmed token reads: for `a-b`, `parseInt` of the first two
      pieces around the dashes; otherwise `parseInt` of the whole. */
  datatype Reading = RangeOf(a: Option<int>, b: Option<int>) | Single(page: Option<int>)

  function Read(p: string): Reading {
    if '-' in p then
      SplitAtLeastTwo(p, '-');
      var pieces := Split(p, '-');
      RangeOf(ParseInt(Trim(pieces[0])), ParseInt(Trim(pieces[1])))
    else Single(ParseInt(p))
  }

  /** The checks of one token: a range needs two numbers with
      `1 <= a <= b <= pageCount`, a single page a number in
      `1..pageCount`; anything else raises the error whose message is
      shown. */
  function Check(t: Reading, pageCount: int): (r: Result<Span>)
    ensures r.Success? ==> 1 <= r.value.lo <= r.value.hi <= pageCount
  {
    match t
    case RangeOf(a, b) =>
      if a.None? || b.None? || a.value > b.value || a.value < 1 || b.value > pageCount then Failure("页码范围无效")
      else Success(Span(a.value, b.value))
    case Single(page) =>
      if page.None? || page.value < 1 || page.value > pageCount then Failure("页码无效")
      else Success(Span(page.value, page.value))
  }

  /** One comma-separated token, trimmed, read and checked. */
  function StrictToken(part: string, pageCount: int): (r: Result<Span>)
    ensures r.Success? ==> 1 <= r.value.lo <= r.value.hi <= pageCount
  {
    Check(Read(Trim(part)), pageCount)
  }

  /** What the trimmed tokens read. */
  function StrictReadings(parts: seq<string>): (r: seq<Reading>)
    ensures |r| == |parts|
  {
    seq(|parts|, k requires 0 <= k < |parts| => Read(Trim(parts[k])))
  }

  /** The outcomes of the tokens in order; the first error ends the
      parse. */
  function Collect(results: seq<Result<Span>>): (r: Result<seq<Span>>)
    ensures r.Success? <==> forall k | 0 <= k < |results| :: results[k].Success?
    ensures r.Success? ==> (|r.value| == |results|
              && forall k | 0 <= k < |results| :: r.value[k] == results[k].value)
  {
    if results == [] then Success([])
    else match results[0]
      case Failure(e) => Failure(e)
      case Success(s) =>
        match Collect(results[1..])
        case Failure(e) =>
          assert forall k | 0 <= k < |results| - 1 :: results[1..][k] == results[k + 1];
          Failure(e)
        case Success(rest) =>
          assert forall k | 0 <= k < |results| - 1 :: results[1..][k] == results[k + 1];
          Success([s] + rest)
  }

  /** Whether a token that reads `t` passes its checks and names `page`. */
  predicate Names(t: Reading, pageCount: int, page: int) {
    Check(t, pageCount).Success? && Has(Check(t, pageCount).value, page)
  }

  /** The pages the tokens name when every token passes its checks: inside
      the document, ascending, each once, and some when there is a token. */
  function StrictPages(readings: seq<Reading>, pageCount: int): (r: Option<seq<int>>)
    ensures r.Some? <==> forall k | 0 <= k < |readings| :: Check(readings[k], pageCount).Success?
    ensures r.Some? ==> && StrictlyAscending(r.value) && (|readings| > 0 ==> r.value != [])
                        && (forall k | 0 <= k < |r.value| :: 1 <= r.value[k] <= pageCount)
    ensures r.Some? ==> forall page :: page in r.value <==> exists k | 0 <= k < |readings| :: Names(readings[k], pageCount, page)
  {
    var results := seq(|readings|, k requires 0 <= k < |readings| => Check(readings[k], pageCount));
    match Collect(results)
    case Failure(_) => None
    case Success(spans) =>
      StrictSpansNamed(readings, pageCount, results, spans);
      Some(Ascending(spans, 1, pageCount))
  }

  /** `parseCustomPages`: `None` (JavaScript's `null`) for blank input;
      otherwise the outcome of the comma-separated tokens, which is never
      an empty list. */
  function ParseCustomPages(custom: string, pageCount: int): (r: Option<seq<int>>)
    ensures IsBlank(custom) ==> r.None?
    ensures !IsBlank(custom) ==> r == StrictPages(StrictReadings(Split(custom, ',')), pageCount)
    ensures r.Some? ==> r.value != []
  {
    TrimEmptyIffBlank(custom);
    if Trim(custom) == [] then None
    else StrictPages(StrictReadings(Split(custom, ',')), pageCount)
  }

  /** The spans of the tokens hold exactly the pages the tokens name, and
      at least one page. */
  lemma StrictSpansNamed(readings: seq<Reading>, pageCount: int, results: seq<Result<Span>>, spans: seq<Span>)
    requires |results| == |readings| && forall k | 0 <= k < |readings| :: results[k] == Check(readings[k], pageCount)
    requires Collect(results) == Success(spans)
    ensures forall page :: InSpans(spans, page) <==> exists k | 0 <= k < |readings| :: Names(readings[k], pageCount, page)
    ensures |readings| > 0 ==> Ascending(spans, 1, pageCount) != []
  {
    forall page ensures InSpans(spans, page) <==> exists k | 0 <= k < |readings| :: Names(readings[k], pageCount, page) {
      if InSpans(spans, page) {
        var k :| 0 <= k < |spans| && Has(spans[k], page);
        assert Names(readings[k], pageCount, page);
      }
      if exists k | 0 <= k < |readings| :: Names(readings[k], pageCount, page) {
        var k :| 0 <= k < |readings| && Names(readings[k], pageCount, page);
        assert Has(spans[k], page);
      }
    }
    if |readings| > 0 {
      assert Has(spans[0], spans[0].lo);
      assert spans[0].lo in Ascending(spans, 1, pageCount);
    }
  }

  /** The pages a conversion is started with, or the message shown
      instead. */
  datatype Start = Ignored | Refused(message: string) | Convert(pages: seq<int>)

  /** `startConvert` of the PDF-to-image page up to the confirmation: all
      pages, or the parsed custom pages, which must be some. */
  function ImageStartConvert(hasFile: bool, pageMode: string, custom: string, pageCount: int): (r: Start)
    ensures !r.Ignored?
    ensures !hasFile ==> r == Refused("请先选择PDF文件")
    ensures hasFile && pageMode == "all" ==> r == Convert(AllPages(pageCount))
    ensures hasFile && pageMode != "all" ==>
              (r == Refused("请输入有效的页码") <==> ParseCustomPages(custom, pageCount).None?)
    ensures r.Convert? && pageMode != "all" ==> r.pages == ParseCustomPages(custom, pageCount).value
  {
    if !hasFile then Refused("请先选择PDF文件")
    else if pageMode == "all" then Convert(AllPages(pageCount))
    else match ParseCustomPages(custom, pageCount)
      case None => Refused("请输入有效的页码")
      case Some(pages) => if pages == [] then Refused("请输入有效的页码") else Convert(pages)
  }

  // ---------------------------------------------------------------------
  // The lenient parser of the PDF-to-PPT page, as written

  predicate Integral(v: real) {
    v.Floor as real == v
  }

  /** `for (let i = a; i <= b; i++)` keeping the values inside
      `1..pageCount`: steps of one from `a`, which need not be whole. */
  function Steps(a: real, b: real, pageCount: int): (r: seq<real>)
    ensures forall k | 0 <= k < |r| :: a <= r[k] <= b && 1.0 <= r[k] <= pageCount as real
    decreases if a <= b then (b - a).Floor + 1 else 0
  {
    if a > b then []
    else
      assert (b - (a + 1.0)).Floor == (b - a).Floor - 1;
      (if 1.0 <= a <= pageCount as real then [a] else []) + Steps(a + 1.0, b, pageCount)
  }

  /** What a token reads with `Number`: for `a-b` the first two pieces
      around the dashes, otherwise the whole token (untrimmed; `Number`
      ignores surrounding white space itself). */
  datatype Numbers = NumberRange(a: Option<real>, b: Option<real>) | NumberSingle(v: Option<real>)

  function ReadNumbers(part: string): Numbers {
    if '-' in part then
      SplitAtLeastTwo(part, '-');
      var pieces := Split(part, '-');
      NumberRange(ToNumber(pieces[0]), ToNumber(pieces[1]))
    else NumberSingle(ToNumber(part))
  }

  function NumberReadings(parts: seq<string>): (r: seq<Numbers>)
    ensures |r| == |parts|
  {
    seq(|parts|, k requires 0 <= k < |parts| => ReadNumbers(parts[k]))
  }

  /** What one token adds, with nothing rejected: a token that is not a
      number, an inverted range or a page outside the document adds
      nothing. */
  function Values(t: Numbers, pageCount: int): (r: seq<real>)
    ensures forall k | 0 <= k < |r| :: 1.0 <= r[k] <= pageCount as real
  {
    match t
    case NumberRange(a, b) =>
      if a.Some? && b.Some? && a.value <= b.value then Steps(a.value, b.value, pageCount) else []
    case NumberSingle(v) =>
      if v.Some? && 1.0 <= v.value <= pageCount as real then [v.value] else []
  }

  /** The values added to the set, token after token. */
  function LenientValues(readings: seq<Numbers>, pageCount: int): (r: seq<real>)
    ensures forall k | 0 <= k < |r| :: 1.0 <= r[k] <= pageCount as real
    ensures forall v | v in r :: exists k | 0 <= k < |readings| :: v in Values(readings[k], pageCount)
    ensures forall k, v | 0 <= k < |readings| && v in Values(readings[k], pageCount) :: v in r
  {
    if readings == [] then []
    else
      var rest := LenientValues(readings[1..], pageCount);
      assert forall k | 0 <= k < |readings| - 1 :: readings[1..][k] == readings[k + 1];
      Values(readings[0], pageCount) + rest
  }

  predicate Ascends(s: seq<real>) {
    forall k, l | 0 <= k < l < |s| :: s[k] < s[l]
  }

  /** Put `x` in place in an ascending list that may already hold it. */
  function InsertDistinct(x: real, s: seq<real>): (r: seq<real>)
    requires Ascends(s)
    ensures Ascends(r)
    ensures forall v :: v in r <==> v == x || v in s
    ensures r != [] && (r[0] == x || (s != [] && r[0] == s[0]))
  {
    if s == [] then [x]
    else if x < s[0] then [x] + s
    else if x == s[0] then s
    else
      var rest := InsertDistinct(x, s[1..]);
      assert forall v | v in rest :: s[0] < v by {
        assert forall k | 0 < k < |s| :: s[0] < s[k];
      }
      assert s == [s[0]] + s[1..];
      [s[0]] + rest
  }

  /** `Array.from(new Set(values)).sort((a, b) => a - b)`. */
  function SortDistinct(xs: seq<real>): (r: seq<real>)
    ensures Ascends(r)
    ensures forall v :: v in r <==> v in xs
  {
    if xs == [] then []
    else
      var rest := SortDistinct(xs[1..]);
      assert xs == [xs[0]] + xs[1..];
      InsertDistinct(xs[0], rest)
  }

  /** The selection of the PDF-to-PPT page as written: the values the
      tokens add, each once, ascending. They lie inside the document but
      are not always whole page numbers. */
  function PptPagesAsWritten(readings: seq<Numbers>, pageCount: int): (r: seq<real>)
    ensures Ascends(r)
    ensures forall k | 0 <= k < |r| :: 1.0 <= r[k] <= pageCount as real
    ensures forall v :: v in r <==> exists k | 0 <= k < |readings| :: v in Values(readings[k], pageCount)
  {
    var values := LenientValues(readings, pageCount);
    var r := SortDistinct(values);
    assert forall k | 0 <= k < |r| :: 1.0 <= r[k] <= pageCount as real by {
      forall k | 0 <= k < |r| ensures 1.0 <= r[k] <= pageCount as real {
        assert r[k] in values;
      }
    }
    r
  }

  /** The text "2.5" is read by `Number` as 2.5, which lies inside a
      three-page document, so the page list handed to the converter is
      [2.5]: a page that does not exist. */
  lemma PptDecimalPage()
    ensures PptPagesAsWritten(NumberReadings(Split("2.5", ',')), 3) == [2.5]
  {
    DecimalReading();
    assert LenientValues([NumberSingle(Some(2.5))], 3) == [2.5] by {
      assert Values(NumberSingle(Some(2.5)), 3) == [2.5];
      assert [NumberSingle(Some(2.5))][1..] == [];
    }
    assert SortDistinct([2.5]) == [2.5] by {
      assert [2.5][1..] == [];
    }
  }

  /** The single token "2.5" reads as the number 2.5. */
  lemma DecimalReading()
    ensures NumberReadings(Split("2.5", ',')) == [NumberSingle(Some(2.5))]
  {
    var s := "2.5";
    assert Split(s, ',') == [s] by {
      assert ',' !in s;
    }
    assert ReadNumbers(s) == NumberSingle(Some(2.5)) by {
      assert '-' !in s;
      ReadTwoPointFive();
    }
  }

  /** `Number("2.5")` is 2.5. */
  lemma ReadTwoPointFive()
    ensures ToNumber("2.5") == Some(2.5)
  {
    TrimTwoPointFive();
    ScanTwoPointFive();
  }

  lemma TrimTwoPointFive()
    ensures Trim("2.5") == "2.5"
  {
    var s := "2.5";
    assert !IsWhite(s[0]) && !IsWhite(s[|s| - 1]);
    assert TrimStart(s) == s;
    assert TrimEnd(s) == s;
  }

  lemma ScanTwoPointFive()
    ensures ScanDecimal("2.5") == Some((2.5, 3))
  {
    var s := "2.5";
    assert |s| == 3 && s[0] == '2' && s[1] == '.';
    assert s[0..] == s && s[1 + 1..] == "5";
    RunsOfTwoPointFive();
    ValuesOfTwoPointFive();
    var whole := LeadingValue(s) as real;
    var frac := LeadingValue(s[1 + 1..]) as real / Pow10(DigitRun(s[1 + 1..], 10)) as real;
    assert whole + frac == 2.5;
  }

  lemma ValuesOfTwoPointFive()
    ensures LeadingValue("2.5") == 2 && LeadingValue("5") == 5 && Pow10(1) == 10
  {
    RunsOfTwoPointFive();
    assert "2.5"[..1] == "2" && "5"[..1] == "5";
    assert "2"[..0] == [] && "5"[..0] == [];
  }

  lemma RunsOfTwoPointFive()
    ensures DigitRun("2.5", 10) == 1 && DigitRun("5", 10) == 1
  {
    assert "2.5"[1..] == ".5" && "5"[1..] == [];
    assert DigitRun(".5", 10) == 0;
  }

  // ---------------------------------------------------------------------
  // The lenient parser with whole page numbers

  /** A token of the lenient parser whose numbers are whole: its span,
      left unclipped. A token that is not a number, an inverted range and
      a number with a fraction name no page. */
  function WholeSpan(t: Numbers): (r: Option<Span>)
    ensures r.Some? ==> r.value.lo <= r.value.hi
  {
    match t
    case NumberRange(a, b) =>
      if a.Some? && b.Some? && a.value <= b.value && Integral(a.value) && Integral(b.value)
      then Some(Span(a.value.Floor, b.value.Floor))
      else None
    case NumberSingle(v) =>
      if v.Some? && Integral(v.value) then Some(Span(v.value.Floor, v.value.Floor)) else None
  }

  predicate Named(opts: seq<Option<Span>>, page: int) {
    exists k | 0 <= k < |opts| :: opts[k].Some? && Has(opts[k].value, page)
  }

  /** Whether the whole-number token reading `t` names `page`. */
  predicate SpanNames(t: Numbers, page: int) {
    WholeSpan(t).Some? && Has(WholeSpan(t).value, page)
  }

  /** The spans that are there, in order. */
  function Present(opts: seq<Option<Span>>): (r: seq<Span>)
    ensures forall page :: InSpans(r, page) <==> Named(opts, page)
  {
    if opts == [] then []
    else
      var rest := Present(opts[1..]);
      var head := match opts[0] case Some(s) => [s] case None => [];
      PresentCons(opts, head, rest);
      head + rest
  }

  lemma PresentCons(opts: seq<Option<Span>>, head: seq<Span>, rest: seq<Span>)
    requires opts != []
    requires head == match opts[0] case Some(s) => [s] case None => []
    requires forall page :: InSpans(rest, page) <==> Named(opts[1..], page)
    ensures forall page :: InSpans(head + rest, page) <==> Named(opts, page)
  {
    forall page ensures InSpans(head + rest, page) <==> Named(opts, page) {
      if InSpans(head + rest, page) {
        var k :| 0 <= k < |head + rest| && Has((head + rest)[k], page);
        if k >= |head| {
          assert rest[k - |head|] == (head + rest)[k];
          assert InSpans(rest, page);
          assert Named(opts[1..], page);
          var j :| 0 <= j < |opts| - 1 && opts[1..][j].Some? && Has(opts[1..][j].value, page);
          assert opts[j + 1] == opts[1..][j];
        } else {
          assert opts[0].Some? && Has(opts[0].value, page);
        }
      }
      if Named(opts, page) {
        var k :| 0 <= k < |opts| && opts[k].Some? && Has(opts[k].value, page);
        if k == 0 {
          assert Has((head + rest)[0], page);
        } else {
          assert opts[1..][k - 1] == opts[k];
          assert Named(opts[1..], page);
          var j :| 0 <= j < |rest| && Has(rest[j], page);
          assert (head + rest)[j + |head|] == rest[j];
        }
      }
    }
  }

  /** The selection of the PDF-to-PPT page taking only whole page numbers:
      every page inside the document that a token names, ascending, each
      once. */
  function PptPages(readings: seq<Numbers>, pageCount: int): (r: seq<int>)
    ensures StrictlyAscending(r)
    ensures forall k | 0 <= k < |r| :: 1 <= r[k] <= pageCount
    ensures forall page :: page in r <==>
              1 <= page <= pageCount && exists k | 0 <= k < |readings| :: SpanNames(readings[k], page)
  {
    var opts := seq(|readings|, k requires 0 <= k < |readings| => WholeSpan(readings[k]));
    var r := Ascending(Present(opts), 1, pageCount);
    assert forall page :: Named(opts, page) <==> exists k | 0 <= k < |readings| :: SpanNames(readings[k], page) by {
      forall page ensures Named(opts, page) <==> exists k | 0 <= k < |readings| :: SpanNames(readings[k], page) {
        if Named(opts, page) {
          var k :| 0 <= k < |opts| && opts[k].Some? && Has(opts[k].value, page);
          assert SpanNames(readings[k], page);
        }
        if exists k | 0 <= k < |readings| :: SpanNames(readings[k], page) {
          var k :| 0 <= k < |readings| && SpanNames(readings[k], page);
          assert opts[k].Some? && Has(opts[k].value, page);
        }
      }
    }
    r
  }

  function ToReals(s: seq<int>): (r: seq<real>)
    ensures |r| == |s| && forall k | 0 <= k < |s| :: r[k] == s[k] as real
  {
    seq(|s|, k requires 0 <= k < |s| => s[k] as real)
  }

  /** Whether every number a token reads, when it would add pages, is
      whole. */
  predicate Whole(t: Numbers) {
    match t
    case NumberRange(a, b) => a.Some? && b.Some? && a.value <= b.value ==> Integral(a.value) && Integral(b.value)
    case NumberSingle(v) => v.Some? ==> Integral(v.value)
  }

  /** Whether every token of a custom text reads whole numbers. */
  predicate AllWhole(readings: seq<Numbers>) {
    forall k | 0 <= k < |readings| :: Whole(readings[k])
  }

  /** Steps from a whole number are exactly the whole numbers up to the
      end inside the document. */
  lemma {:induction false} StepsWhole(n: int, b: real, pageCount: int, v: real)
    ensures v in Steps(n as real, b, pageCount) <==>
              Integral(v) && n as real <= v <= b && 1.0 <= v <= pageCount as real
    decreases if n as real <= b then (b - n as real).Floor + 1 else 0
  {
    if n as real <= b {
      assert (b - (n as real + 1.0)).Floor == (b - n as real).Floor - 1;
      StepsWhole(n + 1, b, pageCount, v);
      assert (n + 1) as real == n as real + 1.0;
      if Integral(v) && n as real < v {
        assert v.Floor >= n + 1;
      }
    }
  }

  /** For a whole token, what it adds as written are the whole pages its
      span names inside the document. */
  lemma TokenWhole(t: Numbers, pageCount: int, v: real)
    requires Whole(t)
    ensures v in Values(t, pageCount) <==>
              Integral(v) && 1.0 <= v <= pageCount as real && SpanNames(t, v.Floor)
  {
    match t
    case NumberRange(a, b) =>
      if a.Some? && b.Some? && a.value <= b.value {
        StepsWhole(a.value.Floor, b.value, pageCount, v);
        if Integral(v) {
          assert v.Floor as real == v;
        }
      }
    case NumberSingle(_) =>
  }

  lemma {:induction false} AscendsEqual(x: seq<real>, y: seq<real>)
    requires Ascends(x) && Ascends(y)
    requires forall v :: v in x <==> v in y
    ensures x == y
    decreases |x|
  {
    assert y != [] ==> y[0] in y;
    assert y != [] ==> y[0] in x;
    if x != [] {
      assert x[0] in x;
      assert y != [] by {
        assert x[0] in y;
      }
      assert y[0] in y;
      assert x[0] == y[0] by {
        assert y[0] in x && x[0] in y;
      }
      assert forall v :: v in x[1..] <==> v in y[1..] by {
        assert forall v | v in x[1..] :: v in x && v != x[0];
        assert forall v | v in y[1..] :: v in y && v != y[0];
        assert forall v | v in x && v != x[0] :: v in x[1..] by {
          assert x == [x[0]] + x[1..];
        }
        assert forall v | v in y && v != y[0] :: v in y[1..] by {
          assert y == [y[0]] + y[1..];
        }
      }
      AscendsEqual(x[1..], y[1..]);
      assert x == [x[0]] + x[1..] && y == [y[0]] + y[1..];
    }
  }

  /** When every token reads whole numbers, the page list as written and
      the list of whole page numbers are the same list. */
  lemma PptPagesAgree(readings: seq<Numbers>, pageCount: int)
    requires AllWhole(readings)
    ensures PptPagesAsWritten(readings, pageCount) == ToReals(PptPages(readings, pageCount))
  {
    var x := PptPagesAsWritten(readings, pageCount);
    var p := PptPages(readings, pageCount);
    var y := ToReals(p);
    assert Ascends(y);
    forall v ensures v in x <==> v in y {
      if v in x {
        var k :| 0 <= k < |readings| && v in Values(readings[k], pageCount);
        TokenWhole(readings[k], pageCount, v);
        assert v.Floor in p;
        var j :| 0 <= j < |p| && p[j] == v.Floor;
        assert y[j] == v;
      }
      if v in y {
        var j :| 0 <= j < |y| && y[j] == v;
        assert p[j] in p;
        var k :| 0 <= k < |readings| && SpanNames(readings[k], p[j]);
        assert v.Floor == p[j];
        TokenWhole(readings[k], pageCount, v);
      }
    }
    AscendsEqual(x, y);
  }

  /** How `startConvert` of the PDF-to-PPT page ends before the cloud
      call: its page list is of numbers as `Number` reads them. */
  datatype PptStart = PptIgnored | PptRefused(message: string) | PptConvert(pages: seq<real>)

  /** `startConvert` of the PDF-to-PPT page up to the cloud call, as
      written: nothing happens while a conversion runs; all pages, or the
      custom pages the lenient reading selects, which must be some. */
  function PptStartConvert(converting: bool, pageMode: string, custom: string, pageCount: int): (r: PptStart)
    ensures converting <==> r.PptIgnored?
    ensures !converting && pageMode == "all" ==> r == PptConvert(ToReals(AllPages(pageCount)))
    ensures !converting && pageMode != "all" ==>
              (r == PptRefused("请输入有效的页码") <==> PptPagesAsWritten(NumberReadings(Split(custom, ',')), pageCount) == [])
    ensures r.PptConvert? && pageMode != "all" ==>
              && r.pages == PptPagesAsWritten(NumberReadings(Split(custom, ',')), pageCount) && r.pages != []
              && Ascends(r.pages)
              && forall k | 0 <= k < |r.pages| :: 1.0 <= r.pages[k] <= pageCount as real
  {
    if converting then PptIgnored
    else if pageMode == "all" then PptConvert(ToReals(AllPages(pageCount)))
    else
      var pages := PptPagesAsWritten(NumberReadings(Split(custom, ',')), pageCount);
      if pages == [] then PptRefused("请输入有效的页码") else PptConvert(pages)
  }

  /** When every token of the custom text reads whole numbers, the page
      sends exactly the whole page numbers the corrected reading selects,
      and refuses exactly when there are none. */
  lemma PptStartWhole(pageMode: string, custom: string, pageCount: int)
    requires pageMode != "all"
    requires AllWhole(NumberReadings(Split(custom, ',')))
    ensures var pages := PptPages(NumberReadings(Split(custom, ',')), pageCount);
            PptStartConvert(false, pageMode, custom, pageCount)
            == if pages == [] then PptRefused("请输入有效的页码") else PptConvert(ToReals(pages))
  {
    var readings := NumberReadings(Split(custom, ','));
    var pages := PptPages(readings, pageCount);
    PptPagesAgree(readings, pageCount);
    PptCustomStart(pageMode, custom, pageCount, ToReals(pages));
    StartOfPages(PptStartConvert(false, pageMode, custom, pageCount), pages);
  }

  /** A start decided on the real form of a page list is decided on the
      list itself: the two are empty together. */
  lemma StartOfPages(st: PptStart, pages: seq<int>)
    requires st == if ToReals(pages) == [] then PptRefused("请输入有效的页码") else PptConvert(ToReals(pages))
    ensures st == if pages == [] then PptRefused("请输入有效的页码") else PptConvert(ToReals(pages))
  {
    assert |ToReals(pages)| == |pages|;
  }

  /** The custom branch of `startConvert` for a given page list. */
  lemma PptCustomStart(pageMode: string, custom: string, pageCount: int, x: seq<real>)
    requires pageMode != "all" && x == PptPagesAsWritten(NumberReadings(Split(custom, ',')), pageCount)
    ensures PptStartConvert(false, pageMode, custom, pageCount) == if x == [] then PptRefused("请输入有效的页码") else PptConvert(x)
  {
  }

  /** As written, the text "2.5" for a three-page document is not refused:
      the page asks for page 2.5. */
  lemma PptStartDecimal(pageMode: string)
    requires pageMode != "all"
    ensures PptStartConvert(false, pageMode, "2.5", 3) == PptConvert([2.5])
  {
    PptDecimalPage();
  }

  // ---------------------------------------------------------------------
  // Quality

  /** `qualityMap` of the PDF-to-image page: undefined outside 1..3. */
  function ImageQualityLabel(quality: int): (r: Option<string>)
    ensures r.Some? <==> 1 <= quality <= 3
  {
    if quality == 1 then Some("低") else if quality == 2 then Some("中") else if quality == 3 then Some("高") else None
  }

  /** `dpiMap` of the PDF-to-image page: undefined outside 1..3. */
  function ImageDpi(quality: int): (r: Option<int>)
    ensures r.Some? <==> 1 <= quality <= 3
  {
    if quality == 1 then Some(72) else if quality == 2 then Some(150) else if quality == 3 then Some(300) else None
  }

  /** A higher quality setting never renders at fewer dots per inch. */
  lemma ImageDpiIncreasing(q1: int, q2: int)
    requires 1 <= q1 < q2 <= 3
    ensures ImageDpi(q1).value < ImageDpi(q2).value
  {
  }

  /** `onQualityChange` of the PDF-to-PPT page: 1 and 3 are low and high,
      every other value medium. */
  function PptQuality(value: int): (r: (string, int))
    ensures value == 1 ==> r == ("低", 72)
    ensures value == 3 ==> r == ("高", 300)
    ensures value != 1 && value != 3 ==> r == ("中", 150)
  {
    if value == 1 then ("低", 72) else if value == 3 then ("高", 300) else ("中", 150)
  }

  /** On the three settings both pages offer, the PPT page's label and
      resolution are the image page's. */
  lemma QualityMapsAgree(quality: int)
    requires 1 <= quality <= 3
    ensures PptQuality(quality) == (ImageQualityLabel(quality).value, ImageDpi(quality).value)
  {
  }
}

=== FILE: pdf_canvas.dfy ===
/** An abstract pdfkit document as the Markdown renderer drives it: the
    current page, the vertical cursor `y`, the current font, and a log of
    what has been drawn. How tall a piece of flowing text turns out is the
    library's business and is supplied by a `Metrics` value. */
module PdfCanvas {
  import opened Wrappers

  /** An A4 page in points, with 50-point margins on every side. */
  const PageWidth: real := 595.28
  const Margin: real := 50.0
  /** `doc.page.width - 100`: the width between the side margins. */
  const ContentWidth: real := PageWidth - 2.0 * Margin
  /** The cursor after `addPage()`: the top margin. */
  const TopY: real := 50.0
  /** The renderer's own page-break threshold. */
  const BreakY: real := 700.0

  datatype Face = Helvetica | HelveticaBold | Courier
  datatype Style = Style(face: Face, size: real)

  /** The initial font of a pdfkit document. */
  const DefaultStyle := Style(Helvetica, 12.0)

  /** How a piece of text is laid out, which the height of the text
      depends on: the plain column, the column with `lineGap: 2`, the
      column with a first-line indent of 20, centred, `continued: true`, and
      a table cell box of the given width (`None` is an unbounded width). */
  datatype Frame = Column | Spaced | Indented | Centered | Continued | CellBox(width: Option<real>)

  type Height = r: real | r >= 0.0

  /** The library's text measurements: the height a text occupies when
      written in a style and frame, and the line height `moveDown` uses. */
  datatype Metrics = Metrics(textHeight: (Style, Frame, string) -> Height, lineHeight: Style -> Height)

  datatype RowKind = HeaderRow | DataRow(index: nat)

  /** What has been drawn, with the page and the cursor it was drawn at. */
  datatype Op =
    | Text(page: nat, y: real, style: Style, frame: Frame, text: string)
    | Picture(page: nat, x: real, y: real, width: real, height: real)
    | Cell(page: nat, y: real, row: RowKind, col: nat, colWidth: Option<real>, text: string)
    | Box(page: nat, y: real, height: real)
    | Rule(page: nat, y: real)

  datatype Canvas = Canvas(page: nat, y: real, style: Style, ops: seq<Op>)

  /** A fresh document: first page, cursor at the top margin, default font. */
  const Fresh := Canvas(1, TopY, DefaultStyle, [])

  /** `a` is `b` with more drawing appended. */
  predicate Extends(a: Canvas, b: Canvas) {
    |b.ops| <= |a.ops| && a.ops[..|b.ops|] == b.ops && b.page <= a.page
  }

  lemma ExtendsTrans(a: Canvas, b: Canvas, c: Canvas)
    requires Extends(a, b) && Extends(b, c)
    ensures Extends(a, c)
  {
    assert a.ops[..|c.ops|] == a.ops[..|b.ops|][..|c.ops|];
  }

  /** `doc.addPage()` */
  function AddPage(c: Canvas): (r: Canvas)
    ensures Extends(r, c) && r.ops == c.ops && r.page == c.page + 1
  {
    c.(page := c.page + 1, y := TopY)
  }

  /** `doc.fontSize(size)` */
  function SetSize(c: Canvas, size: real): Canvas {
    c.(style := c.style.(size := size))
  }

  /** `doc.font(face)` */
  function SetFace(c: Canvas, face: Face): Canvas {
    c.(style := c.style.(face := face))
  }

  /** `doc.moveDown(lines)`: the current font's line height, `lines` times. */
  function MoveDown(m: Metrics, c: Canvas, lines: real): (r: Canvas)
    requires lines >= 0.0
    ensures Extends(r, c) && r.ops == c.ops && r.page == c.page
    ensures r.y >= c.y
  {
    c.(y := c.y + lines * m.lineHeight(c.style))
  }

  /** `doc.text(text, options)` at the cursor: the text is logged and the
      cursor moves below it. */
  function Write(m: Metrics, c: Canvas, frame: Frame, text: string): (r: Canvas)
    ensures Extends(r, c) && r.ops == c.ops + [Text(c.page, c.y, c.style, frame, text)]
    ensures r.page == c.page && r.style == c.style && r.y >= c.y
  {
    c.(y := c.y + m.textHeight(c.style, frame, text), ops := c.ops + [Text(c.page, c.y, c.style, frame, text)])
  }

  /** Drawing that does not move the cursor (rectangles, lines). */
  function Draw(c: Canvas, op: Op): (r: Canvas)
    ensures Extends(r, c) && r.ops == c.ops + [op] && r.page == c.page && r.y == c.y
  {
    c.(ops := c.ops + [op])
  }

  /** `doc.image(src, x, doc.y, {width, height})`: the picture is logged
      at the cursor, and since it is placed at the cursor's own y the
      library moves the cursor below it, as it does for flowing content. */
  function PlaceImage(c: Canvas, x: real, width: real, height: Height): (r: Canvas)
    ensures Extends(r, c) && r.ops == c.ops + [Picture(c.page, x, c.y, width, height)]
    ensures r.page == c.page && r.style == c.style && r.y == c.y + height
  {
    c.(y := c.y + height, ops := c.ops + [Picture(c.page, x, c.y, width, height)])
  }

  /** `checkAndAddPage`: a new page exactly when the cursor has passed the
      threshold, so that afterwards the cursor is at or above it. */
  function CheckAndAddPage(c: Canvas): (r: Canvas)
    ensures Extends(r, c) && r.ops == c.ops
    ensures r.y <= BreakY
    ensures r.page == (if c.y > BreakY then c.page + 1 else c.page)
    ensures c.y <= BreakY ==> r == c
  {
    if c.y > BreakY then AddPage(c) else c
  }
}

=== FILE: pdf_split.dfy ===
/** The PDF-splitting cloud function (`pdfSplit/index.js`): the action
    dispatch, the page ranges each split mode produces, the zero-based page
    indices copied for a range, and the name and label of each output file.
    Loading, copying and uploading are left to the library; the page count
    of the loaded document is an input. */
module PdfSplit {
  import opened Wrappers
  import opened JsText

  /** A range of pages numbered from one, both ends included. */
  datatype Range = Range(start: int, end: int)

  /** The part of a split request that decides the ranges. */
  datatype SplitRequest = SplitRequest(mode: string, ranges: seq<Range>, splitCount: int, oddEvenMode: string)

  /** One output file: its name, its page label, the zero-based indices of
      the pages copied into it, and the page count reported for it. */
  datatype OutputFile = OutputFile(name: string, pageRange: string, indices: seq<int>, pageCount: int)

  /** The function's answer; `PageCount` and `Files` are `success: true`. */
  datatype Response = PageCount(count: nat) | Files(files: seq<OutputFile>) | Error(message: string)

  function Min(a: int, b: int): int {
    if a <= b then a else b
  }

  // ---------------------------------------------------------------------
  // What a good set of ranges is

  predicate InRange(r: Range, p: int) {
    r.start <= p <= r.end
  }

  /** `rs` cut the pages 1..`total` into non-empty pieces, in order, with
      every page in exactly one piece. */
  predicate Partition(rs: seq<Range>, total: nat) {
    && (forall k | 0 <= k < |rs| :: 1 <= rs[k].start <= rs[k].end <= total)
    && (forall k, l | 0 <= k < l < |rs| :: rs[k].end < rs[l].start)
    && (forall p | 1 <= p <= total :: Covered(rs, p))
  }

  predicate Covered(rs: seq<Range>, p: int) {
    exists k | 0 <= k < |rs| :: InRange(rs[k], p)
  }

  /** Each range starts right after the previous one ends. */
  predicate Contiguous(rs: seq<Range>) {
    forall k | 0 <= k < |rs| - 1 :: rs[k + 1].start == rs[k].end + 1
  }

  /** A contiguous chain of non-empty ranges from `lo` to `hi` covers every
      page between them. */
  lemma {:induction false} ChainCovers(rs: seq<Range>, lo: int, hi: int, p: int)
    requires rs != [] && rs[0].start == lo && rs[|rs| - 1].end == hi
    requires Contiguous(rs) && forall k | 0 <= k < |rs| :: rs[k].start <= rs[k].end
    requires lo <= p <= hi
    ensures exists k | 0 <= k < |rs| :: InRange(rs[k], p)
    decreases |rs|
  {
    if p > rs[0].end {
      var tail := rs[1..];
      assert |rs| > 1;
      assert Contiguous(tail) by {
        forall k | 0 <= k < |tail| - 1 ensures tail[k + 1].start == tail[k].end + 1 {
          assert tail[k] == rs[k + 1] && tail[k + 1] == rs[k + 2];
        }
      }
      ChainCovers(tail, rs[0].end + 1, hi, p);
      var k :| 0 <= k < |tail| && InRange(tail[k], p);
      assert InRange(rs[k + 1], p);
    } else {
      assert InRange(rs[0], p);
    }
  }

  /** A contiguous chain of non-empty ranges ascends strictly. */
  lemma {:induction false} ChainAscends(rs: seq<Range>, k: nat, l: nat)
    requires Contiguous(rs) && forall i | 0 <= i < |rs| :: rs[i].start <= rs[i].end
    requires k < l < |rs|
    ensures rs[k].end < rs[l].start
    decreases l - k
  {
    if l > k + 1 {
      ChainAscends(rs, k, l - 1);
    }
  }

  lemma ChainPartition(rs: seq<Range>, total: nat)
    requires rs != [] && rs[0].start == 1 && rs[|rs| - 1].end == total
    requires Contiguous(rs) && forall k | 0 <= k < |rs| :: rs[k].start <= rs[k].end
    ensures Partition(rs, total)
  {
    forall k, l | 0 <= k < l < |rs| ensures rs[k].end < rs[l].start {
      ChainAscends(rs, k, l);
    }
    forall k | 0 <= k < |rs| ensures 1 <= rs[k].start && rs[k].end <= total {
      if k > 0 { ChainAscends(rs, 0, k); }
      if k < |rs| - 1 { ChainAscends(rs, k, |rs| - 1); }
    }
    forall p | 1 <= p <= total ensures Covered(rs, p) {
      ChainCovers(rs, 1, total, p);
    }
  }

  // ---------------------------------------------------------------------
  // Modes

  /** 'single': one range per page. */
  function SingleRanges(total: nat): (rs: seq<Range>)
    ensures |rs| == total
    ensures forall k | 0 <= k < total :: rs[k] == Range(k + 1, k + 1)
  {
    seq(total, k requires 0 <= k < total => Range(k + 1, k + 1))
  }

  /** The single-page ranges cut the document into its pages. */
  lemma SinglePartition(total: nat)
    ensures Partition(SingleRanges(total), total)
  {
    var rs := SingleRanges(total);
    if total > 0 {
      ChainPartition(rs, total);
    }
  }

  /** The 'average' loop from index `i`: range `i` is pages `i·p + 1` to
      `min((i + 1)·p, total)`, kept only while it starts inside the
      document. */
  function AverageFrom(total: nat, p: nat, i: nat, count: nat): seq<Range>
    decreases count - i
  {
    if i >= count then []
    else (if i * p + 1 <= total then [Range(i * p + 1, Min((i + 1) * p, total))] else [])
         + AverageFrom(total, p, i + 1, count)
  }

  /** 'average': `splitCount` ranges of `ceil(total / splitCount)` pages;
      a count that is not positive gives no ranges. */
  function AverageRanges(total: nat, splitCount: int): seq<Range> {
    if splitCount <= 0 then [] else AverageFrom(total, CeilDiv(total, splitCount), 0, splitCount)
  }

  /** The ranges the loop keeps from index `i` on continue the chain that
      ended at page `i·p`. */
  lemma {:induction false} AverageFromChain(total: nat, p: nat, i: nat, count: nat)
    requires p >= 1 && i * p < total && total <= count * p && i < count
    ensures var rs := AverageFrom(total, p, i, count);
            && rs != [] && rs[0].start == i * p + 1 && rs[|rs| - 1].end == total
            && Contiguous(rs) && (forall k | 0 <= k < |rs| :: rs[k].start <= rs[k].end)
            && |rs| <= count - i
    decreases count - i
  {
    var head := Range(i * p + 1, Min((i + 1) * p, total));
    var rs := AverageFrom(total, p, i, count);
    var rest := AverageFrom(total, p, i + 1, count);
    assert rs == [head] + rest;
    assert (i + 1) * p == i * p + p;
    if (i + 1) * p < total {
      assert i + 1 < count;
      AverageFromChain(total, p, i + 1, count);
    } else {
      AverageFromEmpty(total, p, i + 1, count);
    }
  }

  /** Once the ranges would start past the end, the loop adds nothing. */
  lemma {:induction false} AverageFromEmpty(total: nat, p: nat, i: nat, count: nat)
    requires i * p >= total
    ensures AverageFrom(total, p, i, count) == []
    decreases count - i
  {
    if i < count {
      assert (i + 1) * p >= i * p;
      AverageFromEmpty(total, p, i + 1, count);
    }
  }

  /** The 'average' ranges cut the document into at most `splitCount`
      pieces of at most `ceil(total / splitCount)` pages, and there are none
      only for an empty document or a count that is not positive. */
  lemma AveragePartition(total: nat, splitCount: int)
    requires splitCount > 0
    ensures Partition(AverageRanges(total, splitCount), total)
    ensures |AverageRanges(total, splitCount)| <= splitCount
    ensures AverageRanges(total, splitCount) == [] <==> total == 0
    ensures forall k | 0 <= k < |AverageRanges(total, splitCount)| ::
              AverageRanges(total, splitCount)[k].end - AverageRanges(total, splitCount)[k].start
                < CeilDiv(total, splitCount)
  {
    var p := CeilDiv(total, splitCount);
    var rs := AverageRanges(total, splitCount);
    if total == 0 {
      AverageFromEmpty(total, p, 0, splitCount);
    } else {
      assert p >= 1;
      AverageFromChain(total, p, 0, splitCount);
      ChainPartition(rs, total);
      forall k | 0 <= k < |rs| ensures rs[k].end - rs[k].start < p {
        AverageFromShape(total, p, 0, splitCount, k);
      }
    }
  }

  lemma {:induction false} AverageFromShape(total: nat, p: nat, i: nat, count: nat, k: nat)
    requires k < |AverageFrom(total, p, i, count)|
    ensures AverageFrom(total, p, i, count)[k].end - AverageFrom(total, p, i, count)[k].start < p
    decreases count - i
  {
    var rest := AverageFrom(total, p, i + 1, count);
    if i * p + 1 <= total {
      assert (i + 1) * p == i * p + p;
      if k > 0 {
        AverageFromShape(total, p, i + 1, count, k - 1);
      }
    } else {
      AverageFromShape(total, p, i + 1, count, k);
    }
  }

  /** Ten pages asked for in six parts make five parts of two pages. */
  lemma AverageTenInSix()
    ensures AverageRanges(10, 6) == [Range(1, 2), Range(3, 4), Range(5, 6), Range(7, 8), Range(9, 10)]
  {
    assert CeilDiv(10, 6) == 2;
    assert AverageFrom(10, 2, 5, 6) == [];
  }

  /** The pages 1..`total` of one parity: 'odd' or 'even'; any other value
      selects nothing. */
  function ParityPages(total: nat, which: string): (pages: seq<int>)
    ensures forall k | 0 <= k < |pages| :: 1 <= pages[k] <= total
    ensures forall k | 0 <= k < |pages| - 1 :: pages[k + 1] == pages[k] + 2
    ensures which == "odd" ==> |pages| == (total + 1) / 2 && (pages != [] ==> pages[0] == 1)
    ensures which == "even" ==> |pages| == total / 2 && (pages != [] ==> pages[0] == 2)
    ensures which != "odd" && which != "even" ==> pages == []
  {
    if total == 0 then []
    else
      var before := ParityPages(total - 1, which);
      if (which == "odd" && total % 2 == 1) || (which == "even" && total % 2 == 0) then
        ParityLast(before, if which == "odd" then 1 else 2, total - 2);
        before + [total]
      else before
  }

  /** A run stepping by two from `first` ends at `first + 2 * (n - 1)`. */
  lemma ParityLast(pages: seq<int>, first: int, last: int)
    requires pages != [] ==> pages[0] == first && first + 2 * (|pages| - 1) == last
    requires forall i | 0 <= i < |pages| - 1 :: pages[i + 1] == pages[i] + 2
    ensures pages != [] ==> pages[|pages| - 1] == last
  {
    if pages != [] {
      ParityStep(pages, first, |pages| - 1);
    }
  }

  lemma {:induction false} ParityStep(pages: seq<int>, first: int, k: nat)
    requires pages != [] && pages[0] == first
    requires forall i | 0 <= i < |pages| - 1 :: pages[i + 1] == pages[i] + 2
    requires k < |pages|
    ensures pages[k] == first + 2 * k
  {
    if k > 0 {
      ParityStep(pages, first, k - 1);
    }
  }

  /** The merge loop of 'oddeven': consecutive page numbers are gathered
      into one range, starting a new range at every gap. */
  function MergeRuns(pages: seq<int>): seq<Range> {
    if pages == [] then [] else MergeFrom(pages[1..], pages[0], pages[0])
  }

  function MergeFrom(rest: seq<int>, start: int, end: int): seq<Range>
    decreases |rest|
  {
    if rest == [] then [Range(start, end)]
    else if rest[0] == end + 1 then MergeFrom(rest[1..], start, rest[0])
    else [Range(start, end)] + MergeFrom(rest[1..], rest[0], rest[0])
  }

  /** The pages of a range, in order. */
  function PagesOf(r: Range): seq<int>
    decreases r.end - r.start
  {
    if r.start > r.end then [] else [r.start] + PagesOf(Range(r.start + 1, r.end))
  }

  function Expand(rs: seq<Range>): seq<int> {
    if rs == [] then [] else PagesOf(rs[0]) + Expand(rs[1..])
  }

  lemma {:induction false} PagesOfExtend(start: int, end: int)
    requires start <= end + 1
    ensures PagesOf(Range(start, end + 1)) == PagesOf(Range(start, end)) + [end + 1]
    decreases end - start + 1
  {
    if start <= end {
      PagesOfExtend(start + 1, end);
    } else {
      assert PagesOf(Range(start + 1, end + 1)) == [];
    }
  }

  lemma {:induction false} ExpandAppend(a: seq<Range>, b: seq<Range>)
    ensures Expand(a + b) == Expand(a) + Expand(b)
    decreases |a|
  {
    if a == [] {
      assert a + b == b;
    } else {
      assert (a + b)[1..] == a[1..] + b;
      ExpandAppend(a[1..], b);
    }
  }

  lemma {:induction false} MergeFromExpand(rest: seq<int>, start: int, end: int)
    requires start <= end
    ensures Expand(MergeFrom(rest, start, end)) == PagesOf(Range(start, end)) + rest
    decreases |rest|
  {
    if rest == [] {
      assert Expand([Range(start, end)]) == PagesOf(Range(start, end)) + Expand([]);
    } else if rest[0] == end + 1 {
      MergeFromExpand(rest[1..], start, rest[0]);
      PagesOfExtend(start, end);
      assert [rest[0]] + rest[1..] == rest;
    } else {
      MergeFromExpand(rest[1..], rest[0], rest[0]);
      ExpandAppend([Range(start, end)], MergeFrom(rest[1..], rest[0], rest[0]));
      assert Expand([Range(start, end)]) == PagesOf(Range(start, end)) + Expand([]);
      assert PagesOf(Range(rest[0], rest[0])) == [rest[0]];
      assert [rest[0]] + rest[1..] == rest;
    }
  }

  /** The merged ranges list exactly the pages they were made from, in
      order: nothing is lost, added or reordered. */
  lemma MergeExpand(pages: seq<int>)
    ensures Expand(MergeRuns(pages)) == pages
  {
    if pages != [] {
      MergeFromExpand(pages[1..], pages[0], pages[0]);
      assert PagesOf(Range(pages[0], pages[0])) == [pages[0]];
      assert [pages[0]] + pages[1..] == pages;
    }
  }

  /** No page follows its predecessor directly. */
  predicate NoAdjacent(pages: seq<int>) {
    forall k | 0 <= k < |pages| - 1 :: pages[k + 1] != pages[k] + 1
  }

  function Singletons(pages: seq<int>): (rs: seq<Range>)
    ensures |rs| == |pages|
    ensures forall k | 0 <= k < |pages| :: rs[k] == Range(pages[k], pages[k])
  {
    seq(|pages|, k requires 0 <= k < |pages| => Range(pages[k], pages[k]))
  }

  lemma {:induction false} MergeFromSingletons(rest: seq<int>, p: int)
    requires NoAdjacent([p] + rest)
    ensures MergeFrom(rest, p, p) == Singletons([p] + rest)
    decreases |rest|
  {
    if rest != [] {
      assert ([p] + rest)[1] == rest[0];
      assert NoAdjacent(rest) by {
        forall k | 0 <= k < |rest| - 1 ensures rest[k + 1] != rest[k] + 1 {
          assert ([p] + rest)[k + 2] == rest[k + 1] && ([p] + rest)[k + 1] == rest[k];
        }
      }
      assert rest[0] != p + 1 by {
        assert ([p] + rest)[0] == p;
      }
      assert [rest[0]] + rest[1..] == rest;
      MergeFromSingletons(rest[1..], rest[0]);
      SingletonsCons(p, rest);
    } else {
      assert [p] + rest == [p];
      assert Singletons([p]) == [Range(p, p)];
    }
  }

  lemma SingletonsCons(p: int, rest: seq<int>)
    ensures Singletons([p] + rest) == [Range(p, p)] + Singletons(rest)
  {
    var a := Singletons([p] + rest);
    var b := [Range(p, p)] + Singletons(rest);
    assert |a| == |b|;
    forall k | 0 <= k < |a| ensures a[k] == b[k] {
      if k > 0 {
        assert ([p] + rest)[k] == rest[k - 1];
      }
    }
  }

  /** Pages that are never consecutive become one single-page range each. */
  lemma MergeSingletons(pages: seq<int>)
    requires NoAdjacent(pages)
    ensures MergeRuns(pages) == Singletons(pages)
  {
    if pages != [] {
      assert [pages[0]] + pages[1..] == pages;
      MergeFromSingletons(pages[1..], pages[0]);
    }
  }

  /** 'oddeven': the pages of the chosen parity, merged into runs. */
  function OddEvenRanges(total: nat, which: string): seq<Range> {
    MergeRuns(ParityPages(total, which))
  }

  /** Odd or even pages are never consecutive, so 'odd' gives one range per
      odd page, `ceil(total / 2)` of them, 'even' one per even page,
      `floor(total / 2)`, and any other choice none. */
  lemma OddEvenCounts(total: nat, which: string)
    ensures var rs := OddEvenRanges(total, which);
            && rs == Singletons(ParityPages(total, which))
            && (which == "odd" ==> |rs| == (total + 1) / 2)
            && (which == "even" ==> |rs| == total / 2)
            && (which != "odd" && which != "even" ==> rs == [])
            && (forall k | 0 <= k < |rs| :: rs[k].start == rs[k].end && 1 <= rs[k].start <= total)
  {
    MergeSingletons(ParityPages(total, which));
  }

  /** The ranges of a request. 'range' takes the caller's ranges as they
      are; an unknown mode gives none. */
  function PlanRanges(req: SplitRequest, total: nat): (rs: seq<Range>)
    ensures req.mode == "range" ==> rs == req.ranges
    ensures req.mode == "single" ==> Partition(rs, total) && |rs| == total
    ensures req.mode == "average" && req.splitCount > 0 ==> Partition(rs, total) && |rs| <= req.splitCount
    ensures req.mode == "average" && req.splitCount <= 0 ==> rs == []
    ensures req.mode == "oddeven" ==> Expand(rs) == ParityPages(total, req.oddEvenMode)
    ensures req.mode !in {"range", "single", "average", "oddeven"} ==> rs == []
  {
    match req.mode
    case "range" => req.ranges
    case "single" =>
      SinglePartition(total);
      SingleRanges(total)
    case "average" =>
      if req.splitCount > 0 then AveragePartition(total, req.splitCount); AverageRanges(total, req.splitCount)
      else []
    case "oddeven" =>
      MergeExpand(ParityPages(total, req.oddEvenMode));
      OddEvenRanges(total, req.oddEvenMode)
    case _ => []
  }

  // ---------------------------------------------------------------------
  // Output files

  /** The zero-based indices copied for a range: `start - 1` up to but not
      including `end`. */
  function CopyIndices(r: Range): (ix: seq<int>)
    ensures |ix| == if r.start <= r.end then r.end - r.start + 1 else 0
    ensures forall k | 0 <= k < |ix| :: ix[k] == r.start - 1 + k
  {
    if r.start <= r.end then seq(r.end - r.start + 1, k requires 0 <= k < r.end - r.start + 1 => r.start - 1 + k)
    else []
  }

  /** The copied indices are the range's pages, each one less. */
  lemma CopyIndicesArePages(r: Range)
    ensures |CopyIndices(r)| == |PagesOf(r)|
    ensures forall k | 0 <= k < |CopyIndices(r)| :: CopyIndices(r)[k] == PagesOf(r)[k] - 1
  {
    PagesOfShape(r);
  }

  lemma {:induction false} PagesOfShape(r: Range)
    ensures |PagesOf(r)| == if r.start <= r.end then r.end - r.start + 1 else 0
    ensures forall k | 0 <= k < |PagesOf(r)| :: PagesOf(r)[k] == r.start + k
    decreases r.end - r.start
  {
    if r.start <= r.end {
      PagesOfShape(Range(r.start + 1, r.end));
    }
  }

  /** `generateFileName` */
  function FileName(start: int, end: int): string {
    if start == end then "page_" + IntToString(start) + ".pdf"
    else "pages_" + IntToString(start) + "-" + IntToString(end) + ".pdf"
  }

  /** The page label of a result. */
  function Label(start: int, end: int): string {
    if start == end then "第" + IntToString(start) + "页"
    else "第" + IntToString(start) + "-" + IntToString(end) + "页"
  }

  lemma DropPrefix(x: string, y: string)
    ensures (x + y)[|x|..] == y
  {
  }

  /** A single-page file name tells its page back after `page_`. */
  lemma {:induction false} SingleNameReadsBack(page: nat)
    ensures StartsWith(FileName(page, page), "page_")
    ensures ParseInt(FileName(page, page)[5..]) == Some(page as int)
  {
    SingleNameTail(page);
    ReadNumberAt(FileName(page, page), 5, page);
  }

  lemma SingleNameTail(page: nat)
    ensures StartsWith(FileName(page, page), "page_")
    ensures 5 <= |FileName(page, page)| && FileName(page, page)[5..] == NatToString(page) + ".pdf"
  {
    assert FileName(page, page) == "page_" + (NatToString(page) + ".pdf");
    DropPrefix("page_", NatToString(page) + ".pdf");
  }

  /** The number written right after `prefix` reads back when a character
      that is not a letter or digit follows it. */
  lemma {:induction false} NumberAfter(prefix: string, n: nat, suffix: string)
    requires suffix == [] || !IsAlnum(suffix[0])
    ensures ParseInt((prefix + NatToString(n) + suffix)[|prefix|..]) == Some(n as int)
  {
    assert (prefix + NatToString(n) + suffix)[|prefix|..] == NatToString(n) + suffix;
    ParseIntOfNatThen(n, suffix);
  }

  /** A several-page file name tells both ends back: the first number after
      `pages_`, the second after the dash that follows it. */
  lemma {:induction false} RangeNameReadsBack(start: nat, end: nat)
    requires start != end
    ensures StartsWith(FileName(start, end), "pages_")
    ensures ParseInt(FileName(start, end)[6..]) == Some(start as int)
    ensures FileName(start, end)[6 + |NatToString(start)|] == '-'
    ensures ParseInt(FileName(start, end)[6 + |NatToString(start)| + 1..]) == Some(end as int)
  {
    RangeNameShape(start, end);
    RangeNameStart(start, end);
    RangeNameEnd(start, end);
  }

  lemma {:induction false} RangeNameStart(start: nat, end: nat)
    requires start != end
    ensures ParseInt(FileName(start, end)[6..]) == Some(start as int)
  {
    var b := NatToString(end);
    assert FileName(start, end) == "pages_" + NatToString(start) + ("-" + b + ".pdf");
    NumberAfter("pages_", start, "-" + b + ".pdf");
  }

  lemma RangeNameShape(start: nat, end: nat)
    requires start != end
    ensures StartsWith(FileName(start, end), "pages_")
    ensures FileName(start, end)[6 + |NatToString(start)|] == '-'
  {
    var name := FileName(start, end);
    var a := NatToString(start);
    assert name == "pages_" + a + "-" + NatToString(end) + ".pdf";
    assert name[..6] == "pages_";
  }

  lemma {:induction false} RangeNameEnd(start: nat, end: nat)
    requires start != end
    ensures ParseInt(FileName(start, end)[6 + |NatToString(start)| + 1..]) == Some(end as int)
  {
    RangeNameTail(start, end);
    ReadNumberAt(FileName(start, end), 6 + |NatToString(start)| + 1, end);
  }

  lemma RangeNameTail(start: nat, end: nat)
    requires start != end
    ensures 6 + |NatToString(start)| + 1 <= |FileName(start, end)|
    ensures FileName(start, end)[6 + |NatToString(start)| + 1..] == NatToString(end) + ".pdf"
  {
    var prefix := "pages_" + NatToString(start) + "-";
    assert FileName(start, end) == prefix + (NatToString(end) + ".pdf");
    DropPrefix(prefix, NatToString(end) + ".pdf");
  }

  /** A number followed by `.pdf` reads back. */
  lemma ReadNumberAt(name: string, i: nat, n: nat)
    requires i <= |name| && name[i..] == NatToString(n) + ".pdf"
    ensures ParseInt(name[i..]) == Some(n as int)
  {
    ParseIntOfNatThen(n, ".pdf");
  }

  /** The result entry for a range; the upload's file id is left out. */
  function Output(r: Range): (f: OutputFile)
    ensures f.name == FileName(r.start, r.end) && f.pageRange == Label(r.start, r.end)
    ensures f.indices == CopyIndices(r)
    ensures r.start <= r.end + 1 ==> f.pageCount == |f.indices|
    ensures r.start > r.end + 1 ==> f.pageCount < 0 && f.indices == []
  {
    OutputFile(FileName(r.start, r.end), Label(r.start, r.end), CopyIndices(r), r.end - r.start + 1)
  }

  /** One result per range, in range order. */
  function Outputs(rs: seq<Range>): (fs: seq<OutputFile>)
    ensures |fs| == |rs|
    ensures forall k | 0 <= k < |rs| :: fs[k] == Output(rs[k])
  {
    seq(|rs|, k requires 0 <= k < |rs| => Output(rs[k]))
  }

  /** A range `copyPages` cannot take: it names pages, but one of them lies
      outside the document, so the page lookup comes back undefined and
      the copy throws. A reversed range copies nothing and cannot fail. */
  predicate OutOfDocument(r: Range, total: nat) {
    r.start <= r.end && (r.start < 1 || r.end > total)
  }

  /** Whether some planned range falls outside the document. */
  predicate SomeOutOfDocument(rs: seq<Range>, total: nat) {
    exists k | 0 <= k < |rs| :: OutOfDocument(rs[k], total)
  }

  /** The message of the `TypeError` thrown when `copyPages` reads the
      `node` of a page that does not exist. */
  const CopyFailed: string := "Cannot read properties of undefined (reading 'node')"

  /** `main`: `getPageCount` reports the loaded document's pages, `split`
      plans the ranges and describes the files, and fails when a range
      reaches outside the document; a document that could not be
      downloaded or loaded fails with the library's message. Any other
      action is refused. */
  function Main(action: string, req: SplitRequest, document: Result<nat>): (r: Response)
    ensures action != "getPageCount" && action != "split" ==> r == Error("未知操作")
    ensures (action == "getPageCount" || action == "split") && document.Failure? ==> r == Error(document.error)
    ensures action == "getPageCount" && document.Success? ==> r == PageCount(document.value)
    ensures action == "split" && document.Success? ==>
              var plan := PlanRanges(req, document.value);
              && (SomeOutOfDocument(plan, document.value) <==> r == Error(CopyFailed))
              && (!SomeOutOfDocument(plan, document.value) <==> r == Files(Outputs(plan)))
  {
    if action == "getPageCount" then
      match document
      case Success(n) => PageCount(n)
      case Failure(e) => Error(e)
    else if action == "split" then
      match document
      case Success(n) =>
        var plan := PlanRanges(req, n);
        if SomeOutOfDocument(plan, n) then Error(CopyFailed) else Files(Outputs(plan))
      case Failure(e) => Error(e)
    else Error("未知操作")
  }

  /** Only 'range' mode can fail after loading: the ranges the page
      planners make always lie inside the document. */
  lemma PlannedInDocument(req: SplitRequest, total: nat)
    requires req.mode != "range"
    ensures !SomeOutOfDocument(PlanRanges(req, total), total)
  {
    var rs := PlanRanges(req, total);
    if req.mode == "oddeven" {
      OddEvenCounts(total, req.oddEvenMode);
    }
    forall k | 0 <= k < |rs| ensures !OutOfDocument(rs[k], total) {
    }
  }

  /** A 'range' request for pages 1 to 10 of a five-page document fails in
      the copy instead of producing a ten-page file. */
  lemma RangePastTheEnd()
    ensures Main("split", SplitRequest("range", [Range(1, 10)], 0, ""), Success(5)) == Error(CopyFailed)
  {
    var rs := PlanRanges(SplitRequest("range", [Range(1, 10)], 0, ""), 5);
    assert rs == [Range(1, 10)];
    assert OutOfDocument(rs[0], 5);
  }

  /** An unknown action does not depend on the document at all. */
  lemma UnknownActionIgnoresDocument(action: string, req: SplitRequest, d1: Result<nat>, d2: Result<nat>)
    requires action != "getPageCount" && action != "split"
    ensures Main(action, req, d1) == Main(action, req, d2) == Error("未知操作")
  {
  }
}

=== FILE: pdf_to_word.dfy ===
/** The PDF-to-Word cloud function (`cloudfunctions/pdfToWord`): the text
    the PDF library extracts is cut into paragraphs at blank lines, each
    paragraph becomes a second-level heading or a run of body lines, page
    breaks are spread evenly, and the document is named after the PDF.
    Extraction, the Word packer and the storage calls are not modelled; their
    results are parameters. */
module PdfToWord {
  import opened Wrappers
  import opened JsText

  // ---------------------------------------------------------------------
  // textContent.split(/\n\n+/)

  /** Two newlines in a row. */
  predicate OpensBlankLine(s: string) {
    |s| >= 2 && s[0] == '\n' && s[1] == '\n'
  }

  /** No blank line inside: never two newlines in a row. */
  predicate NoBlankLine(p: string) {
    forall i | 0 <= i < |p| - 1 :: !(p[i] == '\n' && p[i + 1] == '\n')
  }

  function Newlines(n: nat): (r: string)
    ensures |r| == n && forall i | 0 <= i < n :: r[i] == '\n'
  {
    seq(n, _ => '\n')
  }

  /** The length of the run of newlines `s` starts with. */
  function NewlineRun(s: string): (n: nat)
    ensures n <= |s| && s[..n] == Newlines(n)
    ensures n < |s| ==> s[n] != '\n'
  {
    if |s| > 0 && s[0] == '\n' then
      var n := 1 + NewlineRun(s[1..]);
      assert s[..n] == [s[0]] + s[1..][..n - 1];
      n
    else 0
  }

  /** The pieces of a split and the lengths of the newline runs cut out
      between them. */
  datatype Cut = Cut(parts: seq<string>, runs: seq<nat>)

  /** The text the pieces came from: each cut run put back. */
  function Rebuild(parts: seq<string>, runs: seq<nat>): string
    requires |parts| == |runs| + 1
  {
    if runs == [] then parts[0]
    else parts[0] + Newlines(runs[0]) + Rebuild(parts[1..], runs[1..])
  }

  /** What `text.split(/\n\n+/)` promises about its pieces: each cut run
      has two newlines or more, putting the runs back gives the text, no
      piece holds a blank line, no piece before a cut ends with a newline
      and no piece after a cut starts with one (so every run is maximal). */
  predicate CutAtBlankLines(r: Cut, s: string) {
    && |r.parts| == |r.runs| + 1
    && (forall k | 0 <= k < |r.runs| :: r.runs[k] >= 2)
    && Rebuild(r.parts, r.runs) == s
    && (forall k | 0 <= k < |r.parts| :: NoBlankLine(r.parts[k]))
    && (forall k | 0 <= k < |r.parts| - 1 :: r.parts[k] == [] || r.parts[k][|r.parts[k]| - 1] != '\n')
    && (forall k | 1 <= k < |r.parts| :: r.parts[k] == [] || r.parts[k][0] != '\n')
  }

  /** How the first piece starts: it is a prefix of the text, it is empty
      only when the text is empty or opens with a blank line, and a cut
      right at the front means the text opens with a blank line. */
  predicate FirstPiece(r: Cut, s: string)
    requires |r.parts| >= 1
  {
    && |r.parts[0]| <= |s| && r.parts[0] == s[..|r.parts[0]|]
    && (|s| > 0 && !OpensBlankLine(s) ==> r.parts[0] != [])
    && (r.runs != [] && r.parts[0] == [] ==> OpensBlankLine(s))
  }

  /** `text.split(/\n\n+/)`: the text is cut at every maximal run of two or
      more newlines, scanning from the front. */
  function SplitParagraphs(s: string): (r: Cut)
    ensures CutAtBlankLines(r, s) && FirstPiece(r, s)
    decreases |s|
  {
    if s == [] then Cut([""], [])
    else if OpensBlankLine(s) then
      var n := NewlineRun(s);
      var rest := SplitParagraphs(s[n..]);
      CutAtRun(s, n, rest);
      Cut([""] + rest.parts, [n] + rest.runs)
    else
      var rest := SplitParagraphs(s[1..]);
      CutAfterFirst(s, rest);
      Cut([[s[0]] + rest.parts[0]] + rest.parts[1..], rest.runs)
  }

  /** The case where the text opens with a run of `n` newlines. */
  lemma CutAtRun(s: string, n: nat, rest: Cut)
    requires OpensBlankLine(s) && n == NewlineRun(s)
    requires CutAtBlankLines(rest, s[n..]) && FirstPiece(rest, s[n..])
    ensures var r := Cut([""] + rest.parts, [n] + rest.runs);
            CutAtBlankLines(r, s) && FirstPiece(r, s)
  {
    var r := Cut([""] + rest.parts, [n] + rest.runs);
    assert n >= 2 by {
      assert NewlineRun(s) == 1 + NewlineRun(s[1..]);
      assert s[1..][0] == '\n';
    }
    assert s == Newlines(n) + s[n..] by {
      assert s == s[..n] + s[n..];
    }
    assert r.parts[1..] == rest.parts && r.runs[1..] == rest.runs;
    assert forall k | 1 <= k < |r.parts| :: r.parts[k] == rest.parts[k - 1];
    assert rest.parts[0] == [] || rest.parts[0][0] != '\n' by {
      if rest.parts[0] != [] {
        assert rest.parts[0][0] == s[n..][0] == s[n];
      }
    }
  }

  /** The case where the first character joins the first piece. */
  lemma CutAfterFirst(s: string, rest: Cut)
    requires |s| > 0 && !OpensBlankLine(s)
    requires CutAtBlankLines(rest, s[1..]) && FirstPiece(rest, s[1..])
    ensures var r := Cut([[s[0]] + rest.parts[0]] + rest.parts[1..], rest.runs);
            CutAtBlankLines(r, s) && FirstPiece(r, s)
  {
    var first := [s[0]] + rest.parts[0];
    var r := Cut([first] + rest.parts[1..], rest.runs);
    assert NoBlankLine(first) by {
      forall i | 0 <= i < |first| - 1 ensures !(first[i] == '\n' && first[i + 1] == '\n') {
        if i == 0 {
          assert first[1] == rest.parts[0][0] == s[1..][0];
        } else {
          assert first[i] == rest.parts[0][i - 1] && first[i + 1] == rest.parts[0][i];
        }
      }
    }
    assert first == s[..|first|] by {
      assert s == [s[0]] + s[1..];
    }
    RebuildFirst(rest.parts, rest.runs, s[0]);
    assert s == [s[0]] + s[1..];
    assert |r.parts| > 1 ==> first[|first| - 1] != '\n' by {
      if |r.parts| > 1 && rest.parts[0] == [] {
        assert OpensBlankLine(s[1..]);
      }
    }
    assert forall k | 1 <= k < |r.parts| :: r.parts[k] == rest.parts[k];
  }

  /** Putting a character in front of the first piece puts it in front of
      the rebuilt text. */
  lemma RebuildFirst(parts: seq<string>, runs: seq<nat>, c: char)
    requires |parts| == |runs| + 1
    ensures Rebuild([[c] + parts[0]] + parts[1..], runs) == [c] + Rebuild(parts, runs)
  {
    var moved := [[c] + parts[0]] + parts[1..];
    if runs != [] {
      assert moved[1..] == parts[1..];
    }
  }

  /** A text with no blank line is one paragraph. */
  lemma {:induction false} NoBlankLineIsOneParagraph(s: string)
    requires NoBlankLine(s)
    ensures SplitParagraphs(s).parts == [s]
    decreases |s|
  {
    if s != [] {
      assert !OpensBlankLine(s);
      assert NoBlankLine(s[1..]) by {
        forall i | 0 <= i < |s[1..]| - 1 ensures !(s[1..][i] == '\n' && s[1..][i + 1] == '\n') {
          assert s[1..][i] == s[i + 1] && s[1..][i + 1] == s[i + 2];
        }
      }
      NoBlankLineIsOneParagraph(s[1..]);
    }
  }

  // ---------------------------------------------------------------------
  // Paragraphs of the document

  datatype Para =
    | Title(text: string)        // first-level heading
    | Info(text: string)         // the grey italic lines under the title
    | Heading(text: string)      // second-level heading
    | Body(text: string)
    | PageBreak

  /** The first character of a heading: `[A-Z0-9第一二三四五六七八九十]`. */
  predicate HeadingStart(c: char) {
    ('A' <= c <= 'Z') || IsDigit(c) || c in "第一二三四五六七八九十"
  }

  /** A trimmed paragraph taken as a heading: shorter than 100 UTF-16 units,
      starting with a capital, a digit or a Chinese numeral, and not ending
      in a full stop of either kind. */
  predicate IsHeadingText(t: string) {
    && 0 < |t| && Utf16Length(t) < 100
    && HeadingStart(t[0])
    && !EndsWith(t, "。")
    && !EndsWith(t, ".")
  }

  /** A line with something other than white space. */
  predicate NonBlank(l: string) {
    Trim(l) != []
  }

  /** `lines.filter(line => line.trim().length > 0)` */
  function KeepNonBlank(lines: seq<string>): (r: seq<string>)
    ensures |r| <= |lines|
    ensures forall k | 0 <= k < |r| :: r[k] in lines && NonBlank(r[k])
    ensures forall l | l in lines && NonBlank(l) :: l in r
    decreases |lines|
  {
    if lines == [] then []
    else
      var rest := KeepNonBlank(lines[1..]);
      KeepStep(lines, rest);
      KeepOne(lines[0]) + rest
  }

  /** One line, kept or dropped. */
  function KeepOne(l: string): seq<string> {
    if NonBlank(l) then [l] else []
  }

  /** Filtering a list is filtering its two halves: lines keep their
      order and their repetitions. */
  lemma {:induction false} KeepNonBlankAppend(a: seq<string>, b: seq<string>)
    ensures KeepNonBlank(a + b) == KeepNonBlank(a) + KeepNonBlank(b)
    decreases |a|
  {
    if a != [] {
      KeepNonBlankAppend(a[1..], b);
      SplitFirst(a, b);
      KeepCons(a[0], a[1..] + b);
      KeepCons(a[0], a[1..]);
      AppendAssoc(KeepOne(a[0]), KeepNonBlank(a[1..]), KeepNonBlank(b));
    } else {
      assert a + b == b;
    }
  }

  lemma SplitFirst<T>(a: seq<T>, b: seq<T>)
    requires a != []
    ensures a == [a[0]] + a[1..] && a + b == [a[0]] + (a[1..] + b)
  {
  }

  lemma SplitAt<T>(c: seq<T>, i: nat)
    requires i < |c|
    ensures c == c[..i] + ([c[i]] + c[i + 1..])
  {
  }

  lemma AppendAssoc<T>(x: seq<T>, y: seq<T>, z: seq<T>)
    ensures x + (y + z) == (x + y) + z
  {
  }

  lemma KeepCons(l: string, rest: seq<string>)
    ensures KeepNonBlank([l] + rest) == KeepOne(l) + KeepNonBlank(rest)
  {
    assert ([l] + rest)[1..] == rest;
  }

  /** One line is kept exactly when it is not blank. */
  lemma KeepNonBlankOne(l: string)
    ensures KeepNonBlank([l]) == if NonBlank(l) then [l] else []
  {
    assert [l][1..] == [];
    assert KeepNonBlank([l]) == KeepOne(l) + [];
  }

  lemma KeepStep(lines: seq<string>, rest: seq<string>)
    requires lines != [] && |rest| <= |lines| - 1
    requires forall k | 0 <= k < |rest| :: rest[k] in lines[1..] && NonBlank(rest[k])
    requires forall l | l in lines[1..] && NonBlank(l) :: l in rest
    ensures var r := KeepOne(lines[0]) + rest;
            && |r| <= |lines|
            && (forall k | 0 <= k < |r| :: r[k] in lines && NonBlank(r[k]))
            && (forall l | l in lines && NonBlank(l) :: l in r)
  {
    var h := KeepOne(lines[0]);
    var r := h + rest;
    forall k | 0 <= k < |r| ensures r[k] in lines && NonBlank(r[k]) {
      if k < |h| {
        assert r[k] == lines[0];
      } else {
        assert r[k] == rest[k - |h|];
        InTail(lines, rest[k - |h|]);
      }
    }
    forall l | l in lines && NonBlank(l) ensures l in r {
      if l == lines[0] {
        assert r[0] == l;
      } else {
        OtherInTail(lines, l);
        InRight(h, rest, l);
      }
    }
  }

  lemma InTail<T>(s: seq<T>, x: T)
    requires s != [] && x in s[1..]
    ensures x in s
  {
    var j :| 0 <= j < |s[1..]| && s[1..][j] == x;
    assert s[j + 1] == x;
  }

  lemma OtherInTail<T>(s: seq<T>, x: T)
    requires x in s && x != s[0]
    ensures x in s[1..]
  {
    var j :| 0 <= j < |s| && s[j] == x;
    assert s[1..][j - 1] == x;
  }

  lemma InRight<T>(a: seq<T>, b: seq<T>, x: T)
    requires x in b
    ensures x in a + b
  {
    var j :| 0 <= j < |b| && b[j] == x;
    assert (a + b)[|a| + j] == x;
  }

  /** A paragraph the content part of the document may hold: a heading
      that passed the heading test, a non-blank body line, or a page break. */
  predicate IsContent(p: Para) {
    match p
    case Title(_) => false
    case Info(_) => false
    case Heading(t) => IsHeadingText(t)
    case Body(t) => '\n' !in t && Trim(t) != []
    case PageBreak => true
  }

  predicate AllContent(r: seq<Para>) {
    forall k | 0 <= k < |r| :: IsContent(r[k])
  }

  lemma AllContentAppend(a: seq<Para>, b: seq<Para>)
    requires AllContent(a) && AllContent(b)
    ensures AllContent(a + b)
  {
    assert forall k | |a| <= k < |a| + |b| :: (a + b)[k] == b[k - |a|];
  }

  /** The body lines of a paragraph that is not a heading: its lines that
      are not blank, in order. */
  function BodyLines(t: string): (r: seq<string>)
    ensures forall k | 0 <= k < |r| :: IsContent(Body(r[k]))
  {
    var lines := Split(t, '\n');
    var kept := KeepNonBlank(lines);
    KeptHaveNoNewline(lines, kept);
    kept
  }

  /** The body lines of text made of lines: the lines that are not
      blank, in order. */
  lemma BodyLinesOfLines(lines: seq<string>)
    requires |lines| >= 1 && forall k | 0 <= k < |lines| :: '\n' !in lines[k]
    ensures BodyLines(Join(lines, '\n')) == KeepNonBlank(lines)
  {
    SplitJoin(lines, '\n');
  }

  lemma KeptHaveNoNewline(lines: seq<string>, kept: seq<string>)
    requires forall k | 0 <= k < |lines| :: '\n' !in lines[k]
    requires forall k | 0 <= k < |kept| :: kept[k] in lines && NonBlank(kept[k])
    ensures forall k | 0 <= k < |kept| :: IsContent(Body(kept[k]))
  {
    forall k | 0 <= k < |kept| ensures '\n' !in kept[k] {
      var j :| 0 <= j < |lines| && lines[j] == kept[k];
    }
  }

  function Bodies(lines: seq<string>): (r: seq<Para>)
    ensures |r| == |lines| && forall k | 0 <= k < |r| :: r[k] == Body(lines[k])
  {
    if lines == [] then [] else [Body(lines[0])] + Bodies(lines[1..])
  }

  /** Whether a page break follows paragraph `i` of `n`: every
      `ceil(n / pageCount)`-th paragraph, never the first. A document that
      reports no pages divides by zero in the source, which never equals
      a remainder of zero, so it gets no breaks. */
  predicate BreakAfter(i: nat, n: nat, pageCount: nat, pageBreaks: bool) {
    pageBreaks && i > 0 && pageCount > 0 && n > 0 && i % CeilDiv(n, pageCount) == 0
  }

  /** What a trimmed paragraph contributes: nothing when it is empty, else
      a heading or its body lines, then a page break when one is due. */
  function ParagraphBlock(t: string, due: bool): (r: seq<Para>)
    ensures t == [] ==> r == []
    ensures (r != [] && r[|r| - 1] == PageBreak) <==> t != [] && due
    ensures t != [] && IsHeadingText(t) ==> |r| == (if due then 2 else 1) && r[0] == Heading(t)
    ensures t != [] && !IsHeadingText(t) ==> r[..|r| - (if due then 1 else 0)] == Bodies(BodyLines(t))
    ensures forall k | 0 <= k < |r| :: r[k] == PageBreak ==> k == |r| - 1 && due
    ensures AllContent(r)
  {
    if t == [] then []
    else if IsHeadingText(t) then
      if due then [Heading(t), PageBreak] else [Heading(t)]
    else BodyBlock(BodyLines(t), due)
  }

  /** Body paragraphs for the given lines, then a page break when one is
      due. */
  function BodyBlock(lines: seq<string>, due: bool): (r: seq<Para>)
    requires forall k | 0 <= k < |lines| :: IsContent(Body(lines[k]))
    ensures |r| == |lines| + (if due then 1 else 0)
    ensures r[..|lines|] == Bodies(lines)
    ensures due ==> r[|r| - 1] == PageBreak
    ensures forall k | 0 <= k < |r| :: r[k] == PageBreak ==> k == |r| - 1 && due
    ensures AllContent(r)
  {
    var body := Bodies(lines);
    if due then
      AllContentAppend(body, [PageBreak]);
      assert (body + [PageBreak])[..|body|] == body;
      body + [PageBreak]
    else
      assert body[..|body|] == body;
      body
  }

  /** The chunks of the split text from `i` on, each with whether a page
      break is due after it (see `ChunkAt`). */
  function Chunks(raw: seq<string>, i: nat, pageCount: nat, pageBreaks: bool): (c: seq<(string, bool)>)
    requires i <= |raw|
    ensures |c| == |raw| - i
    decreases |raw| - i
  {
    if i == |raw| then []
    else [(raw[i], BreakAfter(i, |raw|, pageCount, pageBreaks))] + Chunks(raw, i + 1, pageCount, pageBreaks)
  }

  /** Entry `k` of the chunks from `i` on is chunk `i + k` with its
      page-break flag. */
  lemma {:induction false} ChunkAt(raw: seq<string>, i: nat, pageCount: nat, pageBreaks: bool, k: nat)
    requires i + k < |raw|
    ensures Chunks(raw, i, pageCount, pageBreaks)[k]
            == (raw[i + k], BreakAfter(i + k, |raw|, pageCount, pageBreaks))
    decreases k
  {
    if k > 0 {
      ChunkAt(raw, i + 1, pageCount, pageBreaks, k - 1);
      assert i + 1 + (k - 1) == i + k;
    }
  }

  /** The blocks of the trimmed chunks one after the other, in chunk
      order. */
  function Blocks(chunks: seq<(string, bool)>): seq<Para> {
    if chunks == [] then [] else ParagraphBlock(Trim(chunks[0].0), chunks[0].1) + Blocks(chunks[1..])
  }

  /** The paragraphs from chunk `i` on: the blocks of the chunks, one
      after the other in chunk order. */
  function ContentFrom(raw: seq<string>, i: nat, pageCount: nat, pageBreaks: bool): (r: seq<Para>)
    requires i <= |raw|
    ensures AllContent(r)
    ensures PageBreak in r ==> pageBreaks && pageCount > 0
  {
    var c := Chunks(raw, i, pageCount, pageBreaks);
    BlocksAllContent(c);
    if !pageBreaks || pageCount == 0 then
      NoneDueWithoutBreaks(raw, i, pageCount, pageBreaks);
      BlocksNoBreak(c);
      Blocks(c)
    else Blocks(c)
  }

  /** No chunk of the list is followed by a page break. */
  predicate NoneDue(c: seq<(string, bool)>) {
    forall k | 0 <= k < |c| :: !c[k].1
  }

  lemma {:induction false} BlocksAllContent(c: seq<(string, bool)>)
    ensures AllContent(Blocks(c))
    decreases |c|
  {
    if c != [] {
      BlocksAllContent(c[1..]);
      AllContentAppend(ParagraphBlock(Trim(c[0].0), c[0].1), Blocks(c[1..]));
    }
  }

  /** Chunks after which no break is due give no page break. */
  lemma {:induction false} BlocksNoBreak(c: seq<(string, bool)>)
    requires NoneDue(c)
    ensures PageBreak !in Blocks(c)
    decreases |c|
  {
    if c != [] {
      assert NoneDue(c[1..]) by {
        forall k | 0 <= k < |c[1..]| ensures !c[1..][k].1 {
          assert c[1..][k] == c[k + 1];
        }
      }
      BlocksNoBreak(c[1..]);
      var b := ParagraphBlock(Trim(c[0].0), c[0].1);
      assert !c[0].1;
      assert PageBreak !in b;
      NotInAppend(b, Blocks(c[1..]), PageBreak);
    }
  }

  /** With page breaks off, or no pages reported, no break is due after
      any chunk. */
  lemma NoneDueWithoutBreaks(raw: seq<string>, i: nat, pageCount: nat, pageBreaks: bool)
    requires i <= |raw| && (!pageBreaks || pageCount == 0)
    ensures NoneDue(Chunks(raw, i, pageCount, pageBreaks))
  {
    forall k | 0 <= k < |raw| - i ensures !Chunks(raw, i, pageCount, pageBreaks)[k].1 {
      ChunkAt(raw, i, pageCount, pageBreaks, k);
    }
  }

  lemma BlocksCons(chunk: string, due: bool, rest: seq<(string, bool)>)
    ensures Blocks([(chunk, due)] + rest) == ParagraphBlock(Trim(chunk), due) + Blocks(rest)
  {
    var c := [(chunk, due)] + rest;
    assert c[0] == (chunk, due) && c[1..] == rest;
  }

  /** The blocks of two runs of chunks, one after the other. */
  lemma {:induction false} BlocksAppend(a: seq<(string, bool)>, b: seq<(string, bool)>)
    ensures Blocks(a + b) == Blocks(a) + Blocks(b)
    decreases |a|
  {
    if a != [] {
      BlocksAppend(a[1..], b);
      SplitFirst(a, b);
      BlocksCons(a[0].0, a[0].1, a[1..] + b);
      BlocksCons(a[0].0, a[0].1, a[1..]);
      AppendAssoc(ParagraphBlock(Trim(a[0].0), a[0].1), Blocks(a[1..]), Blocks(b));
    } else {
      assert a + b == b;
    }
  }

  /** The blocks split around chunk `i`: the blocks before it, its own
      block, the blocks after it. */
  lemma BlocksAround(c: seq<(string, bool)>, i: nat)
    requires i < |c|
    ensures Blocks(c) == Blocks(c[..i]) + ParagraphBlock(Trim(c[i].0), c[i].1) + Blocks(c[i + 1..])
  {
    SplitAt(c, i);
    BlocksAppend(c[..i], [c[i]] + c[i + 1..]);
    BlocksCons(c[i].0, c[i].1, c[i + 1..]);
    AppendAssoc(Blocks(c[..i]), ParagraphBlock(Trim(c[i].0), c[i].1), Blocks(c[i + 1..]));
  }

  /** The content splits around chunk `i`, and chunk `i`'s block ends in a
      page break exactly when the trimmed chunk is not empty and a break is
      due after it. */
  lemma ChunkBlock(raw: seq<string>, pageCount: nat, pageBreaks: bool, i: nat)
    requires i < |raw|
    ensures var c := Chunks(raw, 0, pageCount, pageBreaks);
            var b := ParagraphBlock(Trim(raw[i]), BreakAfter(i, |raw|, pageCount, pageBreaks));
            && ContentFrom(raw, 0, pageCount, pageBreaks) == Blocks(c[..i]) + b + Blocks(c[i + 1..])
            && ((b != [] && b[|b| - 1] == PageBreak)
                <==> Trim(raw[i]) != [] && BreakAfter(i, |raw|, pageCount, pageBreaks))
  {
    var c := Chunks(raw, 0, pageCount, pageBreaks);
    ChunkAt(raw, 0, pageCount, pageBreaks, i);
    BlocksAround(c, i);
  }

  /** The paragraphs with the page breaks taken out. */
  function DropBreaks(r: seq<Para>): (d: seq<Para>)
    ensures PageBreak !in d
  {
    if r == [] then [] else (if r[0] == PageBreak then [] else [r[0]]) + DropBreaks(r[1..])
  }

  lemma {:induction false} DropBreaksAppend(a: seq<Para>, b: seq<Para>)
    ensures DropBreaks(a + b) == DropBreaks(a) + DropBreaks(b)
    decreases |a|
  {
    if a != [] {
      assert (a + b)[0] == a[0];
      assert (a + b)[1..] == a[1..] + b;
      DropBreaksAppend(a[1..], b);
    } else {
      assert a + b == b;
    }
  }

  lemma {:induction false} DropBreaksNone(r: seq<Para>)
    requires PageBreak !in r
    ensures DropBreaks(r) == r
    decreases |r|
  {
    if r != [] {
      assert PageBreak !in r[1..];
      DropBreaksNone(r[1..]);
      assert [r[0]] + r[1..] == r;
    }
  }

  /** A block without its page break is the block of a chunk after which
      no break is due. */
  lemma BlockWithoutBreak(t: string, due: bool)
    ensures DropBreaks(ParagraphBlock(t, due)) == ParagraphBlock(t, false)
  {
    if t != [] && due {
      var body := ParagraphBlock(t, false);
      assert ParagraphBlock(t, due) == body + [PageBreak];
      DropBreaksAppend(body, [PageBreak]);
      DropBreaksNone(body);
      assert DropBreaks([PageBreak]) == [];
    } else if t != [] {
      DropBreaksNone(ParagraphBlock(t, false));
    }
  }

  /** Taking the page breaks out of the blocks of some chunks gives the
      blocks of the same chunks with no break due. */
  lemma {:induction false} BlocksWithoutBreaks(c: seq<(string, bool)>, d: seq<(string, bool)>)
    requires |c| == |d| && forall k | 0 <= k < |c| :: d[k] == (c[k].0, false)
    ensures DropBreaks(Blocks(c)) == Blocks(d)
    decreases |c|
  {
    if c != [] {
      assert forall k | 0 <= k < |c[1..]| :: d[1..][k] == (c[1..][k].0, false) by {
        forall k | 0 <= k < |c[1..]| ensures d[1..][k] == (c[1..][k].0, false) {
          assert c[1..][k] == c[k + 1] && d[1..][k] == d[k + 1];
        }
      }
      BlocksWithoutBreaks(c[1..], d[1..]);
      var b := ParagraphBlock(Trim(c[0].0), c[0].1);
      DropBreaksAppend(b, Blocks(c[1..]));
      BlockWithoutBreak(Trim(c[0].0), c[0].1);
      assert d[0] == (c[0].0, false);
    }
  }

  /** Page breaks are only ever added: taking them out of the content
      gives the content built with page breaks turned off, chunk for
      chunk and in order. */
  lemma ContentWithoutBreaks(raw: seq<string>, i: nat, pageCount: nat, pageBreaks: bool)
    requires i <= |raw|
    ensures DropBreaks(ContentFrom(raw, i, pageCount, pageBreaks)) == ContentFrom(raw, i, pageCount, false)
  {
    var c := Chunks(raw, i, pageCount, pageBreaks);
    var d := Chunks(raw, i, pageCount, false);
    forall k | 0 <= k < |c| ensures d[k] == (c[k].0, false) {
      ChunkAt(raw, i, pageCount, pageBreaks, k);
      ChunkAt(raw, i, pageCount, false, k);
    }
    BlocksWithoutBreaks(c, d);
  }

  lemma CeilDivOne(a: int, b: int)
    requires 0 < a <= b
    ensures CeilDiv(a, b) == 1
  {
    var q := CeilDiv(a, b);
    if q >= 2 {
    } else if q <= 0 {
    }
  }

  /** A one-page PDF gets no page break: the period is the number of
      paragraphs, which no later index reaches. */
  lemma OnePageHasNoBreaks(raw: seq<string>, i: nat, pageBreaks: bool)
    requires i <= |raw|
    ensures PageBreak !in ContentFrom(raw, i, 1, pageBreaks)
  {
    var c := Chunks(raw, i, 1, pageBreaks);
    forall k | 0 <= k < |c| ensures !c[k].1 {
      ChunkAt(raw, i, 1, pageBreaks, k);
      NoBreakOnOnePage(i + k, |raw|, pageBreaks);
    }
    BlocksNoBreak(c);
  }

  /** With one page the period is the number of paragraphs, which no
      index below it reaches. */
  lemma NoBreakOnOnePage(i: nat, n: nat, pageBreaks: bool)
    requires i < n
    ensures !BreakAfter(i, n, 1, pageBreaks)
  {
    assert CeilDiv(n, 1) == n;
    assert i == 0 || i % n == i;
  }

  lemma NotInAppend(a: seq<Para>, b: seq<Para>, x: Para)
    requires x !in a && x !in b
    ensures x !in a + b
  {
  }

  /** When the PDF has at least as many pages as paragraphs, every
      non-blank paragraph after the first ends in a page break. */
  lemma BreakAfterEveryParagraph(raw: seq<string>, i: nat, pageCount: nat)
    requires 0 < i < |raw| <= pageCount
    ensures BreakAfter(i, |raw|, pageCount, true)
  {
    CeilDivOne(|raw|, pageCount);
  }

  // ---------------------------------------------------------------------
  // Names

  /** The name ends in `.pdf`, in any letter case. */
  predicate HasPdfExtension(f: string) {
    |f| >= 4 && ToLower(f[|f| - 4..]) == ".pdf"
  }

  /** `fileName.replace(/\.pdf$/i, '')`: the document title. */
  function DocTitle(f: string): (t: string)
    ensures HasPdfExtension(f) ==> |t| == |f| - 4 && f == t + f[|f| - 4..]
    ensures !HasPdfExtension(f) ==> t == f
  {
    if HasPdfExtension(f) then f[..|f| - 4] else f
  }

  /** `fileName.replace(/\.pdf$/i, '.docx')`: the Word file's name is the
      title with `.docx` when the name ends in `.pdf`, and the name itself
      otherwise. */
  function DocxName(f: string): (w: string)
    ensures HasPdfExtension(f) ==> w == DocTitle(f) + ".docx"
    ensures !HasPdfExtension(f) ==> w == f
  {
    if HasPdfExtension(f) then f[..|f| - 4] + ".docx" else f
  }

  /** Renaming depends only on the title: `a.PDF` and `a.pdf` both become
      `a.docx`, and a name without the extension is kept. */
  lemma DocxNameOfTitle(title: string, ext: string)
    requires |ext| == 4 && ToLower(ext) == ".pdf"
    ensures HasPdfExtension(title + ext)
    ensures DocTitle(title + ext) == title && DocxName(title + ext) == title + ".docx"
  {
    assert (title + ext)[|title + ext| - 4..] == ext;
    assert (title + ext)[..|title + ext| - 4] == title;
  }

  // ---------------------------------------------------------------------
  // The cloud function

  /** What the PDF libraries report: the page count and the text. */
  datatype Extracted = Extracted(pageCount: nat, text: string)

  /** `pageBreaks` is `None` when the caller left it out. */
  datatype Request = Request(fileID: string, fileName: string, pageBreaks: Option<bool>)

  /** `wordFileID` and `fileSize` are what storing the packed document
      reported. */
  datatype Converted = Converted(wordFileID: string, fileName: string, fileSize: nat,
                                 cloudPath: string, paragraphs: seq<Para>,
                                 pageCount: nat, textLength: nat, message: string)

  const NoTextMessage: string := "PDF中未找到可提取的文本内容，可能是扫描版或图片PDF"

  /** `createWordDocument`: the title, the time of conversion and the page
      count, then the content. */
  function Document(text: string, fileName: string, time: string, pageCount: nat, pageBreaks: bool): (r: seq<Para>)
    ensures |r| >= 3 && r[0] == Title("从PDF转换: " + fileName)
    ensures r[1] == Info("转换时间: " + time) && r[2] == Info("原PDF页数: " + IntToString(pageCount))
    ensures r[3..] == ContentFrom(SplitParagraphs(text).parts, 0, pageCount, pageBreaks)
    ensures AllContent(r[3..])
    ensures !pageBreaks ==> PageBreak !in r
  {
    var raw := SplitParagraphs(text).parts;
    var content := ContentFrom(raw, 0, pageCount, pageBreaks);
    var r := [Title("从PDF转换: " + fileName), Info("转换时间: " + time),
              Info("原PDF页数: " + IntToString(pageCount))] + content;
    assert r[3..] == content;
    r
  }

  /** After the header come the blocks of the text's chunks in order; with
      the page breaks taken out, they are the document built without page
      breaks. */
  lemma DocumentContent(text: string, fileName: string, time: string, pageCount: nat, pageBreaks: bool)
    ensures var raw := SplitParagraphs(text).parts;
            Document(text, fileName, time, pageCount, pageBreaks)[3..] == Blocks(Chunks(raw, 0, pageCount, pageBreaks))
    ensures DropBreaks(Document(text, fileName, time, pageCount, pageBreaks)[3..])
            == Document(text, fileName, time, pageCount, false)[3..]
  {
    var raw := SplitParagraphs(text).parts;
    ContentWithoutBreaks(raw, 0, pageCount, pageBreaks);
  }

  /** A text without a blank line is one chunk: the document's content is
      that chunk's block, with no page break after it. */
  lemma OneParagraphDocument(text: string, fileName: string, time: string, pageCount: nat, pageBreaks: bool)
    requires NoBlankLine(text)
    ensures Document(text, fileName, time, pageCount, pageBreaks)[3..] == ParagraphBlock(Trim(text), false)
  {
    NoBlankLineIsOneParagraph(text);
    var raw := SplitParagraphs(text).parts;
    assert raw == [text];
    assert !BreakAfter(0, 1, pageCount, pageBreaks);
    assert Chunks(raw, 0, pageCount, pageBreaks) == [(text, false)] + [];
    BlocksCons(text, false, []);
  }

  /** The message a failure is reported with: its own, or a default. */
  function FailureMessage(e: string): (m: string)
    ensures m != []
    ensures e != [] ==> m == e
  {
    if e == "" then "转换过程中发生错误" else e
  }

  /** `main`: a failure of the download or the libraries is reported with
      its message (or a default one); a PDF without text is refused;
      otherwise the Word document is built, with page breaks unless the
      caller turned them off, and `store` packs it and uploads it under a
      time-stamped path, giving the new file's id and the packed size, or
      the error that ends the call. */
  function Main(q: Request, extracted: Result<Extracted>, time: string, now: int,
                store: (string, seq<Para>) -> Result<(string, nat)>): (r: Result<Converted>)
    ensures extracted.Failure? ==> r == Failure(FailureMessage(extracted.error))
    ensures extracted.Success? && Trim(extracted.value.text) == [] ==> r == Failure(NoTextMessage)
    ensures extracted.Success? && Trim(extracted.value.text) != [] ==>
              var path := "word-files/" + IntToString(now) + "_" + DocxName(q.fileName);
              var doc := Document(extracted.value.text, q.fileName, time,
                                  extracted.value.pageCount, q.pageBreaks.GetOr(true));
              && (store(path, doc).Failure? ==> r == Failure(FailureMessage(store(path, doc).error)))
              && (store(path, doc).Success? ==>
                    && r.Success?
                    && r.value.wordFileID == store(path, doc).value.0
                    && r.value.fileSize == store(path, doc).value.1
                    && r.value.fileName == DocxName(q.fileName)
                    && r.value.cloudPath == path
                    && r.value.paragraphs == doc
                    && r.value.pageCount == extracted.value.pageCount
                    && r.value.textLength == Utf16Length(extracted.value.text))
  {
    match extracted
    case Failure(e) => Failure(FailureMessage(e))
    case Success(x) =>
      if Trim(x.text) == [] then Failure(NoTextMessage)
      else
        var name := DocxName(q.fileName);
        var path := "word-files/" + IntToString(now) + "_" + name;
        var doc := Document(x.text, q.fileName, time, x.pageCount, q.pageBreaks.GetOr(true));
        match store(path, doc)
        case Failure(e) => Failure(FailureMessage(e))
        case Success(stored) =>
          Success(Converted(stored.0, name, stored.1, path, doc,
                            x.pageCount, Utf16Length(x.text), "PDF已成功转换为Word文档"))
  }
}

=== FILE: split_page.dfy ===
/** The range editor of the PDF-splitting page (`pages/tools/pdf-split`):
    page-number inputs clamped to the document, ranges added only when they
    are well ordered and overlap nothing, kept sorted by their first page,
    deleted by id, cleared by a change of mode, and the checks and request
    of a split. The toast texts stand for the messages the page shows. */
module SplitPage {
  import opened Wrappers
  import opened JsText
  import opened PdfSplit

  /** A range in the editor; `id` is the clock reading taken when it was
      added. */
  datatype Entry = Entry(id: int, start: int, end: int, name: string)

  datatype PageState = PageState(pageCount: int, mode: string, ranges: seq<Entry>,
                                 startPage: int, endPage: int, splitCount: int, oddEvenMode: string)

  /** `Math.max(1, Math.min(parseInt(input) || 1, pageCount))`: a reading
      that is not a number, or is zero, counts as page 1. */
  function ClampPage(input: string, pageCount: int): (p: int)
    ensures 1 <= p
    ensures pageCount >= 1 ==> p <= pageCount
    ensures (ParseInt(input).None? || ParseInt(input) == Some(0)) ==> p == 1
    ensures ParseInt(input).Some? && 1 <= ParseInt(input).value <= pageCount ==> p == ParseInt(input).value
  {
    var value := match ParseInt(input) case Some(v) => (if v == 0 then 1 else v) case None => 1;
    var low := if value <= pageCount then value else pageCount;
    if 1 >= low then 1 else low
  }

  // ---------------------------------------------------------------------
  // Keeping ranges sorted

  /** Insert `x` after every entry whose first page is not after its own:
      one step of a stable sort by first page. */
  function Insert(x: Entry, s: seq<Entry>): (r: seq<Entry>)
    ensures |r| == |s| + 1 && multiset(r) == multiset(s) + multiset{x}
    ensures r[0] == x || (s != [] && r[0] == s[0])
  {
    if s == [] then [x]
    else if x.start < s[0].start then [x] + s
    else
      var rest := Insert(x, s[1..]);
      assert s == [s[0]] + s[1..];
      [s[0]] + rest
  }

  /** `ranges.sort((a, b) => a.start - b.start)`: a stable sort by first
      page. */
  function SortByStart(xs: seq<Entry>): (r: seq<Entry>)
    ensures |r| == |xs| && multiset(r) == multiset(xs)
    ensures SortedByStart(r)
  {
    if xs == [] then []
    else
      assert xs == xs[..|xs| - 1] + [xs[|xs| - 1]];
      var init := SortByStart(xs[..|xs| - 1]);
      InsertSorted(xs[|xs| - 1], init);
      Insert(xs[|xs| - 1], init)
  }

  predicate SortedByStart(s: seq<Entry>) {
    forall k, l | 0 <= k < l < |s| :: s[k].start <= s[l].start
  }

  /** Inserting into a sorted list keeps it sorted. */
  lemma {:induction false} InsertSorted(x: Entry, s: seq<Entry>)
    requires SortedByStart(s)
    ensures SortedByStart(Insert(x, s))
    decreases |s|
  {
    if s != [] && x.start >= s[0].start {
      var rest := Insert(x, s[1..]);
      InsertSorted(x, s[1..]);
      InsertAbove(x, s[1..], s[0].start);
      assert Insert(x, s) == [s[0]] + rest;
      ConsSorted(s[0], rest);
    }
  }

  /** An entry put ahead of a sorted list that starts no earlier keeps it
      sorted. */
  lemma ConsSorted(e: Entry, rest: seq<Entry>)
    requires SortedByStart(rest) && forall k | 0 <= k < |rest| :: rest[k].start >= e.start
    ensures SortedByStart([e] + rest)
  {
    var r := [e] + rest;
    forall k, l | 0 <= k < l < |r| ensures r[k].start <= r[l].start {
      if k > 0 {
        assert r[k] == rest[k - 1] && r[l] == rest[l - 1];
      } else {
        assert r[l] == rest[l - 1];
      }
    }
  }

  /** Inserting above a lower bound keeps every first page above it. */
  lemma {:induction false} InsertAbove(x: Entry, s: seq<Entry>, b: int)
    requires x.start >= b && forall k | 0 <= k < |s| :: s[k].start >= b
    ensures forall k | 0 <= k < |Insert(x, s)| :: Insert(x, s)[k].start >= b
    decreases |s|
  {
    if s != [] && x.start >= s[0].start {
      InsertAbove(x, s[1..], b);
      var rest := Insert(x, s[1..]);
      assert Insert(x, s) == [s[0]] + rest;
    }
  }

  lemma {:induction false} InsertAtEnd(x: Entry, s: seq<Entry>)
    requires forall k | 0 <= k < |s| :: s[k].start <= x.start
    ensures Insert(x, s) == s + [x]
    decreases |s|
  {
    if s != [] {
      InsertAtEnd(x, s[1..]);
      assert [s[0]] + (s[1..] + [x]) == s + [x];
    }
  }

  /** Sorting a list already in order changes nothing. */
  lemma {:induction false} SortSorted(xs: seq<Entry>)
    requires SortedByStart(xs)
    ensures SortByStart(xs) == xs
    decreases |xs|
  {
    if xs != [] {
      var init := xs[..|xs| - 1];
      SortSorted(init);
      InsertAtEnd(xs[|xs| - 1], init);
      assert init + [xs[|xs| - 1]] == xs;
    }
  }

  // ---------------------------------------------------------------------
  // The editor's invariant

  /** Every range is well ordered inside the document, and each ends before
      the next begins. */
  predicate Valid(s: seq<Entry>, pageCount: int) {
    && (forall k | 0 <= k < |s| :: 1 <= s[k].start <= s[k].end <= pageCount)
    && (forall k | 0 <= k < |s| - 1 :: s[k].end < s[k + 1].start)
  }

  /** The ranges of a valid list are pairwise disjoint and sorted. */
  lemma {:induction false} ValidDisjoint(s: seq<Entry>, pageCount: int, k: nat, l: nat)
    requires Valid(s, pageCount) && k < l < |s|
    ensures s[k].end < s[l].start
    decreases l - k
  {
    if l > k + 1 {
      ValidDisjoint(s, pageCount, k, l - 1);
    }
  }

  lemma ValidSorted(s: seq<Entry>, pageCount: int)
    requires Valid(s, pageCount)
    ensures SortedByStart(s)
  {
    forall k, l | 0 <= k < l < |s| ensures s[k].start <= s[l].start {
      ValidDisjoint(s, pageCount, k, l);
    }
  }

  /** The inclusive test `addRange` applies against each existing range. */
  predicate Overlaps(start: int, end: int, r: Entry) {
    !(end < r.start || start > r.end)
  }

  lemma {:induction false} TailValid(s: seq<Entry>, pageCount: int)
    requires Valid(s, pageCount) && s != []
    ensures Valid(s[1..], pageCount)
  {
    assert forall k | 0 <= k < |s| - 1 :: s[1..][k] == s[k + 1];
  }

  lemma {:induction false} ConsValid(a: Entry, t: seq<Entry>, pageCount: int)
    requires Valid(t, pageCount) && 1 <= a.start <= a.end <= pageCount
    requires t != [] ==> a.end < t[0].start
    ensures Valid([a] + t, pageCount)
  {
    var r := [a] + t;
    assert forall k | 0 < k < |r| :: r[k] == t[k - 1];
  }

  lemma {:induction false} InsertValid(x: Entry, s: seq<Entry>, pageCount: int)
    requires Valid(s, pageCount) && 1 <= x.start <= x.end <= pageCount
    requires forall k | 0 <= k < |s| :: !Overlaps(x.start, x.end, s[k])
    ensures Valid(Insert(x, s), pageCount)
    decreases |s|
  {
    if s == [] {
    } else if x.start < s[0].start {
      assert !Overlaps(x.start, x.end, s[0]);
      ConsValid(x, s, pageCount);
    } else {
      TailValid(s, pageCount);
      assert forall k | 0 <= k < |s| - 1 :: !Overlaps(x.start, x.end, s[1..][k]) by {
        assert forall k | 0 <= k < |s| - 1 :: s[1..][k] == s[k + 1];
      }
      InsertValid(x, s[1..], pageCount);
      var rest := Insert(x, s[1..]);
      assert s[0].end < rest[0].start by {
        assert !Overlaps(x.start, x.end, s[0]);
        if rest[0] != x {
          assert rest[0] == s[1];
        }
      }
      ConsValid(s[0], rest, pageCount);
    }
  }

  // ---------------------------------------------------------------------
  // Editing

  /** The name shown for a range. */
  function EntryName(start: int, end: int): string {
    Label(start, end)
  }

  /** `addRange`: refused with a message when the pages are out of order
      or the range overlaps one already listed; otherwise the range is
      added and the list sorted again. Nothing else changes. */
  function AddRange(st: PageState, now: int): (r: (PageState, string))
    ensures r.0 == st.(ranges := r.0.ranges)
    ensures st.startPage > st.endPage ==> r == (st, "起始页不能大于结束页")
    ensures (st.startPage <= st.endPage && exists k | 0 <= k < |st.ranges| :: Overlaps(st.startPage, st.endPage, st.ranges[k]))
              ==> r == (st, "页码范围重叠")
    ensures (st.startPage <= st.endPage && forall k | 0 <= k < |st.ranges| :: !Overlaps(st.startPage, st.endPage, st.ranges[k]))
              ==> && r.1 == "已添加范围"
                  && multiset(r.0.ranges) == multiset(st.ranges) + multiset{Entry(now, st.startPage, st.endPage, EntryName(st.startPage, st.endPage))}
  {
    if st.startPage > st.endPage then (st, "起始页不能大于结束页")
    else if exists k | 0 <= k < |st.ranges| :: Overlaps(st.startPage, st.endPage, st.ranges[k]) then (st, "页码范围重叠")
    else
      var entry := Entry(now, st.startPage, st.endPage, EntryName(st.startPage, st.endPage));
      (st.(ranges := SortByStart(st.ranges + [entry])), "已添加范围")
  }

  /** Adding keeps the ranges disjoint and sorted, and inside the document
      when the page inputs are. */
  lemma AddRangeKeepsValid(st: PageState, now: int)
    requires Valid(st.ranges, st.pageCount)
    requires 1 <= st.startPage <= st.pageCount && 1 <= st.endPage <= st.pageCount
    ensures Valid(AddRange(st, now).0.ranges, st.pageCount)
  {
    var r := AddRange(st, now).0;
    if r != st {
      var entry := Entry(now, st.startPage, st.endPage, EntryName(st.startPage, st.endPage));
      var s := st.ranges;
      assert (s + [entry])[..|s + [entry]| - 1] == s;
      ValidSorted(s, st.pageCount);
      SortSorted(s);
      InsertValid(entry, s, st.pageCount);
    }
  }

  /** The entries whose id is not `id`, in their order: the
      `filter(r => r.id !== id)` of `deleteRange`. */
  function Kept(s: seq<Entry>, id: int): seq<Entry> {
    if s == [] then []
    else (if s[0].id == id then [] else [s[0]]) + Kept(s[1..], id)
  }

  /** `deleteRange`: every entry with the id goes, the others stay, and a
      list without the id is left as it is. */
  function DeleteRange(s: seq<Entry>, id: int): (r: seq<Entry>)
    ensures forall k | 0 <= k < |r| :: r[k].id != id
    ensures forall e | e in s && e.id != id :: e in r
    ensures forall e | e in r :: e in s
    ensures |r| <= |s|
    ensures (forall k | 0 <= k < |s| :: s[k].id != id) ==> r == s
  {
    KeptMembers(s, id);
    KeptNone(s, id);
    Kept(s, id)
  }

  lemma {:induction false} KeptMembers(s: seq<Entry>, id: int)
    ensures var r := Kept(s, id);
            && (forall k | 0 <= k < |r| :: r[k].id != id)
            && (forall e | e in s && e.id != id :: e in r)
            && (forall e | e in r :: e in s)
            && |r| <= |s|
    decreases |s|
  {
    if s != [] {
      KeptMembers(s[1..], id);
      assert s == [s[0]] + s[1..];
    }
  }

  lemma {:induction false} KeptNone(s: seq<Entry>, id: int)
    ensures (forall k | 0 <= k < |s| :: s[k].id != id) ==> Kept(s, id) == s
    decreases |s|
  {
    if s != [] && forall k | 0 <= k < |s| :: s[k].id != id {
      assert forall k | 0 <= k < |s[1..]| :: s[1..][k].id != id by {
        forall k | 0 <= k < |s[1..]| ensures s[1..][k].id != id {
          assert s[1..][k] == s[k + 1];
        }
      }
      KeptNone(s[1..], id);
      assert s[0].id != id;
      assert Kept(s, id) == [s[0]] + Kept(s[1..], id);
      assert [s[0]] + s[1..] == s;
    }
  }

  /** When one entry carries the id, deleting takes out exactly that entry
      and keeps the others in their order. */
  lemma DeleteOne(s: seq<Entry>, id: int, i: nat)
    requires i < |s| && s[i].id == id
    requires forall k | 0 <= k < |s| && k != i :: s[k].id != id
    ensures DeleteRange(s, id) == s[..i] + s[i + 1..]
  {
    KeptOne(s, id, i);
  }

  lemma {:induction false} KeptOne(s: seq<Entry>, id: int, i: nat)
    requires i < |s| && s[i].id == id
    requires forall k | 0 <= k < |s| && k != i :: s[k].id != id
    ensures Kept(s, id) == s[..i] + s[i + 1..]
    decreases i
  {
    var t := s[1..];
    if i == 0 {
      KeptNone(t, id);
    } else {
      KeptOne(t, id, i - 1);
      var u := Kept(t, id);
      assert Kept(s, id) == [s[0]] + u;
      assert u == s[1..i] + s[i + 1..];
      assert s[..i] == [s[0]] + s[1..i];
    }
  }

  /** Deleting keeps the list valid. */
  lemma DeleteKeepsValid(s: seq<Entry>, id: int, pageCount: int)
    requires Valid(s, pageCount)
    ensures Valid(DeleteRange(s, id), pageCount)
  {
    KeptValid(s, id, pageCount);
  }

  /** The kept entries are the list with those of the id left out, in their
      original order, so they keep the list valid. */
  lemma {:induction false} KeptValid(s: seq<Entry>, id: int, pageCount: int)
    requires Valid(s, pageCount)
    ensures Valid(Kept(s, id), pageCount)
    decreases |s|
  {
    if s != [] {
      TailValid(s, pageCount);
      KeptValid(s[1..], id, pageCount);
      KeptMembers(s[1..], id);
      var rest := Kept(s[1..], id);
      if s[0].id != id {
        assert Kept(s, id) == [s[0]] + rest;
        KeepHead(s, rest, pageCount);
      } else {
        assert Kept(s, id) == rest;
      }
    }
  }

  /** The head of a valid list before any valid selection of its tail is
      a valid list. */
  lemma KeepHead(s: seq<Entry>, rest: seq<Entry>, pageCount: int)
    requires Valid(s, pageCount) && s != [] && Valid(rest, pageCount)
    requires forall e | e in rest :: e in s[1..]
    ensures Valid([s[0]] + rest, pageCount)
  {
    if rest != [] {
      assert rest[0] in s[1..];
      var j :| 0 <= j < |s[1..]| && s[1..][j] == rest[0];
      ValidDisjoint(s, pageCount, 0, j + 1);
    }
    ConsValid(s[0], rest, pageCount);
  }

  /** `onModeChange`: a new mode and no ranges. */
  function ChangeMode(st: PageState, mode: string): (r: PageState)
    ensures r.mode == mode && r.ranges == []
    ensures r.(mode := st.mode, ranges := st.ranges) == st
  {
    st.(mode := mode, ranges := [])
  }

  /** `clearRanges`: nothing to do on an empty list; otherwise the list is
      emptied once the user confirms. */
  function ClearRanges(st: PageState, confirmed: bool): (r: PageState)
    ensures st.ranges == [] || !confirmed ==> r == st
    ensures confirmed ==> r.ranges == [] && r.(ranges := st.ranges) == st
  {
    if st.ranges == [] || !confirmed then st else st.(ranges := [])
  }

  // ---------------------------------------------------------------------
  // Splitting

  /** How `startSplit` ends: a refusal with its toast, a declined
      confirmation dialog, or the request `executeSplit` sends. */
  datatype SplitStart = Refused(message: string) | Declined | Send(request: SplitRequest)

  /** `startSplit` and the request `executeSplit` sends once the user
      confirms: the checks in order, then the dialog, then only the mode's
      own parameter. A parameter the request leaves out reads on the other
      side as no ranges, a count of zero, or no parity. */
  function StartSplit(st: PageState, hasFile: bool, confirmed: bool): (r: SplitStart)
    ensures !hasFile ==> r == Refused("请先选择PDF文件")
    ensures hasFile && st.mode == "range" && st.ranges == [] ==> r == Refused("请添加拆分范围")
    ensures (hasFile && st.mode == "average" && (st.splitCount < 2 || st.splitCount > st.pageCount))
              ==> r == Refused("拆分份数无效")
    ensures r.Declined? <==> !r.Refused? && !confirmed
    ensures r.Refused? <==>
              || !hasFile
              || (st.mode == "range" && st.ranges == [])
              || (st.mode == "average" && (st.splitCount < 2 || st.splitCount > st.pageCount))
    ensures r.Send? ==> confirmed && r.request.mode == st.mode
    ensures r.Send? && st.mode == "range" ==>
              |r.request.ranges| == |st.ranges| >= 1
              && forall k | 0 <= k < |st.ranges| :: r.request.ranges[k] == Range(st.ranges[k].start, st.ranges[k].end)
    ensures r.Send? && st.mode == "average" ==> 2 <= r.request.splitCount == st.splitCount <= st.pageCount
    ensures r.Send? && st.mode == "oddeven" ==> r.request.oddEvenMode == st.oddEvenMode
    ensures r.Send? && st.mode != "range" ==> r.request.ranges == []
    ensures r.Send? && st.mode != "average" ==> r.request.splitCount == 0
    ensures r.Send? && st.mode != "oddeven" ==> r.request.oddEvenMode == ""
  {
    if !hasFile then Refused("请先选择PDF文件")
    else if st.mode == "range" && st.ranges == [] then Refused("请添加拆分范围")
    else if st.mode == "average" && (st.splitCount < 2 || st.splitCount > st.pageCount) then Refused("拆分份数无效")
    else if !confirmed then Declined
    else
      var ranges := if st.mode == "range" then seq(|st.ranges|, k requires 0 <= k < |st.ranges| => Range(st.ranges[k].start, st.ranges[k].end)) else [];
      var count := if st.mode == "average" then st.splitCount else 0;
      var parity := if st.mode == "oddeven" then st.oddEvenMode else "";
      Send(SplitRequest(st.mode, ranges, count, parity))
  }

  /** What the page sends for the document it loaded is split into pieces
      that cover every page once: in 'range' mode the listed ranges, kept
      valid by the editor, are disjoint and in order; in 'average' mode
      the cloud side cuts the document into at most the requested count. */
  lemma RequestsArePlanned(st: PageState, hasFile: bool)
    requires StartSplit(st, hasFile, true).Send? && st.pageCount >= 0
    requires Valid(st.ranges, st.pageCount)
    ensures var req := StartSplit(st, hasFile, true).request;
            var rs := PlanRanges(req, st.pageCount);
            && (st.mode == "average" ==> Partition(rs, st.pageCount) && |rs| <= st.splitCount)
            && (st.mode == "range" ==>
                  forall k, l | 0 <= k < l < |rs| :: 1 <= rs[k].start <= rs[k].end < rs[l].start <= rs[l].end <= st.pageCount)
            && !SomeOutOfDocument(rs, st.pageCount)
  {
    var req := StartSplit(st, hasFile, true).request;
    var rs := PlanRanges(req, st.pageCount);
    if st.mode != "range" {
      PlannedInDocument(req, st.pageCount);
    } else {
      forall k, l | 0 <= k < l < |st.ranges| ensures st.ranges[k].end < st.ranges[l].start {
        ValidDisjoint(st.ranges, st.pageCount, k, l);
      }
      forall k | 0 <= k < |rs| ensures !OutOfDocument(rs[k], st.pageCount) {
        assert rs[k] == Range(st.ranges[k].start, st.ranges[k].end);
      }
    }
  }
}

=== FILE: table_layout.dfy ===
/** Table parsing and row-by-row table layout, shared by both versions of
    the Markdown renderer: `parseTableToken`, `drawTableRow` and the body
    of `renderTable`. The two versions differ in where a cell's text may
    come from and in whether the header is drawn again after a page break
    inside the table. */
module TableLayout {
  import opened Wrappers
  import opened InlineMarkup
  import opened PdfCanvas
  import opened MarkdownTokens

  const RowHeight: real := 30.0

  // ---------------------------------------------------------------------
  // parseTableToken

  /** The raw text of a cell: its own text, else (when `useTokens`) the
      text of its first inline token, else the empty text. */
  function RawCellText(cell: TableCell, useTokens: bool): string
    requires cell.TableCell?
  {
    if cell.text != "" then cell.text
    else if useTokens then cell.firstTokenText
    else ""
  }

  function ParseCells(cells: seq<TableCell>, useTokens: bool): (r: Option<seq<string>>)
    ensures r.Some? <==> forall k | 0 <= k < |cells| :: cells[k].TableCell?
    ensures r.Some? ==> |r.value| == |cells|
    ensures r.Some? ==> forall k | 0 <= k < |cells| ::
                          r.value[k] == StripInlineFormatting(RawCellText(cells[k], useTokens))
  {
    if cells == [] then Some([])
    else if cells[0].NullCell? then None
    else
      match ParseCells(cells[1..], useTokens)
      case None => None
      case Some(rest) => Some([StripInlineFormatting(RawCellText(cells[0], useTokens))] + rest)
  }

  /** A row is an array whose cells are all objects. */
  predicate RowParses(row: Option<seq<TableCell>>, useTokens: bool) {
    row.Some? && ParseCells(row.value, useTokens).Some?
  }

  /** The rows, each parsed as `ParseCells` does, when all of them parse. */
  function ParseRows(rows: seq<Option<seq<TableCell>>>, useTokens: bool): (r: Option<seq<seq<string>>>)
    ensures r.Some? <==> forall k | 0 <= k < |rows| :: RowParses(rows[k], useTokens)
    ensures r.Some? ==> |r.value| == |rows|
    ensures r.Some? ==> forall k | 0 <= k < |rows| :: |r.value[k]| == |rows[k].value|
    ensures r.Some? ==> forall k, j | 0 <= k < |rows| && 0 <= j < |rows[k].value| ::
                          r.value[k][j] == StripInlineFormatting(RawCellText(rows[k].value[j], useTokens))
  {
    if forall k | 0 <= k < |rows| :: RowParses(rows[k], useTokens) then
      Some(seq(|rows|, k requires 0 <= k < |rows| && RowParses(rows[k], useTokens) =>
                         ParseCells(rows[k].value, useTokens).value))
    else None
  }

  /** The table is well formed: header and rows are arrays and no cell is
      `null`. */
  predicate WellFormed(header: Option<seq<TableCell>>, rows: Option<seq<Option<seq<TableCell>>>>) {
    && header.Some? && (forall k | 0 <= k < |header.value| :: header.value[k].TableCell?)
    && rows.Some? && (forall k | 0 <= k < |rows.value| ::
                        rows.value[k].Some? && forall j | 0 <= j < |rows.value[k].value| :: rows.value[k].value[j].TableCell?)
  }

  function ParseTableWith(header: Option<seq<TableCell>>, rows: Option<seq<Option<seq<TableCell>>>>,
                          useTokens: bool): (r: Option<TableData>)
    ensures r.Some? <==> WellFormed(header, rows)
    ensures r.Some? ==> |r.value.header| == |header.value| && |r.value.rows| == |rows.value|
    ensures r.Some? ==> forall k | 0 <= k < |rows.value| :: |r.value.rows[k]| == |rows.value[k].value|
  {
    if header.None? || rows.None? then None
    else
      match ParseCells(header.value, useTokens)
      case None => None
      case Some(h) =>
        match ParseRows(rows.value, useTokens)
        case None => None
        case Some(rs) => Some(TableData(h, rs))
  }

  /** `parseTableToken` of the current renderer: a cell's text is its own
      text, else its first inline token's text, else empty; then stripped. */
  function ParseTable(header: Option<seq<TableCell>>, rows: Option<seq<Option<seq<TableCell>>>>): Option<TableData> {
    ParseTableWith(header, rows, true)
  }

  /** `parseTableToken` of the older renderer: only the cell's own text. */
  function ParseTableTextOnly(header: Option<seq<TableCell>>, rows: Option<seq<Option<seq<TableCell>>>>): Option<TableData> {
    ParseTableWith(header, rows, false)
  }

  /** The two parsers agree except on cells that have no text of their own. */
  lemma ParsersAgree(header: Option<seq<TableCell>>, rows: Option<seq<Option<seq<TableCell>>>>)
    requires WellFormed(header, rows)
    requires forall k | 0 <= k < |header.value| :: header.value[k].text != ""
    requires forall k, j | 0 <= k < |rows.value| && 0 <= j < |rows.value[k].value| :: rows.value[k].value[j].text != ""
    ensures ParseTable(header, rows) == ParseTableTextOnly(header, rows)
  {
    var a := ParseTable(header, rows).value;
    var b := ParseTableTextOnly(header, rows).value;
    assert a.header == b.header;
    forall k | 0 <= k < |rows.value|
      ensures a.rows[k] == b.rows[k]
    {
      assert ParseCells(rows.value[k].value, true).value == ParseCells(rows.value[k].value, false).value;
    }
    assert a.rows == b.rows;
  }

  // ---------------------------------------------------------------------
  // drawTableRow

  /** `tableWidth / colCount`. An empty header would divide by zero: the
      width would be `Infinity`, the first cell's x `0 * Infinity`, which is
      `NaN`, and `rect` would throw into the failure line. A GitHub table
      always has a column, so the parser never yields that case; `None`
      stands for it here. */
  function ColumnWidth(data: TableData): Option<real> {
    if |data.header| == 0 then None else Some(ContentWidth / |data.header| as real)
  }

  function CellStyle(kind: RowKind): Style {
    if kind == HeaderRow then Style(HelveticaBold, 11.0) else Style(Helvetica, 10.0)
  }

  /** The cells of one row as drawn: same page, same top, columns in order. */
  function RowOps(page: nat, top: real, kind: RowKind, col: nat, colWidth: Option<real>, cells: seq<string>): (r: seq<Op>)
    ensures |r| == |cells|
    ensures forall k | 0 <= k < |cells| :: r[k] == Cell(page, top, kind, col + k, colWidth, cells[k])
    decreases |cells|
  {
    if cells == [] then []
    else [Cell(page, top, kind, col, colWidth, cells[0])] + RowOps(page, top, kind, col + 1, colWidth, cells[1..])
  }

  /** The drawing after position `from` of `x + a`, when `x` is at least
      that long. */
  lemma SliceOfAppend(x: seq<Op>, a: seq<Op>, from: nat)
    requires from <= |x|
    ensures (x + a)[from..] == x[from..] + a
  {
  }

  lemma ChainSlice(x: seq<Op>, y: seq<Op>, z: seq<Op>, w: seq<Op>, a: seq<Op>, b: seq<Op>, d: seq<Op>)
    requires y == x + a && z == y + b && w == z + d
    ensures w[|x|..] == a + b + d
  {
    assert w == x + (a + b + d);
  }

  lemma ExtendsSplit(r: Canvas, c: Canvas)
    requires Extends(r, c)
    ensures r.ops == c.ops + r.ops[|c.ops|..]
  {
    assert r.ops == r.ops[..|c.ops|] + r.ops[|c.ops|..];
  }

  /** The cells of a row from column `col` on. Each cell's text is written
      ten points narrower than its column and clipped to twenty points of
      height, starting where the font is vertically centred in the row; the
      cursor is left below the last cell's text. */
  function DrawCells(m: Metrics, c: Canvas, top: real, kind: RowKind, col: nat, colWidth: Option<real>,
                     cells: seq<string>): (r: Canvas)
    ensures Extends(r, c) && r.page == c.page
    ensures r.ops == c.ops + RowOps(c.page, top, kind, col, colWidth, cells)
    ensures cells == [] ==> r.y == c.y
    ensures cells != [] ==> var textY := top + (RowHeight - CellStyle(kind).size) / 2.0;
                            textY <= r.y <= textY + RowHeight - 10.0
    decreases |cells|
  {
    if cells == [] then c
    else
      var style := CellStyle(kind);
      var textY := top + (RowHeight - style.size) / 2.0;
      var inner := match colWidth case Some(w) => Some(w - 10.0) case None => None;
      var h := m.textHeight(style, CellBox(inner), cells[0]);
      var clipped := if h > RowHeight - 10.0 then RowHeight - 10.0 else h;
      var c1 := c.(y := textY + clipped, style := style,
                   ops := c.ops + [Cell(c.page, top, kind, col, colWidth, cells[0])]);
      DrawCells(m, c1, top, kind, col + 1, colWidth, cells[1..])
  }

  /** `drawTableRow` followed by `doc.y += rowHeight`. */
  function DrawRow(m: Metrics, c: Canvas, kind: RowKind, colWidth: Option<real>, cells: seq<string>): (r: Canvas)
    ensures Extends(r, c) && r.page == c.page
    ensures r.ops == c.ops + RowOps(c.page, c.y, kind, 0, colWidth, cells)
    ensures c.y + RowHeight <= r.y <= c.y + 2.0 * RowHeight
  {
    var c1 := DrawCells(m, c, c.y, kind, 0, colWidth, cells);
    c1.(y := c1.y + RowHeight)
  }

  // ---------------------------------------------------------------------
  // What a laid-out table satisfies

  /** The data cells among some drawing, as (row, column, text). */
  function DataCells(ops: seq<Op>): seq<(nat, nat, string)> {
    if ops == [] then [] else DataEntry(ops[0]) + DataCells(ops[1..])
  }

  function DataEntry(op: Op): seq<(nat, nat, string)> {
    if op.Cell? && op.row.DataRow? then [(op.row.index, op.col, op.text)] else []
  }

  /** Every cell of `rows`, row by row, numbering rows from `from`. */
  function Enumerate(rows: seq<seq<string>>, from: nat): seq<(nat, nat, string)> {
    if rows == [] then []
    else RowEntries(rows[0], from) + Enumerate(rows[1..], from + 1)
  }

  /** The cells of one row as (row, column, text). */
  function RowEntries(row: seq<string>, index: nat): (r: seq<(nat, nat, string)>)
    ensures |r| == |row|
    ensures forall j | 0 <= j < |row| :: r[j] == (index, j, row[j])
  {
    seq(|row|, j requires 0 <= j < |row| => (index, j, row[j]))
  }

  /** What may be drawn first on a page the table continues on: the first
      cell of a row, and with the header repeated, the header's when there
      is one; without repetition, a data row's. */
  predicate BreakStart(op: Op, hasHeader: bool, repeat: bool) {
    && op.Cell? && op.col == 0
    && (if repeat then (hasHeader ==> op.row == HeaderRow) else op.row.DataRow?)
  }

  predicate BreaksOk(ops: seq<Op>, hasHeader: bool, repeat: bool) {
    forall k | 0 < k < |ops| :: ops[k].page != ops[k - 1].page ==> BreakStart(ops[k], hasHeader, repeat)
  }

  /** Every row lies above the threshold. */
  predicate RowsFit(ops: seq<Op>) {
    forall k | 0 <= k < |ops| :: ops[k].Cell? && ops[k].y + RowHeight <= BreakY
  }

  /** A laid-out table: the header row first, every data cell exactly once
      and in order, no row below the threshold, and every page the table
      moves on to starts as `BreakStart` says. */
  predicate TableDrawn(ops: seq<Op>, data: TableData, repeat: bool) {
    && |ops| >= |data.header|
    && (forall k | 0 <= k < |data.header| ::
          ops[k].Cell? && ops[k].row == HeaderRow && ops[k].col == k && ops[k].text == data.header[k])
    && DataCells(ops) == Enumerate(data.rows, 0)
    && RowsFit(ops)
    && BreaksOk(ops, data.header != [], repeat)
  }

  lemma {:induction false} DataCellsAppend(a: seq<Op>, b: seq<Op>)
    ensures DataCells(a + b) == DataCells(a) + DataCells(b)
  {
    if a == [] {
      assert a + b == b;
    } else {
      calc {
        DataCells(a + b);
      == { assert (a + b)[0] == a[0]; assert (a + b)[1..] == a[1..] + b; }
        DataEntry(a[0]) + DataCells(a[1..] + b);
      == { DataCellsAppend(a[1..], b); }
        DataEntry(a[0]) + (DataCells(a[1..]) + DataCells(b));
      }
    }
  }

  /** The data cells of one row are the row's cells in column order, and a
      header row has none. */
  lemma {:induction false} DataCellsOfRow(page: nat, top: real, kind: RowKind, col: nat, colWidth: Option<real>, cells: seq<string>)
    ensures var d := DataCells(RowOps(page, top, kind, col, colWidth, cells));
            && (kind.DataRow? ==> |d| == |cells|)
            && (kind.DataRow? ==> forall j | 0 <= j < |cells| :: d[j] == (kind.index, col + j, cells[j]))
            && (!kind.DataRow? ==> d == [])
    decreases |cells|
  {
    if cells != [] {
      var ops := RowOps(page, top, kind, col, colWidth, cells);
      var tail := RowOps(page, top, kind, col + 1, colWidth, cells[1..]);
      DataCellsOfRow(page, top, kind, col + 1, colWidth, cells[1..]);
      assert ops[1..] == tail;
      var d := DataCells(ops);
      assert d == DataEntry(ops[0]) + DataCells(tail);
      if kind.DataRow? {
        forall j | 0 <= j < |cells|
          ensures d[j] == (kind.index, col + j, cells[j])
        {
          if j > 0 {
            assert d[j] == DataCells(tail)[j - 1];
            assert cells[1..][j - 1] == cells[j];
          }
        }
      }
    }
  }

  lemma DataRowEntries(page: nat, top: real, i: nat, colWidth: Option<real>, cells: seq<string>)
    ensures DataCells(RowOps(page, top, DataRow(i), 0, colWidth, cells)) == RowEntries(cells, i)
  {
    DataCellsOfRow(page, top, DataRow(i), 0, colWidth, cells);
  }

  lemma BreaksAppend(a: seq<Op>, b: seq<Op>, hasHeader: bool, repeat: bool)
    requires BreaksOk(a, hasHeader, repeat) && BreaksOk(b, hasHeader, repeat)
    requires a != [] && b != [] ==> b[0].page == a[|a| - 1].page || BreakStart(b[0], hasHeader, repeat)
    ensures BreaksOk(a + b, hasHeader, repeat)
  {
    var ab := a + b;
    forall k | 0 < k < |ab| && ab[k].page != ab[k - 1].page
      ensures BreakStart(ab[k], hasHeader, repeat)
    {
      if k > |a| {
        assert ab[k] == b[k - |a|] && ab[k - 1] == b[k - 1 - |a|];
      } else if k == |a| {
        assert ab[k] == b[0] && ab[k - 1] == a[|a| - 1];
      } else {
        assert ab[k] == a[k] && ab[k - 1] == a[k - 1];
      }
    }
  }

  // ---------------------------------------------------------------------
  // renderTable

  /** Everything was drawn on a page up to `page`. */
  predicate PagesUpTo(ops: seq<Op>, page: nat) {
    forall k | 0 <= k < |ops| :: ops[k].page <= page
  }

  /** One row's cells share a page and a top, and only the page of the
      first can differ from what precedes it. */
  lemma RowOpsShape(page: nat, top: real, kind: RowKind, colWidth: Option<real>, cells: seq<string>, hasHeader: bool, repeat: bool)
    requires top + RowHeight <= BreakY
    ensures var b := RowOps(page, top, kind, 0, colWidth, cells);
            RowsFit(b) && PagesUpTo(b, page) && BreaksOk(b, hasHeader, repeat)
  {
    var b := RowOps(page, top, kind, 0, colWidth, cells);
    assert forall k | 0 <= k < |b| :: b[k].page == page && b[k].y == top;
  }

  lemma FitAppend(a: seq<Op>, b: seq<Op>, page: nat, page': nat)
    requires RowsFit(a) && RowsFit(b) && PagesUpTo(a, page) && PagesUpTo(b, page') && page <= page'
    ensures RowsFit(a + b) && PagesUpTo(a + b, page')
  {
    var ab := a + b;
    forall k | 0 <= k < |ab| ensures ab[k].Cell? && ab[k].y + RowHeight <= BreakY && ab[k].page <= page' {
      if k >= |a| { assert ab[k] == b[k - |a|]; } else { assert ab[k] == a[k]; }
    }
  }

  /** The layout state the data rows keep: everything drawn since the
      table began is a cell above the threshold on a page up to the
      current one, page changes start as `BreakStart` says, and with the
      header repeated the last cell drawn is on the current page. */
  predicate LayoutInv(seg: seq<Op>, page: nat, hasHeader: bool, repeat: bool) {
    && RowsFit(seg)
    && PagesUpTo(seg, page)
    && BreaksOk(seg, hasHeader, repeat)
    && (repeat && hasHeader ==> seg != [] && seg[|seg| - 1].page == page)
  }

  /** What happens before data row: when the row would cross the
      threshold, a new page, with the header drawn on it when `repeat`. */
  function RowBreak(m: Metrics, c: Canvas, data: TableData, repeat: bool): (r: Canvas)
    ensures r.ops == c.ops + (if c.y + RowHeight > BreakY && repeat
                              then RowOps(c.page + 1, TopY, HeaderRow, 0, ColumnWidth(data), data.header) else [])
    ensures r.page == (if c.y + RowHeight > BreakY then c.page + 1 else c.page)
    ensures r.y + RowHeight <= BreakY
    ensures Extends(r, c)
  {
    if c.y + RowHeight > BreakY then
      if repeat then DrawRow(m, AddPage(c), HeaderRow, ColumnWidth(data), data.header)
      else AddPage(c)
    else c
  }

  /** One row's cells on one page, above the threshold, keep the layout
      state when the row may start there. */
  lemma InvAppendRow(seg: seq<Op>, page: nat, page': nat, top: real, kind: RowKind,
                     colWidth: Option<real>, cells: seq<string>, hasHeader: bool, repeat: bool)
    requires LayoutInv(seg, page, hasHeader, repeat) && page <= page' && top + RowHeight <= BreakY
    requires seg != [] && cells != [] && seg[|seg| - 1].page != page' ==>
               BreakStart(Cell(page', top, kind, 0, colWidth, cells[0]), hasHeader, repeat)
    requires repeat && hasHeader && page' != page ==> cells != []
    ensures LayoutInv(seg + RowOps(page', top, kind, 0, colWidth, cells), page', hasHeader, repeat)
  {
    var b := RowOps(page', top, kind, 0, colWidth, cells);
    RowOpsShape(page', top, kind, colWidth, cells, hasHeader, repeat);
    BreaksAppend(seg, b, hasHeader, repeat);
    FitAppend(seg, b, page, page');
    var ab := seg + b;
    if repeat && hasHeader {
      if b != [] {
        assert ab[|ab| - 1] == b[|b| - 1];
      } else {
        assert ab == seg;
      }
    }
  }

  /** The header row alone, drawn above the threshold, starts the layout
      state. */
  lemma HeaderInv(page: nat, top: real, colWidth: Option<real>, header: seq<string>, repeat: bool)
    requires top + RowHeight <= BreakY
    ensures LayoutInv(RowOps(page, top, HeaderRow, 0, colWidth, header), page, header != [], repeat)
  {
    RowOpsShape(page, top, HeaderRow, colWidth, header, header != [], repeat);
  }

  /** Moving to a later page with nothing drawn keeps the layout state
      unless the header must be on the current page. */
  lemma LaterPageInv(seg: seq<Op>, page: nat, page': nat, hasHeader: bool, repeat: bool)
    requires LayoutInv(seg, page, hasHeader, repeat) && page <= page'
    requires repeat && hasHeader ==> page == page'
    ensures LayoutInv(seg, page', hasHeader, repeat)
  {
  }

  lemma BreakKeepsInv(m: Metrics, c: Canvas, data: TableData, repeat: bool, start: nat)
    requires start <= |c.ops| && LayoutInv(c.ops[start..], c.page, data.header != [], repeat)
    ensures var r := RowBreak(m, c, data, repeat);
            LayoutInv(r.ops[start..], r.page, data.header != [], repeat)
  {
    var r := RowBreak(m, c, data, repeat);
    var redraw := c.y + RowHeight > BreakY && repeat;
    BreakInvOf(c.ops, r.ops, c.page, r.page, start, redraw, ColumnWidth(data), data.header, repeat);
  }

  /** `BreakKeepsInv` on the ops and page alone: either the header is
      redrawn on the next page, or nothing is drawn and the page may
      only change when the header is not repeated. */
  lemma BreakInvOf(ops: seq<Op>, ops': seq<Op>, page: nat, page': nat, start: nat, redraw: bool,
                   colWidth: Option<real>, header: seq<string>, repeat: bool)
    requires start <= |ops| && LayoutInv(ops[start..], page, header != [], repeat) && page <= page'
    requires redraw ==> page' == page + 1 && repeat
    requires ops' == ops + (if redraw then RowOps(page', TopY, HeaderRow, 0, colWidth, header) else [])
    requires !redraw && repeat && header != [] ==> page' == page
    ensures LayoutInv(ops'[start..], page', header != [], repeat)
  {
    var seg := ops[start..];
    var hasHeader := header != [];
    if redraw {
      var headerOps := RowOps(page', TopY, HeaderRow, 0, colWidth, header);
      SliceOfAppend(ops, headerOps, start);
      InvAppendRow(seg, page, page', TopY, HeaderRow, colWidth, header, hasHeader, repeat);
      InvOfSame(ops'[start..], seg + headerOps, page', page', hasHeader, repeat);
    } else {
      assert ops' == ops;
      LaterPageInv(seg, page, page', hasHeader, repeat);
    }
  }

  lemma InvOfSame(a: seq<Op>, b: seq<Op>, page: nat, page': nat, hasHeader: bool, repeat: bool)
    requires a == b && page == page' && LayoutInv(b, page', hasHeader, repeat)
    ensures LayoutInv(a, page, hasHeader, repeat)
  {
  }

  lemma DataRowKeepsInv(seg: seq<Op>, page: nat, top: real, i: nat, colWidth: Option<real>, row: seq<string>,
                        hasHeader: bool, repeat: bool)
    requires LayoutInv(seg, page, hasHeader, repeat) && top + RowHeight <= BreakY
    ensures LayoutInv(seg + RowOps(page, top, DataRow(i), 0, colWidth, row), page, hasHeader, repeat)
  {
    InvAppendRow(seg, page, page, top, DataRow(i), colWidth, row, hasHeader, repeat);
  }

  lemma NoDataInBreak(m: Metrics, c: Canvas, data: TableData, repeat: bool)
    ensures var r := RowBreak(m, c, data, repeat);
            r.ops[|c.ops|..] == [] || DataCells(r.ops[|c.ops|..]) == []
  {
    var r := RowBreak(m, c, data, repeat);
    if c.y + RowHeight > BreakY && repeat {
      var headerOps := RowOps(c.page + 1, TopY, HeaderRow, 0, ColumnWidth(data), data.header);
      assert r.ops[|c.ops|..] == headerOps;
      DataCellsOfRow(c.page + 1, TopY, HeaderRow, 0, ColumnWidth(data), data.header);
    } else {
      assert r.ops[|c.ops|..] == [];
    }
  }

  /** The data rows from `i` on, each moved to a new page when it would
      cross the threshold (redrawing the header first when `repeat`). */
  function LayRows(m: Metrics, c: Canvas, data: TableData, i: nat, repeat: bool, start: nat): (r: Canvas)
    requires i <= |data.rows| && start <= |c.ops|
    requires LayoutInv(c.ops[start..], c.page, data.header != [], repeat)
    ensures Extends(r, c)
    ensures LayoutInv(r.ops[start..], r.page, data.header != [], repeat)
    ensures DataCells(r.ops[|c.ops|..]) == Enumerate(data.rows[i..], i)
    decreases |data.rows| - i
  {
    if i == |data.rows| then
      assert c.ops[|c.ops|..] == [];
      c
    else
      var colWidth := ColumnWidth(data);
      var c1 := RowBreak(m, c, data, repeat);
      BreakKeepsInv(m, c, data, repeat, start);
      var c2 := DrawRow(m, c1, DataRow(i), colWidth, data.rows[i]);
      var dataOps := RowOps(c1.page, c1.y, DataRow(i), 0, colWidth, data.rows[i]);
      SliceOfAppend(c1.ops, dataOps, start);
      DataRowKeepsInv(c1.ops[start..], c1.page, c1.y, i, colWidth, data.rows[i], data.header != [], repeat);
      var r := LayRows(m, c2, data, i + 1, repeat, start);
      assert DataCells(r.ops[|c.ops|..]) == Enumerate(data.rows[i..], i) by {
        var breakOps := c1.ops[|c.ops|..];
        var rest := r.ops[|c2.ops|..];
        ExtendsSplit(r, c2);
        ExtendsSplit(c1, c);
        ChainSlice(c.ops, c1.ops, c2.ops, r.ops, breakOps, dataOps, rest);
        NoDataInBreak(m, c, data, repeat);
        assert breakOps == [] || DataCells(breakOps) == [];
        DataRowEntries(c1.page, c1.y, i, colWidth, data.rows[i]);
        DataCellsOfStep(breakOps, dataOps, rest, data.rows, i);
      }
      ExtendsTrans(r, c2, c1);
      ExtendsTrans(r, c1, c);
      r
  }

  lemma DataCellsOfStep(breakOps: seq<Op>, dataOps: seq<Op>, rest: seq<Op>, rows: seq<seq<string>>, i: nat)
    requires i < |rows|
    requires DataCells(breakOps) == []
    requires DataCells(dataOps) == RowEntries(rows[i], i)
    requires DataCells(rest) == Enumerate(rows[i + 1..], i + 1)
    ensures DataCells(breakOps + dataOps + rest) == Enumerate(rows[i..], i)
  {
    EnumerateStep(rows, i);
    DataCellsAppend(breakOps + dataOps, rest);
    DataCellsAppend(breakOps, dataOps);
    assert [] + RowEntries(rows[i], i) == RowEntries(rows[i], i);
  }

  /** Enumerating from row `i` lists row `i`, then the rows after it. */
  lemma EnumerateStep(rows: seq<seq<string>>, i: nat)
    requires i < |rows|
    ensures Enumerate(rows[i..], i) == RowEntries(rows[i], i) + Enumerate(rows[i + 1..], i + 1)
  {
    assert rows[i..][0] == rows[i] && rows[i..][1..] == rows[i + 1..];
  }

  /** The table body of `renderTable`: a new page first when the whole
      table does not fit, the header, then the data rows. */
  function LayTable(m: Metrics, c: Canvas, data: TableData, repeat: bool): (r: Canvas)
    ensures Extends(r, c)
    ensures TableDrawn(r.ops[|c.ops|..], data, repeat)
    ensures data.header != [] ==>
              (r.ops[|c.ops|].page == c.page + 1 <==> c.y + (|data.rows| + 1) as real * RowHeight > BreakY)
  {
    var total := (|data.rows| + 1) as real * RowHeight;
    var colWidth := ColumnWidth(data);
    var c1 := if c.y + total > BreakY then AddPage(c) else c;
    var c2 := DrawRow(m, c1, HeaderRow, colWidth, data.header);
    var headerOps := RowOps(c1.page, c1.y, HeaderRow, 0, colWidth, data.header);
    HeaderStarts(c, c1, c2, headerOps, data, repeat);
    var r := LayRows(m, c2, data, 0, repeat, |c.ops|);
    ExtendsTrans(r, c2, c);
    TableDrawnOf(c, c1, c2, r, headerOps, data, repeat);
    r
  }

  lemma HeaderStarts(c: Canvas, c1: Canvas, c2: Canvas, headerOps: seq<Op>, data: TableData, repeat: bool)
    requires c1.y + RowHeight <= BreakY
    requires headerOps == RowOps(c1.page, c1.y, HeaderRow, 0, ColumnWidth(data), data.header)
    requires c2.ops == c.ops + headerOps && c2.page == c1.page
    ensures |c.ops| <= |c2.ops| && LayoutInv(c2.ops[|c.ops|..], c2.page, data.header != [], repeat)
  {
    assert c2.ops[|c.ops|..] == headerOps;
    HeaderInv(c1.page, c1.y, ColumnWidth(data), data.header, repeat);
  }

  lemma TableDrawnOf(c: Canvas, c1: Canvas, c2: Canvas, r: Canvas, headerOps: seq<Op>, data: TableData, repeat: bool)
    requires headerOps == RowOps(c1.page, c1.y, HeaderRow, 0, ColumnWidth(data), data.header)
    requires c2.ops == c.ops + headerOps && Extends(r, c2)
    requires LayoutInv(r.ops[|c.ops|..], r.page, data.header != [], repeat)
    requires DataCells(r.ops[|c2.ops|..]) == Enumerate(data.rows[0..], 0)
    ensures TableDrawn(r.ops[|c.ops|..], data, repeat)
    ensures data.header != [] ==> r.ops[|c.ops|].page == c1.page
  {
    TableOps(c, c2, r, headerOps);
    DataCellsAppend(headerOps, r.ops[|c2.ops|..]);
    DataCellsOfRow(c1.page, c1.y, HeaderRow, 0, ColumnWidth(data), data.header);
    assert data.rows[0..] == data.rows;
  }

  lemma TableOps(c: Canvas, c2: Canvas, r: Canvas, headerOps: seq<Op>)
    requires c2.ops == c.ops + headerOps && Extends(r, c2)
    ensures r.ops[|c.ops|..] == headerOps + r.ops[|c2.ops|..]
    ensures r.ops[|c.ops|..][..|headerOps|] == headerOps
  {
    ExtendsSplit(r, c2);
  }
}

=== FILE: video_convert.dfy ===
/** The `videoFormatConvert` cloud function: how the request's format,
    quality preset and resolution become one ffmpeg job, and the response.
    Downloading, transcoding and uploading are one step passed in. */
module VideoConvert {
  import opened Wrappers
  import opened JsText
  import opened MediaNames

  /** The request; an absent `fileID` is the empty string (falsy), and the
      other fields hold their defaults when absent. */
  datatype Request = Request(fileID: string, fileName: string, targetFormat: string, qualityPreset: string, resolution: string)

  function DefaultRequest(fileID: string): (q: Request)
    ensures q.fileID == fileID && q.fileName == "" && q.targetFormat == "mp4"
    ensures q.qualityPreset == "standard" && q.resolution == "original"
  {
    Request(fileID, "", "mp4", "standard", "original")
  }

  /** The containers ffmpeg is asked to write. */
  const Supported: seq<string> := ["mp4", "mov", "avi"]

  /** The container: the requested one lower-cased when supported,
      otherwise mp4 (so a request for gif or mp3 gets mp4). */
  function Container(targetFormat: string): (r: string)
    ensures r in Supported
    ensures ToLower(targetFormat) in Supported ==> r == ToLower(targetFormat)
    ensures ToLower(targetFormat) !in Supported ==> r == "mp4"
  {
    var safe := ToLower(targetFormat);
    if safe in Supported then safe else "mp4"
  }

  /** Upper- and lower-case spellings of a format choose the same
      container. */
  lemma ContainerIgnoresCase(f: string)
    ensures Container(ToLower(f)) == Container(f)
  {
    ToLowerIdempotent(f);
  }

  /** `qualityBitrateMap`: the video bitrate of each quality preset. */
  const QualityBitrates: map<string, string> := map["high" := "2500k", "standard" := "1800k", "compress" := "1200k"]

  /** The video bitrate: the preset's, and the standard one for a preset
      the map does not know. */
  function VideoBitrate(preset: string): (r: string)
    ensures r in QualityBitrates.Values
    ensures preset in QualityBitrates ==> r == QualityBitrates[preset]
    ensures preset !in QualityBitrates ==> r == QualityBitrates["standard"] == "1800k"
  {
    if preset in QualityBitrates then QualityBitrates[preset] else QualityBitrates["standard"]
  }

  /** `resolutionMap`: the frame size ffmpeg is told to scale to; none for
      `original` and for any unknown key. */
  function FrameSize(resolution: string): (r: Option<string>)
    ensures r.Some? <==> resolution in {"1080p", "720p", "480p"}
    ensures resolution == "1080p" ==> r == Some("1920x1080")
    ensures resolution == "720p" ==> r == Some("1280x720")
    ensures resolution == "480p" ==> r == Some("854x480")
  {
    if resolution == "1080p" then Some("1920x1080")
    else if resolution == "720p" then Some("1280x720")
    else if resolution == "480p" then Some("854x480")
    else None
  }

  /** The video and audio codecs: MPEG-4 and MP3 inside AVI, H.264 and
      AAC in every other container. */
  function Codecs(container: string): (r: (string, string))
    ensures container == "avi" <==> r == ("mpeg4", "libmp3lame")
    ensures container != "avi" <==> r == ("libx264", "aac")
  {
    if container == "avi" then ("mpeg4", "libmp3lame") else ("libx264", "aac")
  }

  datatype Job = Job(inputName: string, outputName: string, container: string, videoBitrate: string,
                     audioBitrate: string, size: Option<string>, codecs: (string, string), cloudPath: string)

  lemma SupportedAreExtensions(c: string)
    requires c in Supported
    ensures c != [] && IsLowerAlnum(c)
  {
  }

  /** The job for a request, or the missing-file error. `started` and
      `uploaded` are the two readings of `Date.now()`. */
  function Plan(q: Request, started: nat, uploaded: nat): (r: Result<Job>)
    ensures q.fileID == "" <==> r == Failure("缺少文件ID")
    ensures r.Success? ==>
              var j := r.value;
              && j.container == Container(q.targetFormat)
              && j.inputName == DefaultInputName(q.fileName, started, "mp4")
              && j.outputName == ReplaceExtension(j.inputName, j.container)
              && GetExtension(j.outputName) == j.container
              && StripExtension(j.outputName) == StripExtension(j.inputName)
              && j.videoBitrate == VideoBitrate(q.qualityPreset) && j.audioBitrate == "128k"
              && j.size == FrameSize(q.resolution)
              && j.codecs == Codecs(j.container)
              && j.cloudPath == "video-files/output/" + NatToString(uploaded) + "_" + Basename(j.outputName)
              && GetExtension(j.cloudPath) == j.container
  {
    if q.fileID == "" then Failure("缺少文件ID")
    else
      var container := Container(q.targetFormat);
      var inputName := DefaultInputName(q.fileName, started, "mp4");
      var outputName := ReplaceExtension(inputName, container);
      var prefix := "video-files/output/" + NatToString(uploaded) + "_";
      SupportedAreExtensions(container);
      ReplaceExtensionReadsBack(inputName, container);
      StripReplaced(inputName, container);
      BasenameKeepsExtension(inputName, container);
      PrefixKeepsExtension(prefix, Basename(outputName));
      Success(Job(inputName, outputName, container, VideoBitrate(q.qualityPreset), "128k",
                  FrameSize(q.resolution), Codecs(container), prefix + Basename(outputName)))
  }

  /** A format this function does not write falls back to MP4, and the
      output keeps the input's stem. */
  lemma FallbackName(format: string, stem: string, ext: string)
    requires ToLower(format) !in Supported && ext != [] && IsLowerAlnum(ext)
    ensures Container(format) == "mp4"
    ensures ReplaceExtension(stem + "." + ext, Container(format)) == stem + "." + "mp4"
  {
    RenameName(stem, ext, "mp4");
  }

  /** The video-to-GIF and video-to-audio pages ask this function for gif
      (naming the input `animation.gif`) and for mp3 (naming it
      `audio.mp3`); neither is a supported container, so both receive an
      MP4 video named after their input. */
  lemma OtherPagesGetMp4(fileID: string, stem: string, ext: string, resolution: string, started: nat, uploaded: nat)
    requires fileID != "" && ext != [] && IsLowerAlnum(ext)
    ensures var g := Plan(Request(fileID, stem + "." + ext, "gif", "standard", resolution), started, uploaded);
            g.Success? && g.value.container == "mp4" && g.value.outputName == stem + "." + "mp4"
    ensures var a := Plan(Request(fileID, stem + "." + ext, "mp3", "standard", "original"), started, uploaded);
            a.Success? && a.value.container == "mp4" && a.value.outputName == stem + "." + "mp4"
  {
    assert ToLower("gif") == "gif" && ToLower("mp3") == "mp3";
    FallbackName("gif", stem, ext);
    FallbackName("mp3", stem, ext);
  }

  datatype Response =
    | Converted(outputFileID: string, outputFileName: string, outputSize: nat, message: string)
    | Error(error: string)

  /** `main`. `run` downloads, transcodes and uploads a job and gives the
      new file's ID and size, or the thrown error's message. */
  function Main(q: Request, started: nat, uploaded: nat, run: Job -> Result<(string, nat)>): (r: Response)
    ensures q.fileID == "" ==> r == Error("缺少文件ID")
    ensures r.Converted? ==>
              && Plan(q, started, uploaded).Success?
              && var j := Plan(q, started, uploaded).value;
              && run(j) == Success((r.outputFileID, r.outputSize))
              && r.outputFileName == j.outputName
              && GetExtension(r.outputFileName) in Supported
              && r.message == "视频转换成功"
    ensures q.fileID != "" ==>
              var j := Plan(q, started, uploaded).value;
              && (run(j).Success? ==> r == Converted(run(j).value.0, j.outputName, run(j).value.1, "视频转换成功"))
              && (run(j).Failure? ==> r == Error(if run(j).error == "" then "转换失败" else run(j).error))
  {
    match Plan(q, started, uploaded)
    case Failure(e) => Error(e)
    case Success(j) =>
      match run(j)
      case Failure(e) => Error(if e == "" then "转换失败" else e)
      case Success(out) => Converted(out.0, j.outputName, out.1, "视频转换成功")
  }
}

=== FILE: watermark.dfy ===
/** The PDF watermark cloud function (`cloudfunctions/pdfWatermark`): the
    request's defaults and checks, the colour parser, the tiled grid of
    stamps and the nine single placements. Page sizes are what the PDF
    library reports; drawing a stamp is recorded, not performed. */
module Watermark {
  import opened Wrappers
  import opened JsText

  /** The request; `None` is a field the caller left out. */
  datatype Request = Request(fileID: string, text: string, fontSize: Option<real>, opacity: Option<real>,
                             color: Option<string>, rotation: Option<real>, position: Option<string>)

  datatype Settings = Settings(fontSize: real, opacity: real, color: string, rotation: real, position: string)

  /** The defaults of the destructuring: size 60, opacity 0.3, colour
      '#999999', 45 degrees, tiled. */
  function WithDefaults(q: Request): (s: Settings)
    ensures q.fontSize.None? ==> s.fontSize == 60.0
    ensures q.opacity.None? ==> s.opacity == 0.3
    ensures q.color.None? ==> s.color == "#999999"
    ensures q.rotation.None? ==> s.rotation == 45.0
    ensures q.position.None? ==> s.position == "tile"
    ensures q.fontSize.Some? ==> s.fontSize == q.fontSize.value
    ensures q.opacity.Some? ==> s.opacity == q.opacity.value
    ensures q.color.Some? ==> s.color == q.color.value
    ensures q.rotation.Some? ==> s.rotation == q.rotation.value
    ensures q.position.Some? ==> s.position == q.position.value
  {
    Settings(q.fontSize.GetOr(60.0), q.opacity.GetOr(0.3), q.color.GetOr("#999999"),
             q.rotation.GetOr(45.0), q.position.GetOr("tile"))
  }

  // ---------------------------------------------------------------------
  // Colours

  /** A colour channel in 0..1, or `None` for `NaN`. */
  datatype Rgb = Rgb(r: Option<real>, g: Option<real>, b: Option<real>)

  /** `hex.replace('#', '')`: only the first `#` goes. */
  function DropFirstHash(s: string): (r: string)
    ensures '#' !in s ==> r == s
    ensures |s| > 0 && s[0] == '#' ==> r == s[1..]
  {
    if '#' !in s then s
    else
      var i := IndexOf(s, '#');
      s[..i] + s[i + 1..]
  }

  /** `s.substring(a, b)` for `0 <= a <= b`: both ends are cut back to the
      length. */
  function Substring(s: string, a: nat, b: nat): string
    requires a <= b
  {
    var hi := if b <= |s| then b else |s|;
    var lo := if a <= hi then a else hi;
    s[lo..hi]
  }

  /** A channel value over 255, or `NaN`. */
  function Scale(n: Option<int>): Option<real> {
    if n.Some? then Some(n.value as real / 255.0) else None
  }

  function Channel(pair: string): Option<real> {
    Scale(ParseIntRadix(pair, 16))
  }

  /** `hexToRgb`: pairs of base-16 digits at offsets 0, 2 and 4 of the text
      after the first `#`, each divided by 255. */
  function HexToRgb(hex: string): Rgb {
    var h := DropFirstHash(hex);
    Rgb(Channel(Substring(h, 0, 2)), Channel(Substring(h, 2, 4)), Channel(Substring(h, 4, 6)))
  }

  predicate IsHexDigit(c: char) {
    IsDigit(c) || ('a' <= c <= 'f') || ('A' <= c <= 'F')
  }

  /** Two base-16 digits. */
  predicate HexDigits(p: string) {
    |p| == 2 && IsHexDigit(p[0]) && IsHexDigit(p[1])
  }

  /** The value of two base-16 digits. */
  function PairValue(p: string): int
    requires |p| == 2
  {
    16 * DigitValue(p[0]) + DigitValue(p[1])
  }

  /** Two base-16 digits are worth at most 255. */
  lemma PairValueRange(p: string)
    requires HexDigits(p)
    ensures 0 <= PairValue(p) <= 255
  {
  }

  lemma {:induction false} HexPairDigits(p: string)
    requires HexDigits(p)
    ensures DigitRun(p, 16) == 2
    ensures DigitsValue(p, 16) == PairValue(p)
  {
    DigitRunAll(p, 16);
    assert p[..1] == [p[0]];
    assert [p[0]][..0] == [];
    assert DigitsValue([p[0]], 16) == DigitValue(p[0]);
  }

  /** `parseInt(p, 16)` of two base-16 digits is their value. */
  lemma ParseHexPairInt(p: string)
    requires HexDigits(p)
    ensures ParseIntRadix(p, 16) == Some(PairValue(p))
  {
    assert ParseUnsigned(p, 16) == Some(PairValue(p)) by {
      HexPairDigits(p);
      assert p[..2] == p;
    }
    assert TrimStart(p) == p by {
      assert !IsWhite(p[0]);
    }
    assert Unsigned(p) == p && !IsNegative(p);
  }

  /** The channels of a seven-character text that starts with `#`. */
  lemma ChannelsOfSeven(c: string)
    requires |c| == 7 && c[0] == '#'
    ensures HexToRgb(c) == Rgb(Channel(c[1..3]), Channel(c[3..5]), Channel(c[5..7]))
  {
    var h := c[1..];
    assert DropFirstHash(c) == h;
    assert Substring(h, 0, 2) == c[1..3];
    assert Substring(h, 2, 4) == c[3..5];
    assert Substring(h, 4, 6) == c[5..7];
  }

  /** The lower-case digit of a value below 16. */
  function HexDigit(d: nat): (c: char)
    requires d < 16
    ensures IsHexDigit(c) && DigitValue(c) == d
  {
    if d < 10 then ('0' as int + d) as char else ('a' as int + d - 10) as char
  }

  /** A value in 0..255 as two lower-case digits. */
  function HexByte(v: nat): (s: string)
    requires v < 256
    ensures HexDigits(s) && PairValue(s) == v
  {
    [HexDigit(v / 16), HexDigit(v % 16)]
  }

  /** Printing a value in 0..255 as two digits and reading them back with
      `parseInt(…, 16)` gives the value. */
  lemma ParseHexByte(v: nat)
    requires v < 256
    ensures ParseIntRadix(HexByte(v), 16) == Some(v)
  {
    ParseHexPairInt(HexByte(v));
  }

  /** The default colour '#999999' is read as three pairs "99", each
      153/255. */
  lemma DefaultColor()
    ensures Channel("99") == Some(153.0 / 255.0)
  {
    var p := "99";
    assert p[0] == '9' && p[1] == '9' && DigitValue('9') == 9;
    assert HexDigits(p) && PairValue(p) == 153;
    ParseHexPairInt(p);
  }

  // ---------------------------------------------------------------------
  // Stamps

  datatype Stamp = Stamp(x: real, y: real, size: real, color: Rgb, opacity: real, rotation: real, text: string)

  lemma CeilLessOne(x: real)
    ensures Ceil(x - 1.0) == Ceil(x) - 1
  {
  }

  lemma DivLessOne(a: real, d: real)
    requires d > 0.0
    ensures (a - d) / d == a / d - 1.0
  {
    var q := (a - d) / d;
    var p := a / d - 1.0;
    assert q * d == a - d;
    assert p * d == a - d;
    assert (q - p) * d == 0.0;
    if q > p {
    } else if q < p {
    }
  }

  lemma DivPositive(a: real, d: real)
    requires a > 0.0 && d > 0.0
    ensures a / d > 0.0
  {
    assert a / d * d == a;
  }

  /** One step of the loop leaves one value fewer to visit. */
  lemma {:induction false} StepCount(start: real, end: real, step: real)
    requires step > 0.0 && start < end
    ensures Ceil((end - start) / step) >= 1
    ensures start + step < end ==> Ceil((end - (start + step)) / step) == Ceil((end - start) / step) - 1
    ensures start + step >= end ==> Ceil((end - start) / step) == 1
  {
    var x := (end - start) / step;
    DivPositive(end - start, step);
    DivLessOne(end - start, step);
    CeilLessOne(x);
    assert (end - (start + step)) / step == x - 1.0 by {
      assert end - (start + step) == end - start - step;
    }
    if start + step >= end {
      assert x - 1.0 <= 0.0 by {
        assert end - start - step <= 0.0;
        DivNonPositive(end - start - step, step);
      }
    }
  }

  lemma DivNonPositive(a: real, d: real)
    requires a <= 0.0 && d > 0.0
    ensures a / d <= 0.0
  {
    assert a / d * d == a;
  }

  /** The values of the loop after its first are the first's successors. */
  lemma {:induction false} ShiftPositions(rest: seq<real>, start: real, step: real)
    requires forall k | 0 <= k < |rest| :: rest[k] == start + step + k as real * step
    ensures forall k | 0 <= k < |rest| + 1 :: ([start] + rest)[k] == start + k as real * step
  {
    forall k | 0 <= k < |rest| + 1
      ensures ([start] + rest)[k] == start + k as real * step
    {
      if k > 0 {
        assert ([start] + rest)[k] == rest[k - 1];
        assert (k - 1) as real * step == k as real * step - step;
      }
    }
  }

  /** `for (let p = start; p < end; p += step)`: the values it takes. */
  function Positions(start: real, end: real, step: real): (r: seq<real>)
    requires step > 0.0
    ensures |r| == if start < end then Ceil((end - start) / step) else 0
    ensures forall k | 0 <= k < |r| :: r[k] == start + k as real * step
    ensures forall k | 0 <= k < |r| :: start <= r[k] < end
    decreases if start < end then Ceil((end - start) / step) else 0
  {
    if start >= end then []
    else
      StepCount(start, end, step);
      var rest := Positions(start + step, end, step);
      ShiftPositions(rest, start, step);
      [start] + rest
  }

  /** Every stamp in `r` has the settings' size, opacity and rotation,
      the colour `color` and the text `text`; only its place varies. */
  predicate Styled(r: seq<Stamp>, s: Settings, color: Rgb, text: string) {
    forall k | 0 <= k < |r| :: r[k] == Stamp(r[k].x, r[k].y, s.fontSize, color, s.opacity, s.rotation, text)
  }

  /** One stamp per pair of positions, column after column. */
  function Grid(xs: seq<real>, ys: seq<real>, s: Settings, color: Rgb, text: string): (r: seq<Stamp>)
    ensures |r| == |xs| * |ys|
    ensures forall k | 0 <= k < |r| :: r[k].x in xs && r[k].y in ys
    ensures Styled(r, s, color, text)
  {
    if xs == [] then []
    else
      var column := seq(|ys|, j requires 0 <= j < |ys| => Stamp(xs[0], ys[j], s.fontSize, color, s.opacity, s.rotation, text));
      var rest := Grid(xs[1..], ys, s, color, text);
      assert |xs| * |ys| == |ys| + (|xs| - 1) * |ys|;
      column + rest
  }

  /** How many stamps tiling draws: `ceil((width + 4f) / 4f)` columns of
      `ceil((height + 4f) / 3f)` stamps. */
  function TileCount(width: real, height: real, f: real): int
    requires f > 0.0
  {
    Ceil((width + 4.0 * f) / (4.0 * f)) * Ceil((height + 4.0 * f) / (3.0 * f))
  }

  /** `addTiledWatermark`: stamps every `4f` across from `-2f` while left
      of `width + 2f`, and every `3f` up from `-2f` while below
      `height + 2f`, where `f` is the font size. */
  function Tiles(width: real, height: real, s: Settings, color: Rgb, text: string): (r: seq<Stamp>)
    requires s.fontSize > 0.0 && width >= 0.0 && height >= 0.0
    ensures |r| == TileCount(width, height, s.fontSize)
    ensures forall k | 0 <= k < |r| :: -2.0 * s.fontSize <= r[k].x < width + 2.0 * s.fontSize
    ensures forall k | 0 <= k < |r| :: -2.0 * s.fontSize <= r[k].y < height + 2.0 * s.fontSize
    ensures Styled(r, s, color, text)
  {
    var f := s.fontSize;
    var xs := Positions(-2.0 * f, width + 2.0 * f, 4.0 * f);
    var ys := Positions(-2.0 * f, height + 2.0 * f, 3.0 * f);
    assert width + 2.0 * f - -2.0 * f == width + 4.0 * f;
    assert height + 2.0 * f - -2.0 * f == height + 4.0 * f;
    Grid(xs, ys, s, color, text)
  }

  predicate IsLeft(p: string) { p == "top-left" || p == "middle-left" || p == "bottom-left" }
  predicate IsRight(p: string) { p == "top-right" || p == "middle-right" || p == "bottom-right" }
  predicate IsTop(p: string) { p == "top-left" || p == "top-center" || p == "top-right" }
  predicate IsBottom(p: string) { p == "bottom-left" || p == "bottom-center" || p == "bottom-right" }

  /** `addSingleWatermark`: the text is taken as `0.6 f` wide per
      character and `f` high. The named sides keep a margin of 50 points,
      the text's box is centred between the other two, and a position that
      is none of the nine is the centre. */
  function Place(width: real, height: real, s: Settings, text: string): (p: (real, real))
    ensures var tw := s.fontSize * Utf16Length(text) as real * 0.6;
            && (IsLeft(s.position) ==> p.0 == 50.0)
            && (IsRight(s.position) ==> width - (p.0 + tw) == 50.0)
            && (!IsLeft(s.position) && !IsRight(s.position) ==> p.0 - 0.0 == width - (p.0 + tw))
            && (IsTop(s.position) ==> height - (p.1 + s.fontSize) == 50.0)
            && (IsBottom(s.position) ==> p.1 == 50.0)
            && (!IsTop(s.position) && !IsBottom(s.position) ==> p.1 - 0.0 == height - (p.1 + s.fontSize))
  {
    var f := s.fontSize;
    var tw := f * Utf16Length(text) as real * 0.6;
    var left := 50.0;
    var centreX := (width - tw) / 2.0;
    var right := width - 50.0 - tw;
    var top := height - 50.0 - f;
    var middle := (height - f) / 2.0;
    var bottom := 50.0;
    match s.position
    case "top-left" => (left, top)
    case "top-center" => (centreX, top)
    case "top-right" => (right, top)
    case "middle-left" => (left, middle)
    case "center" => (centreX, middle)
    case "middle-right" => (right, middle)
    case "bottom-left" => (left, bottom)
    case "bottom-center" => (centreX, bottom)
    case "bottom-right" => (right, bottom)
    case _ => (centreX, middle)
  }

  // ---------------------------------------------------------------------
  // The cloud function

  datatype PageSize = PageSize(width: real, height: real)

  /** The stamped pages, with the file id of the upload and the size of
      the saved PDF. */
  datatype Outcome = Outcome(stamps: seq<seq<Stamp>>, pageCount: nat, fileID: string, size: nat)

  /** The stamps of one page: every one draws the text in the settings'
      size, colour, opacity and rotation; `tile` covers the page with a
      grid reaching `2f` past every edge, any other position draws one
      stamp where `Place` puts it. */
  function PageStamps(page: PageSize, s: Settings, text: string): (r: seq<Stamp>)
    requires s.position == "tile" ==> s.fontSize > 0.0 && page.width >= 0.0 && page.height >= 0.0
    ensures Styled(r, s, HexToRgb(s.color), text)
    ensures s.position == "tile" ==>
              && |r| == TileCount(page.width, page.height, s.fontSize)
              && (forall k | 0 <= k < |r| :: -2.0 * s.fontSize <= r[k].x < page.width + 2.0 * s.fontSize)
              && (forall k | 0 <= k < |r| :: -2.0 * s.fontSize <= r[k].y < page.height + 2.0 * s.fontSize)
    ensures s.position != "tile" ==> |r| == 1 && (r[0].x, r[0].y) == Place(page.width, page.height, s, text)
  {
    var color := HexToRgb(s.color);
    if s.position == "tile" then Tiles(page.width, page.height, s, color, text)
    else Single(page, s, color, text)
  }

  /** `addSingleWatermark`: one stamp, where `Place` puts it. */
  function Single(page: PageSize, s: Settings, color: Rgb, text: string): (r: seq<Stamp>)
    ensures |r| == 1 && (r[0].x, r[0].y) == Place(page.width, page.height, s, text)
    ensures Styled(r, s, color, text)
  {
    var at := Place(page.width, page.height, s, text);
    [Stamp(at.0, at.1, s.fontSize, color, s.opacity, s.rotation, text)]
  }

  /** `error.message || '添加水印失败'` */
  function ErrorMessage(e: string): (m: string)
    ensures m != [] && (e != [] ==> m == e)
  {
    if e == "" then "添加水印失败" else e
  }

  /** The stamps in the order the page loop draws them: page by page, and
      within a page in the order its stamps were laid out. */
  function Flatten(pages: seq<seq<Stamp>>): seq<Stamp> {
    if pages == [] then [] else pages[0] + Flatten(pages[1..])
  }

  /** What the first `drawText` call that throws throws, in drawing order;
      `None` when every stamp is drawn. `draw` says what drawing one stamp
      throws, or `None` when the library draws it. */
  function FirstThrow(stamps: seq<Stamp>, draw: Stamp -> Option<string>): (e: Option<string>)
    ensures e.None? <==> forall k | 0 <= k < |stamps| :: draw(stamps[k]).None?
    ensures e.Some? ==> exists k | 0 <= k < |stamps| ::
                          && draw(stamps[k]) == e
                          && forall j | 0 <= j < k :: draw(stamps[j]).None?
  {
    if stamps == [] then None
    else if draw(stamps[0]).Some? then draw(stamps[0])
    else
      var e := FirstThrow(stamps[1..], draw);
      assert forall k | 1 <= k < |stamps| :: stamps[1..][k - 1] == stamps[k];
      assert e.Some? ==> exists k | 1 <= k < |stamps| ::
                           && draw(stamps[k]) == e
                           && forall j | 0 <= j < k :: draw(stamps[j]).None?;
      e
  }

  /** When nothing throws, every stamp of every page was drawn. */
  lemma {:induction false} AllDrawn(pages: seq<seq<Stamp>>, draw: Stamp -> Option<string>)
    requires FirstThrow(Flatten(pages), draw).None?
    ensures forall i, j | 0 <= i < |pages| && 0 <= j < |pages[i]| :: draw(pages[i][j]).None?
    decreases |pages|
  {
    if pages != [] {
      var f := Flatten(pages);
      assert f == pages[0] + Flatten(pages[1..]);
      forall j | 0 <= j < |pages[0]| ensures draw(pages[0][j]).None? {
        assert f[j] == pages[0][j];
      }
      assert FirstThrow(Flatten(pages[1..]), draw).None? by {
        forall k | 0 <= k < |Flatten(pages[1..])| ensures draw(Flatten(pages[1..])[k]).None? {
          assert f[|pages[0]| + k] == Flatten(pages[1..])[k];
        }
      }
      AllDrawn(pages[1..], draw);
      forall i, j | 1 <= i < |pages| && 0 <= j < |pages[i]| ensures draw(pages[i][j]).None? {
        assert pages[1..][i - 1] == pages[i];
      }
    }
  }

  /** A loaded document: every page is stamped in order; the first stamp
      the library cannot draw fails the call with its message; when all are
      drawn, `store`, the save and upload of the stamped document, gives
      the file id and the size, or the message it threw. */
  function Stamped(ps: seq<PageSize>, s: Settings, text: string, draw: Stamp -> Option<string>,
                   store: seq<seq<Stamp>> -> Result<(string, nat)>): (r: Result<Outcome>)
    requires s.position == "tile" ==> s.fontSize > 0.0
    requires forall i | 0 <= i < |ps| :: ps[i].width >= 0.0 && ps[i].height >= 0.0
    ensures var stamps := StampPages(ps, s, text);
            var thrown := FirstThrow(Flatten(stamps), draw);
            && (thrown.Some? ==> r == Failure(ErrorMessage(thrown.value)))
            && (thrown.None? && store(stamps).Success? ==>
                  r == Success(Outcome(stamps, |ps|, store(stamps).value.0, store(stamps).value.1)))
            && (thrown.None? && store(stamps).Failure? ==> r == Failure(ErrorMessage(store(stamps).error)))
    ensures r.Success? ==> && r.value.pageCount == |ps| == |r.value.stamps|
                           && (forall i | 0 <= i < |ps| :: r.value.stamps[i] == PageStamps(ps[i], s, text))
                           && FirstThrow(Flatten(r.value.stamps), draw).None?
                           && forall i, j | 0 <= i < |ps| && 0 <= j < |r.value.stamps[i]| :: draw(r.value.stamps[i][j]).None?
  {
    var stamps := StampPages(ps, s, text);
    match FirstThrow(Flatten(stamps), draw)
    case Some(e) => Failure(ErrorMessage(e))
    case None =>
      AllDrawn(stamps, draw);
      match store(stamps)
      case Failure(e) => Failure(ErrorMessage(e))
      case Success((id, size)) => Success(Outcome(stamps, |ps|, id, size))
  }

  /** `main`: a missing file or text is refused before anything is
      fetched; a document that cannot be fetched or read fails with the
      library's message; otherwise every page is stamped in order, and the
      first stamp the library cannot draw (`draw`) fails the call with its
      message; when all are drawn, `store`, the save and upload of the
      stamped document, gives the file id and the size, or the message it
      threw. */
  function Main(q: Request, pages: Result<seq<PageSize>>, draw: Stamp -> Option<string>,
                store: seq<seq<Stamp>> -> Result<(string, nat)>): (r: Result<Outcome>)
    requires WithDefaults(q).position == "tile" ==> WithDefaults(q).fontSize > 0.0
    requires pages.Success? ==> forall i | 0 <= i < |pages.value| :: pages.value[i].width >= 0.0 && pages.value[i].height >= 0.0
    ensures q.fileID == "" || q.text == "" ==> r == Failure("缺少必要参数")
    ensures q.fileID != "" && q.text != "" && pages.Failure? ==> r == Failure(ErrorMessage(pages.error))
    ensures q.fileID != "" && q.text != "" && pages.Success? ==>
              var stamps := StampPages(pages.value, WithDefaults(q), q.text);
              var thrown := FirstThrow(Flatten(stamps), draw);
              && (thrown.Some? ==> r == Failure(ErrorMessage(thrown.value)))
              && (thrown.None? && store(stamps).Success? ==>
                    r == Success(Outcome(stamps, |pages.value|, store(stamps).value.0, store(stamps).value.1)))
              && (thrown.None? && store(stamps).Failure? ==> r == Failure(ErrorMessage(store(stamps).error)))
    ensures r.Success? ==> && pages.Success?
                           && r.value.pageCount == |pages.value| == |r.value.stamps|
                           && forall i | 0 <= i < |pages.value| ::
                                r.value.stamps[i] == PageStamps(pages.value[i], WithDefaults(q), q.text)
    ensures r.Success? ==> FirstThrow(Flatten(r.value.stamps), draw).None?
    ensures r.Success? && WithDefaults(q).position != "tile" ==> forall i | 0 <= i < |r.value.stamps| :: |r.value.stamps[i]| == 1
  {
    if q.fileID == "" || q.text == "" then Failure("缺少必要参数")
    else match pages
      case Failure(e) => Failure(ErrorMessage(e))
      case Success(ps) => Stamped(ps, WithDefaults(q), q.text, draw, store)
  }

  /** The stamps of every page, in page order. */
  function StampPages(ps: seq<PageSize>, s: Settings, text: string): (r: seq<seq<Stamp>>)
    requires s.position == "tile" ==> s.fontSize > 0.0
    requires forall i | 0 <= i < |ps| :: ps[i].width >= 0.0 && ps[i].height >= 0.0
    ensures |r| == |ps| && forall i | 0 <= i < |ps| :: r[i] == PageStamps(ps[i], s, text)
    ensures s.position != "tile" ==> forall i | 0 <= i < |r| :: |r[i]| == 1
  {
    seq(|ps|, i requires 0 <= i < |ps| => PageStamps(ps[i], s, text))
  }
}

=== FILE: wrappers.dfy ===
/** Option and Result values standing in for JavaScript's `null`/`undefined`
    and for the `{ success: false, error }` objects the functions return. */
module Wrappers {

  datatype Option<+T> = None | Some(value: T) {
    function GetOr(default: T): T {
      match this
      case Some(v) => v
      case None => default
    }
  }

  datatype Result<+R> = Success(value: R) | Failure(error: string) {
    predicate IsFailure() {
      Failure?
    }
  }
}
